=== FILE: README.md ===
# cropcel harvest reports, modelled in Dafny

cropcel is a farm-management application for a group of agricultural
businesses ("podniky"). It keeps tables of fields (one row per field and
harvest year: area, harvested area, net and gross weight, crop, variety,
business), crops, varieties, businesses, plots and land types, rainfall
records and collection points, sales ("odpisy"), buyers' offers
("nabídky"), year rights and users with their business links. Its pages
aggregate these tables into yearly summaries per crop, per business and
per land type, compute yields, the variability of yields and a linear
trend forecast, reconcile production against sales, and offer the forms
that add records through a session overlay that is never written back.

This project models that core as immutable Dafny datatypes and pure
functions and proves properties of them:

- `Records`, `Wrappers`, `Seqs`, `Text`, `Numeric`: the table rows, the
  left-merge lookups, optional (NaN) cells, sums, filters, grouping,
  de-duplication, the keyed sort, Python string operations, `round(x, 2)`
  and `int(x)`.
- `Overlay`: the data manager's per-file cache and session overlay.
- `Auth`: roles, permissions and the businesses a user may see and edit.
- `Aggregations`: the yearly crop, business and land-type summaries.
- `Odpisy`, `Nabidky`, `Statistiky`: the sales ledger and stock, the
  offers overview, the yearly statistics.
- `Stability`, `Trend`, `Chat`, `Api`, `Agent`: the analysis agent's
  variability ranking, least-squares forecast, chat responder and the
  data API it reads.
- `Weather`, `RainFetch`, `Rainfall`: the weather-station client, the
  once-a-day rain download and the rainfall reports.
- `Catalog`, `Forms`, `Listings`: the catalogue pages with their
  hand-kept order lists, the entry forms and their validation, the
  listing pages.
- `Dashboard`, `PrehledTekro`, `PodnikyPrehled`, `PrehledPodniku`,
  `PlodinyTekro`, `Pozemky`, `PozemkyTekro`, `OsevniPlany`, `Odrudy`, with
  the shared `YearPivot`, `LabelLines` and `NamedSums`: the report pages.
- `FieldImport`: the one-off import of the 2025 harvest from the
  businesses' spreadsheet exports.

Quantities are exact reals. A pandas left merge is a lookup of the first
matching row; a dict built by comprehension keeps the last value of each
key in order of first appearance. Where a page stops with a `KeyError`
on a missing column, the model mostly yields an explicit outcome instead
(for example `MissingBusinessName`, `NoBusinessChoice`,
`MissingLinkColumn` for the statistics and business-overview pages, or
`MissingTotalsColumn` for the crop-totals lookup); the cases where it
does not are listed under "## Left out". The standard
deviation (of the yields and of the forecast's residuals), the current
date and hour, and the HTTP request of the weather client are
parameters.

### Behaviour worth knowing

- Adding a record to an empty table assigns no id
  (`utils/data_manager.py:131-134`): see `Overlay.AddRecord` and
  `Overlay.FirstAdd`.
- Adding a record to a table whose `id` column holds text fails: the
  maximum plus one raises, the data manager catches it, reports failure
  and appends nothing (`utils/data_manager.py:131-134`, `:154-156`): see
  `Overlay.AddRecord` and `Overlay.AddIdOnCoherent`.
- The statistics and business-overview pages read the user-business links
  through columns `user_id` and `podnik_id`, while the login and the
  access page read `userId` and `podnikId` (no page writes the link
  table); a non-admin user therefore stops with a `KeyError` there: see
  the findings below.
- The crop-totals lookup of the aggregations reads columns `podnik_id`,
  `plodina_id`, `year` and `cista_vaha`, while the crop-totals page writes
  `PodnikID`, `PlodinaID`, `Year` and `CistaVaha`; the lookup, which no
  page calls, would stop with a `KeyError` on every table the application
  writes: see the findings below.
- The session's updates and deletions are recorded, but no read applies
  them (`utils/data_manager.py:22-51`, `:158-213`): see
  `Overlay.ChangesNotApplied`.
- The sales page refuses a sale that exceeds the remaining stock, but the
  entry page's sale form does not: see `Forms.EntrySaleSkipsStock`.

## Model

| member | source | states |
|---|---|---|
| Auth.RolePermissions | utils/auth.py:14-18 | A role has a non-empty permission list exactly when it is admin, editor or watcher, and every known role's list starts with read. |
| Auth.HasPermission | utils/auth.py:77-88 | Only a known role holds any permission. |
| Auth.PermissionTable | utils/auth.py:14-18 | Each permission, both directions: read for every known role, write for admin and editor, delete and manage_users for admin only, nothing else for anyone. |
| Auth.RolesNested | utils/auth.py:14-18 | Watcher permissions are a subset of editor permissions, which are a subset of admin permissions. |
| Auth.ParseIdParts | utils/auth.py:96 | The parse fails exactly when some non-blank stripped part is not an integer, and it never yields more ids than there are parts. |
| Auth.GetUserBusinesses | utils/auth.py:90-96 | A missing or empty cell gives no businesses; any other cell is split at commas and its parts parsed as ids, blank parts skipped. |
| Auth.BusinessIdsRoundTrip | utils/auth.py:90-96 | Ids written comma-separated are read back as the same list. |
| Auth.LinkedIds | utils/auth.py:127-128 | Every id returned is linked to the user, and every link of the user contributes its business id. |
| Auth.GetUserPodniky | utils/auth.py:98-128 | An unreadable link or business table gives no ids, and every id returned is either a business id or linked to the user. |
| Auth.AdminSeesAll | utils/auth.py:120-124 | When the first user row with the id is an admin, the result is every business id. |
| Auth.NonAdminSeesLinks | utils/auth.py:126-128 | For a user who is not an admin, a business is returned exactly when a link row pairs it with the user. |
| Auth.VerifyPassword | utils/auth.py:71-75 | Every password is accepted. |
| Auth.Authenticate | utils/auth.py:32-69 | A session user comes only from the first row with the username, which must not be marked inactive, and carries that row's id, role and businesses. No user comes back exactly when the name is unknown or its first row is marked inactive. |
| Auth.AuthenticateIgnoresPassword | utils/auth.py:55-57 | The result does not depend on the password. |
| Auth.AuthorizePodnik | utils/auth.py:130-147 | An admin may open every business; anyone else may open exactly the businesses on their list. |
| Auth.CanEditPodnik | utils/auth.py:149-175 | Only an admin or an editor can edit. |
| Auth.EditImpliesAccess | utils/auth.py:130-175 | Whatever a user may edit, they may also open. |
| Auth.EditRules | utils/auth.py:160-175 | A missing role or watcher edits nothing, an admin edits everything, an editor edits exactly their listed businesses, and an unknown role edits nothing. |
| Auth.GetAllowedPodniky | utils/auth.py:177-195 | An admin gets the whole table unchanged. Otherwise a business is kept exactly when the user may open it, and the result keeps the table order, with each kept business as often as it occurs there. |
| Aggregations.CalculateVynos | utils/aggregations.py:165-169 | With no positive area the yield is 0. Otherwise it lies within half a hundredth of net weight divided by area, and it is non-negative for a non-negative weight. |
| Aggregations.JoinCrops | utils/aggregations.py:28-43 | Every joined row is a field of the year whose crop is found by id and carries the requested main-table flag. |
| Aggregations.JoinCropsComplete | utils/aggregations.py:28-43 | No field of the year whose crop is known with the requested flag is lost by the join. |
| Aggregations.JoinBusinesses | utils/aggregations.py:106-114 | Every kept row has the business found for its business id and comes from an input row. |
| Aggregations.JoinBusinessesComplete | utils/aggregations.py:106-114 | Every row whose business is on file is kept, with that business attached. |
| Aggregations.OrderedKeys | utils/aggregations.py:55-57 | The group keys are distinct and sorted, every row's key is among them, and each key is the key of some row. |
| Aggregations.SummaryMass | utils/aggregations.py:47-57 | Grouping and reordering keep every summed column: the summary's column total equals the total over the joined rows. |
| Aggregations.PoleSummary | utils/aggregations.py:14-72 | Rows are ordered by crop `poradi`, no crop appears twice, and every crop is a table crop with the requested flag. Each row's four columns are the sums over exactly the joined fields of its crop, and every joined field's crop has a row. The summary is empty exactly when no field was joined, and each row's yield is the guarded, rounded net weight per area. |
| Aggregations.SummaryGroups | utils/aggregations.py:44-56 | Rows built over a key list that holds every joined row's key carry, each, the column sums of exactly the joined rows with that row's key, and every joined row's key has a row. |
| Aggregations.RankedKeys | utils/aggregations.py:136-137 | Rows built from keys sorted by (business `poradi`, crop `poradi`) ascend by business `poradi` and, within equal business `poradi`, by crop `poradi`. |
| Aggregations.PoleSummaryMass | utils/aggregations.py:46-57 | Each column of the per-crop summary adds up to the same column over the year's joined fields. |
| Aggregations.PodnikySummary | utils/aggregations.py:74-141 | Every row has a business on file and a crop with the requested flag, no (business, crop) pair repeats, and consecutive rows ascend by business `poradi` and, within equal business `poradi`, by crop `poradi`. Each row's four columns are the sums over exactly the joined fields with its (business, crop), every such pair has a row, and each row's yield is the guarded, rounded net weight per area. |
| Aggregations.PodnikySummaryMass | utils/aggregations.py:116-127 | Each column of the per-business summary adds up to the same column over the joined fields whose business is known. |
| Aggregations.JoinBusinessesKeepsMass | utils/aggregations.py:106-114 | When every field's business is on file, the business join keeps every column total. |
| Aggregations.SummariesAgree | utils/aggregations.py:14-141 | When every field's business is on file, the per-business and per-crop summaries have the same column totals. |
| Aggregations.JoinTypes | utils/aggregations.py:182-196 | Every joined pair is a plot of the year with the land type found for its `nazevid`. |
| Aggregations.JoinTypesComplete | utils/aggregations.py:182-196 | No plot of the year whose type is known is lost by the join. |
| Aggregations.WithPercent | utils/aggregations.py:206-211 | Names, orders and areas are unchanged. With a positive total each percentage is within half a hundredth of area / total * 100; otherwise every percentage is 0. |
| Aggregations.LandBase | utils/aggregations.py:198-204 | Rows ascend by `poradi`, no (name, `poradi`) key repeats, each row's area is the total size of exactly the joined plots with its key, every joined plot's key has a row, and the areas add up to the joined plots' total size. |
| Aggregations.LandGroups | utils/aggregations.py:199-201 | Land rows built over a key list that holds every joined plot's key carry, each, the total size of exactly the plots with that row's key, and every plot's key has a row. |
| Aggregations.NoTypesNoRows | utils/aggregations.py:186-196 | Without land types no plot joins. |
| Aggregations.PozemkySummary | utils/aggregations.py:171-216 | With no land types the summary is empty. Rows ascend by `poradi` and keys are distinct. Each row's area is the total size of exactly the year's joined plots of its land type, every joined plot's type has a row, and the area column adds up to the joined plots. When the joined plots' total size is positive each percentage is within half a hundredth of the row's area / total * 100; otherwise every percentage is 0. |
| Aggregations.PercentSum | utils/aggregations.py:207-209 | The rounded percentages add up to the total share to within half a hundredth per row. |
| Aggregations.PercentagesNearHundred | utils/aggregations.py:206-211 | When there is area, the percentages add up to 100 to within half a hundredth per row. |
| Aggregations.SumPlodinyForMissing | utils/aggregations.py:143-163 | The corrected lookup over a table whose columns it can read: flagged as found exactly when some row matches (business, crop, year); when nothing matches the weight is 0. |
| Aggregations.SumPlodinyTakesFirst | utils/aggregations.py:157-161 | The weight returned is the first matching row's. |
| Aggregations.SumPlodinyAsWritten | utils/aggregations.py:143-163 | The lookup as written stops with a `KeyError` on `podnik_id`, then `plodina_id`, then `year`, whichever the table lacks first, and on `cista_vaha` exactly when that column is missing and some row matches. Otherwise it gives the corrected lookup's result. |
| Aggregations.AppTableStopsLookup | utils/aggregations.py:151-155 | On the table the crop-totals page writes (columns `id, Year, PlodinaID, CistaVaha, PodnikID`, page_modules/sumplodiny.py:68-73) and on a missing file, the lookup as written always stops on `podnik_id`. |
| Aggregations.AddedTotalFound | utils/aggregations.py:157-161 | The corrected lookup returns, flagged as found, the weight of a total just appended when no earlier row matches it. |
| Overlay.Merge | utils/data_manager.py:40-45 | The merged frame's rows are the file's rows followed by the session's records, and it keeps every column of the file. |
| Overlay.LoadCsv | utils/data_manager.py:22-51 | A cached copy is returned unchanged unless a reload is forced. Otherwise the rows are the file's rows followed by the session's records, and that frame is cached. An unreadable file gives an empty frame and changes nothing. |
| Overlay.LoadCoherent | utils/data_manager.py:22-51 | Reading keeps the cache coherent, and what a read returns equals what a forced reload returns: the cache is never stale. |
| Overlay.IntIds | utils/data_manager.py:133 | Every integer id of a row is collected, and every collected value is some row's id. |
| Overlay.NextId | utils/data_manager.py:132-134 | Over rows without text ids, the new id is an integer exactly when some row has an integer id. It then exceeds every id and is one above an existing id; otherwise it is NaN. |
| Overlay.NextIdAppend | utils/data_manager.py:132-134 | Appending a row whose id is the next id moves the next id up by exactly one. |
| Overlay.NextIdBound | utils/data_manager.py:133 | When every integer id is at most m, the next id is at most m + 1. |
| Overlay.TextIdAppend | utils/data_manager.py:133 | Appending a row with an integer id neither creates nor removes a text id, so a successful add does not make the next one fail. |
| Overlay.NewRecord | utils/data_manager.py:131-138 | The record gets the next id when the frame has an id column and rows, and the time stamp when it has a `datum_upravy` column; every other cell is the caller's. |
| Overlay.AddRecord | utils/data_manager.py:117-156 | Add reports failure exactly when the frame `load_csv` returns has an `id` column, rows, and some text id, for which the maximum plus one raises; it then returns the caller's data and appends nothing. Otherwise the record is completed from that frame, appended after the file's earlier session records, and the file's cache entry is dropped. Files, updates, deletions and other files' records are unchanged either way. |
| Overlay.AddCoherent | utils/data_manager.py:140-156 | Adding, whether it succeeds or fails, keeps the cache coherent. |
| Overlay.AddThenLoad | utils/data_manager.py:41-45 | After a successful add, reading the file gives its rows, then the earlier session records, then the new record. After a failed add, reading gives what it gave before. |
| Overlay.LoadFresh | utils/data_manager.py:33-48 | On a coherent entry, a read equals the file's rows merged with the session's records. |
| Overlay.AddIdOnCoherent | utils/data_manager.py:131-134 | On a coherent store with an id column, the add succeeds exactly when no row a fresh read shows has a text id, and the added record's id is then the next id of those rows. |
| Overlay.FirstAdd | utils/data_manager.py:128-134 | On the first add to a file, it succeeds exactly when the file has no text id; when the file has an integer id the record gets an integer id above every id in the file. |
| Overlay.AddKeepsFresh | utils/data_manager.py:147-156 | After a successful add the file's entry is fresh and the session's records end with the new record; a failed add leaves the records as they were. |
| Overlay.ConsecutiveAddsIncrease | utils/data_manager.py:117-156 | Two adds in a row either both fail, exactly when the file or its session records hold a text id, or both succeed with consecutive integer ids, the first above every id in the file. |
| Overlay.UpdateRecord | utils/data_manager.py:158-188 | Update always reports success. The stamped patch replaces any earlier patch for that record id, and only that file's cache entry is dropped. Files, added records and deletions are unchanged. |
| Overlay.DeleteRecord | utils/data_manager.py:190-218 | Delete always reports success. The id is appended to the file's deletions, even when already listed, and only that file's cache entry is dropped. Files, added records and updates are unchanged. |
| Overlay.UpdateOverwrites | utils/data_manager.py:179 | A second update of the same record keeps only the later patch. |
| Overlay.ChangesNotApplied | utils/data_manager.py:158-218 | After an update or a delete, a fresh read of any file returns exactly what it returned before. |
| Overlay.ChangesCoherent | utils/data_manager.py:181-213 | Updating and deleting keep the cache coherent. |
| Overlay.FilterByBusiness | utils/data_manager.py:101-115 | With no ids, or no `podnik_id` column, the frame is unchanged. Otherwise the rows are exactly those whose `podnik_id` is one of the ids, with the same columns. It keeps the table order, and each kept row as often as it occurs there. |
| Overlay.FilterByBusinessIdempotent | utils/data_manager.py:101-115 | Filtering twice by the same ids gives the same frame as filtering once. |
| Odpisy.VisibleBusinesses | page_modules/odpisy.py:21-26 | A non-admin with a list sees exactly the listed businesses; an admin, or a user without a list, sees the whole table. It keeps the table order, and each kept row as often as it occurs there. |
| Odpisy.ScopingVersusAllowed | page_modules/odpisy.py:21-26 | This page's scoping equals `get_allowed_podniky` for an admin or a user with a list. A non-admin without a list sees every business here and none there. |
| Odpisy.FieldsAt | page_modules/odpisy.py:65-68 | Exactly the fields of the business and harvest year are selected, each from the table. Order and multiplicity: `FieldsAtMask`. |
| Odpisy.FieldsAtMask | page_modules/odpisy.py:65-68 | The two masks keep the fields in table order, each field of the business and year as often as it occurs, and no other field. |
| Odpisy.SalesAt | page_modules/odpisy.py:73-76 | Exactly the sales of the business and year are selected, each from the table. Order and multiplicity: `SalesAtMask`. |
| Odpisy.SalesAtMask | page_modules/odpisy.py:73-76 | The two masks keep the sales in table order, each sale of the business and year as often as it occurs, and no other sale. |
| Odpisy.StatusSplit | page_modules/odpisy.py:78-80 | The tonnage of a list of sales is the sold tonnage plus the contracted tonnage plus the tonnage of every other status. |
| Odpisy.StockAccountsForStatuses | page_modules/odpisy.py:78-95 | The year's sold tonnage equals the stock's sold-plus-contracted tonnage plus the tonnage of other statuses, which the stock ignores. |
| Odpisy.IgnoredSaleKeepsStock | page_modules/odpisy.py:73-95 | Appending a sale of another business or year, or one with another status, leaves the stock unchanged. |
| Odpisy.ValidateSale | page_modules/odpisy.py:246-253 | A sale is accepted exactly when quantity > 0, amount > 0 and quantity <= remaining stock. The three errors are reported in that order, each exactly when the earlier checks pass and its own fails. |
| Odpisy.SubmitSale | page_modules/odpisy.py:246-267 | A sale is refused exactly when the quantity is not positive, the amount is not positive, or the quantity exceeds the remaining stock. An accepted sale carries the selected business and year and the form's values, with an empty invoice name when no file was uploaded. |
| Odpisy.AcceptedSaleKeepsStock | page_modules/odpisy.py:63-95 | An accepted sale lowers the remaining stock by exactly its quantity and leaves it non-negative. Production is unchanged, and the revenue grows by exactly the amount. |
| Odpisy.SoldPercent | page_modules/odpisy.py:122 | The share times production equals 100 times the sold-plus-contracted tonnage; with no production the share is 0. |
| Odpisy.PercentWithinStock | page_modules/odpisy.py:91-95 | With production, the share is at most 100 % exactly when the stock is not overdrawn. |
| Odpisy.PieRemainder | page_modules/odpisy.py:155 | The remainder slice is the stock clamped at 0: never negative, and at least the stock. |
| Odpisy.PieCoversProduction | page_modules/odpisy.py:153-156 | When the stock is not overdrawn, the sold, contracted and remaining slices add up to the production. |
| Odpisy.DefaultYear | page_modules/odpisy.py:45-59 | The current year is chosen when it is among the years or there are no years. Otherwise the latest year is chosen. |
| Odpisy.BalanceOf | page_modules/odpisy.py:335-346 | A carry-over line is for its year, and its balance is production minus sold. |
| Odpisy.BusinessYears | page_modules/odpisy.py:331 | The years are strictly ascending, include every harvest year of the business's fields, and include only such years. |
| Odpisy.CarryOverLine | page_modules/odpisy.py:333-346 | A carry-over line's production is the stock's production, and its sold column counts sold, contracted and every other status. |
| Odpisy.CarryOverLineAt | page_modules/odpisy.py:334-339 | Line i sums the business's net weight and all sales booked to the i-th year. |
| Odpisy.BalanceRowsSum | page_modules/odpisy.py:341-362 | The balances add up to the production of the listed years minus their sales. |
| Odpisy.OverallBalance | page_modules/odpisy.py:361-363 | The overall balance is the business's whole net production minus its sales in the years it has fields. Sales booked to other years are not subtracted. |
| Statistiky.StatsScope | page_modules/statistiky.py:13-19 | An admin is not restricted. For a non-admin the link table must have a `user_id` column and then a `podnik_id` column, else the page stops with a `KeyError` naming the first one missing; with both, the user is restricted to exactly the businesses linked to them. |
| Statistiky.LoginColumnsStopScope | page_modules/statistiky.py:17 | For every non-admin user and every link table with the login's header `id, userId, podnikId` (utils/auth.py:127-128), the page stops with a `KeyError` on `user_id`. |
| Statistiky.IntendedScope | page_modules/statistiky.py:13-19 | The corrected scope: an admin is not restricted, and any other user is restricted to exactly the businesses linked to them. |
| Statistiky.IntendedScopeMatchesLogin | utils/auth.py:111-128 | For a non-admin with no admin row under their id, the corrected scope holds exactly the businesses the login assigns to them. |
| Statistiky.ScopedFields | page_modules/statistiky.py:33-35 | An empty scope keeps every field. Otherwise a field is kept exactly when its business is in scope. It keeps the table order, and each kept row as often as it occurs there. |
| Statistiky.ScopedSales | page_modules/statistiky.py:33-36 | An empty scope keeps every sale. Otherwise a sale is kept exactly when its business is in scope. It keeps the table order, and each kept row as often as it occurs there. |
| Statistiky.SelectedYear | page_modules/statistiky.py:43-59 | There is no year exactly when there are no fields. Otherwise the preselected year is the latest harvest year among the fields. |
| Statistiky.Sold | page_modules/statistiky.py:81-82 | A sale counts as sold exactly when its status is "prodano". Order and multiplicity: `SoldMask`. |
| Statistiky.SoldMask | page_modules/statistiky.py:81-82 | The mask keeps the sales in table order, each sold sale as often as it occurs, and no other sale. |
| Statistiky.YearLine | page_modules/statistiky.py:66-91 | A year's line is for that year, and its yield is guarded by the area. |
| Statistiky.YearlyStats | page_modules/statistiky.py:43-91 | There is one line per distinct harvest year, in strictly ascending years, and every field's year has a line. |
| Statistiky.YearlyLine | page_modules/statistiky.py:66-82 | A year's line sums that year's fields' area and net weight, and the tonnage and revenue of its sold sales. |
| Statistiky.YearlyMass | page_modules/statistiky.py:65-91 | The yearly production adds up to the whole production. The yearly sold tonnage adds up to every sold sale booked to a year that has fields. |
| Statistiky.UnsoldSaleIgnored | page_modules/statistiky.py:80-82 | Adding a sale whose status is not "prodano" leaves the whole yearly overview unchanged. |
| Statistiky.BalanceLeft | page_modules/statistiky.py:527-535 | The remaining bar is never negative. It is zero exactly when the sold tonnage reaches production, and otherwise sold plus remaining equals production. |
| Statistiky.CropStats | page_modules/statistiky.py:184-207 | The per-crop lines are in descending production, and every field of the year has a line for its crop name, with "Neznámá" for an unknown crop. |
| Statistiky.CropStatsMass | page_modules/statistiky.py:192-207 | The per-crop breakdown adds up to the year's whole production. |
| Nabidky.CoerceAmount | page_modules/prehled_nabidek.py:27-28 | A readable amount is kept, and a missing or unreadable amount becomes 0. |
| Nabidky.FirstKeyword | page_modules/prehled_nabidek.py:103-116 | The index found is that of a keyword the text contains, and no earlier keyword occurs in the text. No index means no keyword occurs. |
| Nabidky.ExtractCropType | page_modules/prehled_nabidek.py:99-116 | A note gets "Ostatní" exactly when it is missing or empty or contains no keyword. It gets the k-th label exactly when its lower-cased text contains the k-th keyword and none of the earlier ones. |
| Nabidky.ExtractIgnoresCase | page_modules/prehled_nabidek.py:102 | Lower-casing a note first does not change its label. |
| Nabidky.FindSale | page_modules/prehled_nabidek.py:94-96 | The merged sale is one of the sales and carries the offer's sale id. No sale is found only when no sale has that id. |
| Nabidky.OfferRows | page_modules/prehled_nabidek.py:83-118 | Every row is an offer joined to a shown sale with that sale's id and labelled from that sale's note. Every offer recorded against a shown sale has a row. |
| Nabidky.SelectCrop | page_modules/prehled_nabidek.py:128-132 | "Všechny" keeps every row; any other choice keeps exactly the rows with that label. It keeps the table order, and each kept row as often as it occurs there. |
| Nabidky.BuyerBarOf | page_modules/prehled_nabidek.py:162-166 | When the buyer has offers, the bar shows one of their offers, and no other offer of theirs is higher. |
| Nabidky.BuyerBars | page_modules/prehled_nabidek.py:162-168 | The bars are in ascending order of the offer. Each shows its buyer's highest offer, and every buyer with an offer has a bar. |
| Nabidky.LastBarIsHighestOffer | page_modules/prehled_nabidek.py:153-168 | With any offers, the last bar shows the overall highest offer, which is the "Nejvyšší nabídka" figure. |
| Nabidky.Earliest | page_modules/prehled_nabidek.py:219-221 | The chosen offer is one of the sale's offers, and its date is not after any of theirs. |
| Nabidky.Latest | page_modules/prehled_nabidek.py:219-222 | The chosen offer is one of the sale's offers, and its date is not before any of theirs. |
| Nabidky.Rozdil | page_modules/prehled_nabidek.py:281-283 | The difference is defined exactly when the sale is known, and the offer plus the difference gives the final price. |
| Nabidky.CompareSale | page_modules/prehled_nabidek.py:218-230 | For a sale with offers, crop, buyer, first offer and final price all come from one earliest offer, the final price being the amount of that offer's sale when it is known, and the last amount is that of a latest offer. The negotiated extra is defined exactly when the final price is, and it is the final price minus the first offer. |
| Nabidky.Comparisons | page_modules/prehled_nabidek.py:216-230 | There is exactly one comparison line per sale that has offers, and each is that sale's `CompareSale` line, starting from its earliest offer. |
| Nabidky.NegotiatedTotal | page_modules/prehled_nabidek.py:266-268 | The negotiated total equals the known final prices minus the first offers of those sales. |
| Trend.SxxPositive | agent_app.py:307-316 | With at least two distinct years, the spread of the years about their mean is positive, so the slope's division is defined. |
| Trend.Fit | agent_app.py:312-317 | The fitted line's residuals sum to zero and are uncorrelated with the year, which are the least-squares normal equations. Its slope times the spread of the years is their co-variation with the yield. |
| Trend.NormalEquations | agent_app.py:315-317 | A slope equal to co-variation over spread, with the intercept through the mean point, satisfies both normal equations. |
| Trend.ResidualBound | agent_app.py:324-374 | The fitted line's residual sum of squares never exceeds the total sum of squares about the mean yield. |
| Trend.RSquared | agent_app.py:374 | When the yields vary, (1 − R²) times the total sum of squares is the residual sum of squares. When they do not vary, R² is 0. |
| Trend.RSquaredInUnitRange | agent_app.py:324-374 | The R² of the fitted line always lies between 0 and 1. |
| Trend.TrendLabel | agent_app.py:370 | The label is "Rostoucí" exactly for a positive slope, "Klesající" exactly for a negative one and "Stabilní" exactly for a zero slope. |
| Trend.TrendFollowsCovariation | agent_app.py:316-370 | The trend is rising exactly when year and yield co-vary positively, and falling exactly when they co-vary negatively. |
| Trend.Predictions | agent_app.py:320-322 | There are k forecast rows for the k years after the last one, each with the line's value in that year. |
| Trend.PredictionsStep | agent_app.py:321-322 | Successive forecasts differ by exactly the slope. |
| Trend.Residuals | agent_app.py:324 | There is one residual per yearly point: its yield minus the line's value in its year. |
| Trend.ResidualSums | agent_app.py:324-325 | The residuals add up to the line's residual sum, and their squares to its residual sum of squares. |
| Trend.ResidualStd | agent_app.py:324-325 | For the fitted line, the population standard deviation σ of the residuals satisfies σ²·n = SSRes (their mean is zero), so σ²·n never exceeds the total sum of squares. |
| Trend.Band | agent_app.py:355-357 | Each band row keeps its prediction's year and value, with the lower bound 1.96·σ below and the upper 1.96·σ above; for σ ≥ 0 the value lies between them. |
| Trend.ForecastTable | agent_app.py:378-383 | The table keeps each band row's year; the value and both bounds land on whole hundredths, each within half a hundredth of the unrounded number. |
| Trend.Yearly | agent_app.py:300-305 | The yearly rows are in strictly ascending years. Each row sums exactly its year's fields, and every field's year has a row. |
| Trend.NoCropFields | agent_app.py:292-296 | A crop has no fields exactly when no field carries its id. |
| Trend.ForecastCrop | agent_app.py:292-309 | There is no crop data exactly when no field carries the crop. Otherwise the forecast is made, with the same standard deviation, from the crop's non-empty yearly table. |
| Trend.ForecastFrom | agent_app.py:304-383 | One year is too few for a forecast, and a zero-area year makes the yield undefined. Otherwise there are k predictions and k band rows around them, R² lies in [0, 1], and the label follows the slope. |
| Trend.FitYearly | agent_app.py:312-383 | With two or more years and no zero-area year, the forecast is the least-squares line with k predictions, all later than the last year, R² in [0, 1], and a label that follows the slope. Its band is built from the standard deviation of that line's residuals, and when that is a population standard deviation each prediction lies inside its band. |
| Stability.Cv | agent_app.py:268 | With a positive mean, the CV times the mean is 100 × the standard deviation, and it is non-negative for a non-negative deviation. Otherwise the CV is 0. |
| Stability.MeanWithin | agent_app.py:262-266 | The mean of a non-empty list lies between its minimum and its maximum. |
| Stability.KnownYields | agent_app.py:411-416 | There is one yield per field with a defined yield, and each is the yield of some field. |
| Stability.RowOf | agent_app.py:415-424 | A (field, crop) group has a line exactly when it has at least two known yields. The line is for that group, counts at least two years, has its mean between min and max, and has CV 0 when the mean is not positive. |
| Stability.LinesDiffer | agent_app.py:415-424 | Two groups never share a line. |
| Stability.StabilityRanking | agent_app.py:398-430 | The ranking is in descending CV. Each line is its own group's line, every group with enough yields is listed, and no group is listed twice. |
| Stability.StatsOf | agent_app.py:222-269 | There are no statistics exactly when every year has zero area. Otherwise the mean lies between min and max, and the CV is 0 for a mean that is not positive. |
| Stability.YieldAnalysis | agent_app.py:189-269 | There is no data exactly when no field matches the selection. Otherwise the analysis holds the selection's yearly table and its statistics. |
| Stability.AnalysisMatchesForecast | agent_app.py:207-225 | Choosing one crop and every business gives the same yearly table as the forecast tab for that crop. |
| Api.CleanValue | api.py:37-49 | The cleaned cell is always JSON-safe. A cell is kept exactly when it already was JSON-safe; NaN and ±inf become None. |
| Api.CleanRecord | api.py:43-50 | Cleaning keeps the columns. Every JSON-safe cell is kept, and every NaN or infinite cell becomes None. |
| Api.CleanRecordFixesClean | api.py:37-50 | Cleaning a record that is already clean changes nothing. |
| Api.LoadCsvAsDict | api.py:31-54 | A missing file gives no records, and a failed read gives one record holding the error message. Rows give one clean record per row with the same columns. |
| Api.LoadIdempotent | api.py:31-51 | Loading already-loaded rows again gives them back unchanged. |
| Api.Tag | api.py:103-104 | Tagging adds the `_type` column holding the table name and keeps every other column. |
| Api.GetAllData | api.py:80-107 | Every record served by `/data` carries a `_type` naming one of the twelve tables. |
| Api.GetFields | api.py:122-152 | A missing file gives no rows. Otherwise a field is served exactly when it is in the file and matches every given filter; the answer keeps the file's order and each matching field as often as the file holds it; with no filter the whole file is served. |
| Api.GetFieldsIdempotent | api.py:142-149 | Filtering an answer again with the same filters returns it unchanged. |
| Api.GetOdpisy | api.py:197-215 | A missing file gives no rows, and with no year the whole file is served. Otherwise a sale is served exactly when it is in the file and booked to that year; the answer keeps the file order, and each served sale as often as it occurs there. |
| Api.SummaryStats | api.py:218-249 | There is no summary exactly for an empty table. The summary counts every record and lists exactly the harvest years in strictly ascending order. The average yield is rounded production over area when the area is positive, and 0 otherwise. |
| Api.SummaryAgreesWithReports | api.py:238-247 | The summary's totals are the column sums, and its average yield equals the one `calculate_vynos` gives the reports. |
| Agent.Untag | agent_app.py:52 | Untagging removes exactly the `_type` column and keeps every other cell. |
| Agent.BucketExactly | agent_app.py:51-54 | A table's bucket holds exactly the untagged records tagged with that table's name. |
| Agent.FetchAllData | agent_app.py:28-73 | A request error gives exactly the error result, carrying its message. Success gives exactly the twelve tables, with no record keeping its tag. Both carry the timestamp. |
| Agent.BucketAppend | agent_app.py:51-54 | Bucketing distributes over concatenation of the feed. |
| Agent.BucketOfTagged | agent_app.py:51-54 | One table's tagged records land, untagged and in order, in that table's bucket and in no other. |
| Agent.FeedRoundTrip | agent_app.py:28-66 | The agent's buckets of the API's `/data` feed give back each table's loaded records exactly, in order and without the tag. |
| Agent.UntagUntagged | agent_app.py:52 | Records without a `_type` column of their own come back unchanged. |
| Chat.TopicOf | agent_app.py:523-553 | The lower-cased query is routed to the first keyword group it mentions, tried in the order average, best, trend, advice. Each topic is chosen exactly when its group is mentioned and no earlier group is. |
| Chat.AverageAnswer | agent_app.py:526-530 | The answer reports total area and total production. With a positive area the average times the area gives the production; otherwise the average is 0. |
| Chat.TopFive | agent_app.py:533-541 | At most five entries, in descending yield, each a field's own yield. Any field with a yield that is not listed yields no more than the fifth entry. |
| Chat.Direction | agent_app.py:549-550 | "rostoucí" exactly for a positive change, "klesající" exactly for a negative one, "stabilní" for a zero or undefined change. |
| Chat.YearsBetween | agent_app.py:545-548 | In strictly increasing years the first and the last bound all the others. |
| Chat.TrendAnswer | agent_app.py:544-551 | There is a trend answer exactly when there are two or more years. It compares the first and last year, which bound every field's year and total exactly their years' fields, and its direction follows the change. |
| Chat.Respond | agent_app.py:520-556 | Each topic gets its answer when its data is there, and advice gets its fixed answer regardless. The default reply, echoing the query, comes exactly for an unknown topic, for missing fields, or for a trend with fewer than two years. |
| Chat.TrendQuickQueryGetsAverage | agent_app.py:501-511 | The quick query "Trend výnosů?" mentions "výnos", so it is answered with the average yield and never reaches the trend branch. |
| Chat.AverageMatchesSummary | agent_app.py:526-530 | The chat's average yield, rounded to two decimals, equals the `/stats/summary` average yield. |
| Weather.GetApiToken | utils/agdata_api.py:11-24 | A non-empty environment token wins. Otherwise the stripped config file is used when it exists. There is no token exactly when neither source gives one. |
| Weather.ApiGet | utils/agdata_api.py:27-38 | A missing or empty token fails with the "AGDATA_API_TOKEN není nastaven" error before any request. Otherwise the answer is the request's outcome. |
| Weather.Get | utils/agdata_api.py:60 | A value found under a key is that object's entry for the key; anything else reads as None. |
| Weather.FetchTodayDaily | utils/agdata_api.py:46-55 | A failed today request fails, and a today payload with data is returned. A today payload without data is replaced by yesterday's outcome. |
| Weather.FirstRecord | utils/agdata_api.py:60-62 | A found record is the first item of a non-empty `data` list. |
| Weather.PickFirstDayRecord | utils/agdata_api.py:58-67 | The nested `data` object of the first record is preferred, then the first record itself when it is an object, then an empty object. |
| Weather.Take10 | utils/agdata_api.py:114 | The result is the prefix of the text of length min(10, length). |
| Weather.ApiDate | utils/agdata_api.py:109-114 | A date exists exactly when the first record has non-empty date text, and it is a non-empty prefix of that text of at most ten characters. |
| Weather.OrChain | utils/agdata_api.py:77-82 | The result is the value under one of the keys. It is truthy whenever any key's value is, and otherwise it is the last key's value. |
| Weather.Resolve | utils/agdata_api.py:121-133 | A present primary reading is used even when it is falsy. Only an absent one falls through to the alternatives' `or` chain. |
| Weather.ToFloat | utils/agdata_api.py:137-139 | Numbers convert to themselves and booleans to 1 or 0. Text converts exactly when, stripped, it is decimal notation, and then to its value. Anything else raises. |
| Weather.OptFloat | utils/agdata_api.py:137-139 | None stays None, a convertible value converts, and an unconvertible one fails. |
| Weather.ReportOf | utils/agdata_api.py:106-143 | A report carries the given date, the picked record, and the converted rain, temperature and humidity readings. It fails only when one of the three conversions fails. |
| Weather.GetTodayWeather | utils/agdata_api.py:92-143 | A successful report always has a date. Without the fallback, a failed today request fails with its message, and a success dates the report with the record's date or else today. |
| Weather.GetYesterdayWeather | utils/agdata_api.py:146-183 | A failed request fails with its message. A success dates the report with the record's date, possibly none. |
| Weather.GetTodayRain | utils/agdata_api.py:70-89 | Any failure gives None. A reading is the float of the `or` chain over all four rain names in the today-or-yesterday payload. |
| Weather.ZeroRainVolumeDiffers | utils/agdata_api.py:77-82 | A zero `rainVolume` is kept by the weather report but skipped by `get_today_rain` when `precipitation` has a value. |
| RainFetch.MistoFor | app.py:105-106 | A business in the fixed map is filed under its mapped collection point; any other business under point 30. |
| RainFetch.Upsert | app.py:88-117 | When the business already has a record of the day, the first such record gets the new volume and nothing else changes. Otherwise exactly one record is added. Existing records keep their business, day and id. |
| RainFetch.UpsertAppends | app.py:104-117 | A new record is appended after the untouched table. It holds the business, the volume and the mapped collection point, and its id exceeds every existing id (1 in an empty table). |
| RainFetch.UpsertRecords | app.py:88-117 | After saving a dated reading, the day's first record of that business holds the saved volume. |
| RainFetch.UpsertIdempotent | app.py:88-117 | Saving the same reading twice gives the same table as saving it once. |
| RainFetch.UpsertKeepsIdsDistinct | app.py:104-116 | Distinct record ids stay distinct after a save. |
| RainFetch.FetchAndSaveRain | app.py:65-119 | A failed report gives its "Chyba: " message and leaves the table unchanged. Otherwise it saves the reading, 0 mm when missing, for the report's day, and reports "updated" exactly when a record of that day existed. |
| RainFetch.SaveAll | app.py:164-166 | Saving every sensor business's reading only adds records, and existing records keep their business and day. |
| RainFetch.CheckAutoFetch | app.py:122-171 | Nothing changes without a sensor column, without a business with a sensor, or when the download is not due. When it is due, every sensor business's reading is saved and the flag records today. |
| RainFetch.SecondRunSameDay | app.py:147-164 | Once the download has run today, a second call on the same day changes nothing. |
| RainFetch.SaveAllRecords | app.py:164-166 | After the download, each sensor business whose report came back with a date has a rain record of that date. |
| RainFetch.AutoFetchRecordsEverySensor | app.py:133-171 | A due download records today in the flag and leaves a record of the report's date for every business with a sensor whose report came back with a date. |
| Catalog.AppendMissing | page_modules/crops.py:110-114 | The stored order list comes first, unchanged. Every id of the table is then present, and only stored or table ids occur. A list without repetitions stays without repetitions. |
| Catalog.Reconcile | page_modules/crops.py:106-117 | The kept order list holds exactly the ids of the table. It repeats no id when the stored list repeated none. |
| Catalog.ReconcilePermutation | page_modules/crops.py:106-117 | With unique ids, the kept order list is a reordering of the table's ids. |
| Catalog.ReconcileKeepsStoredOrder | page_modules/crops.py:110-117 | Ids still in the table keep their stored relative order, at the head of the list, ahead of newly appended ids. |
| Catalog.ReconcileIdempotent | page_modules/crops.py:110-117 | Reconciling an already reconciled list against the same table leaves it unchanged. |
| Catalog.PosOf | page_modules/crops.py:152 | `list.index`: the position holds the id and no earlier position does. |
| Catalog.Swap | page_modules/crops.py:154 | Exchanging two positions changes only those two entries and keeps the same multiset. |
| Catalog.MoveUp | page_modules/crops.py:148-157 | "Nahoru" exchanges the selected id with its predecessor and leaves every other position alone. At the top nothing changes. |
| Catalog.MoveDown | page_modules/crops.py:159-168 | "Dolů" exchanges the selected id with its successor and leaves every other position alone. At the bottom nothing changes. |
| Catalog.DownThenUp | page_modules/crops.py:148-168 | In a list without repetitions, moving an id down and then up again restores the list. |
| Catalog.UpThenDown | page_modules/crops.py:148-168 | In a list without repetitions, moving an id up and then down again restores the list. |
| Catalog.ByOrder | page_modules/crops.py:119-121 | The rows are arranged by the order list. When every listed id has a row, there is one row per listed id, in list order. |
| Catalog.DisplayFollowsOrder | page_modules/crops.py:110-121 | After reconciling, the displayed row at position i carries the i-th id of the kept order list. |
| Catalog.RenumberCrops | page_modules/crops.py:122-123 | The written-back order key of the crop at display position i is i + 1; nothing else in the row changes. |
| Catalog.RenumberBusinesses | page_modules/businesses.py:88 | The written-back order key of the business at display position i is i + 1; nothing else in the row changes. |
| Catalog.RenumberedSorted | page_modules/crops.py:119-123 | Renumbered crops and businesses are strictly ascending in the order key, so re-sorting by it keeps the displayed order. |
| Catalog.TypesByPoradi | page_modules/typpozemek.py:68 | The land types sorted by ascending `Poradi`: a reordering of the table. |
| Catalog.InitialTypeOrderRanked | page_modules/typpozemek.py:67-69 | The first order list of the land-type page is the ids of a reordering of the types, ranked by ascending `Poradi`. |
| Catalog.NextPoradi | page_modules/typpozemek.py:41-45 | A new land type's `Poradi` is 1 on an empty table or one without the column. Otherwise it is exactly one above the largest existing `Poradi`. |
| Catalog.AddCrop | page_modules/crops.py:44-59 | The new crop is stored exactly when its name is non-empty and the role may write; the stored record carries the form's values. |
| Catalog.AddBusiness | page_modules/businesses.py:42-55 | The new business is stored exactly when its name is non-empty and the role may write; the stored record carries the name and order key. |
| Catalog.AddPlotType | page_modules/typpozemek.py:36-51 | The new land type is stored exactly when its name is non-empty and the role may write. Its `Poradi` is 1 on an empty table, otherwise one above the largest. |
| Catalog.FilterCrops | page_modules/crops.py:82-94 | A crop is shown exactly when it has the chosen Y/N flags. It keeps the table order, and each kept row as often as it occurs there. |
| Catalog.NoFilterKeepsAll | page_modules/crops.py:82-94 | With both filters on "Vše" the list is the whole table. |
| Catalog.CountsMatchFilters | page_modules/crops.py:206-213 | The footer's "Povoleno" and "Zobrazeno" counts are the sizes of the lists under the corresponding "Ano" filter. |
| Forms.LastIdByName | page_modules/pozemky.py:42 | A name picked from a drop-down maps to the id of the last row with that name, because later rows overwrite earlier ones in the name-to-id map. |
| Forms.EntryMode | page_modules/zadavani.py:26-64 | The data-entry page stops when the user has no allowed business. It shows the add toolbar exactly when the user may edit the selected business. |
| Forms.WatcherReadsOnly | page_modules/zadavani.py:49-64 | A watcher, or a session without a role, never gets the add toolbar. |
| Forms.OptionalId | page_modules/zadavani.py:153-154 | The "-- Nevybráno --" option (0) stores no id; any positive choice stores that id. |
| Forms.NewFieldForm | page_modules/zadavani.py:142-163 | A field name is required first, then a positive area. An accepted field carries the form's business, year, area, names, crop and variety. Its harvest values start at 0 and its sowing date is empty. |
| Forms.EntryPlotForm | page_modules/zadavani.py:200-214 | A positive size is required. The new plot carries the form's values and an id above every existing plot id, or 1 in an empty table. |
| Forms.EntryRainForm | page_modules/zadavani.py:251-267 | A negative volume is refused first, then a missing collection point. The record is stamped at midnight of the chosen day, and its id is above every existing id. |
| Forms.EntrySaleForm | page_modules/zadavani.py:303-318 | A positive quantity is required first, then a positive amount. The stored sale carries the form's values, with an empty invoice. |
| Forms.EntrySaleSkipsStock | page_modules/zadavani.py:303-318 | The entry page accepts a sale larger than what is left in stock, which the sales page's own form refuses. |
| Forms.YearPermsOf | page_modules/fields.py:68-71 | The year's create, update and delete rights come from its first "roky" row, each true exactly when that row holds "Y". A year without a row allows everything. |
| Forms.FieldActionsOf | page_modules/fields.py:92-107 | Adding a field needs the year's create right and write permission. Duplicating also needs a shown field. Editing the table needs the update right and write permission. |
| Forms.WatcherCannotChangeFields | page_modules/fields.py:92-107 | A watcher can neither add, duplicate nor edit fields, in any year. |
| Forms.PrefillCrop | page_modules/fields.py:169-182 | The preselected crop is the duplicated field's crop when that crop is listed, else the first listed crop. Without crops the id input starts at 1. |
| Forms.DuplicatePrefill | page_modules/fields.py:159-199 | The add form starts from the duplicated field's area, harvest, weights and names, or from zeros and empty text. A missing name shows as "nan". |
| Forms.SubmitFieldForm | page_modules/fields.py:208-225 | A positive area is required. The stored field carries the selected business and year and the chosen crop, and no variety. |
| Forms.DuplicateCopiesField | page_modules/fields.py:146-225 | Duplicating a named field with a listed crop and a positive area stores a copy of it. Only the business, the year and the variety change: the variety is dropped. |
| Forms.FieldsAverage | page_modules/fields.py:301-316 | The footer's average yield times the total area is the total net weight; without area it is 0. |
| Forms.AddPlot | page_modules/pozemky.py:61-78 | Business and land type must be chosen, then the size must not be negative (0 passes), then write permission is needed. The stored ids are those of the chosen names. |
| Forms.AddRain | page_modules/sbernasrazky.py:55-72 | Business and collection point must be chosen, then the volume must not be negative, then write permission is needed. The stored ids are those of the chosen names. |
| Forms.AddPlace | page_modules/sbernamista.py:47-62 | A name is required, then a chosen business, then write permission. The record pairs the chosen business's id with the name. |
| Forms.AddVariety | page_modules/varieties_seed.py:41-53 | A variety is stored exactly when its name is non-empty and the role may write; only the name is stored. |
| Forms.AddCropTotal | page_modules/sumplodiny.py:62-79 | Crop and business must be chosen, then the weight must be positive, then write permission is needed. The record carries the chosen ids, the year and the weight. |
| Forms.AddUser | page_modules/users.py:62-83 | Username, email and password are required, then a password of at least 6 characters, then a username not yet taken. The stored user has every password field empty. |
| Forms.AddUserTwiceRefused | page_modules/users.py:68-70 | Once a user is stored under a name, adding that name again is refused with the "already exists" message. |
| Listings.BusinessNameOf | page_modules/sumplodiny.py:124-132 | The joined business name is present exactly when some business has the row's id, and it is the name of such a business. |
| Listings.DefaultYearChoice | page_modules/sumplodiny.py:90-96 | The year filter starts on the latest year of the rows. Without rows it offers only "Vše". |
| Listings.TotalsListing | page_modules/sumplodiny.py:110-146 | Each shown line is the line of an input row, and the lines are a reordering of exactly the passing rows' lines, each as often as it occurs: a row is shown exactly when it passes the year and business filters. The latest year comes first. |
| Listings.YearlySums | page_modules/sumplodiny.py:194-199 | The chart has one bar per distinct year, in ascending order. Each bar is the total weight of that year's rows. |
| Listings.YearlySumsMass | page_modules/sumplodiny.py:186-209 | The bars rise strictly by year and every row's year has a bar. Together they add up to the page's total weight. |
| Listings.RainListing | page_modules/sbernasrazky.py:91-121 | Each shown line is the line of an input row, and the lines are a reordering of exactly the passing rows' lines, each as often as it occurs: under a business filter only that business's rows pass. The latest date text comes first. |
| Listings.UnfilteredRainVolume | page_modules/sbernasrazky.py:159-167 | With the filter on "Vše" the listed rows hold exactly the total volume the page reports. |
| Listings.FlagsOf | page_modules/roky.py:40-43 | Each checkbox of a year row is ticked exactly when its Y/N cell is "Y". |
| Listings.YearsTable | page_modules/roky.py:36-46 | The year-rights table shows every row as checkboxes, reordered so that the latest year comes first. |
| Listings.YearsTableCounts | page_modules/roky.py:93-109 | The counts under the table equal the ticked boxes of each column. |
| Listings.AccessRowOf | page_modules/userpodniky.py:44-62 | A user's matrix row carries their name and role. Its tick for a business is set exactly when a link row pairs the user with that business. |
| Listings.Columns | page_modules/userpodniky.py:38-40 | The business columns are the businesses reordered by name. |
| Listings.UserRows | page_modules/userpodniky.py:43-65 | There is one matrix row per user, every user has a row, and the rows are ordered by username. |
| Listings.AccessMatrix | page_modules/userpodniky.py:37-65 | The access matrix has name-ordered business columns and one username-ordered row per user. |
| Listings.TickedMeansAuthorized | page_modules/userpodniky.py:54-60 | A ticked cell of a non-admin's row names a business that access control lets the user open, given a session built from the same links. |
| Listings.IdLabel | page_modules/users.py:123-131 | An entry that reads as a number truncates to an id. It is labelled with the name of the last business with that id, else with "ID:" and the entry. |
| Listings.BusinessesColumn | page_modules/users.py:112-134 | The "Podniky" column reads "Všechny" for an admin and is empty for a missing or empty list. Otherwise it holds the labels of the comma-separated entries joined by ", ". |
| Listings.LabelOfInt | page_modules/users.py:126-128 | An entry written as a plain integer is labelled exactly as the id it denotes. |
| Listings.LabelsFollowParsedIds | page_modules/users.py:120-132 | Where access control parses the list into ids, the column shows one label per parsed id, in the same order. |
| Listings.CountUsers | page_modules/users.py:184-202 | The footer counts all users. The active, admin and editor counts never exceed the total, and the admin count is zero exactly when no user is an admin. |
| Listings.VarietyTable | page_modules/varieties_seed.py:64-84 | The variety table shows every name, in table order, without ids. Rows can be added or removed exactly when the role may write. |
| Rainfall.DaysInMonth | page_modules/srazky_tekro.py:192 | The length of a month, as `calendar.monthrange` gives it, is between 28 and 31 days. |
| Rainfall.YearLength | page_modules/srazky_tekro.py:192 | The month lengths of a year add up to 365 days, or 366 in a Gregorian leap year. |
| Rainfall.ParseDate | page_modules/srazky_tekro.py:27-30 | A stored date that reads at all reads as a real calendar date. |
| Rainfall.FormatParse | page_modules/srazky_tekro.py:268-274 | A date written by the manual entry reads back as the same date. |
| Rainfall.YearsLatestFirst | page_modules/srazky_tekro.py:32-38 | The year selector lists each year of a readable date exactly once, latest first. Every listed year comes from some row. |
| Rainfall.EntryOf | page_modules/srazky_tekro.py:93-106 | A table line selects its rows by business id, except for id 0, which selects by name. The line carries the business's name and rank. |
| Rainfall.OrderEntries | page_modules/srazky_tekro.py:92-96 | The lines follow the businesses in rank order. Without a business table there is a single line, "Neznámý". |
| Rainfall.Selected | page_modules/srazky_tekro.py:102-109 | A line's rows are exactly the year's rows that belong to its business. Order and multiplicity: `SelectedMask`. |
| Rainfall.SelectedMask | page_modules/srazky_tekro.py:102-109 | The mask keeps the rain rows in table order, each row of the year and business as often as it occurs, and no other row. |
| Rainfall.MonthSums | page_modules/srazky_tekro.py:114-118 | There are twelve month sums, each the volume of the rows dated in that month. |
| Rainfall.MonthSumsMass | page_modules/srazky_tekro.py:114-118 | Every dated row falls in one of the twelve months, so the month sums add up to the line's whole volume. |
| Rainfall.RowOf | page_modules/srazky_tekro.py:111-121 | A line shows `int()` of each month's sum, and "Celkem" is `int()` of the untruncated total. |
| Rainfall.Line | page_modules/srazky_tekro.py:102-122 | A business gets a line exactly when it has rows in the year. |
| Rainfall.MonthlyTable | page_modules/srazky_tekro.py:88-122 | The year's table lists its lines in ascending business rank. |
| Rainfall.MonthlyTableLines | page_modules/srazky_tekro.py:88-122 | The table holds exactly the lines of the businesses that have rows in the year. |
| Rainfall.CelkemVersusMonths | page_modules/srazky_tekro.py:112-120 | With no negative volumes, "Celkem" is at least the sum of the shown month cells and at most 11 more, because each cell is truncated separately. |
| Rainfall.DaySums | page_modules/srazky_tekro.py:192-213 | The daily grid has one sum per day of the month, each the volume of the business's rows on that day. |
| Rainfall.DayGrid | page_modules/srazky_tekro.py:203-222 | The grid's single line has one cell per day of the month, each `int()` of that day's sum. |
| Rainfall.DaysCoverMonth | page_modules/srazky_tekro.py:180-213 | Every measurement of the month lands in exactly one day column, so the day sums add up to the month's volume. |
| Rainfall.DefaultDay | page_modules/srazky_tekro.py:254-257 | The entry form starts on today when the grid shows the current month, else on the 1st, always within the month. |
| Rainfall.MayEnterIsWrite | page_modules/srazky_tekro.py:248 | The page's admin-or-editor check agrees with the write permission. |
| Rainfall.ManualEntry | page_modules/srazky_tekro.py:266-280 | The new row's id is above every stored id, or 1 in an empty table. It belongs to the grid's business (for a name, the first business with it) and reads back as the chosen date. |
| Rainfall.RainByBusiness | page_modules/prehled_podniku.py:210-234 | The overview's bars are the year's per-name totals, largest first. There are none without a business table. |
| Rainfall.RainByBusinessSums | page_modules/prehled_podniku.py:225-233 | Each bar is the summed volume of the year's rows shown under that business name. |
| Rainfall.RainByBusinessCovers | page_modules/prehled_podniku.py:215-233 | Every business name of the year's rows, "Neznámý" included, has a bar. |
| Rainfall.RainByBusinessMass | page_modules/prehled_podniku.py:221-233 | The bars add up to the year's whole collected rainfall. |
| Dashboard.DashboardYear | page_modules/dashboard.py:16-27 | With no fields the current year is shown. When some field was harvested in the current year, that year is shown. Otherwise the latest harvest year of any field is shown. |
| Dashboard.HeadlineOf | page_modules/dashboard.py:53-67 | The four headline metrics are the area, harvested area and net weight summed over the year's main-crop fields, and the yield of those two sums. The headline is not scoped to the user. |
| Dashboard.ScopeSummary | page_modules/dashboard.py:42-48 | An admin, or a user without a business list, sees every per-business summary row. Any other user sees exactly the rows of their own businesses, in the original order and each as often as it occurs. |
| Dashboard.LineOf | page_modules/dashboard.py:185-193 | A business's line sums the area, harvested area and net weight of that business's summary rows. Its yield is the rounded quotient, or zero without area. |
| Dashboard.LinesOf | page_modules/dashboard.py:185-189 | Every business key gets its line, and every line belongs to one of the keys. |
| Dashboard.BusinessAggregate | page_modules/dashboard.py:185-193 | The per-business aggregate is ordered by business id. Every line is its business's line, and every business present in the rows has one. |
| Dashboard.BusinessAggregateMass | page_modules/dashboard.py:185-189 | When every row names a business, the aggregate's areas add up to the area of all the rows. |
| Dashboard.TrendPoints | page_modules/dashboard.py:290-309 | The trend points are in strictly ascending year order. |
| Dashboard.TrendPointsAreHeadlines | page_modules/dashboard.py:298-309 | Each trend point belongs to a field year with main-crop fields and carries that year's headline totals and yield. |
| Dashboard.TrendPointsCover | page_modules/dashboard.py:298-309 | Every field year with main-crop fields has its trend point. |
| Dashboard.TrendPointsExist | page_modules/dashboard.py:298-311 | There are trend points exactly when some field year has main-crop fields. |
| Dashboard.BusinessYearTable | page_modules/dashboard.py:350-397 | The business-by-year table has business names in ascending order, each name once, and years strictly ascending. Every cell is the pivot cell of that business and year. |
| Dashboard.TrendSection | page_modules/dashboard.py:289-312 | The trend section is shown exactly when the fields span more than one year and some year has main-crop fields. It then carries the trend points and the business-by-year table. |
| PrehledTekro.Ratio | page_modules/prehled_tekro.py:126-129 | An unguarded column ratio: for a nonzero denominator it is the exact quotient. For 0/0 it is the column's fill value. A nonzero value over zero is infinite, which is kept apart as `None`. |
| PrehledTekro.CelkemOf | page_modules/prehled_tekro.py:246-262 | The total row sums each quantity column over the table's rows. Its harvested share, gross and net yields and loss share are the guarded ratios of those sums. |
| PrehledTekro.RozdilFillDiffers | page_modules/prehled_tekro.py:126-150 | A row with neither gross nor net weight shows a 100 % loss, but a total row over the same weights shows 0 %. |
| PrehledTekro.RowsOf | page_modules/prehled_tekro.py:118-129 | Each grouped line becomes one row with the same sums and the derived columns of those sums. The row sits under the line's name, or under the business with the line's name as its crop. |
| PrehledTekro.EveryFieldLabelled | page_modules/prehled_tekro.py:49-72 | After the left joins every field has a crop name and a business name, the unknown ones included. So no field drops out of a grouping. |
| PrehledTekro.CropTable | page_modules/prehled_tekro.py:204-243 | The crop table has no rows for no fields. Otherwise its rows are a permutation of the per-crop lines, sorted by area descending, and it closes with their total row. |
| PrehledTekro.CropTableMass | page_modules/prehled_tekro.py:210-241 | In every quantity column the crop table's total equals the sum over all its fields. |
| PrehledTekro.PodnikOrder | page_modules/prehled_tekro.py:112-115 | With a business table, the business order lists the business names sorted by rank. Without one, it lists the distinct business labels of the fields in ascending order. |
| PrehledTekro.Rank | page_modules/prehled_tekro.py:145 | A row's rank is the first position of its business in the order, or 999 when the order does not name it. |
| PrehledTekro.BusinessTable | page_modules/prehled_tekro.py:106-152 | The per-business table has no rows for no fields. Otherwise its rows are a permutation of the per-business lines, ordered by rank, and it closes with their total row. |
| PrehledTekro.BusinessTableMass | page_modules/prehled_tekro.py:118-150 | In every quantity column the per-business table's total equals the sum over all its fields. |
| PrehledTekro.SpecialTable | page_modules/prehled_tekro.py:155-201 | The special-crop table has no rows for no fields. Otherwise it has one row per business and crop pair, ordered by the business's rank, and it closes with their total row. |
| PrehledTekro.SpecialTableMass | page_modules/prehled_tekro.py:167-199 | In every quantity column the special-crop table's total equals the sum over all its fields. |
| PrehledTekro.PageOf | page_modules/prehled_tekro.py:13-103 | With no fields, or no fields in the chosen year, the page shows a notice. With a business table but no crop table, it stops on the missing business-name column. Otherwise the ordinary crops form the business table, the four special crops the special table, and every year field goes into the crop table. |
| PrehledTekro.TablesAddUp | page_modules/prehled_tekro.py:79-103 | The business table's total plus the special table's total equals the crop table's total, in every column. |
| PrehledTekro.TotalsAddUp | page_modules/prehled_tekro.py:79-103 | On every page that shows the report, the two business tables' totals add up to the crop table's total. |
| PodnikyPrehled.LatestYear | page_modules/podniky_prehled.py:27-38 | The preselected year is the first choice. It is the harvest year of some field, and no field has a later one. |
| PodnikyPrehled.Shown | page_modules/podniky_prehled.py:82-86 | A name gets a block exactly when the business order lists it and some field of the year is shown under it. |
| PodnikyPrehled.PageOf | page_modules/podniky_prehled.py:13-146 | With no fields, or no fields in the chosen year, the page shows a notice. With a business table but no crop table, it stops on the missing business-name column. Otherwise it shows one block per shown business, in business order. |
| PodnikyPrehled.SectionMass | page_modules/podniky_prehled.py:88-146 | In every quantity column a block's total row equals the sum over that business's fields of the year. |
| PodnikyPrehled.BlocksNameBusinesses | page_modules/podniky_prehled.py:76-86 | With a business table, every block carries the name of some business in that table. |
| PodnikyPrehled.NoBusinessesOneBlock | page_modules/podniky_prehled.py:72-86 | Without a business table, all the year's fields are shown in a single block under the unknown business. |
| YearPivot.CellOf | page_modules/plodiny_tekro.py:77-117 | A pivot cell holds the area and net weight summed over that year's fields carrying that label, plus the guarded, rounded yield of those sums. |
| YearPivot.EmptyCellIsFill | page_modules/plodiny_tekro.py:100-117 | A label and year with no fields get the pivot's fill value: zero in all three columns. |
| YearPivot.TableNames | page_modules/plodiny_tekro.py:82-85 | The row labels are in ascending order, each once. |
| YearPivot.TableYears | page_modules/plodiny_tekro.py:120 | The year columns are strictly ascending. |
| YearPivot.PivotOf | page_modules/plodiny_tekro.py:77-130 | The table has one row per label and one column per year, and every cell is that label's and that year's cell. |
| YearPivot.PivotCovers | page_modules/plodiny_tekro.py:77-120 | Every labelled field has its label among the rows and its year among the columns. |
| YearPivot.PivotNames | page_modules/plodiny_tekro.py:82-85 | Every row is the label of some field, so unlabelled fields add no row. |
| YearPivot.PivotYears | page_modules/plodiny_tekro.py:78-91 | Every column is the year of some labelled field. |
| YearPivot.OneLabelOneRow | page_modules/plodiny_tekro.py:55-56 | When every field carries the same label, the table has exactly one row, under that label. |
| LabelLines.LineOf | page_modules/prehled_tekro.py:118-123 | A label's line sums each quantity column over the fields grouped under that label. |
| LabelLines.Lines | page_modules/prehled_tekro.py:118-123 | The grouped lines have one line per distinct label, in ascending order and without repeats. |
| LabelLines.LineIsLabelSum | page_modules/prehled_tekro.py:118-123 | A line sums exactly the fields carrying its label. |
| LabelLines.LinesMass | page_modules/prehled_tekro.py:118-123 | Together the lines carry every labelled field once. Their column sums equal the labelled fields' sums. |
| LabelLines.AllLabelled | page_modules/prehled_tekro.py:57-72 | When every field has a label, grouping drops no field. |
| NamedSums.Names | page_modules/osevni_plany.py:97-99 | The group names are distinct and in ascending order. |
| NamedSums.NamesExactly | page_modules/osevni_plany.py:97-99 | A name is a group name exactly when some row carries it. |
| NamedSums.Grouped | page_modules/pozemky.py:229-241 | There is one line per group name, in ascending order, and each line's total sums that name's rows. |
| NamedSums.GroupedMass | page_modules/pozemky.py:229-241 | Grouping neither creates nor loses mass: the lines add up to the sum over all the rows. |
| Pozemky.Column | page_modules/pozemky.py:100-106 | A year's column has one cell per listed type name. Each cell is the area of that type's plots in that year, and zero where there are none. |
| Pozemky.TypeRows | page_modules/pozemky.py:100-106 | The pivot's rows are land-type names, each once, in ascending order. |
| Pozemky.PivotYears | page_modules/pozemky.py:109-111 | The pivot's year columns are strictly ascending. |
| Pozemky.PivotOf | page_modules/pozemky.py:88-121 | The type-by-year pivot is shown exactly when there are plots and land types. Its columns are the years' columns over the pivot's rows. |
| Pozemky.TypeRowsExactly | page_modules/pozemky.py:92-106 | A name is a row exactly when some plot's type resolves to it. Plots whose type the join leaves missing add no row. |
| Pozemky.PivotYearsExactly | page_modules/pozemky.py:100-111 | A year is a column exactly when some plot of a listed type has it. |
| Pozemky.ColumnMass | page_modules/pozemky.py:100-106 | A year's column adds up to the area of all that year's plots of a listed type. |
| Pozemky.DetailYears | page_modules/pozemky.py:150-151 | The detail's year choices list every plot year exactly once, latest first. |
| Pozemky.DetailYear | page_modules/pozemky.py:150-163 | The preselected detail year is the current year when there are no plots or some plot has it. Otherwise it is the latest plot year. |
| Pozemky.HoldingOf | page_modules/pozemky.py:229-241 | A business's table has one row per land-type name of its plots that year, names ascending and each once. Each row is that type's area, and the caption total is the sum of the rows. |
| Pozemky.Holders | page_modules/pozemky.py:229-232 | The businesses that get a table are distinct and in ascending name order. |
| Pozemky.DetailOf | page_modules/pozemky.py:201-255 | A year without plots shows a notice. Without a type table or a business table, no business tables are shown. Otherwise there is one table per holder, in holder order. |
| Pozemky.HoldersExactly | page_modules/pozemky.py:218-234 | A business gets a table exactly when, in that year, it holds a plot whose type and business are both listed. |
| Pozemky.HoldingMass | page_modules/pozemky.py:237-241 | A business's caption total is the area of every plot it holds that year with a listed type. |
| PozemkyTekro.AllYears | page_modules/pozemky_tekro.py:31-32 | The year columns are strictly ascending. They contain every plot's year and no other year. |
| PozemkyTekro.BusinessOrder | page_modules/pozemky_tekro.py:48-51 | The businesses are a permutation of the business table, in non-decreasing rank. |
| PozemkyTekro.TypeColumn | page_modules/pozemky_tekro.py:73-80 | A year's cell for a land type is the area of the business's plots with that type id in that year. The match is on the id, not on the name. |
| PozemkyTekro.Rows | page_modules/pozemky_tekro.py:71-82 | There is one row per land type, in the given order, under the type's name. Each row has one cell per year, equal to that year's type cell. |
| PozemkyTekro.Celkem | page_modules/pozemky_tekro.py:85-90 | The total row's cell for a year is the area of all the business's plots of that year, whatever their type. |
| PozemkyTekro.BlockOf | page_modules/pozemky_tekro.py:56-90 | A business's block carries its name. It is the no-plots note exactly when no plot has its id. Otherwise it is the type rows and total row over its plots. |
| PozemkyTekro.PageOf | page_modules/pozemky_tekro.py:13-90 | Without plots, or without land types, the page warns. Otherwise it has the year columns and one block per business in rank order, over the types in rank order. |
| PozemkyTekro.CelkemSplit | page_modules/pozemky_tekro.py:71-90 | With distinct type ids, a year's total equals the sum of the type cells plus the area of plots whose type is not listed. So the total can exceed the rows above it. |
| PozemkyTekro.CelkemAddsUp | page_modules/pozemky_tekro.py:71-90 | When every plot of the business has a listed type, the total row is exactly the sum of the type rows. |
| OsevniPlany.SameIds | page_modules/osevni_plany.py:39-49 | Reordering the businesses keeps the same set of ids. |
| OsevniPlany.BusinessChoicesExactly | page_modules/osevni_plany.py:39-54 | The business picker offers exactly the ids of the business table. |
| OsevniPlany.PlanRowOf | page_modules/osevni_plany.py:108-117 | A field's plan line carries the plot name (empty when missing) and number. Its area is the field's area rounded to within half a hundredth. Its variety is the variety's name, or empty when unknown. |
| OsevniPlany.PlanRows | page_modules/osevni_plany.py:108-117 | There is one plan line per field, in table order. |
| OsevniPlany.RoundedRowsNear | page_modules/osevni_plany.py:108-124 | Rounding each line moves the sum of the shown areas by at most half a hundredth per line. |
| OsevniPlany.PlanOf | page_modules/osevni_plany.py:99-128 | A crop's plan lists the lines of exactly the fields under that crop name. Its total is their area rounded to within half a hundredth. |
| OsevniPlany.PlansOf | page_modules/osevni_plany.py:97-99 | There is one plan per distinct crop name, the names in ascending order. |
| OsevniPlany.PageOf | page_modules/osevni_plany.py:13-128 | The page gives one of: a notice without fields; a failed lookup without businesses; a notice when the year and business have no fields; the missing-column error when there is a variety table but no crop table; or the crop plans of the selected fields. The header names the chosen business. |
| OsevniPlany.PlansExactly | page_modules/osevni_plany.py:97-117 | A crop gets a plan exactly when some selected field carries its name, and every such field appears in that plan. |
| OsevniPlany.PlansMass | page_modules/osevni_plany.py:97-124 | Together the plans' unrounded totals equal the area of all the selected fields. |
| Odrudy.YearChoices | page_modules/odrudy.py:29-30 | The year choices are strictly descending and are exactly the fields' harvest years. |
| Odrudy.FirstChoiceLatest | page_modules/odrudy.py:30-33 | With fields, the first year choice is the harvest year of some field, and no field has a later one. |
| Odrudy.DefaultYear | page_modules/odrudy.py:31-38 | The preselected year is the current year when some field has it. Otherwise it is the latest harvest year. |
| Odrudy.UserYearFields | page_modules/odrudy.py:47-56 | The page works on exactly the fields of the chosen year, and for a non-admin with a business list only those of the user's businesses. It keeps the table order, and each kept row as often as it occurs there. |
| Odrudy.DataCrops | page_modules/odrudy.py:80-81 | The crop names found in the data are listed once each. |
| Odrudy.DataCropsExactly | page_modules/odrudy.py:69-81 | A name is among the data crops exactly when some field's crop resolves to it. |
| Odrudy.RankedCrops | page_modules/odrudy.py:85-96 | The ranked crops come from the crop table, are named among the data crops, and are in ascending rank. |
| Odrudy.Choices | page_modules/odrudy.py:93-103 | The crop choices are exactly the data crops. |
| Odrudy.ChoicesByRank | page_modules/odrudy.py:93-103 | Every data crop is named in the crop table, so the choices are the data crops in the crop table's rank order. |
| Odrudy.YieldLines | page_modules/odrudy.py:137-144 | Each business or variety line gets gross and net yields: weight over area rounded to two places, or zero without area. |
| Odrudy.VarietySection | page_modules/odrudy.py:252-314 | Without a variety table there is a note. When no field of the crop has a known variety there is another note. Otherwise there is one yield line per variety. |
| Odrudy.OverallOf | page_modules/odrudy.py:338-349 | The headline shows the column sums of the business lines and the unrounded average net yield, which is zero without area. |
| Odrudy.PageOf | page_modules/odrudy.py:10-352 | The page gives a notice without fields, without fields in the year, or without a crop table. Without a business table the grouping fails. Otherwise it is the report over the chosen crop's fields, visible to the user, in the chosen year. |
| Odrudy.ChosenCropHasFields | page_modules/odrudy.py:107-124 | A crop offered as a choice always has fields, so picking a choice never gives the no-data notice. |
| Odrudy.OverallOverKnownBusinesses | page_modules/odrudy.py:130-149 | The headline sums run over the crop's fields of a known business. Fields of an unknown business drop out of every line and of the average. |
| Odrudy.VarietyMass | page_modules/odrudy.py:265-273 | The variety lines together carry exactly the crop's fields of a known variety. |
| PlodinyTekro.PairOf | page_modules/plodiny_tekro.py:35-44 | Without a crop table every field joins the unknown crop at rank 999. Otherwise a field joins a crop exactly when its crop id matches one. |
| PlodinyTekro.CropOrder | page_modules/plodiny_tekro.py:59-62 | The crop order lists the distinct joined name and rank pairs, in ascending rank. |
| PlodinyTekro.CropOrderRanked | page_modules/plodiny_tekro.py:59-62 | Ranks never decrease along the crop order. |
| PlodinyTekro.CropOrderCovers | page_modules/plodiny_tekro.py:59-62 | Every field of a known crop has its crop in the order. |
| PlodinyTekro.CropOrderFromFields | page_modules/plodiny_tekro.py:59-62 | Every crop in the order is the crop of some field. |
| PlodinyTekro.CropFields | page_modules/plodiny_tekro.py:70 | A crop's fields are exactly the fields under that crop name, whatever the crop's rank. Order and multiplicity: `CropFieldsMask`. |
| PlodinyTekro.CropFieldsMask | page_modules/plodiny_tekro.py:70 | The mask keeps the fields in table order, each field of the crop name as often as it occurs, and no other field. |
| PlodinyTekro.Page | page_modules/plodiny_tekro.py:13-142 | Without fields the page shows nothing. Otherwise it has one section per crop of the order, each the business-by-year table of that crop's fields. |
| PlodinyTekro.SectionsHaveFields | page_modules/plodiny_tekro.py:70-74 | Every crop of the order has fields, so no section falls to the no-data notice. |
| PlodinyTekro.CellIsCropBusinessYear | page_modules/plodiny_tekro.py:77-117 | A cell of a crop's table sums exactly the fields of that crop, that business and that year. |
| PlodinyTekro.NoBusinessesOneRow | page_modules/plodiny_tekro.py:55-56 | Without a business table, every field of a crop falls into one row under the unknown business. |
| PrehledPodniku.Visible | page_modules/prehled_podniku.py:39-40 | With an empty list every business is offered. Otherwise exactly the businesses whose id is listed are offered. It keeps the table order, and each kept row as often as it occurs there. |
| PrehledPodniku.ChoiceOf | page_modules/prehled_podniku.py:43 | A picker entry for an id carries the name of the last business with that id, as a dictionary keeps the last value. |
| PrehledPodniku.Choices | page_modules/prehled_podniku.py:43-53 | The picker has one entry per distinct id, in order of first appearance. |
| PrehledPodniku.ChoicesExactly | page_modules/prehled_podniku.py:43-53 | The ids offered are distinct and are exactly the ids of the offered businesses. |
| PrehledPodniku.PickerOf | page_modules/prehled_podniku.py:10-53 | The page stops with a `KeyError` exactly when the statistics scope does, naming the same column. Otherwise, without businesses the page warns; when the user may see none of them it warns that access is missing; else the picker is non-empty and lists the visible businesses. |
| PrehledPodniku.PickerScope | page_modules/prehled_podniku.py:13-40 | The page gets past the link lookup exactly for an admin or a link table with both `user_id` and `podnik_id`. Then a business is offered exactly when the user is an admin, has no links, or is linked to it. |
| PrehledPodniku.YearsFor | page_modules/prehled_podniku.py:59-67 | The year choices are strictly ascending. |
| PrehledPodniku.YearsForExactly | page_modules/prehled_podniku.py:59-67 | A year is offered exactly when a plot or a field of the picked business has it. |
| PrehledPodniku.LastYearIsLatest | page_modules/prehled_podniku.py:73 | The preselected year, the last choice, is the latest year offered. |
| PrehledPodniku.LandOf | page_modules/prehled_podniku.py:78-124 | Without plots of the business in the year, or without land types, there is no land table. Otherwise its rows are the per-type areas, largest first, and its total is their sum. |
| PrehledPodniku.LandTotal | page_modules/prehled_podniku.py:95-111 | The land total is the area of all the business's plots of the year, whatever their type. |
| PrehledPodniku.RowOf | page_modules/prehled_podniku.py:146-151 | A crop line carries the crop's net weight and area. Its unguarded yield is their exact quotient, and is not a number when the area is zero. |
| PrehledPodniku.CropsOf | page_modules/prehled_podniku.py:129-200 | Without fields of the business in the year, or without crops, there is no crop table. Otherwise its rows are the crop lines, net weight descending. Production and area are the sums of the rows, and the average yield is their guarded quotient. |
| PrehledPodniku.CropsMass | page_modules/prehled_podniku.py:146-166 | Production and area are those of every field of the business in the year, fields of unknown crops included. |
| PrehledPodniku.PageOf | page_modules/prehled_podniku.py:59-200 | Without a year of data the page warns. Otherwise it shows the year choices and, for the picked year, the land and crop sections. |
| Text.Strip | import_2025_data.py:58 | The result is the text with whitespace removed at both ends, whitespace being Python's, the no-break space and the other Unicode spaces included: everything cut off is whitespace and what is kept neither starts nor ends with it. |
| Text.LowerIdempotent | import_2025_data.py:41-45 | Lower-casing twice gives the same text as lower-casing once, so normalised map keys compare like normalised cells. |
| FieldImport.NameMap | import_2025_data.py:41-46 | A name map has one entry per distinct normalised name, in order of first appearance, and each entry holds the id of the last table row carrying that name, as a dict comprehension keeps it. |
| FieldImport.LastEntry | import_2025_data.py:42 | The entry of a name present in the table holds the id of a row with that name after which no row has it. |
| FieldImport.CropLookup | import_2025_data.py:60-69 | An exact key wins; without one, a crop id is found exactly when some key contains the name or is contained in it. |
| FieldImport.CropLookupFirst | import_2025_data.py:60-69 | The id found is that of the first exact key, or, with no exact key, of the first overlapping key in map order. |
| FieldImport.CropId | import_2025_data.py:54-69 | A missing or empty crop cell has no id; any id found is that of a map entry overlapping the lower-cased, stripped name. |
| FieldImport.VarietyIdAsWritten | import_2025_data.py:71-91 | A missing or empty variety cell has no id; otherwise an exact key wins, an id is found exactly when some key starts the name or the name starts it, and any id found is a map entry's. |
| FieldImport.BlankVarietyMapsToFirst | import_2025_data.py:73-89 | A variety cell of blanks alone gets an id from a non-empty map, because its normalised name is empty and every key starts with it. |
| FieldImport.VarietyId | import_2025_data.py:71-91 | A cell whose normalised name is empty has no variety id; every other cell is looked up as before. |
| FieldImport.VarietyIdNeedsName | import_2025_data.py:71-91 | Any variety id found belongs to a map entry in a prefix relation with a non-empty normalised name. |
| FieldImport.RoleOf | import_2025_data.py:165-190 | A header containing "plodina" in any case is the crop column, whatever else it contains; a header given no role names neither the crop nor the harvested area. |
| FieldImport.ExactHeadersSubsumed | import_2025_data.py:171-175 | The exact-name tests for "Plodina" and "Název honu" are already covered by the lower-cased containment tests beside them. |
| FieldImport.ColumnFor | import_2025_data.py:165-190 | The column read for a role is the last header with that role, since later headers overwrite the column map; there is none exactly when no header has the role. |
| FieldImport.PickSheet | import_2025_data.py:136-155 | The sheet read is the first non-empty one, and its header row is the first row with a cell containing "Plodina", else row 0; nothing is read exactly when every sheet is empty. |
| FieldImport.CellValue | import_2025_data.py:210-214 | A missing or empty quantity cell reads as 0 and a number cell as itself. |
| FieldImport.AmountsOf | import_2025_data.py:210-219 | The four quantities are the converted cells when all of them convert, and all four are 0 when any one fails. |
| FieldImport.RecordOf | import_2025_data.py:221-249 | The new field has the given id, business and year 2025, the looked-up crop id, the variety id of the lookup as written, the converted quantities, and a harvested area equal to the sown area when none positive is given. |
| FieldImport.RecordOfIntended | import_2025_data.py:221-249 | With the intended variety lookup the field differs from `RecordOf` at most in its variety, only for a cell of blanks alone, which then gets none; any variety it carries comes from a non-empty normalised name. |
| FieldImport.BlankVarietyRecordDiffers | import_2025_data.py:223 | A row with a variety cell of blanks alone gets a variety as written and none as intended. |
| FieldImport.MakeRecordFresh | import_2025_data.py:231-248 | The record maker gives each field the id it is handed and the year 2025. |
| FieldImport.Step | import_2025_data.py:205-254 | A row without a crop name leaves the table unchanged; any other row appends exactly one field after the unchanged table. |
| FieldImport.StepFresh | import_2025_data.py:93-96 | The appended field is of year 2025 and its id is above every id already in the table. |
| FieldImport.ImportRowsLength | import_2025_data.py:195-254 | Importing appends exactly one field per row that names a crop. |
| FieldImport.ImportRowsExtends | import_2025_data.py:195-254 | Importing keeps the table so far as a prefix, and every field after it is of year 2025. |
| FieldImport.ImportRowsFresh | import_2025_data.py:231-254 | Every appended field has an id above the ids of all fields before it. |
| FieldImport.ImportRowsDistinct | import_2025_data.py:231-254 | Importing into a table of distinct ids keeps the ids distinct. |
| FieldImport.ImportRowsYear | import_2025_data.py:195-254 | Imported into a table without 2025 fields, the 2025 fields of the result are as many as the rows naming a crop. |
| FieldImport.ImportReplacesYear | import_2025_data.py:110-254 | The whole import keeps the fields of other years in order as a prefix, leaves exactly one 2025 field per row naming a crop, and keeps ids distinct. |
| FieldImport.UnmappedCrops | import_2025_data.py:225-226 | A crop name is reported as unmapped exactly when some imported row carries it and its id is missing or 0. |
| FieldImport.UnmappedVarieties | import_2025_data.py:223-228 | A variety text is reported as unmapped exactly when some imported row has a given variety cell (a missing one reads as "nan") whose id, looked up as written, is missing or 0. |
| FieldImport.BlankVarietyNotReported | import_2025_data.py:223-228 | A variety cell of blanks alone is never reported as unmapped when the map is non-empty and holds no id 0. |
| Numeric.Round2 | page_modules/osevni_plany.py:113-124 | Rounding to two decimals moves a value by at most half a hundredth, keeps a non-negative value non-negative and lands on a whole number of hundredths. |
| Numeric.Round2OnGrid | page_modules/osevni_plany.py:124 | A value that already has two decimals is left unchanged by rounding. |
| Numeric.Trunc | page_modules/users.py:127 | Converting a number to an integer truncates toward zero: the result is the whole part below a non-negative number and above a negative one. |
| Numeric.Guarded | page_modules/statistiky.py:77 | A guarded ratio: for a positive denominator the result times the denominator is the numerator; otherwise it is 0. The same guard serves page_modules/odpisy.py:315 and page_modules/prehled_tekro.py:255-260. |

## Left out

- Rendering: Streamlit widgets, Plotly charts and figures, table formatting, number formatting, page dispatch and navigation.
- I/O: CSV reading and writing, the flag file of the rain download, the Excel reading of the import (sheets are given as grids of text), `config.py`, HTTP (the weather request is a parameter).
- Floating point: quantities are exact reals; float representation error, `inf` and `NaN` arithmetic are not modelled.
- Time: the modification and creation timestamps (`datum_upravy`, `datum_vznik`) are not stored; the current date and hour are parameters.
- Duplicate keys on the right side of a merge, which pandas would multiply into several rows: the model joins with the first match.
- Rows with a missing id in the crop and variety tables read by the import; the unused `BUSINESS_MAP` of the import and its per-file error handling (rows of a file that fails halfway are given as the rows read).
- The "Celkem záznamů" count printed by the import.
- Numeric.Round2: rounds the exact decimal value half to even; Python rounds the binary float, so ties may fall differently.
- Stability.KnownYields: a field of zero area is treated as having no yield; pandas drops only 0/0 (NaN) and keeps ±inf.
- Stability.StatsOf: the same treatment of zero-area yields as `KnownYields`.
- Chat.TopFive: the same treatment of zero-area yields as `Stability.KnownYields`.
- Statistiky.CropStats: a crop of zero area gets no yield where the source shows inf or NaN.
- Trend.ForecastFrom: a year of zero area gives `UndefinedYield` where the source would fit a line through inf or NaN.
- Stability.YieldAnalysis: the ids of the business and crop are given; the name lookup of the page is not modelled.
- Api.SummaryStats: takes the parsed fields table rather than reading it.
- Weather.ApiDate: a malformed payload reads as absent where Python would raise.
- Weather.PickFirstDayRecord: a malformed payload reads as absent where Python would raise.
- Weather.FetchTodayDaily: a malformed payload reads as absent where Python would raise.
- Weather.ToFloat: exponent notation, the texts "inf" and "nan", digit-group underscores (`1_000`) and non-ASCII digits, all of which `float()` accepts, are not parsed.
- Listings.IdLabel: exponent notation, the texts "inf" and "nan", digit-group underscores (`1_000`) and non-ASCII digits, all of which `float()` accepts, are not parsed.
- Auth.ParseIdParts: a part with digit-group underscores (`1_0`) or non-ASCII digits, which `int()` accepts (`utils/auth.py:96`), is treated as a part `int()` rejects.
- Auth.GetUserBusinesses: the same gap as `Auth.ParseIdParts`: such a list yields no businesses where the source would parse it.
- Listings.BusinessesColumn: with an empty business table the source shows the raw column, which is not modelled.
- Forms.EntryPlotForm: with no land types the source stores an empty type id; the model has no such form result.
- Rainfall.ManualEntry: requires the chosen business name to exist, because the source fails with an IndexError otherwise.
- Catalog.ByOrder: shows the first row per id; tables with duplicate ids are not otherwise modelled.
- Catalog.TypesByPoradi: the model's sort is stable; pandas' default quicksort is not, so rows with equal keys may appear in another order. The same holds for every other sort of the model.
- OsevniPlany.PlanRowOf: the seed-rate (`St.mn.`) and sowing-date (`Datum setí`) columns are not modelled.
- OsevniPlany.PageOf: a business table without a `poradi` column, which the source sorts by name, is not modelled.
- PozemkyTekro.BusinessOrder: sorting by name when the table has no `Poradi` column is not modelled.
- Text.Lower: only ASCII and Czech capitals are lowered; other letters that Python's `str.lower()` changes are kept as they are.
- FieldImport.CellValue: text in exponent notation, with digit-group underscores, or spelling "inf" or "nan", which `float()` accepts, reads as a failed conversion.
- The data manager defines neither `get_odpisy` nor `save_sbernasrazky`, which `page_modules/odpisy.py:19`, `page_modules/statistiky.py:31`, `page_modules/zadavani.py:23` and `:509`, `page_modules/srazky_tekro.py:280` and `app.py:101` and `:117` call, so each of those calls stops with an `AttributeError`. The model assumes both work: the sales table is a parameter (`Odpisy`, `Statistiky`, `Forms`) and a save replaces the rainfall table (`RainFetch`, `Rainfall.ManualEntry`).
- Aggregations.PoleSummary: when the year has fields but the crop table is empty, the source skips the crop merge and its group-by then names columns that do not exist, raising a `KeyError` (`utils/aggregations.py:32-55`); the model joins no field and returns an empty summary.
- Aggregations.PodnikySummary: the same `KeyError` arises when the year has fields but the business table (or the crop table) is empty (`utils/aggregations.py:90-125`); the model returns an empty summary.
- Dashboard.TrendSection: when the business table is non-empty but no field of any year has a business id found in it, every yearly group-by by business name is empty, the concatenated pivots have no year columns and `pd.MultiIndex.from_tuples([])` raises (`page_modules/dashboard.py:349-417`); the model shows an empty business-by-year table. With an empty business table the source appends nothing and skips the table, which the model also shows as empty.
- PlodinyTekro.Page: the same failure at `page_modules/plodiny_tekro.py:120-140` when every field of the chosen crop has an unknown business; the model shows an empty table.
- Odrudy.RankedCrops: crop ranks are integers; the source's `pd.to_numeric` with `fillna(9999)` on text ranks is not modelled.

## Findings

| source | as written | input that shows it | evidently intended | confidence | as-written member | corrected member |
|---|---|---|---|---|---|---|
| import_2025_data.py:71-91 | A variety cell of blanks only passes the empty check, normalises to the empty name, and every key starts with the empty name, so the first variety of the map is assigned | a non-empty variety table and the variety cell "  " | such a cell gets no variety, like an empty cell | medium, not executed | FieldImport.VarietyIdAsWritten, used by FieldImport.RecordOf (shown by FieldImport.BlankVarietyMapsToFirst and FieldImport.BlankVarietyRecordDiffers) | FieldImport.VarietyId, used by FieldImport.RecordOfIntended (proved by FieldImport.VarietyIdNeedsName) |
| page_modules/statistiky.py:17 | The statistics page (and page_modules/prehled_podniku.py:16 likewise) selects a non-admin user's links by columns `user_id` and `podnik_id`, but the link table the login reads has `userId` and `podnikId` (utils/auth.py:127-128), so the lookup raises a `KeyError` | a non-admin user and a link table with header `id, userId, podnikId` | select the user's links by `userId` and `podnikId`, as the login does | high, not executed | Statistiky.StatsScope, used by PrehledPodniku.PickerOf (shown by Statistiky.LoginColumnsStopScope) | Statistiky.IntendedScope (proved by Statistiky.IntendedScopeMatchesLogin) |
| utils/aggregations.py:151-159 | The crop-totals lookup selects rows by `podnik_id`, `plodina_id` and `year` and reads `cista_vaha`, but the crop-totals page writes and reads `PodnikID`, `PlodinaID`, `Year` and `CistaVaha` (page_modules/sumplodiny.py:68-73, :115, :191) and the data manager returns the file unrenamed (utils/data_manager.py:89-91), so the mask raises a `KeyError`; the method has no caller in the repository | any business, crop and year, and the crop-totals table with header `id, Year, PlodinaID, CistaVaha, PodnikID` | select by `PodnikID`, `PlodinaID` and `Year` and read `CistaVaha` | medium, not executed | Aggregations.SumPlodinyAsWritten (shown by Aggregations.AppTableStopsLookup) | Aggregations.SumPlodinyForMissing (proved by Aggregations.SumPlodinyTakesFirst and Aggregations.AddedTotalFound) |

=== FILE: agent.dfy ===
/** The decision-support agent's side of the `/data` feed: splitting the
    tagged records back into tables. */
module Agent {
  import opened Wrappers
  import opened Seqs
  import opened Api

  /** The tables the agent sorts records into. */
  const Buckets: seq<string> := ["businesses", "crops", "fields", "pozemky", "varieties_seed", "sbernamista",
                                 "sbernasrazky", "typpozemek", "roky", "sumplodiny", "userpodniky", "odpisy"]

  /** A record belongs to a table when its `_type` is that table's name
      as a string; a missing, null, numeric or unknown tag places it
      nowhere. */
  predicate TaggedAs(r: Rec, name: string)
  {
    TypeKey in r && r[TypeKey] == Str(name)
  }

  /** The record without its tag, as `record.pop("_type")` leaves it. */
  function Untag(r: Rec): (u: Rec)
    ensures TypeKey !in u
    ensures u.Keys == r.Keys - {TypeKey}
    ensures forall k :: k in u ==> u[k] == r[k]
  {
    r - {TypeKey}
  }

  /** The untagged records tagged with `name`, in feed order. */
  function Bucket(rs: seq<Rec>, name: string): (b: seq<Rec>)
    ensures |b| <= |rs|
    ensures forall i :: 0 <= i < |b| ==> TypeKey !in b[i]
  {
    if |rs| == 0 then []
    else (if TaggedAs(rs[0], name) then [Untag(rs[0])] else []) + Bucket(rs[1..], name)
  }

  /** A bucket holds exactly the untagged records tagged with its name. */
  lemma {:induction false} BucketExactly(rs: seq<Rec>, name: string)
    ensures forall u :: u in Bucket(rs, name) <==> exists i :: 0 <= i < |rs| && TaggedAs(rs[i], name) && u == Untag(rs[i])
  {
    if |rs| > 0 {
      BucketExactly(rs[1..], name);
      assert forall i :: 1 <= i < |rs| ==> rs[i] == rs[1..][i - 1];
      assert forall i :: 0 <= i < |rs| - 1 ==> rs[1..][i] == rs[i + 1];
    }
  }

  /** What the request gave: an error, or the decoded record list. */
  datatype Response = RequestError(message: string) | Records(records: seq<Rec>)

  /** `fetch_all_data`; `now` is the timestamp it stamps. */
  datatype Fetched =
    | FetchFailed(error: string, lastUpdate: string)
    | FetchedTables(tables: map<string, seq<Rec>>, lastUpdate: string)

  function FetchAllData(response: Response, now: string): (r: Fetched)
    ensures response.RequestError? <==> r.FetchFailed?
    ensures r.FetchFailed? ==> r.error == response.message
    ensures r.FetchedTables? ==> r.tables.Keys == set b | b in Buckets
    ensures r.FetchedTables? ==> forall b :: b in Buckets ==> forall u :: u in r.tables[b] ==> TypeKey !in u
    ensures r.lastUpdate == now
  {
    match response
    case RequestError(m) => FetchFailed(m, now)
    case Records(rs) => FetchedTables(map b | b in Buckets :: Bucket(rs, b), now)
  }

  lemma {:induction false} BucketAppend(a: seq<Rec>, b: seq<Rec>, name: string)
    ensures Bucket(a + b, name) == Bucket(a, name) + Bucket(b, name)
  {
    if |a| > 0 {
      BucketAppend(a[1..], b, name);
      assert (a + b)[1..] == a[1..] + b;
    } else {
      assert a + b == b;
    }
  }

  function UntagAll(rs: seq<Rec>): (r: seq<Rec>)
    ensures |r| == |rs|
    ensures forall i :: 0 <= i < |r| ==> r[i] == Untag(rs[i])
  {
    seq(|rs|, i requires 0 <= i < |rs| => Untag(rs[i]))
  }

  /** Tagging then untagging a record gives back the record less any
      tag it had. */
  lemma UntagTag(x: Rec, t: string)
    ensures Untag(Tag(x, t)) == Untag(x)
  {
    var a := Untag(Tag(x, t));
    var b := Untag(x);
    assert a.Keys == b.Keys;
    assert forall k :: k in a ==> a[k] == b[k];
  }

  /** A single tagged record lands in its table's bucket only. */
  lemma BucketOne(x: Rec, t: string, name: string)
    ensures Bucket([Tag(x, t)], name) == if t == name then [Untag(x)] else []
  {
    assert [Tag(x, t)][1..] == [];
    UntagTag(x, t);
  }

  lemma TagAllCons(rs: seq<Rec>, t: string)
    requires |rs| > 0
    ensures TagAll(rs, t) == [Tag(rs[0], t)] + TagAll(rs[1..], t)
  {
    var a := TagAll(rs, t);
    var b := [Tag(rs[0], t)] + TagAll(rs[1..], t);
    assert |a| == |b|;
    forall i | 0 <= i < |a|
      ensures a[i] == b[i]
    {
      if i > 0 {
        assert b[i] == TagAll(rs[1..], t)[i - 1];
      }
    }
  }

  lemma UntagAllCons(rs: seq<Rec>)
    requires |rs| > 0
    ensures UntagAll(rs) == [Untag(rs[0])] + UntagAll(rs[1..])
  {
    var a := UntagAll(rs);
    var b := [Untag(rs[0])] + UntagAll(rs[1..]);
    assert |a| == |b|;
    forall i | 0 <= i < |a|
      ensures a[i] == b[i]
    {
      if i > 0 {
        assert b[i] == UntagAll(rs[1..])[i - 1];
      }
    }
  }

  /** One table's tagged records land in that table's bucket and no other. */
  lemma {:induction false} BucketOfTagged(rs: seq<Rec>, t: string, name: string)
    ensures Bucket(TagAll(rs, t), name) == if t == name then UntagAll(rs) else []
  {
    if |rs| > 0 {
      BucketOfTagged(rs[1..], t, name);
      TagAllCons(rs, t);
      BucketAppend([Tag(rs[0], t)], TagAll(rs[1..], t), name);
      BucketOne(rs[0], t, name);
      UntagAllCons(rs);
    } else {
      assert TagAll(rs, t) == [];
    }
  }

  lemma {:induction false} BucketOfAll(types: seq<string>, read: string -> CsvRead, name: string)
    requires NoDup(types)
    ensures Bucket(AllRecords(types, read), name)
         == if name in types then UntagAll(LoadCsvAsDict(read(FileOf(name)))) else []
  {
    if |types| > 0 {
      var t := types[0];
      var first := TagAll(LoadCsvAsDict(read(FileOf(t))), t);
      BucketAppend(first, AllRecords(types[1..], read), name);
      BucketOfTagged(LoadCsvAsDict(read(FileOf(t))), t, name);
      assert NoDup(types[1..]);
      BucketOfAll(types[1..], read, name);
      assert name in types <==> name == t || name in types[1..];
      if name == t {
        assert name !in types[1..];
      }
    }
  }

  /** Feeding `/data` to the agent recovers every table exactly: the
      bucket of each table holds that table's loaded records, in order,
      without the tag. */
  lemma FeedRoundTrip(read: string -> CsvRead, now: string, name: string)
    requires name in Buckets
    ensures FetchAllData(Records(GetAllData(read)), now).FetchedTables?
    ensures FetchAllData(Records(GetAllData(read)), now).tables[name]
         == UntagAll(LoadCsvAsDict(read(FileOf(name))))
  {
    assert Buckets == DataTypes;
    assert NoDup(DataTypes);
    BucketOfAll(DataTypes, read, name);
  }

  /** A table whose records carry no `_type` column of their own comes
      back unchanged. */
  lemma UntagUntagged(rs: seq<Rec>)
    requires forall i :: 0 <= i < |rs| ==> TypeKey !in rs[i]
    ensures UntagAll(rs) == rs
  {
    forall i | 0 <= i < |rs|
      ensures Untag(rs[i]) == rs[i]
    {
      assert Untag(rs[i]).Keys == rs[i].Keys;
    }
  }
}

=== FILE: aggregations.dfy ===
/** Yearly harvest summaries: fields of one year joined with their crop
    (and business), grouped, summed and ordered by the `poradi` keys; the
    land-type breakdown with percentages; the crop-total fallback. */
module Aggregations {
  import opened Wrappers
  import opened Seqs
  import opened Numeric
  import opened Records

  /** Python `calculate_vynos`: yield in t/ha rounded to two decimals, and
      0 when there is no area to divide by. */
  function CalculateVynos(cistaVaha: real, vymera: real): (r: real)
    ensures vymera <= 0.0 ==> r == 0.0
    ensures vymera > 0.0 ==> -0.005 <= r - cistaVaha / vymera <= 0.005
    ensures vymera > 0.0 && cistaVaha >= 0.0 ==> r >= 0.0
  {
    if vymera > 0.0 then Round2(cistaVaha / vymera) else 0.0
  }

  /** A field joined with its crop and, for the per-business report, its
      business. */
  datatype Joined = Joined(field: Field, crop: Crop, business: Option<Business>)

  /** The four summed quantities of a field. */
  datatype Quantity = Area | Harvested | Net | Gross

  function FieldQty(q: Quantity, f: Field): real
  {
    match q
    case Area => f.vymera
    case Harvested => f.sklizeno
    case Net => f.cistaVaha
    case Gross => f.hrubaVaha
  }

  function JQty(q: Quantity): Joined -> real
  {
    (j: Joined) => FieldQty(q, j.field)
  }

  /** Column sums of a group of joined rows. */
  datatype Totals = Totals(vymera: real, sklizeno: real, cistaVaha: real, hrubaVaha: real)
  {
    function Get(q: Quantity): real
    {
      match q
      case Area => vymera
      case Harvested => sklizeno
      case Net => cistaVaha
      case Gross => hrubaVaha
    }
  }

  function TotalsOf(g: seq<Joined>): (t: Totals)
    ensures forall q :: t.Get(q) == Sum(g, JQty(q))
  {
    Totals(Sum(g, JQty(Area)), Sum(g, JQty(Harvested)), Sum(g, JQty(Net)), Sum(g, JQty(Gross)))
  }

  /** One output row of a yearly summary. `business` is None in the
      per-crop summary. */
  datatype SummaryRow = SummaryRow(business: Option<Business>, crop: Crop, totals: Totals, cistyVynos: real)

  function RowQty(q: Quantity): SummaryRow -> real
  {
    (r: SummaryRow) => r.totals.Get(q)
  }

  /** The group key: the joined business and crop records, which are
      determined by the ids, as the source's (id, name, order) keys are. */
  function JKey(j: Joined): (Option<Business>, Crop)
  {
    (j.business, j.crop)
  }

  /** Fields of the harvest year joined with their crop; a field whose crop
      is unknown is dropped, as its missing flag never equals Y or N. */
  function JoinCrops(fields: seq<Field>, crops: seq<Crop>, year: int, flag: string): (r: seq<Joined>)
    ensures forall i :: 0 <= i < |r| ==>
      (r[i].field in fields && r[i].field.rokSklizne == year && r[i].business.None?
       && FindByCell(crops, CropId, r[i].field.plodinaId) == Some(r[i].crop) && r[i].crop.enableMainTable == flag)
  {
    if |fields| == 0 then []
    else
      var f := fields[0];
      var c := FindByCell(crops, CropId, f.plodinaId);
      var here := if f.rokSklizne == year && c.Some? && c.value.enableMainTable == flag
                  then [Joined(f, c.value, None)] else [];
      assert fields == [f] + fields[1..];
      here + JoinCrops(fields[1..], crops, year, flag)
  }

  /** No field of the year whose crop is known with the requested flag is
      lost by the join. */
  lemma {:induction false} JoinCropsComplete(fields: seq<Field>, crops: seq<Crop>, year: int, flag: string, k: int)
    requires 0 <= k < |fields| && fields[k].rokSklizne == year
    requires FindByCell(crops, CropId, fields[k].plodinaId).Some?
    requires FindByCell(crops, CropId, fields[k].plodinaId).value.enableMainTable == flag
    ensures Joined(fields[k], FindByCell(crops, CropId, fields[k].plodinaId).value, None) in JoinCrops(fields, crops, year, flag)
  {
    if k > 0 {
      JoinCropsComplete(fields[1..], crops, year, flag, k - 1);
    }
  }

  /** Adds the business to each joined row; rows whose business is unknown
      drop out of the grouping, as pandas drops missing group keys. */
  function JoinBusinesses(rows: seq<Joined>, businesses: seq<Business>): (r: seq<Joined>)
    ensures forall i :: 0 <= i < |r| ==>
      (r[i].business.Some? && FindById(businesses, BusinessId, r[i].field.podnikId) == r[i].business
       && exists k :: 0 <= k < |rows| && rows[k].field == r[i].field && rows[k].crop == r[i].crop)
  {
    if |rows| == 0 then []
    else
      var j := rows[0];
      var b := FindById(businesses, BusinessId, j.field.podnikId);
      var rest := JoinBusinesses(rows[1..], businesses);
      assert forall k :: 1 <= k < |rows| ==> rows[k] == rows[1..][k - 1];
      if b.Some? then [Joined(j.field, j.crop, b)] + rest else rest
  }

  /** Every joined row whose business is on file is kept. */
  lemma {:induction false} JoinBusinessesComplete(rows: seq<Joined>, businesses: seq<Business>, k: int)
    requires 0 <= k < |rows| && FindById(businesses, BusinessId, rows[k].field.podnikId).Some?
    ensures Joined(rows[k].field, rows[k].crop, FindById(businesses, BusinessId, rows[k].field.podnikId))
         in JoinBusinesses(rows, businesses)
  {
    if k > 0 {
      JoinBusinessesComplete(rows[1..], businesses, k - 1);
    }
  }

  /** One summary row per key, with the group's column sums and yield. */
  function BuildRows(ks: seq<(Option<Business>, Crop)>, rows: seq<Joined>): (r: seq<SummaryRow>)
    ensures |r| == |ks|
    ensures forall i :: 0 <= i < |r| ==>
      (r[i].business == ks[i].0 && r[i].crop == ks[i].1
       && r[i].totals == TotalsOf(Group(rows, JKey, ks[i]))
       && r[i].cistyVynos == CalculateVynos(r[i].totals.cistaVaha, r[i].totals.vymera))
  {
    if |ks| == 0 then []
    else
      var t := TotalsOf(Group(rows, JKey, ks[0]));
      var rest := BuildRows(ks[1..], rows);
      var r := [SummaryRow(ks[0].0, ks[0].1, t, CalculateVynos(t.cistaVaha, t.vymera))] + rest;
      assert forall i :: 1 <= i < |r| ==> r[i] == rest[i - 1] && ks[i] == ks[1..][i - 1];
      r
  }

  /** The key of a summary row. */
  function RowKey(row: SummaryRow): (Option<Business>, Crop)
  {
    (row.business, row.crop)
  }

  /** Each row of a summary holds the column sums of exactly the joined
      rows with its key, and every joined row's key has a row. */
  lemma SummaryGroups(rows: seq<Joined>, ks: seq<(Option<Business>, Crop)>)
    requires forall n :: 0 <= n < |rows| ==> JKey(rows[n]) in ks
    ensures var r := BuildRows(ks, rows);
      (forall i :: 0 <= i < |r| ==> r[i].totals == TotalsOf(Group(rows, JKey, RowKey(r[i]))))
      && (forall n :: 0 <= n < |rows| ==> JKey(rows[n]) in MapSeq(r, RowKey))
  {
    var r := BuildRows(ks, rows);
    BuildRowsGroups(ks, rows);
    assert MapSeq(r, RowKey) == ks;
  }

  lemma BuildRowsGroups(ks: seq<(Option<Business>, Crop)>, rows: seq<Joined>)
    ensures var r := BuildRows(ks, rows);
      forall i :: 0 <= i < |r| ==> r[i].totals == TotalsOf(Group(rows, JKey, RowKey(r[i])))
  {
    var r := BuildRows(ks, rows);
    forall i | 0 <= i < |r|
      ensures r[i].totals == TotalsOf(Group(rows, JKey, RowKey(r[i])))
    {
      assert RowKey(r[i]) == ks[i];
    }
  }

  lemma {:induction false} BuildRowsMass(q: Quantity, ks: seq<(Option<Business>, Crop)>, rows: seq<Joined>)
    ensures Sum(BuildRows(ks, rows), RowQty(q)) == SumGroups(ks, rows, JKey, JQty(q))
  {
    if |ks| > 0 {
      var r := BuildRows(ks, rows);
      assert r[1..] == BuildRows(ks[1..], rows);
      BuildRowsMass(q, ks[1..], rows);
    }
  }

  function CropOrder(k: (Option<Business>, Crop)): seq<real>
  {
    [k.1.poradi as real]
  }

  function BusinessThenCropOrder(k: (Option<Business>, Crop)): seq<real>
  {
    [(if k.0.Some? then k.0.value.poradi else 0) as real, k.1.poradi as real]
  }

  /** The group keys of `rows`, each once, in the report's order. */
  function OrderedKeys(rows: seq<Joined>, order: ((Option<Business>, Crop)) -> seq<real>): (ks: seq<(Option<Business>, Crop)>)
    ensures NoDup(ks) && SortedBy(ks, order)
    ensures forall i :: 0 <= i < |rows| ==> JKey(rows[i]) in ks
    ensures forall i :: 0 <= i < |ks| ==> exists n :: 0 <= n < |rows| && JKey(rows[n]) == ks[i]
  {
    var ks := Keys(rows, JKey);
    var sorted := SortBy(ks, order);
    PermutationNoDup(ks, sorted);
    forall i | 0 <= i < |rows|
      ensures JKey(rows[i]) in sorted
    {
      assert JKey(rows[i]) in multiset(ks);
    }
    forall i | 0 <= i < |sorted|
      ensures exists n :: 0 <= n < |rows| && JKey(rows[n]) == sorted[i]
    {
      assert sorted[i] in multiset(sorted);
      assert sorted[i] in ks;
    }
    sorted
  }

  /** Grouping and reordering neither create nor lose mass: every summed
      column of the summary adds up to the same column over the joined
      rows. */
  lemma SummaryMass(q: Quantity, rows: seq<Joined>, order: ((Option<Business>, Crop)) -> seq<real>)
    ensures Sum(BuildRows(OrderedKeys(rows, order), rows), RowQty(q)) == Sum(rows, JQty(q))
  {
    var ks := OrderedKeys(rows, order);
    BuildRowsMass(q, ks, rows);
    GroupsPreserveSum(ks, rows, JKey, JQty(q));
  }

  /** Keys of rows joined for the per-crop summary carry no business and a
      crop of the table with the requested flag; there are keys exactly
      when some field was joined. */
  /** A crop key of the per-crop summary: no business, and a crop of the
      table with the requested flag. */
  predicate CropKey(k: (Option<Business>, Crop), crops: seq<Crop>, flag: string)
  {
    k.0.None? && k.1 in crops && k.1.enableMainTable == flag
  }

  lemma KeysOfCropRows(rows: seq<Joined>, ks: seq<(Option<Business>, Crop)>, crops: seq<Crop>, flag: string)
    requires forall n :: 0 <= n < |rows| ==> CropKey(JKey(rows[n]), crops, flag)
    requires forall i :: 0 <= i < |ks| ==> exists n :: 0 <= n < |rows| && JKey(rows[n]) == ks[i]
    ensures forall i :: 0 <= i < |ks| ==> CropKey(ks[i], crops, flag)
  {
    forall i | 0 <= i < |ks|
      ensures CropKey(ks[i], crops, flag)
    {
      var n :| 0 <= n < |rows| && JKey(rows[n]) == ks[i];
    }
  }

  lemma CropKeys(fields: seq<Field>, crops: seq<Crop>, year: int, flag: string)
    ensures var ks := OrderedKeys(JoinCrops(fields, crops, year, flag), CropOrder);
      (forall i :: 0 <= i < |ks| ==> CropKey(ks[i], crops, flag))
      && (|ks| == 0 <==> |JoinCrops(fields, crops, year, flag)| == 0)
  {
    var rows := JoinCrops(fields, crops, year, flag);
    var ks := OrderedKeys(rows, CropOrder);
    assert forall n :: 0 <= n < |rows| ==> CropKey(JKey(rows[n]), crops, flag);
    KeysOfCropRows(rows, ks, crops, flag);
    if |rows| > 0 {
      assert JKey(rows[0]) in ks;
    }
  }

  lemma PoleRowsKnown(fields: seq<Field>, crops: seq<Crop>, year: int, flag: string)
    ensures var rows := JoinCrops(fields, crops, year, flag);
      var r := BuildRows(OrderedKeys(rows, CropOrder), rows);
      (forall i :: 0 <= i < |r| ==> CropKey((r[i].business, r[i].crop), crops, flag))
      && (|r| == 0 <==> |rows| == 0)
  {
    CropKeys(fields, crops, year, flag);
  }

  lemma PoleRowsSorted(rows: seq<Joined>)
    ensures var r := BuildRows(OrderedKeys(rows, CropOrder), rows);
      forall i :: 0 <= i < |r| - 1 ==> r[i].crop.poradi <= r[i + 1].crop.poradi
  {
    var ks := OrderedKeys(rows, CropOrder);
    var r := BuildRows(ks, rows);
    forall i | 0 <= i < |r| - 1
      ensures r[i].crop.poradi <= r[i + 1].crop.poradi
    {
      assert LexLe(CropOrder(ks[i]), CropOrder(ks[i + 1]));
      LexSingle(ks[i].1.poradi as real, ks[i + 1].1.poradi as real);
    }
  }

  /** `get_pole_summary_by_year`: per-crop totals for one harvest year over
      the crops whose main-table flag equals `flag`, ordered by `poradi`. */
  function PoleSummary(fields: seq<Field>, crops: seq<Crop>, year: int, flag: string): (r: seq<SummaryRow>)
    ensures forall i :: 0 <= i < |r| - 1 ==> r[i].crop.poradi <= r[i + 1].crop.poradi
    ensures |r| == 0 <==> |JoinCrops(fields, crops, year, flag)| == 0
    ensures forall i :: 0 <= i < |r| ==> CropKey((r[i].business, r[i].crop), crops, flag)
    ensures forall i :: 0 <= i < |r| ==> r[i].cistyVynos == CalculateVynos(r[i].totals.cistaVaha, r[i].totals.vymera)
    ensures forall i, j :: 0 <= i < j < |r| ==> r[i].crop != r[j].crop
    ensures forall i :: 0 <= i < |r| ==> r[i].totals == TotalsOf(Group(JoinCrops(fields, crops, year, flag), JKey, RowKey(r[i])))
    ensures forall n :: 0 <= n < |JoinCrops(fields, crops, year, flag)| ==>
      JKey(JoinCrops(fields, crops, year, flag)[n]) in MapSeq(r, RowKey)
  {
    var rows := JoinCrops(fields, crops, year, flag);
    PoleFacts(fields, crops, year, flag);
    SummaryGroups(rows, OrderedKeys(rows, CropOrder));
    BuildRows(OrderedKeys(rows, CropOrder), rows)
  }

  lemma PoleFacts(fields: seq<Field>, crops: seq<Crop>, year: int, flag: string)
    ensures var rows := JoinCrops(fields, crops, year, flag);
      var r := BuildRows(OrderedKeys(rows, CropOrder), rows);
      (forall i :: 0 <= i < |r| - 1 ==> r[i].crop.poradi <= r[i + 1].crop.poradi)
      && (|r| == 0 <==> |rows| == 0)
      && (forall i :: 0 <= i < |r| ==> CropKey((r[i].business, r[i].crop), crops, flag))
      && (forall i, j :: 0 <= i < j < |r| ==> r[i].crop != r[j].crop)
  {
    var rows := JoinCrops(fields, crops, year, flag);
    PoleRowsKnown(fields, crops, year, flag);
    RowsDistinct(rows, OrderedKeys(rows, CropOrder));
    PoleRowsSorted(rows);
  }

  /** The per-crop summary's columns add up to the year's joined fields. */
  lemma PoleSummaryMass(q: Quantity, fields: seq<Field>, crops: seq<Crop>, year: int, flag: string)
    ensures Sum(PoleSummary(fields, crops, year, flag), RowQty(q))
         == Sum(JoinCrops(fields, crops, year, flag), JQty(q))
  {
    SummaryMass(q, JoinCrops(fields, crops, year, flag), CropOrder);
  }

  /** The report order of a per-business summary row. */
  function RowRank(row: SummaryRow): seq<real>
  {
    BusinessThenCropOrder((row.business, row.crop))
  }

  /** `get_pole_podniky_summary_by_year`: totals per (business, crop) for
      one harvest year, ordered by business `poradi` then crop `poradi`;
      fields whose business is unknown are left out. */
  function PodnikySummary(fields: seq<Field>, crops: seq<Crop>, businesses: seq<Business>, year: int, flag: string)
    : (r: seq<SummaryRow>)
    ensures forall i :: 0 <= i < |r| ==> KnownKey((r[i].business, r[i].crop), crops, businesses, flag)
    ensures forall i :: 0 <= i < |r| ==> r[i].cistyVynos == CalculateVynos(r[i].totals.cistaVaha, r[i].totals.vymera)
    ensures forall i, j :: 0 <= i < j < |r| ==> (r[i].business, r[i].crop) != (r[j].business, r[j].crop)
    ensures SortedBy(r, RowRank)
    ensures forall i :: 0 <= i < |r| - 1 ==> RankedPair(r[i], r[i + 1])
    ensures var rows := JoinBusinesses(JoinCrops(fields, crops, year, flag), businesses);
      forall i :: 0 <= i < |r| ==> r[i].totals == TotalsOf(Group(rows, JKey, RowKey(r[i])))
    ensures var rows := JoinBusinesses(JoinCrops(fields, crops, year, flag), businesses);
      forall n :: 0 <= n < |rows| ==> JKey(rows[n]) in MapSeq(r, RowKey)
  {
    var rows := JoinBusinesses(JoinCrops(fields, crops, year, flag), businesses);
    PodnikyFacts(fields, crops, businesses, year, flag);
    PodnikyRanked(fields, crops, businesses, year, flag);
    SummaryGroups(rows, OrderedKeys(rows, BusinessThenCropOrder));
    BuildRows(OrderedKeys(rows, BusinessThenCropOrder), rows)
  }

  lemma PodnikyFacts(fields: seq<Field>, crops: seq<Crop>, businesses: seq<Business>, year: int, flag: string)
    ensures var rows := JoinBusinesses(JoinCrops(fields, crops, year, flag), businesses);
      var r := BuildRows(OrderedKeys(rows, BusinessThenCropOrder), rows);
      (forall i :: 0 <= i < |r| ==> KnownKey((r[i].business, r[i].crop), crops, businesses, flag))
      && (forall i, j :: 0 <= i < j < |r| ==> (r[i].business, r[i].crop) != (r[j].business, r[j].crop))
      && SortedBy(r, RowRank)
  {
    var rows := JoinBusinesses(JoinCrops(fields, crops, year, flag), businesses);
    PodnikyRowsKnown(fields, crops, businesses, year, flag);
    RowsDistinct(rows, OrderedKeys(rows, BusinessThenCropOrder));
    PodnikyRowsSorted(rows);
  }

  lemma PodnikyRanked(fields: seq<Field>, crops: seq<Crop>, businesses: seq<Business>, year: int, flag: string)
    ensures var rows := JoinBusinesses(JoinCrops(fields, crops, year, flag), businesses);
      var r := BuildRows(OrderedKeys(rows, BusinessThenCropOrder), rows);
      forall i :: 0 <= i < |r| - 1 ==> RankedPair(r[i], r[i + 1])
  {
    var rows := JoinBusinesses(JoinCrops(fields, crops, year, flag), businesses);
    PodnikyKeys(fields, crops, businesses, year, flag);
    RankedKeys(OrderedKeys(rows, BusinessThenCropOrder), rows);
  }

  lemma PodnikyRowsKnown(fields: seq<Field>, crops: seq<Crop>, businesses: seq<Business>, year: int, flag: string)
    ensures var rows := JoinBusinesses(JoinCrops(fields, crops, year, flag), businesses);
      var r := BuildRows(OrderedKeys(rows, BusinessThenCropOrder), rows);
      forall i :: 0 <= i < |r| ==> KnownKey((r[i].business, r[i].crop), crops, businesses, flag)
  {
    PodnikyKeys(fields, crops, businesses, year, flag);
  }

  /** A summary never lists the same (business, crop) twice. */
  lemma RowsDistinct(rows: seq<Joined>, ks: seq<(Option<Business>, Crop)>)
    requires NoDup(ks)
    ensures var r := BuildRows(ks, rows);
      forall i, j :: 0 <= i < j < |r| ==> (r[i].business, r[i].crop) != (r[j].business, r[j].crop)
  {
    var r := BuildRows(ks, rows);
    assert MapSeq(r, RowKey) == ks;
  }

  /** Rows built from keys sorted by business then crop rank are sorted
      the same way. */
  lemma BuildRowsSorted(ks: seq<(Option<Business>, Crop)>, rows: seq<Joined>)
    requires SortedBy(ks, BusinessThenCropOrder)
    ensures SortedBy(BuildRows(ks, rows), RowRank)
  {
    var r := BuildRows(ks, rows);
    forall i | 0 <= i < |r| - 1
      ensures LexLe(RowRank(r[i]), RowRank(r[i + 1]))
    {
      assert (r[i].business, r[i].crop) == ks[i];
      assert (r[i + 1].business, r[i + 1].crop) == ks[i + 1];
    }
  }

  lemma PodnikyRowsSorted(rows: seq<Joined>)
    ensures SortedBy(BuildRows(OrderedKeys(rows, BusinessThenCropOrder), rows), RowRank)
  {
    BuildRowsSorted(OrderedKeys(rows, BusinessThenCropOrder), rows);
  }

  /** `a` may come before `b` in the per-business summary: both have a
      business, and `a`'s business `poradi` is lower, or equal with a crop
      `poradi` no higher. */
  predicate RankedPair(a: SummaryRow, b: SummaryRow)
  {
    a.business.Some? && b.business.Some?
    && (a.business.value.poradi < b.business.value.poradi
        || (a.business.value.poradi == b.business.value.poradi && a.crop.poradi <= b.crop.poradi))
  }

  /** Rows built from keys sorted by business rank then crop rank list
      businesses by `poradi` and, within a business, crops by `poradi`. */
  lemma RankedKeys(ks: seq<(Option<Business>, Crop)>, rows: seq<Joined>)
    requires SortedBy(ks, BusinessThenCropOrder)
    requires forall i :: 0 <= i < |ks| ==> ks[i].0.Some?
    ensures var r := BuildRows(ks, rows);
      forall i :: 0 <= i < |r| - 1 ==> RankedPair(r[i], r[i + 1])
  {
    var r := BuildRows(ks, rows);
    forall i | 0 <= i < |r| - 1
      ensures RankedPair(r[i], r[i + 1])
    {
      assert LexLe(BusinessThenCropOrder(ks[i]), BusinessThenCropOrder(ks[i + 1]));
      LexPair(ks[i].0.value.poradi as real, ks[i].1.poradi as real,
              ks[i + 1].0.value.poradi as real, ks[i + 1].1.poradi as real);
    }
  }



  /** Every row joined for the per-business summary has a known business
      and a crop of the table with the requested flag. */
  lemma PodnikyRows(fields: seq<Field>, crops: seq<Crop>, businesses: seq<Business>, year: int, flag: string)
    ensures var rows := JoinBusinesses(JoinCrops(fields, crops, year, flag), businesses);
      forall n :: 0 <= n < |rows| ==> KnownKey(JKey(rows[n]), crops, businesses, flag)
  {
    var joined := JoinCrops(fields, crops, year, flag);
    var rows := JoinBusinesses(joined, businesses);
    forall n | 0 <= n < |rows|
      ensures KnownKey(JKey(rows[n]), crops, businesses, flag)
    {
      var k :| 0 <= k < |joined| && joined[k].field == rows[n].field && joined[k].crop == rows[n].crop;
    }
  }

  /** A (business, crop) key of the per-business summary: a business on
      file and a crop of the table with the requested flag. */
  predicate KnownKey(k: (Option<Business>, Crop), crops: seq<Crop>, businesses: seq<Business>, flag: string)
  {
    k.0.Some? && k.0.value in businesses && k.1 in crops && k.1.enableMainTable == flag
  }

  lemma KeysOfKnownRows(rows: seq<Joined>, ks: seq<(Option<Business>, Crop)>, crops: seq<Crop>, businesses: seq<Business>, flag: string)
    requires forall n :: 0 <= n < |rows| ==> KnownKey(JKey(rows[n]), crops, businesses, flag)
    requires forall i :: 0 <= i < |ks| ==> exists n :: 0 <= n < |rows| && JKey(rows[n]) == ks[i]
    ensures forall i :: 0 <= i < |ks| ==> KnownKey(ks[i], crops, businesses, flag)
  {
    forall i | 0 <= i < |ks|
      ensures KnownKey(ks[i], crops, businesses, flag)
    {
      var n :| 0 <= n < |rows| && JKey(rows[n]) == ks[i];
    }
  }

  lemma PodnikyKeys(fields: seq<Field>, crops: seq<Crop>, businesses: seq<Business>, year: int, flag: string)
    ensures var ks := OrderedKeys(JoinBusinesses(JoinCrops(fields, crops, year, flag), businesses), BusinessThenCropOrder);
      forall i :: 0 <= i < |ks| ==> KnownKey(ks[i], crops, businesses, flag)
  {
    var rows := JoinBusinesses(JoinCrops(fields, crops, year, flag), businesses);
    var ks := OrderedKeys(rows, BusinessThenCropOrder);
    PodnikyRows(fields, crops, businesses, year, flag);
    KeysOfKnownRows(rows, ks, crops, businesses, flag);
  }

  /** The per-business summary's columns add up to the year's joined
      fields whose business is known. */
  lemma PodnikySummaryMass(q: Quantity, fields: seq<Field>, crops: seq<Crop>, businesses: seq<Business>, year: int, flag: string)
    ensures Sum(PodnikySummary(fields, crops, businesses, year, flag), RowQty(q))
         == Sum(JoinBusinesses(JoinCrops(fields, crops, year, flag), businesses), JQty(q))
  {
    SummaryMass(q, JoinBusinesses(JoinCrops(fields, crops, year, flag), businesses), BusinessThenCropOrder);
  }

  /** When every field's business is on file, the business join keeps all
      the mass, so both yearly summaries report the same totals. */
  lemma {:induction false} JoinBusinessesKeepsMass(q: Quantity, rows: seq<Joined>, businesses: seq<Business>)
    requires forall i :: 0 <= i < |rows| ==> FindById(businesses, BusinessId, rows[i].field.podnikId).Some?
    ensures Sum(JoinBusinesses(rows, businesses), JQty(q)) == Sum(rows, JQty(q))
  {
    if |rows| > 0 {
      JoinBusinessesKeepsMass(q, rows[1..], businesses);
      var rest := JoinBusinesses(rows[1..], businesses);
      var j := rows[0];
      var b := FindById(businesses, BusinessId, j.field.podnikId);
      assert JoinBusinesses(rows, businesses) == [Joined(j.field, j.crop, b)] + rest;
      assert ([Joined(j.field, j.crop, b)] + rest)[1..] == rest;
    }
  }

  lemma SummariesAgree(q: Quantity, fields: seq<Field>, crops: seq<Crop>, businesses: seq<Business>, year: int, flag: string)
    requires forall f :: f in fields ==> FindById(businesses, BusinessId, f.podnikId).Some?
    ensures Sum(PodnikySummary(fields, crops, businesses, year, flag), RowQty(q))
         == Sum(PoleSummary(fields, crops, year, flag), RowQty(q))
  {
    var joined := JoinCrops(fields, crops, year, flag);
    PodnikySummaryMass(q, fields, crops, businesses, year, flag);
    PoleSummaryMass(q, fields, crops, year, flag);
    JoinBusinessesKeepsMass(q, joined, businesses);
  }

  /** One land-type row of `get_pozemky_summary_by_year`. */
  datatype LandRow = LandRow(nazev: string, poradi: int, vymera: real, procento: real)

  /** Plots of the year joined with their land type; plots of an unknown
      type drop out, as pandas drops missing group keys. */
  function JoinTypes(plots: seq<Plot>, types: seq<PlotType>, year: int): (r: seq<(Plot, PlotType)>)
    ensures forall i :: 0 <= i < |r| ==>
      (r[i].0 in plots && r[i].0.year == year && FindById(types, TypeId, r[i].0.nazevId) == Some(r[i].1))
  {
    if |plots| == 0 then []
    else
      var p := plots[0];
      var t := FindById(types, TypeId, p.nazevId);
      assert plots == [p] + plots[1..];
      (if p.year == year && t.Some? then [(p, t.value)] else []) + JoinTypes(plots[1..], types, year)
  }

  /** No plot of the year whose type is known is lost by the join. */
  lemma {:induction false} JoinTypesComplete(plots: seq<Plot>, types: seq<PlotType>, year: int, k: int)
    requires 0 <= k < |plots| && plots[k].year == year && FindById(types, TypeId, plots[k].nazevId).Some?
    ensures (plots[k], FindById(types, TypeId, plots[k].nazevId).value) in JoinTypes(plots, types, year)
  {
    if k > 0 {
      JoinTypesComplete(plots[1..], types, year, k - 1);
    }
  }

  function LandKey(pt: (Plot, PlotType)): (string, int)
  {
    (pt.1.nazev, pt.1.poradi)
  }

  function PlotSize(pt: (Plot, PlotType)): real
  {
    pt.0.velikost
  }

  function LandOrder(k: (string, int)): seq<real>
  {
    [k.1 as real]
  }

  function LandArea(r: LandRow): real
  {
    r.vymera
  }

  function LandPct(r: LandRow): real
  {
    r.procento
  }

  /** Land rows without percentages, one per (name, order) key. */
  function LandRows(ks: seq<(string, int)>, rows: seq<(Plot, PlotType)>): (r: seq<LandRow>)
    ensures |r| == |ks|
    ensures forall i :: 0 <= i < |r| ==>
      r[i] == LandRow(ks[i].0, ks[i].1, Sum(Group(rows, LandKey, ks[i]), PlotSize), 0.0)
    ensures Sum(r, LandArea) == SumGroups(ks, rows, LandKey, PlotSize)
  {
    if |ks| == 0 then []
    else
      var r := [LandRow(ks[0].0, ks[0].1, Sum(Group(rows, LandKey, ks[0]), PlotSize), 0.0)] + LandRows(ks[1..], rows);
      assert r[1..] == LandRows(ks[1..], rows);
      r
  }

  /** The key of a land row. */
  function LandRowKey(row: LandRow): (string, int)
  {
    (row.nazev, row.poradi)
  }

  /** Each land row holds the area of exactly the plots with its key, and
      every plot's key has a row. */
  lemma LandGroups(ks: seq<(string, int)>, rows: seq<(Plot, PlotType)>)
    requires forall n :: 0 <= n < |rows| ==> LandKey(rows[n]) in ks
    ensures var r := LandRows(ks, rows);
      (forall i :: 0 <= i < |r| ==> r[i].vymera == Sum(Group(rows, LandKey, LandRowKey(r[i])), PlotSize))
      && (forall n :: 0 <= n < |rows| ==> LandKey(rows[n]) in MapSeq(r, LandRowKey))
  {
    var r := LandRows(ks, rows);
    assert MapSeq(r, LandRowKey) == ks;
  }

  /** Python's percentage column: each area's share of the total, rounded. */
  function WithPercent(rows: seq<LandRow>, total: real): (r: seq<LandRow>)
    ensures |r| == |rows|
    ensures forall i :: 0 <= i < |r| ==>
      (r[i].nazev == rows[i].nazev && r[i].poradi == rows[i].poradi && r[i].vymera == rows[i].vymera)
    ensures total <= 0.0 ==> forall i :: 0 <= i < |r| ==> r[i].procento == 0.0
    ensures total > 0.0 ==> forall i :: 0 <= i < |r| ==>
      -0.005 <= r[i].procento - rows[i].vymera / total * 100.0 <= 0.005
    ensures Sum(r, LandArea) == Sum(rows, LandArea)
  {
    if |rows| == 0 then []
    else
      var x := rows[0];
      var pct := if total > 0.0 then Round2(x.vymera / total * 100.0) else 0.0;
      var r := [LandRow(x.nazev, x.poradi, x.vymera, pct)] + WithPercent(rows[1..], total);
      assert r[1..] == WithPercent(rows[1..], total);
      r
  }

  /** Area per land type for one year, ordered by `poradi`, before the
      percentage column is added. */
  function LandBase(plots: seq<Plot>, types: seq<PlotType>, year: int): (r: seq<LandRow>)
    ensures forall i :: 0 <= i < |r| - 1 ==> r[i].poradi <= r[i + 1].poradi
    ensures forall i, j :: 0 <= i < j < |r| ==> (r[i].nazev, r[i].poradi) != (r[j].nazev, r[j].poradi)
    ensures Sum(r, LandArea) == Sum(JoinTypes(plots, types, year), PlotSize)
    ensures var rows := JoinTypes(plots, types, year);
      forall i :: 0 <= i < |r| ==> r[i].vymera == Sum(Group(rows, LandKey, LandRowKey(r[i])), PlotSize)
    ensures var rows := JoinTypes(plots, types, year);
      forall n :: 0 <= n < |rows| ==> LandKey(rows[n]) in MapSeq(r, LandRowKey)
  {
    var rows := JoinTypes(plots, types, year);
    var ks0 := Keys(rows, LandKey);
    var ks := SortBy(ks0, LandOrder);
    PermutationNoDup(ks0, ks);
    forall i | 0 <= i < |rows|
      ensures LandKey(rows[i]) in ks
    {
      assert LandKey(rows[i]) in multiset(ks0);
    }
    GroupsPreserveSum(ks, rows, LandKey, PlotSize);
    LandGroups(ks, rows);
    forall i | 0 <= i < |ks| - 1
      ensures ks[i].1 <= ks[i + 1].1
    {
      assert LexLe(LandOrder(ks[i]), LandOrder(ks[i + 1]));
      LexSingle(ks[i].1 as real, ks[i + 1].1 as real);
    }
    LandRows(ks, rows)
  }

  /** `get_pozemky_summary_by_year`: plot area per land type for one year,
      with each type's percentage of the total, ordered by `poradi`; empty
      when there are no land types. */
  function PozemkySummary(plots: seq<Plot>, types: seq<PlotType>, year: int): (r: seq<LandRow>)
    ensures |types| == 0 ==> r == []
    ensures forall i :: 0 <= i < |r| - 1 ==> r[i].poradi <= r[i + 1].poradi
    ensures forall i, j :: 0 <= i < j < |r| ==> (r[i].nazev, r[i].poradi) != (r[j].nazev, r[j].poradi)
    ensures Sum(r, LandArea) == Sum(JoinTypes(plots, types, year), PlotSize)
    ensures var rows := JoinTypes(plots, types, year);
      forall i :: 0 <= i < |r| ==> r[i].vymera == Sum(Group(rows, LandKey, LandRowKey(r[i])), PlotSize)
    ensures var rows := JoinTypes(plots, types, year);
      forall n :: 0 <= n < |rows| ==> LandKey(rows[n]) in MapSeq(r, LandRowKey)
    ensures var total := Sum(JoinTypes(plots, types, year), PlotSize);
      total <= 0.0 ==> forall i :: 0 <= i < |r| ==> r[i].procento == 0.0
    ensures var total := Sum(JoinTypes(plots, types, year), PlotSize);
      total > 0.0 ==> forall i :: 0 <= i < |r| ==> -0.005 <= r[i].procento - r[i].vymera / total * 100.0 <= 0.005
  {
    if |types| == 0 then
      NoTypesNoRows(plots, types, year);
      []
    else
      PozemkyFacts(plots, types, year);
      var base := LandBase(plots, types, year);
      WithPercent(base, Sum(base, LandArea))
  }

  lemma PozemkyFacts(plots: seq<Plot>, types: seq<PlotType>, year: int)
    ensures var rows := JoinTypes(plots, types, year);
      var total := Sum(rows, PlotSize);
      var base := LandBase(plots, types, year);
      var r := WithPercent(base, Sum(base, LandArea));
      (forall i :: 0 <= i < |r| ==> r[i].vymera == Sum(Group(rows, LandKey, LandRowKey(r[i])), PlotSize))
      && (forall n :: 0 <= n < |rows| ==> LandKey(rows[n]) in MapSeq(r, LandRowKey))
      && (total <= 0.0 ==> forall i :: 0 <= i < |r| ==> r[i].procento == 0.0)
      && (total > 0.0 ==> forall i :: 0 <= i < |r| ==> -0.005 <= r[i].procento - r[i].vymera / total * 100.0 <= 0.005)
  {
    var base := LandBase(plots, types, year);
    PercentKeepsKeys(base, Sum(base, LandArea));
  }

  /** Adding the percentage column keeps every row's key. */
  lemma PercentKeepsKeys(rows: seq<LandRow>, total: real)
    ensures MapSeq(WithPercent(rows, total), LandRowKey) == MapSeq(rows, LandRowKey)
  {
  }

  /** Without land types no plot joins. */
  lemma {:induction false} NoTypesNoRows(plots: seq<Plot>, types: seq<PlotType>, year: int)
    requires |types| == 0
    ensures JoinTypes(plots, types, year) == []
  {
    if |plots| > 0 {
      NoTypesNoRows(plots[1..], types, year);
    }
  }

  lemma DivAdd(a: real, b: real, t: real)
    requires t > 0.0
    ensures (a + b) / t * 100.0 == a / t * 100.0 + b / t * 100.0
  {
  }

  lemma DivSelf(t: real)
    requires t > 0.0
    ensures t / t * 100.0 == 100.0
  {
  }

  /** The rounded percentages of the land summary add up to 100 up to the
      rounding of each row. */
  lemma PercentagesNearHundred(plots: seq<Plot>, types: seq<PlotType>, year: int)
    requires Sum(PozemkySummary(plots, types, year), LandArea) > 0.0
    ensures var r := PozemkySummary(plots, types, year);
      -0.005 * |r| as real <= Sum(r, LandPct) - 100.0 <= 0.005 * |r| as real
  {
    if |types| > 0 {
      var base := LandBase(plots, types, year);
      var total := Sum(base, LandArea);
      var r := WithPercent(base, total);
      assert PozemkySummary(plots, types, year) == r;
      assert Sum(r, LandArea) == total;
      PercentSum(base, total);
      DivSelf(total);
    }
  }

  lemma {:induction false} PercentSum(rows: seq<LandRow>, total: real)
    requires total > 0.0
    ensures var r := WithPercent(rows, total);
      -0.005 * |r| as real <= Sum(r, LandPct) - Sum(rows, LandArea) / total * 100.0 <= 0.005 * |r| as real
  {
    if |rows| > 0 {
      PercentSum(rows[1..], total);
      var r := WithPercent(rows, total);
      assert r[1..] == WithPercent(rows[1..], total);
      var a := rows[0].vymera;
      var rest := Sum(rows[1..], LandArea);
      assert Sum(rows, LandArea) == a + rest;
      assert Sum(r, LandPct) == r[0].procento + Sum(r[1..], LandPct);
      DivAdd(a, rest, total);
    }
  }

  /** A crop-total row ("sumplodiny"): a business's net weight of one crop
      in one year, used when fields lack it. */
  datatype CropTotal = CropTotal(podnikId: int, plodinaId: int, year: int, cistaVaha: real)

  datatype MissingFill = MissingFill(cistaVaha: real, fromSumplodiny: bool)

  predicate TotalMatches(t: CropTotal, podnikId: int, plodinaId: int, year: int)
  {
    t.podnikId == podnikId && t.plodinaId == plodinaId && t.year == year
  }

  /** The crop-total lookup as intended: the first matching crop total's
      weight, flagged as taken from the totals table; otherwise 0,
      unflagged. */
  function SumPlodinyForMissing(totals: seq<CropTotal>, podnikId: int, plodinaId: int, year: int): (r: MissingFill)
    ensures r.fromSumplodiny <==> exists i :: 0 <= i < |totals| && TotalMatches(totals[i], podnikId, plodinaId, year)
    ensures !r.fromSumplodiny ==> r.cistaVaha == 0.0
  {
    if |totals| == 0 then MissingFill(0.0, false)
    else if TotalMatches(totals[0], podnikId, plodinaId, year) then MissingFill(totals[0].cistaVaha, true)
    else
      assert forall i :: 1 <= i < |totals| ==> totals[i] == totals[1..][i - 1];
      SumPlodinyForMissing(totals[1..], podnikId, plodinaId, year)
  }

  /** The weight found is the one of the FIRST matching row. */
  lemma {:induction false} SumPlodinyTakesFirst(totals: seq<CropTotal>, podnikId: int, plodinaId: int, year: int, i: int)
    requires 0 <= i < |totals| && TotalMatches(totals[i], podnikId, plodinaId, year)
    requires forall j :: 0 <= j < i ==> !TotalMatches(totals[j], podnikId, plodinaId, year)
    ensures SumPlodinyForMissing(totals, podnikId, plodinaId, year) == MissingFill(totals[i].cistaVaha, true)
  {
    if i > 0 {
      SumPlodinyTakesFirst(totals[1..], podnikId, plodinaId, year, i - 1);
    }
  }

  /** The outcome of `get_sum_plodiny_for_missing` as written: a fill, or
      the `KeyError` of a column the table lacks. */
  datatype TotalsLookup = Filled(fill: MissingFill) | MissingTotalsColumn(column: string)

  /** `get_sum_plodiny_for_missing` as written: the mask reads the columns
      `podnik_id`, `plodina_id` and `year` in that order, and a match then
      reads `cista_vaha`; the first column the table lacks stops the
      lookup. With all of them present it is the intended lookup. */
  function SumPlodinyAsWritten(header: set<string>, totals: seq<CropTotal>, podnikId: int, plodinaId: int, year: int)
    : (r: TotalsLookup)
    ensures "podnik_id" !in header ==> r == MissingTotalsColumn("podnik_id")
    ensures "podnik_id" in header && "plodina_id" !in header ==> r == MissingTotalsColumn("plodina_id")
    ensures "podnik_id" in header && "plodina_id" in header && "year" !in header ==> r == MissingTotalsColumn("year")
    ensures "podnik_id" in header && "plodina_id" in header && "year" in header ==>
      (r == MissingTotalsColumn("cista_vaha") <==>
        "cista_vaha" !in header && exists i :: 0 <= i < |totals| && TotalMatches(totals[i], podnikId, plodinaId, year))
    ensures r.Filled? ==> r.fill == SumPlodinyForMissing(totals, podnikId, plodinaId, year)
  {
    if "podnik_id" !in header then MissingTotalsColumn("podnik_id")
    else if "plodina_id" !in header then MissingTotalsColumn("plodina_id")
    else if "year" !in header then MissingTotalsColumn("year")
    else
      var fill := SumPlodinyForMissing(totals, podnikId, plodinaId, year);
      if fill.fromSumplodiny && "cista_vaha" !in header then MissingTotalsColumn("cista_vaha")
      else Filled(fill)
  }

  /** The crop-totals page writes the columns `Year`, `PlodinaID`,
      `CistaVaha` and `PodnikID` (and the data manager an `id`), and a
      missing file reads as a frame without columns: on either table the
      lookup as written always stops on `podnik_id`. */
  lemma AppTableStopsLookup(totals: seq<CropTotal>, podnikId: int, plodinaId: int, year: int)
    ensures SumPlodinyAsWritten({"id", "Year", "PlodinaID", "CistaVaha", "PodnikID"}, totals, podnikId, plodinaId, year)
         == MissingTotalsColumn("podnik_id")
    ensures SumPlodinyAsWritten({}, totals, podnikId, plodinaId, year) == MissingTotalsColumn("podnik_id")
  {
  }

  /** The intended lookup finds a total the crop-totals page has just
      added, when no earlier row matches it. */
  lemma AddedTotalFound(totals: seq<CropTotal>, t: CropTotal)
    requires forall j :: 0 <= j < |totals| ==> !TotalMatches(totals[j], t.podnikId, t.plodinaId, t.year)
    ensures SumPlodinyForMissing(totals + [t], t.podnikId, t.plodinaId, t.year) == MissingFill(t.cistaVaha, true)
  {
    var all := totals + [t];
    assert all[|totals|] == t;
    assert forall j :: 0 <= j < |totals| ==> all[j] == totals[j];
    SumPlodinyTakesFirst(all, t.podnikId, t.plodinaId, t.year, |totals|);
  }
}

=== FILE: api.dfy ===
/** The public data API: reading a table into JSON-ready records, the
    `/data` endpoint that tags every record with its table name, the
    filtered endpoints and the summary statistics. */
module Api {
  import opened Wrappers
  import opened Seqs
  import opened Records
  import Numeric
  import Aggregations

  /** A cell as pandas hands it over: a number, a string, NaN, an
      infinity, or an explicit None. */
  datatype Value = Num(x: real) | Str(s: string) | NaN | PosInf | NegInf | Null

  /** A record: column name to cell. */
  type Rec = map<string, Value>

  /** JSON can carry numbers, strings and null only. */
  predicate JsonSafe(v: Value)
  {
    v.Num? || v.Str? || v.Null?
  }

  predicate CleanRec(r: Rec)
  {
    forall k :: k in r ==> JsonSafe(r[k])
  }

  /** NaN and both infinities become None; everything else is kept. */
  function CleanValue(v: Value): (r: Value)
    ensures JsonSafe(r)
    ensures JsonSafe(v) <==> r == v
  {
    if JsonSafe(v) then v else Null
  }

  function CleanRecord(r: Rec): (c: Rec)
    ensures c.Keys == r.Keys
    ensures CleanRec(c)
    ensures forall k :: k in r && JsonSafe(r[k]) ==> c[k] == r[k]
    ensures forall k :: k in r && !JsonSafe(r[k]) ==> c[k] == Null
  {
    map k | k in r :: CleanValue(r[k])
  }

  /** Cleaning a clean record changes nothing. */
  lemma CleanRecordFixesClean(r: Rec)
    requires CleanRec(r)
    ensures CleanRecord(r) == r
  {
    assert CleanRecord(r).Keys == r.Keys;
    forall k | k in r
      ensures CleanRecord(r)[k] == r[k]
    {
    }
  }

  /** What reading a CSV file gives: no file, an exception, or rows. */
  datatype CsvRead = NoFile | ReadFailed(message: string) | Rows(rows: seq<Rec>)

  /** `load_csv_as_dict`. */
  function LoadCsvAsDict(read: CsvRead): (r: seq<Rec>)
    ensures read.NoFile? ==> r == []
    ensures read.ReadFailed? ==> r == [map["error" := Str(read.message)]]
    ensures read.Rows? ==> |r| == |read.rows|
    ensures read.Rows? ==> forall i :: 0 <= i < |r| ==> r[i].Keys == read.rows[i].Keys && CleanRec(r[i])
  {
    match read
    case NoFile => []
    case ReadFailed(m) => [map["error" := Str(m)]]
    case Rows(rows) => seq(|rows|, i requires 0 <= i < |rows| => CleanRecord(rows[i]))
  }

  /** Loading twice cleans nothing further: the loaded rows, read back,
      load to themselves. */
  lemma LoadIdempotent(read: CsvRead)
    requires read.Rows?
    ensures LoadCsvAsDict(Rows(LoadCsvAsDict(read))) == LoadCsvAsDict(read)
  {
    var once := LoadCsvAsDict(read);
    forall i | 0 <= i < |once|
      ensures CleanRecord(once[i]) == once[i]
    {
      CleanRecordFixesClean(once[i]);
    }
  }

  /** The tables `/data` serves, in the order it serves them. */
  const DataTypes: seq<string> := ["businesses", "crops", "fields", "pozemky", "varieties_seed", "sbernamista",
                                   "sbernasrazky", "typpozemek", "roky", "sumplodiny", "userpodniky", "odpisy"]

  function FileOf(dataType: string): string
  {
    dataType + ".csv"
  }

  const TypeKey := "_type"

  /** A record marked with the table it came from. */
  function Tag(r: Rec, dataType: string): (t: Rec)
    ensures t.Keys == r.Keys + {TypeKey}
    ensures t[TypeKey] == Str(dataType)
    ensures forall k :: k in r && k != TypeKey ==> t[k] == r[k]
  {
    r[TypeKey := Str(dataType)]
  }

  function TagAll(rs: seq<Rec>, dataType: string): (r: seq<Rec>)
    ensures |r| == |rs|
    ensures forall i :: 0 <= i < |r| ==> r[i] == Tag(rs[i], dataType)
  {
    seq(|rs|, i requires 0 <= i < |rs| => Tag(rs[i], dataType))
  }

  function AllRecords(types: seq<string>, read: string -> CsvRead): (r: seq<Rec>)
    ensures forall i :: 0 <= i < |r| ==> TypeKey in r[i] && r[i][TypeKey].Str? && r[i][TypeKey].s in types
  {
    if |types| == 0 then []
    else TagAll(LoadCsvAsDict(read(FileOf(types[0]))), types[0]) + AllRecords(types[1..], read)
  }

  /** `/data`: every table's records, table after table, each tagged
      with its table name. `read` stands for the file system. */
  function GetAllData(read: string -> CsvRead): (r: seq<Rec>)
    ensures forall i :: 0 <= i < |r| ==> TypeKey in r[i] && r[i][TypeKey].Str? && r[i][TypeKey].s in DataTypes
  {
    AllRecords(DataTypes, read)
  }

  /** `/data/fields`: each filter applies only when given; a missing file
      gives no rows. A NaN crop id matches no crop filter. */
  predicate FieldMatches(f: Field, year: Option<int>, businessId: Option<int>, cropId: Option<int>)
  {
    (year.None? || f.rokSklizne == year.value) &&
    (businessId.None? || f.podnikId == businessId.value) &&
    (cropId.None? || f.plodinaId == Some(cropId.value))
  }

  function FieldQuery(year: Option<int>, businessId: Option<int>, cropId: Option<int>): Field -> bool
  {
    (f: Field) => FieldMatches(f, year, businessId, cropId)
  }

  function GetFields(file: Option<seq<Field>>, year: Option<int>, businessId: Option<int>, cropId: Option<int>)
    : (r: seq<Field>)
    ensures file.None? ==> r == []
    ensures file.Some? ==> forall f :: f in r <==> f in file.value && FieldMatches(f, year, businessId, cropId)
    ensures file.Some? ==> Embeds(r, file.value)
    ensures file.Some? ==> forall f :: multiset(r)[f] == if FieldMatches(f, year, businessId, cropId) then multiset(file.value)[f] else 0
    ensures file.Some? && year.None? && businessId.None? && cropId.None? ==> r == file.value
  {
    match file
    case None => []
    case Some(fields) =>
      var r := Filter(fields, FieldQuery(year, businessId, cropId));
      FilterEmbeds(fields, FieldQuery(year, businessId, cropId));
      forall f
        ensures multiset(r)[f] == if FieldMatches(f, year, businessId, cropId) then multiset(fields)[f] else 0
      {
        FilterMultiplicity(fields, FieldQuery(year, businessId, cropId), f);
      }
      if year.None? && businessId.None? && cropId.None? then
        FilterAll(fields, FieldQuery(year, businessId, cropId));
        r
      else r
  }

  /** Querying the answer of a query again with the same filters gives
      the same answer. */
  lemma GetFieldsIdempotent(fields: seq<Field>, year: Option<int>, businessId: Option<int>, cropId: Option<int>)
    ensures GetFields(Some(GetFields(Some(fields), year, businessId, cropId)), year, businessId, cropId)
         == GetFields(Some(fields), year, businessId, cropId)
  {
    FilterIdempotent(fields, FieldQuery(year, businessId, cropId));
  }

  function RokIs(year: int): Sale -> bool
  {
    (s: Sale) => s.rok == year
  }

  /** `/data/odpisy`: filtered by year only when one is given. */
  function GetOdpisy(file: Option<seq<Sale>>, year: Option<int>): (r: seq<Sale>)
    ensures file.None? ==> r == []
    ensures file.Some? && year.None? ==> r == file.value
    ensures file.Some? && year.Some? ==> forall s :: s in r <==> s in file.value && s.rok == year.value
    ensures file.Some? ==> Embeds(r, file.value)
    ensures file.Some? && year.Some? ==>
      forall s :: multiset(r)[s] == if s.rok == year.value then multiset(file.value)[s] else 0
  {
    match file
    case None => []
    case Some(sales) =>
      if year.None? then
        EmbedsRefl(sales);
        sales
      else
        FilterMask(sales, RokIs(year.value));
        Filter(sales, RokIs(year.value))
  }

  /** The `/stats/summary` answer. */
  datatype Summary = Summary(totalRecords: nat, years: seq<int>, totalAreaHa: real, totalProductionT: real,
                             avgYieldTHa: real)

  /** Summary statistics over the fields table; None stands for the
      "No data available" answer given for an empty table. */
  function SummaryStats(fields: seq<Field>): (r: Option<Summary>)
    ensures r.None? <==> |fields| == 0
    ensures r.Some? ==>
      r.value.totalRecords == |fields| &&
      StrictlyIncreasing(r.value.years) &&
      (forall y :: y in r.value.years <==> exists i :: 0 <= i < |fields| && fields[i].rokSklizne == y) &&
      (r.value.totalAreaHa > 0.0 ==> r.value.avgYieldTHa == Numeric.Round2(r.value.totalProductionT / r.value.totalAreaHa)) &&
      (r.value.totalAreaHa <= 0.0 ==> r.value.avgYieldTHa == 0.0)
  {
    if |fields| == 0 then None
    else
      var area := Sum(fields, FieldArea);
      var prod := Sum(fields, FieldNet);
      var years := SortedDistinct(Years(fields));
      assert forall y :: y in Years(fields) <==> exists i :: 0 <= i < |fields| && fields[i].rokSklizne == y;
      Some(Summary(|fields|, years, area, prod, if area > 0.0 then Numeric.Round2(prod / area) else 0.0))
  }

  /** The summary's totals are the column sums, and its average yield
      is the one the reports compute with `calculate_vynos`. */
  lemma SummaryAgreesWithReports(fields: seq<Field>)
    requires |fields| > 0
    ensures SummaryStats(fields).Some?
    ensures SummaryStats(fields).value.totalAreaHa == Sum(fields, FieldArea)
    ensures SummaryStats(fields).value.totalProductionT == Sum(fields, FieldNet)
    ensures SummaryStats(fields).value.avgYieldTHa
         == Aggregations.CalculateVynos(Sum(fields, FieldNet), Sum(fields, FieldArea))
  {
  }
}

=== FILE: auth.dfy ===
/** Decision logic of `AuthManager`: the fixed role table, the business
    list stored on a user row, the business links, and the checks the
    pages use to scope what a user may see and edit. Reading the CSV
    files is not modelled; a table that could not be read is `None`. */
module Auth {
  import opened Wrappers
  import opened Seqs
  import opened Text
  import opened Records

  /** The three roles the application knows. */
  predicate KnownRole(role: string)
  {
    role == "admin" || role == "editor" || role == "watcher"
  }

  /** `ROLES.get(role, [])`: the permissions granted to a role. */
  function RolePermissions(role: string): (ps: seq<string>)
    ensures |ps| > 0 <==> KnownRole(role)
    ensures KnownRole(role) ==> ps[0] == "read"
  {
    if role == "admin" then ["read", "write", "delete", "manage_users"]
    else if role == "editor" then ["read", "write"]
    else if role == "watcher" then ["read"]
    else []
  }

  /** `has_permission`: a role holds a permission iff the table lists it. */
  function HasPermission(role: string, permission: string): (r: bool)
    ensures r ==> KnownRole(role)
  {
    permission in RolePermissions(role)
  }

  /** The role table, read permission by permission: every known role
      reads, admin and editor write, only admin deletes and manages users,
      and no role holds anything else. */
  lemma PermissionTable(role: string, permission: string)
    ensures HasPermission(role, "read") <==> KnownRole(role)
    ensures HasPermission(role, "write") <==> role == "admin" || role == "editor"
    ensures HasPermission(role, "delete") <==> role == "admin"
    ensures HasPermission(role, "manage_users") <==> role == "admin"
    ensures permission !in {"read", "write", "delete", "manage_users"} ==> !HasPermission(role, permission)
  {
  }

  /** The roles are nested: whatever a watcher may do an editor may do, and
      whatever an editor may do an admin may do. */
  lemma RolesNested(permission: string)
    ensures HasPermission("watcher", permission) ==> HasPermission("editor", permission)
    ensures HasPermission("editor", permission) ==> HasPermission("admin", permission)
  {
  }

  /** `get_user_businesses` on the parts of the comma-separated list:
      each part stripped, empty parts skipped, the rest passed to `int()`;
      a part `int()` rejects raises, which is `None`. */
  function ParseIdParts(parts: seq<string>): (r: Option<seq<int>>)
    ensures r.None? <==> exists i :: 0 <= i < |parts| && Strip(parts[i]) != "" && ParseInt(Strip(parts[i])).None?
    ensures r.Some? ==> |r.value| <= |parts|
  {
    if |parts| == 0 then Some([])
    else
      var t := Strip(parts[0]);
      var rest := ParseIdParts(parts[1..]);
      assert forall i :: 0 <= i < |parts| - 1 ==> parts[1..][i] == parts[i + 1];
      if t == "" then rest
      else match ParseInt(t)
        case None => None
        case Some(n) => if rest.None? then None else Some([n] + rest.value)
  }

  /** `get_user_businesses`: a missing (NaN) or empty cell means no
      businesses; otherwise the comma-separated ids. */
  function GetUserBusinesses(businessIds: Option<string>): (r: Option<seq<int>>)
    ensures businessIds.None? || businessIds == Some("") ==> r == Some([])
    ensures businessIds.Some? && businessIds.value != "" ==> r == ParseIdParts(Split(businessIds.value, ','))
  {
    if businessIds.None? || businessIds.value == "" then Some([])
    else ParseIdParts(Split(businessIds.value, ','))
  }

  /** How a list of ids is written into the `business_ids` column. */
  function ShowIds(ids: seq<int>): (s: string)
  {
    Join(IdTexts(ids), ',')
  }

  function IdTexts(ids: seq<int>): (ts: seq<string>)
    ensures |ts| == |ids|
    ensures forall i :: 0 <= i < |ids| ==> ts[i] == ShowInt(ids[i])
  {
    seq(|ids|, i requires 0 <= i < |ids| => ShowInt(ids[i]))
  }

  lemma ShowIntPlain(n: int)
    ensures ShowInt(n) != ""
    ensures ',' !in ShowInt(n)
    ensures forall k :: 0 <= k < |ShowInt(n)| ==> !IsSpace(ShowInt(n)[k])
  {
    var s := ShowInt(n);
    forall k | 0 <= k < |s|
      ensures s[k] == '-' || IsDigit(s[k])
    {
      if n < 0 {
        assert s == "-" + ShowNat(-n);
        if k > 0 {
          assert s[k] == ShowNat(-n)[k - 1];
        }
      }
    }
  }

  /** Text without surrounding whitespace is left alone by `strip()`. */
  lemma StripPlain(s: string)
    requires s != ""
    requires forall k :: 0 <= k < |s| ==> !IsSpace(s[k])
    ensures Strip(s) == s
  {
    assert !IsSpace(s[0]) && !IsSpace(s[|s| - 1]);
    assert FirstNonSpace(s, 0) == 0;
    assert EndNonSpace(s, 0, |s|) == |s|;
    assert s[0..|s|] == s;
  }

  lemma {:induction false} ParseShownParts(ids: seq<int>)
    ensures ParseIdParts(IdTexts(ids)) == Some(ids)
  {
    if |ids| > 0 {
      var ts := IdTexts(ids);
      ShowIntPlain(ids[0]);
      StripPlain(ts[0]);
      ParseShowInt(ids[0]);
      assert ts[1..] == IdTexts(ids[1..]);
      ParseShownParts(ids[1..]);
      assert [ids[0]] + ids[1..] == ids;
    }
  }

  /** A business list written as comma-separated ids is read back as the
      same list. */
  lemma {:induction false} BusinessIdsRoundTrip(ids: seq<int>)
    ensures GetUserBusinesses(Some(ShowIds(ids))) == Some(ids)
  {
    var ts := IdTexts(ids);
    if |ids| > 0 {
      forall i | 0 <= i < |ts|
        ensures ',' !in ts[i]
      {
        ShowIntPlain(ids[i]);
      }
      JoinSplit(ts, ',');
      ShowIntPlain(ids[0]);
      assert ShowIds(ids) != "" by {
        if |ts| > 1 {
          assert |ShowIds(ids)| >= |ts[0]|;
        }
      }
      ParseShownParts(ids);
    }
  }

  function IdIs(userId: int): UserRow -> bool
  {
    (u: UserRow) => u.id == userId
  }

  function NameIs(username: string): UserRow -> bool
  {
    (u: UserRow) => u.username == username
  }

  /** The business ids of the links of one user, in table order. */
  function LinkedIds(links: seq<Link>, userId: int): (r: seq<int>)
    ensures |r| <= |links|
    ensures forall i :: 0 <= i < |r| ==> Link(userId, r[i]) in links
    ensures forall k :: 0 <= k < |links| && links[k].userId == userId ==> links[k].podnikId in r
  {
    if |links| == 0 then []
    else
      var rest := LinkedIds(links[1..], userId);
      assert forall k :: 1 <= k < |links| ==> links[k] == links[1..][k - 1];
      if links[0].userId == userId then [links[0].podnikId] + rest else rest
  }

  /** `get_user_podniky`: an admin (by the first user row with that id)
      gets every business id; anyone else the ids linked to them; a
      table that could not be read gives no businesses. */
  function GetUserPodniky(users: seq<UserRow>, links: Option<seq<Link>>, businesses: Option<seq<Business>>, userId: int)
    : (r: seq<int>)
    ensures links.None? || businesses.None? ==> r == []
    ensures forall i :: 0 <= i < |r| ==> (businesses.Some? && r[i] in BusinessIds(businesses.value))
                                         || (links.Some? && Link(userId, r[i]) in links.value)
  {
    if links.None? || businesses.None? then []
    else match FirstIndex(users, IdIs(userId))
      case Some(i) =>
        if users[i].role == "admin" then BusinessIds(businesses.value)
        else LinkedIds(links.value, userId)
      case None => LinkedIds(links.value, userId)
  }

  /** An admin (by the first user row with the id) sees every business. */
  lemma AdminSeesAll(users: seq<UserRow>, links: seq<Link>, businesses: seq<Business>, i: int)
    requires 0 <= i < |users| && users[i].role == "admin"
    requires forall j :: 0 <= j < i ==> users[j].id != users[i].id
    ensures GetUserPodniky(users, Some(links), Some(businesses), users[i].id) == BusinessIds(businesses)
  {
    var k := FirstIndex(users, IdIs(users[i].id));
    assert IdIs(users[i].id)(users[i]);
    assert forall j :: 0 <= j < i ==> !IdIs(users[i].id)(users[j]);
  }

  /** A non-admin sees exactly the businesses linked to them. */
  lemma NonAdminSeesLinks(users: seq<UserRow>, links: seq<Link>, businesses: seq<Business>, userId: int, podnikId: int)
    requires forall i :: 0 <= i < |users| && users[i].id == userId ==> users[i].role != "admin"
    ensures podnikId in GetUserPodniky(users, Some(links), Some(businesses), userId) <==> Link(userId, podnikId) in links
  {
    var r := GetUserPodniky(users, Some(links), Some(businesses), userId);
    assert r == LinkedIds(links, userId);
    if Link(userId, podnikId) in links {
      var k :| 0 <= k < |links| && links[k] == Link(userId, podnikId);
    }
  }

  /** The user record kept in the session after a login. Pages read `role`
      and `podniky` with `dict.get`, so both may be missing. */
  datatype SessionUser = SessionUser(
    id: int,
    username: string,
    email: string,
    role: Option<string>,
    fullName: string,
    businessIds: Option<string>,
    podniky: Option<seq<int>>)

  /** `_verify_password`: the demonstration check accepts every password. */
  function VerifyPassword(password: string, user: UserRow): (ok: bool)
    ensures ok
  {
    true
  }

  /** `authenticate`: the first row with the user name, unless it is
      marked inactive (a missing flag counts as active); the password is
      not checked. */
  function Authenticate(users: seq<UserRow>, username: string, password: string,
                        links: Option<seq<Link>>, businesses: Option<seq<Business>>): (r: Option<SessionUser>)
    ensures r.Some? ==> exists i :: (0 <= i < |users| && users[i].username == username
      && (forall j :: 0 <= j < i ==> users[j].username != username)
      && users[i].isActive != Some(false)
      && r.value.id == users[i].id && r.value.role == Some(users[i].role)
      && r.value.podniky == Some(GetUserPodniky(users, links, businesses, users[i].id)))
    ensures r.None? <==> ((forall i :: 0 <= i < |users| ==> users[i].username != username)
      || exists i :: (0 <= i < |users| && users[i].username == username
        && (forall j :: 0 <= j < i ==> users[j].username != username) && users[i].isActive == Some(false)))
  {
    match FirstIndex(users, NameIs(username))
    case None => None
    case Some(i) =>
      var u := users[i];
      assert NameIs(username)(u);
      if u.isActive == Some(false) then None
      else if VerifyPassword(password, u) then
        Some(SessionUser(u.id, u.username, u.email, Some(u.role), u.fullName, u.businessIds,
                         Some(GetUserPodniky(users, links, businesses, u.id))))
      else None
  }

  /** Any password logs a known, active user in. */
  lemma AuthenticateIgnoresPassword(users: seq<UserRow>, username: string, p1: string, p2: string,
                                    links: Option<seq<Link>>, businesses: Option<seq<Business>>)
    ensures Authenticate(users, username, p1, links, businesses) == Authenticate(users, username, p2, links, businesses)
  {
  }

  /** `user.get('podniky', [])`. */
  function Podniky(user: SessionUser): seq<int>
  {
    user.podniky.GetOr([])
  }

  /** `authorize_podnik`: admin may open every business, anyone else the
      businesses on their list. */
  function AuthorizePodnik(user: SessionUser, podnikId: int): (r: bool)
    ensures user.role == Some("admin") ==> r
    ensures user.role != Some("admin") ==> (r <==> podnikId in Podniky(user))
  {
    user.role == Some("admin") || podnikId in Podniky(user)
  }

  /** `can_edit_podnik`: a missing role counts as watcher; a watcher edits
      nothing, an admin everything, an editor the businesses on their
      list, and any other role nothing. */
  function CanEditPodnik(user: SessionUser, podnikId: int): (r: bool)
    ensures r ==> user.role == Some("admin") || user.role == Some("editor")
  {
    var role := user.role.GetOr("watcher");
    if role == "watcher" then false
    else if role == "admin" then true
    else if role == "editor" then podnikId in Podniky(user)
    else false
  }

  /** Editing is never granted where access is not: every business a user
      may edit they may also open. */
  lemma EditImpliesAccess(user: SessionUser, podnikId: int)
    ensures CanEditPodnik(user, podnikId) ==> AuthorizePodnik(user, podnikId)
  {
  }

  /** The per-role cases of `can_edit_podnik`, with a missing role read as
      watcher. */
  lemma EditRules(user: SessionUser, podnikId: int)
    ensures user.role.None? || user.role == Some("watcher") ==> !CanEditPodnik(user, podnikId)
    ensures user.role == Some("admin") ==> CanEditPodnik(user, podnikId)
    ensures user.role == Some("editor") ==> (CanEditPodnik(user, podnikId) <==> podnikId in Podniky(user))
    ensures user.role.Some? && !KnownRole(user.role.value) ==> !CanEditPodnik(user, podnikId)
  {
  }

  function IdIn(ids: seq<int>): Business -> bool
  {
    (b: Business) => b.id in ids
  }

  /** `get_allowed_podniky`: the whole table for admin, the listed
      businesses for anyone with a list, and nothing otherwise. */
  function GetAllowedPodniky(user: SessionUser, businesses: seq<Business>): (r: seq<Business>)
    ensures multiset(r) <= multiset(businesses)
    ensures forall i :: 0 <= i < |businesses| ==>
      (businesses[i] in r <==> AuthorizePodnik(user, businesses[i].id))
    ensures user.role == Some("admin") ==> r == businesses
    ensures Embeds(r, businesses)
    ensures forall b :: multiset(r)[b] == if AuthorizePodnik(user, b.id) then multiset(businesses)[b] else 0
  {
    if user.role == Some("admin") then
      EmbedsRefl(businesses);
      businesses
    else if |Podniky(user)| > 0 then
      FilterMask(businesses, IdIn(Podniky(user)));
      Filter(businesses, IdIn(Podniky(user)))
    else []
  }
}

=== FILE: catalog.dfy ===
/** The catalogue pages for crops, businesses and land types: the add
    forms, the Y/N filters of the crop list, and the hand-kept display
    order — a list of ids reconciled with the table, moved one step up or
    down, and written back as the 1..n order key. */
module Catalog {
  import opened Wrappers
  import opened Seqs
  import opened Records
  import Auth
  import opened Forms

  // ----- Order list -----

  /** The stored order extended by every current id it lacks, in table
      order, each appended once. */
  function AppendMissing(order: seq<int>, ids: seq<int>): (r: seq<int>)
    ensures |r| >= |order| && r[..|order|] == order
    ensures forall i :: 0 <= i < |ids| ==> ids[i] in r
    ensures forall x :: x in r ==> x in order || x in ids
    ensures NoDup(order) ==> NoDup(r)
    decreases |ids|
  {
    if |ids| == 0 then order
    else
      var next := if ids[0] in order then order else order + [ids[0]];
      var r := AppendMissing(next, ids[1..]);
      assert forall i :: 1 <= i < |ids| ==> ids[i] == ids[1..][i - 1];
      assert r[..|order|] == next[..|order|];
      assert ids[0] in next && r[..|next|] == next;
      assert ids[0] in r[..|next|];
      r
  }

  function InIds(ids: seq<int>): int -> bool
  {
    (x: int) => x in ids
  }

  /** The order list as the page keeps it: missing ids appended, ids no
      longer in the table dropped. */
  function Reconcile(order: seq<int>, ids: seq<int>): (r: seq<int>)
    ensures forall x :: x in r <==> x in ids
    ensures NoDup(order) ==> NoDup(r)
  {
    var extended := AppendMissing(order, ids);
    var r := Filter(extended, InIds(ids));
    assert forall x :: x in ids ==> x in r by {
      forall x | x in ids
        ensures x in r
      {
        var i :| 0 <= i < |ids| && ids[i] == x;
        var j :| 0 <= j < |extended| && extended[j] == x;
        assert InIds(ids)(extended[j]);
      }
    }
    if NoDup(order) then
      FilterNoDup(extended, InIds(ids));
      r
    else r
  }

  /** Two lists without repetitions and with the same members are
      reorderings of each other. */
  lemma SameMembersPermutation(a: seq<int>, b: seq<int>)
    requires NoDup(a) && NoDup(b)
    requires forall x :: x in a <==> x in b
    ensures multiset(a) == multiset(b)
  {
    forall x
      ensures multiset(a)[x] == multiset(b)[x]
    {
      NoDupMultiplicity(a, x);
      NoDupMultiplicity(b, x);
      assert x in a <==> x in multiset(a);
      assert x in b <==> x in multiset(b);
    }
  }

  /** With unique ids, the reconciled order is a reordering of the
      current ids. */
  lemma ReconcilePermutation(order: seq<int>, ids: seq<int>)
    requires NoDup(order) && NoDup(ids)
    ensures multiset(Reconcile(order, ids)) == multiset(ids)
  {
    SameMembersPermutation(Reconcile(order, ids), ids);
  }

  /** Ids still in the table keep their stored relative order, ahead of
      the newly appended ones. */
  lemma ReconcileKeepsStoredOrder(order: seq<int>, ids: seq<int>)
    ensures var kept := Filter(order, InIds(ids));
      |Reconcile(order, ids)| >= |kept| && Reconcile(order, ids)[..|kept|] == kept
  {
    var extended := AppendMissing(order, ids);
    assert extended == order + extended[|order|..];
    FilterAppend(order, extended[|order|..], InIds(ids));
  }

  /** A reconciled order is left as it is by the next reconcile. */
  lemma ReconcileIdempotent(order: seq<int>, ids: seq<int>)
    ensures Reconcile(Reconcile(order, ids), ids) == Reconcile(order, ids)
  {
    var r := Reconcile(order, ids);
    assert forall i :: 0 <= i < |ids| ==> ids[i] in r;
    AppendNothingMissing(r, ids);
    FilterAll(r, InIds(ids));
  }

  lemma {:induction false} AppendNothingMissing(order: seq<int>, ids: seq<int>)
    requires forall i :: 0 <= i < |ids| ==> ids[i] in order
    ensures AppendMissing(order, ids) == order
    decreases |ids|
  {
    if |ids| > 0 {
      assert ids[0] in order by {
        assert ids[0] in ids;
      }
      assert forall i :: 0 <= i < |ids[1..]| ==> ids[1..][i] in order by {
        assert forall i :: 0 <= i < |ids[1..]| ==> ids[1..][i] == ids[i + 1];
      }
      AppendNothingMissing(order, ids[1..]);
    }
  }

  /** `list.index`: the first position of `x`. */
  function PosOf(s: seq<int>, x: int): (r: nat)
    requires x in s
    ensures r < |s| && s[r] == x && x !in s[..r]
  {
    if s[0] == x then 0
    else
      var k := PosOf(s[1..], x);
      assert s[1..][..k] == s[1..k + 1];
      k + 1
  }

  function Swap(s: seq<int>, i: nat, j: nat): (r: seq<int>)
    requires i < |s| && j < |s|
    ensures |r| == |s| && r[i] == s[j] && r[j] == s[i]
    ensures forall k :: 0 <= k < |s| && k != i && k != j ==> r[k] == s[k]
    ensures multiset(r) == multiset(s)
  {
    s[i := s[j]][j := s[i]]
  }

  /** "Nahoru": the selected id changes places with its predecessor; at
      the top nothing changes. */
  function MoveUp(order: seq<int>, id: int): (r: seq<int>)
    requires id in order
    ensures |r| == |order| && multiset(r) == multiset(order)
    ensures PosOf(order, id) == 0 ==> r == order
    ensures PosOf(order, id) > 0 ==> var p := PosOf(order, id);
      r[p - 1] == id && r[p] == order[p - 1]
      && forall k :: 0 <= k < |order| && k != p && k != p - 1 ==> r[k] == order[k]
  {
    var p := PosOf(order, id);
    if p > 0 then Swap(order, p, p - 1) else order
  }

  /** "Dolů": the selected id changes places with its successor; at the
      bottom nothing changes. */
  function MoveDown(order: seq<int>, id: int): (r: seq<int>)
    requires id in order
    ensures |r| == |order| && multiset(r) == multiset(order)
    ensures PosOf(order, id) == |order| - 1 ==> r == order
    ensures PosOf(order, id) < |order| - 1 ==> var p := PosOf(order, id);
      r[p + 1] == id && r[p] == order[p + 1]
      && forall k :: 0 <= k < |order| && k != p && k != p + 1 ==> r[k] == order[k]
  {
    var p := PosOf(order, id);
    if p < |order| - 1 then Swap(order, p, p + 1) else order
  }

  lemma NoDupPos(s: seq<int>, k: nat)
    requires NoDup(s) && k < |s|
    ensures PosOf(s, s[k]) == k
  {
  }

  /** In a list without repetitions, moving an id down (when it is not
      last) and then up again restores the list. */
  lemma DownThenUp(order: seq<int>, id: int)
    requires NoDup(order) && id in order && PosOf(order, id) < |order| - 1
    ensures MoveUp(MoveDown(order, id), id) == order
  {
    var p := PosOf(order, id);
    var d := MoveDown(order, id);
    PermutationNoDup(order, d);
    NoDupPos(d, p + 1);
    var u := Swap(d, p + 1, p);
    assert MoveUp(d, id) == u;
    assert forall k :: 0 <= k < |order| ==> u[k] == order[k];
  }

  /** And moving it up (when it is not first) and then down restores it
      too. */
  lemma UpThenDown(order: seq<int>, id: int)
    requires NoDup(order) && id in order && PosOf(order, id) > 0
    ensures MoveDown(MoveUp(order, id), id) == order
  {
    var p := PosOf(order, id);
    var u := MoveUp(order, id);
    PermutationNoDup(order, u);
    NoDupPos(u, p - 1);
    var d := Swap(u, p - 1, p);
    assert MoveDown(u, id) == d;
    assert forall k :: 0 <= k < |order| ==> d[k] == order[k];
  }

  /** The first row carrying id `x`, if any. */
  function RowOfId<T>(rows: seq<T>, id: T -> int, x: int): (r: Option<T>)
    ensures r.Some? ==> r.value in rows && id(r.value) == x
    ensures r.None? ==> forall i :: 0 <= i < |rows| ==> id(rows[i]) != x
  {
    if |rows| == 0 then None
    else if id(rows[0]) == x then Some(rows[0])
    else RowOfId(rows[1..], id, x)
  }

  /** The rows of the table in the order of the list; an id without a row
      is skipped. */
  function ByOrder<T>(rows: seq<T>, id: T -> int, order: seq<int>): (r: seq<T>)
    ensures |r| <= |order|
    ensures forall i :: 0 <= i < |r| ==> r[i] in rows
    ensures (forall x :: x in order ==> exists i :: 0 <= i < |rows| && id(rows[i]) == x) ==> |r| == |order|
    ensures (forall x :: x in order ==> exists i :: 0 <= i < |rows| && id(rows[i]) == x) ==>
      forall i :: 0 <= i < |r| ==> id(r[i]) == order[i]
    decreases |order|
  {
    if |order| == 0 then []
    else
      var rest := ByOrder(rows, id, order[1..]);
      assert forall x :: x in order[1..] ==> x in order;
      assert order[0] in order;
      match RowOfId(rows, id, order[0])
      case Some(row) => [row] + rest
      case None => rest
  }

  /** After a reconcile the displayed rows follow the order list one to
      one: the row at position i carries the i-th id of the list. */
  lemma DisplayFollowsOrder<T>(rows: seq<T>, id: T -> int, order: seq<int>)
    ensures var ids := MapSeq(rows, id);
      var r := ByOrder(rows, id, Reconcile(order, ids));
      |r| == |Reconcile(order, ids)| && forall i :: 0 <= i < |r| ==> id(r[i]) == Reconcile(order, ids)[i]
  {
    var ids := MapSeq(rows, id);
    var o := Reconcile(order, ids);
    forall x | x in o
      ensures exists i :: 0 <= i < |rows| && id(rows[i]) == x
    {
      var i :| 0 <= i < |ids| && ids[i] == x;
      assert id(rows[i]) == x;
    }
  }

  /** The order key written back: 1 for the first row, n for the last. */
  function RenumberCrops(crops: seq<Crop>): (r: seq<Crop>)
    ensures |r| == |crops|
    ensures forall i :: 0 <= i < |r| ==> r[i] == crops[i].(poradi := i + 1)
  {
    seq(|crops|, i requires 0 <= i < |crops| => crops[i].(poradi := i + 1))
  }

  function RenumberBusinesses(businesses: seq<Business>): (r: seq<Business>)
    ensures |r| == |businesses|
    ensures forall i :: 0 <= i < |r| ==> r[i] == businesses[i].(poradi := i + 1)
  {
    seq(|businesses|, i requires 0 <= i < |businesses| => businesses[i].(poradi := i + 1))
  }

  function CropPoradi(c: Crop): seq<real> { [c.poradi as real] }

  /** Renumbered rows are strictly ascending in the order key, so sorting
      by it keeps the displayed order. */
  lemma RenumberedSorted(crops: seq<Crop>, businesses: seq<Business>)
    ensures SortedBy(RenumberCrops(crops), CropPoradi)
    ensures SortedBy(RenumberBusinesses(businesses), BusinessPoradi)
    ensures forall i, j :: 0 <= i < j < |crops| ==> RenumberCrops(crops)[i].poradi < RenumberCrops(crops)[j].poradi
  {
    var rc := RenumberCrops(crops);
    forall i | 0 <= i < |rc| - 1
      ensures LexLe(CropPoradi(rc[i]), CropPoradi(rc[i + 1]))
    {
      LexSingle(rc[i].poradi as real, rc[i + 1].poradi as real);
    }
    var rb := RenumberBusinesses(businesses);
    forall i | 0 <= i < |rb| - 1
      ensures LexLe(BusinessPoradi(rb[i]), BusinessPoradi(rb[i + 1]))
    {
      LexSingle(rb[i].poradi as real, rb[i + 1].poradi as real);
    }
  }

  function PlotTypePoradi(t: PlotType): seq<real> { [t.poradi as real] }
  function PlotTypeId(t: PlotType): int { t.id }

  /** The land types in ascending `Poradi`. */
  function TypesByPoradi(types: seq<PlotType>): (r: seq<PlotType>)
    ensures multiset(r) == multiset(types) && |r| == |types|
    ensures forall i, j :: 0 <= i <= j < |r| ==> r[i].poradi <= r[j].poradi
  {
    var r := SortBy(types, PlotTypePoradi);
    assert |multiset(r)| == |multiset(types)|;
    forall i, j | 0 <= i <= j < |r|
      ensures r[i].poradi <= r[j].poradi
    {
      SortedByPairwise(r, PlotTypePoradi, i, j);
      LexSingle(r[i].poradi as real, r[j].poradi as real);
    }
    r
  }

  /** The ids of some land types, in their order. */
  function TypeIds(ts: seq<PlotType>): (r: seq<int>)
    ensures |r| == |ts|
    ensures forall i :: 0 <= i < |ts| ==> r[i] == ts[i].id
  {
    seq(|ts|, i requires 0 <= i < |ts| => ts[i].id)
  }

  /** The first order list of the land-type page: ids by ascending
      `Poradi`. */
  function InitialTypeOrder(types: seq<PlotType>): (r: seq<int>)
    ensures |r| == |types|
  {
    TypeIds(TypesByPoradi(types))
  }

  /** The initial order lists the ids of the land types, each once, by
      ascending `Poradi`. */
  lemma InitialTypeOrderRanked(types: seq<PlotType>)
    ensures exists s: seq<PlotType> :: (multiset(s) == multiset(types) && |s| == |types|
      && (forall i, j :: 0 <= i <= j < |s| ==> s[i].poradi <= s[j].poradi)
      && InitialTypeOrder(types) == TypeIds(s))
  {
    var sorted := TypesByPoradi(types);
    assert InitialTypeOrder(types) == TypeIds(sorted);
  }

  /** The `Poradi` of a new land type: one above the largest, or 1 when
      the table is empty or has no such column. */
  function NextPoradi(types: seq<PlotType>, hasColumn: bool): (r: int)
    ensures |types| == 0 || !hasColumn ==> r == 1
    ensures |types| > 0 && hasColumn ==> ((forall i :: 0 <= i < |types| ==> types[i].poradi < r)
      && exists i :: 0 <= i < |types| && types[i].poradi == r - 1)
  {
    if |types| == 0 || !hasColumn then 1
    else
      var ps := seq(|types|, i requires 0 <= i < |types| => types[i].poradi);
      assert forall i :: 0 <= i < |types| ==> ps[i] == types[i].poradi;
      MaxInt(ps) + 1
  }

  // ----- Add forms -----

  /** The crop fields the add form stores. */
  datatype NewCrop = NewCrop(nazev: string, enableMainTable: string, showInTable: string, poradi: real)

  function AddCrop(nazev: string, enableMainTable: string, showInTable: string, poradi: real, role: string): (r: Submit<NewCrop>)
    ensures r.Accepted? <==> nazev != "" && Auth.HasPermission(role, "write")
    ensures r.Accepted? ==> r.record == NewCrop(nazev, enableMainTable, showInTable, poradi)
  {
    CheckNamed(nazev, role, NewCrop(nazev, enableMainTable, showInTable, poradi))
  }

  /** A new business: name and order key. */
  function AddBusiness(nazev: string, poradi: real, role: string): (r: Submit<(string, real)>)
    ensures r.Accepted? <==> nazev != "" && Auth.HasPermission(role, "write")
    ensures r.Accepted? ==> r.record == (nazev, poradi)
  {
    CheckNamed(nazev, role, (nazev, poradi))
  }

  /** A new land type: name and the next `Poradi`. */
  function AddPlotType(nazev: string, types: seq<PlotType>, hasColumn: bool, role: string): (r: Submit<(string, int)>)
    ensures r.Accepted? <==> nazev != "" && Auth.HasPermission(role, "write")
    ensures r.Accepted? ==> r.record.0 == nazev && forall i :: 0 <= i < |types| && hasColumn ==> types[i].poradi < r.record.1
    ensures r.Accepted? && (|types| == 0 || !hasColumn) ==> r.record.1 == 1
    ensures r.Accepted? && |types| > 0 && hasColumn ==> exists i :: 0 <= i < |types| && types[i].poradi == r.record.1 - 1
  {
    CheckNamed(nazev, role, (nazev, NextPoradi(types, hasColumn)))
  }

  // ----- Crop list filters -----

  /** A filter choice: everything, "Ano" (Y) or "Ne" (N). */
  datatype FlagFilter = All | Yes | No

  function Passes(flag: string, f: FlagFilter): bool
  {
    match f
    case All => true
    case Yes => flag == "Y"
    case No => flag == "N"
  }

  function CropPasses(enabled: FlagFilter, shown: FlagFilter): Crop -> bool
  {
    (c: Crop) => Passes(c.enableMainTable, enabled) && Passes(c.showInTable, shown)
  }

  /** The crop list under the two flag filters. */
  function FilterCrops(crops: seq<Crop>, enabled: FlagFilter, shown: FlagFilter): (r: seq<Crop>)
    ensures forall i :: 0 <= i < |r| ==> r[i] in crops
    ensures forall i :: 0 <= i < |r| ==> (enabled == Yes ==> r[i].enableMainTable == "Y") && (enabled == No ==> r[i].enableMainTable == "N")
    ensures forall i :: 0 <= i < |r| ==> (shown == Yes ==> r[i].showInTable == "Y") && (shown == No ==> r[i].showInTable == "N")
    ensures forall i :: 0 <= i < |crops| && Passes(crops[i].enableMainTable, enabled) && Passes(crops[i].showInTable, shown) ==> crops[i] in r
    ensures Embeds(r, crops)
    ensures forall c :: multiset(r)[c] ==
              if Passes(c.enableMainTable, enabled) && Passes(c.showInTable, shown) then multiset(crops)[c] else 0
  {
    FilterMask(crops, CropPasses(enabled, shown));
    Filter(crops, CropPasses(enabled, shown))
  }

  /** With both filters on "Vše" the list is the whole table. */
  lemma NoFilterKeepsAll(crops: seq<Crop>)
    ensures FilterCrops(crops, All, All) == crops
  {
    FilterAll(crops, CropPasses(All, All));
  }

  function EnabledY(c: Crop): bool { c.enableMainTable == "Y" }
  function ShownY(c: Crop): bool { c.showInTable == "Y" }

  /** The footer counts are the sizes of the "Ano" lists. */
  lemma CountsMatchFilters(crops: seq<Crop>)
    ensures Count(crops, EnabledY) == |FilterCrops(crops, Yes, All)|
    ensures Count(crops, ShownY) == |FilterCrops(crops, All, Yes)|
  {
    CountIsFilterSize(crops, EnabledY, CropPasses(Yes, All));
    CountIsFilterSize(crops, ShownY, CropPasses(All, Yes));
  }
}

=== FILE: chat.dfy ===
/** The agent's chat responder: keywords matched in a fixed order on the
    lower-cased query choose one of four canned answers, computed from the
    fields table; a chosen answer whose data is missing falls through to
    the default reply. */
module Chat {
  import opened Wrappers
  import opened Seqs
  import opened Records
  import opened Numeric
  import opened Text
  import Trend
  import Api

  datatype Topic = AverageTopic | BestTopic | TrendTopic | AdviceTopic | NoTopic

  const AverageWords: seq<string> := ["průměr", "vynos", "výnos"]
  const BestWords: seq<string> := ["nejlep", "top"]
  const TrendWords: seq<string> := ["trend"]
  const AdviceWords: seq<string> := ["doporuč", "odrůd"]

  predicate MentionsAny(q: string, words: seq<string>)
  {
    exists i :: 0 <= i < |words| && Contains(q, words[i])
  }

  /** The branch a query enters: the first keyword group, in the order
      average, best, trend, advice, that the lower-cased query mentions. */
  function TopicOf(query: string): (t: Topic)
    ensures t == AverageTopic <==> MentionsAny(Lower(query), AverageWords)
    ensures t == BestTopic <==> !MentionsAny(Lower(query), AverageWords) && MentionsAny(Lower(query), BestWords)
    ensures t == TrendTopic <==>
      !MentionsAny(Lower(query), AverageWords) && !MentionsAny(Lower(query), BestWords)
      && MentionsAny(Lower(query), TrendWords)
    ensures t == AdviceTopic <==>
      !MentionsAny(Lower(query), AverageWords) && !MentionsAny(Lower(query), BestWords)
      && !MentionsAny(Lower(query), TrendWords) && MentionsAny(Lower(query), AdviceWords)
  {
    var q := Lower(query);
    MentionsThree(q, "průměr", "vynos", "výnos");
    MentionsTwo(q, "nejlep", "top");
    MentionsOne(q, "trend");
    MentionsTwo(q, "doporuč", "odrůd");
    if Contains(q, "průměr") || Contains(q, "vynos") || Contains(q, "výnos") then AverageTopic
    else if Contains(q, "nejlep") || Contains(q, "top") then BestTopic
    else if Contains(q, "trend") then TrendTopic
    else if Contains(q, "doporuč") || Contains(q, "odrůd") then AdviceTopic
    else NoTopic
  }

  lemma MentionsOne(q: string, a: string)
    ensures MentionsAny(q, [a]) <==> Contains(q, a)
  {
    if Contains(q, a) {
      assert [a][0] == a;
    }
  }

  lemma MentionsTwo(q: string, a: string, b: string)
    ensures MentionsAny(q, [a, b]) <==> Contains(q, a) || Contains(q, b)
  {
    var w := [a, b];
    if Contains(q, a) {
      assert w[0] == a;
    }
    if Contains(q, b) {
      assert w[1] == b;
    }
  }

  lemma MentionsThree(q: string, a: string, b: string, c: string)
    ensures MentionsAny(q, [a, b, c]) <==> Contains(q, a) || Contains(q, b) || Contains(q, c)
  {
    var w := [a, b, c];
    if Contains(q, a) {
      assert w[0] == a;
    }
    if Contains(q, b) {
      assert w[1] == b;
    }
    if Contains(q, c) {
      assert w[2] == c;
    }
  }

  /** One line of the "TOP 5" answer. */
  datatype TopEntry = TopEntry(field: Field, vynos: real)

  /** The line of a field, when its yield is defined (non-zero area). */
  function EntryOf(f: Field): Option<TopEntry>
  {
    if f.vymera != 0.0 then Some(TopEntry(f, f.cistaVaha / f.vymera)) else None
  }

  function YieldRank(e: TopEntry): seq<real>
  {
    [-e.vynos]
  }

  /** The answer to each topic. */
  datatype Reply =
    | AverageReply(avg: real, area: real, production: real)
    | TopReply(top: seq<TopEntry>)
    | TrendReply(direction: string, first: Trend.YearTotal, last: Trend.YearTotal, change: Option<real>)
    | AdviceReply
    | DefaultReply(query: string)

  /** The average-yield answer: total production over total area, 0 when
      the area is not positive. */
  function AverageAnswer(fields: seq<Field>): (r: Reply)
    ensures r.AverageReply? && r.area == Sum(fields, FieldArea) && r.production == Sum(fields, FieldNet)
    ensures r.area > 0.0 ==> Mul(r.avg, r.area) == r.production
    ensures r.area <= 0.0 ==> r.avg == 0.0
  {
    var area := Sum(fields, FieldArea);
    var prod := Sum(fields, FieldNet);
    if area > 0.0 then
      DivCancel(prod, area);
      AverageReply(prod / area, area, prod)
    else AverageReply(0.0, area, prod)
  }

  /** The "TOP 5" answer: the five fields of highest yield, highest first;
      fields of zero area have no yield and are not ranked. */
  function TopFive(fields: seq<Field>): (r: seq<TopEntry>)
    ensures |r| <= 5
    ensures forall i :: 0 <= i < |r| ==> r[i].field in fields && EntryOf(r[i].field) == Some(r[i])
    ensures forall i :: 0 <= i < |r| - 1 ==> r[i].vynos >= r[i + 1].vynos
    ensures forall j :: 0 <= j < |fields| && EntryOf(fields[j]).Some? ==>
      EntryOf(fields[j]).value in r || (|r| == 5 && EntryOf(fields[j]).value.vynos <= r[4].vynos)
  {
    var entries := Collect(fields, EntryOf);
    CollectCovers(fields, EntryOf);
    var sorted := SortBy(entries, YieldRank);
    var r := if |sorted| <= 5 then sorted else sorted[..5];
    TopFacts(fields, entries, sorted, r);
    r
  }

  lemma TopFacts(fields: seq<Field>, entries: seq<TopEntry>, sorted: seq<TopEntry>, r: seq<TopEntry>)
    requires forall i :: 0 <= i < |entries| ==> exists n :: 0 <= n < |fields| && EntryOf(fields[n]) == Some(entries[i])
    requires forall n :: 0 <= n < |fields| && EntryOf(fields[n]).Some? ==> EntryOf(fields[n]).value in entries
    requires multiset(sorted) == multiset(entries) && SortedBy(sorted, YieldRank)
    requires r == if |sorted| <= 5 then sorted else sorted[..5]
    ensures forall i :: 0 <= i < |r| ==> r[i].field in fields && EntryOf(r[i].field) == Some(r[i])
    ensures forall i :: 0 <= i < |r| - 1 ==> r[i].vynos >= r[i + 1].vynos
    ensures forall j :: 0 <= j < |fields| && EntryOf(fields[j]).Some? ==>
      EntryOf(fields[j]).value in r || (|r| == 5 && EntryOf(fields[j]).value.vynos <= r[4].vynos)
  {
    PermutationMembers(entries, sorted);
    forall i | 0 <= i < |r|
      ensures r[i].field in fields && EntryOf(r[i].field) == Some(r[i])
    {
      assert r[i] == sorted[i];
      var m :| 0 <= m < |entries| && entries[m] == r[i];
      var n :| 0 <= n < |fields| && EntryOf(fields[n]) == Some(entries[m]);
    }
    forall i | 0 <= i < |r| - 1
      ensures r[i].vynos >= r[i + 1].vynos
    {
      assert r[i] == sorted[i] && r[i + 1] == sorted[i + 1];
      LexSingle(-r[i].vynos, -r[i + 1].vynos);
    }
    forall j | 0 <= j < |fields| && EntryOf(fields[j]).Some?
      ensures EntryOf(fields[j]).value in r || (|r| == 5 && EntryOf(fields[j]).value.vynos <= r[4].vynos)
    {
      var e := EntryOf(fields[j]).value;
      assert e in sorted;
      var k :| 0 <= k < |sorted| && sorted[k] == e;
      if k >= 5 {
        SortedByPairwise(sorted, YieldRank, 4, k);
        LexSingle(-sorted[4].vynos, -sorted[k].vynos);
      } else {
        assert r[k] == e;
      }
    }
  }

  /** The direction of the change between the first and the last year;
      an undefined change compares neither above nor below zero. */
  function Direction(change: Option<real>): (s: string)
    ensures s == "rostoucí" <==> change.Some? && change.value > 0.0
    ensures s == "klesající" <==> change.Some? && change.value < 0.0
    ensures s == "stabilní" <==> change.None? || change.value == 0.0
  {
    if change.Some? && change.value > 0.0 then "rostoucí"
    else if change.Some? && change.value < 0.0 then "klesající"
    else "stabilní"
  }

  function YearYield(t: Trend.YearTotal): Option<real>
  {
    if t.vymera != 0.0 then Some(t.cistaVaha / t.vymera) else None
  }

  /** The yield change from the first to the last year, when both are
      defined. */
  function Change(first: Trend.YearTotal, last: Trend.YearTotal): Option<real>
  {
    if YearYield(first).Some? && YearYield(last).Some? then Some(YearYield(last).value - YearYield(first).value)
    else None
  }

  /** The first and the last of strictly increasing years bound all the
      others. */
  lemma {:induction false} YearsBetween(yearly: seq<Trend.YearTotal>)
    requires |yearly| > 0
    requires forall i :: 0 <= i < |yearly| - 1 ==> yearly[i].rok < yearly[i + 1].rok
    ensures forall i :: 0 <= i < |yearly| ==> yearly[0].rok <= yearly[i].rok <= yearly[|yearly| - 1].rok
  {
    if |yearly| > 1 {
      var init := yearly[..|yearly| - 1];
      YearsBetween(init);
      assert forall i :: 0 <= i < |init| ==> init[i] == yearly[i];
    }
  }

  /** The trend answer: the yearly totals over all fields, compared
      between the first and the last year; None when there are fewer than
      two years. */
  function TrendAnswer(fields: seq<Field>): (r: Option<Reply>)
    ensures r.Some? <==> |Trend.Yearly(fields)| >= 2
    ensures r.Some? ==> r.value.TrendReply? && r.value.first.rok < r.value.last.rok
    ensures r.Some? ==> forall i :: 0 <= i < |fields| ==> r.value.first.rok <= fields[i].rokSklizne <= r.value.last.rok
    ensures r.Some? ==> r.value.first == Trend.TotalOf(fields, r.value.first.rok)
    ensures r.Some? ==> r.value.last == Trend.TotalOf(fields, r.value.last.rok)
    ensures r.Some? ==> r.value.direction == Direction(r.value.change)
  {
    var yearly := Trend.Yearly(fields);
    if |yearly| >= 2 then
      TrendEnds(fields, yearly);
      var first := yearly[0];
      var last := yearly[|yearly| - 1];
      var change := Change(first, last);
      Some(TrendReply(Direction(change), first, last, change))
    else None
  }

  lemma TrendEnds(fields: seq<Field>, yearly: seq<Trend.YearTotal>)
    requires yearly == Trend.Yearly(fields) && |yearly| >= 2
    ensures forall i :: 0 <= i < |fields| ==> yearly[0].rok <= fields[i].rokSklizne <= yearly[|yearly| - 1].rok
    ensures yearly[0].rok < yearly[|yearly| - 1].rok
  {
    YearsBetween(yearly);
    forall i | 0 <= i < |fields|
      ensures yearly[0].rok <= fields[i].rokSklizne <= yearly[|yearly| - 1].rok
    {
      assert Trend.HasYear(yearly, fields[i].rokSklizne);
    }
    assert yearly[0].rok < yearly[1].rok;
  }

  /** `generate_response`: the answer of the routed topic, or the default
      reply when the topic is unknown or its data is missing. */
  function Respond(query: string, fields: seq<Field>): (r: Reply)
    ensures TopicOf(query) == AverageTopic && |fields| > 0 ==> r == AverageAnswer(fields)
    ensures TopicOf(query) == BestTopic && |fields| > 0 ==> r == TopReply(TopFive(fields))
    ensures TopicOf(query) == TrendTopic && |fields| > 0 && TrendAnswer(fields).Some? ==> r == TrendAnswer(fields).value
    ensures TopicOf(query) == AdviceTopic ==> r == AdviceReply
    ensures r.DefaultReply? <==>
      TopicOf(query) == NoTopic || (TopicOf(query) != AdviceTopic && |fields| == 0)
      || (TopicOf(query) == TrendTopic && TrendAnswer(fields).None?)
    ensures r.DefaultReply? ==> r.query == query
  {
    match TopicOf(query)
    case AverageTopic => if |fields| > 0 then AverageAnswer(fields) else DefaultReply(query)
    case BestTopic => if |fields| > 0 then TopReply(TopFive(fields)) else DefaultReply(query)
    case TrendTopic =>
      var t := TrendAnswer(fields);
      if |fields| > 0 && t.Some? then t.value else DefaultReply(query)
    case AdviceTopic => AdviceReply
    case NoTopic => DefaultReply(query)
  }

  /** The quick query "Trend výnosů?" mentions "výnos", so it is answered
      with the average yield and never reaches the trend branch. */
  lemma TrendQuickQueryGetsAverage(fields: seq<Field>)
    requires |fields| > 0
    ensures Respond("Trend výnosů?", fields) == AverageAnswer(fields)
  {
    var q := Lower("Trend výnosů?");
    assert q == "trend výnosů?";
    assert OccursAt(q, "výnos", 6);
  }

  /** The average answer, rounded to two decimals, is the average yield of
      the `/summary` endpoint. */
  lemma AverageMatchesSummary(fields: seq<Field>)
    requires |fields| > 0
    ensures Api.SummaryStats(fields).Some?
    ensures Round2(AverageAnswer(fields).avg) == Api.SummaryStats(fields).value.avgYieldTHa
  {
    if Sum(fields, FieldArea) <= 0.0 {
      Round2OnGrid(0);
    }
  }
}

=== FILE: dashboard.dfy ===
/** The harvest dashboard: the year picker, the headline totals of the
    main crops, the user scoping of the per-business summaries, the
    per-business aggregate, and the multi-year trend with its
    business-by-year table. */
module Dashboard {
  import opened Wrappers
  import opened Seqs
  import opened Records
  import opened Auth
  import opened Aggregations
  import Odpisy
  import Statistiky
  import opened YearPivot

  /** The year shown first: the current year when some field was harvested
      in it, else the latest harvest year; with no fields, the current
      year. */
  function DashboardYear(fields: seq<Field>, currentYear: int): (y: int)
    ensures |fields| == 0 ==> y == currentYear
    ensures (exists i :: 0 <= i < |fields| && fields[i].rokSklizne == currentYear) ==> y == currentYear
    ensures |fields| > 0 && (forall i :: 0 <= i < |fields| ==> fields[i].rokSklizne != currentYear) ==>
      (exists i :: 0 <= i < |fields| && fields[i].rokSklizne == y)
      && forall i :: 0 <= i < |fields| ==> fields[i].rokSklizne <= y
  {
    if |fields| == 0 then currentYear
    else
      var ys := Years(fields);
      if currentYear in ys then currentYear else MaxInt(ys)
  }

  /** The four headline numbers. */
  datatype Headline = Headline(vymera: real, sklizeno: real, cistaVaha: real, vynos: real)

  /** The headline of a year: the column sums of the main-crop summary,
      which are the sums over the year's main-crop fields, and the yield
      of those sums. No user parameter: the headline is never scoped. */
  function HeadlineOf(fields: seq<Field>, crops: seq<Crop>, year: int): (h: Headline)
    ensures h.vymera == Sum(JoinCrops(fields, crops, year, "Y"), JQty(Area))
    ensures h.sklizeno == Sum(JoinCrops(fields, crops, year, "Y"), JQty(Harvested))
    ensures h.cistaVaha == Sum(JoinCrops(fields, crops, year, "Y"), JQty(Net))
    ensures h.vynos == CalculateVynos(h.cistaVaha, h.vymera)
  {
    var s := PoleSummary(fields, crops, year, "Y");
    PoleSummaryMass(Area, fields, crops, year, "Y");
    PoleSummaryMass(Harvested, fields, crops, year, "Y");
    PoleSummaryMass(Net, fields, crops, year, "Y");
    var v := Sum(s, RowQty(Area));
    var w := Sum(s, RowQty(Net));
    Headline(v, Sum(s, RowQty(Harvested)), w, CalculateVynos(w, v))
  }

  predicate OfBusinesses(row: SummaryRow, ids: seq<int>)
  {
    row.business.Some? && row.business.value.id in ids
  }

  function InIds(ids: seq<int>): SummaryRow -> bool
  {
    (row: SummaryRow) => OfBusinesses(row, ids)
  }

  function UserPodniky(user: SessionUser): seq<int>
  {
    match user.podniky
    case None => []
    case Some(ids) => ids
  }

  /** Whether the per-business summaries are cut down to the user's
      businesses: for a non-admin with a business list. */
  predicate ScopesSummaries(user: SessionUser)
  {
    user.role != Some("admin") && |UserPodniky(user)| > 0
  }

  /** The per-business summary rows the user is shown: all of them for an
      admin or a user without a business list, else exactly the rows of
      the user's businesses, in the same order. */
  function ScopeSummary(rows: seq<SummaryRow>, user: SessionUser): (r: seq<SummaryRow>)
    ensures !ScopesSummaries(user) ==> r == rows
    ensures ScopesSummaries(user) ==>
      (forall i :: 0 <= i < |r| ==> r[i] in rows && OfBusinesses(r[i], UserPodniky(user)))
      && (forall i :: 0 <= i < |rows| && OfBusinesses(rows[i], UserPodniky(user)) ==> rows[i] in r)
      && multiset(r) <= multiset(rows)
    ensures ScopesSummaries(user) ==> Embeds(r, rows)
    ensures ScopesSummaries(user) ==>
      forall row :: OfBusinesses(row, UserPodniky(user)) ==> multiset(r)[row] == multiset(rows)[row]
  {
    if ScopesSummaries(user) then
      var r := Filter(rows, InIds(UserPodniky(user)));
      FilterEmbeds(rows, InIds(UserPodniky(user)));
      forall row | OfBusinesses(row, UserPodniky(user))
        ensures multiset(r)[row] == multiset(rows)[row]
      {
        FilterMultiplicity(rows, InIds(UserPodniky(user)), row);
      }
      r
    else rows
  }

  // ----- The per-business aggregate -----

  /** One line of the per-business aggregate of the summary rows. */
  datatype BusinessLine = BusinessLine(business: Business, vymera: real, sklizeno: real, cistaVaha: real, vynos: real)

  function BizKey(row: SummaryRow): Option<Business>
  {
    row.business
  }

  /** `groupby(['podnik_id', 'podnik'])` orders by id, then name. */
  function BizOrder(b: Option<Business>): seq<real>
  {
    match b
    case None => []
    case Some(x) => [x.id as real] + StrKey(x.nazev)
  }

  function LineArea(l: BusinessLine): real
  {
    l.vymera
  }

  function LineOf(b: Business, rows: seq<SummaryRow>): (l: BusinessLine)
    ensures l.business == b
    ensures l.vymera == Sum(Group(rows, BizKey, Some(b)), RowQty(Area))
    ensures l.sklizeno == Sum(Group(rows, BizKey, Some(b)), RowQty(Harvested))
    ensures l.cistaVaha == Sum(Group(rows, BizKey, Some(b)), RowQty(Net))
    ensures l.vynos == CalculateVynos(l.cistaVaha, l.vymera)
  {
    var g := Group(rows, BizKey, Some(b));
    var v := Sum(g, RowQty(Area));
    var w := Sum(g, RowQty(Net));
    BusinessLine(b, v, Sum(g, RowQty(Harvested)), w, CalculateVynos(w, v))
  }

  /** The lines of the keys, rows without a business (dropped by pandas'
      grouping on a missing key) having none. */
  function LinesOf(ks: seq<Option<Business>>, rows: seq<SummaryRow>): (r: seq<BusinessLine>)
    ensures |r| <= |ks|
    ensures forall i :: 0 <= i < |r| ==> Some(r[i].business) in ks && r[i] == LineOf(r[i].business, rows)
    ensures forall i :: 0 <= i < |ks| && ks[i].Some? ==> LineOf(ks[i].value, rows) in r
  {
    if |ks| == 0 then []
    else
      var rest := LinesOf(ks[1..], rows);
      assert forall i :: 1 <= i < |ks| ==> ks[i] == ks[1..][i - 1];
      assert forall x :: x in ks[1..] ==> x in ks;
      match ks[0]
      case None => rest
      case Some(b) => [LineOf(b, rows)] + rest
  }

  predicate IdsAscending(r: seq<BusinessLine>)
  {
    forall i, j :: 0 <= i <= j < |r| ==> r[i].business.id <= r[j].business.id
  }

  /** A line whose id is at most every later id keeps the order. */
  lemma ConsAscending(l: BusinessLine, rest: seq<BusinessLine>)
    requires IdsAscending(rest)
    requires forall j :: 0 <= j < |rest| ==> l.business.id <= rest[j].business.id
    ensures IdsAscending([l] + rest)
  {
    var r := [l] + rest;
    forall i, j | 0 <= i <= j < |r|
      ensures r[i].business.id <= r[j].business.id
    {
      if i == 0 {
        if j > 0 {
          assert r[j] == rest[j - 1];
        }
      } else {
        assert r[i] == rest[i - 1] && r[j] == rest[j - 1];
      }
    }
  }

  /** A bound on the keys' ids bounds the lines' ids. */
  lemma LinesAbove(b: Business, ks: seq<Option<Business>>, rows: seq<SummaryRow>)
    requires forall k :: 0 <= k < |ks| && ks[k].Some? ==> b.id <= ks[k].value.id
    ensures forall j :: 0 <= j < |LinesOf(ks, rows)| ==> b.id <= LinesOf(ks, rows)[j].business.id
  {
    var r := LinesOf(ks, rows);
    forall j | 0 <= j < |r|
      ensures b.id <= r[j].business.id
    {
      var k :| 0 <= k < |ks| && ks[k] == Some(r[j].business);
    }
  }

  lemma {:induction false} LinesOfSorted(ks: seq<Option<Business>>, rows: seq<SummaryRow>)
    requires SortedBy(ks, BizOrder)
    ensures IdsAscending(LinesOf(ks, rows))
  {
    if |ks| > 0 {
      var tail := ks[1..];
      assert SortedBy(tail, BizOrder) by {
        forall i | 0 <= i < |tail| - 1
          ensures LexLe(BizOrder(tail[i]), BizOrder(tail[i + 1]))
        {
          assert tail[i] == ks[i + 1] && tail[i + 1] == ks[i + 2];
        }
      }
      LinesOfSorted(tail, rows);
      var rest := LinesOf(tail, rows);
      if ks[0].Some? {
        var b := ks[0].value;
        SortedAll(ks, BizOrder);
        forall k | 0 <= k < |tail| && tail[k].Some?
          ensures b.id <= tail[k].value.id
        {
          assert tail[k] == ks[k + 1];
          LexHead(BizOrder(ks[0]), BizOrder(ks[k + 1]));
        }
        LinesAbove(b, tail, rows);
        ConsAscending(LineOf(b, rows), rest);
        assert LinesOf(ks, rows) == [LineOf(b, rows)] + rest;
      } else {
        assert LinesOf(ks, rows) == rest;
      }
    }
  }

  /** The per-business aggregate: one line per business among the rows,
      ordered by business id, each with its summed columns and the
      guarded, rounded yield. */
  function BusinessAggregate(rows: seq<SummaryRow>): (r: seq<BusinessLine>)
    ensures forall i, j :: 0 <= i <= j < |r| ==> r[i].business.id <= r[j].business.id
    ensures forall i :: 0 <= i < |r| ==> r[i] == LineOf(r[i].business, rows)
    ensures forall i :: 0 <= i < |rows| && rows[i].business.Some? ==> LineOf(rows[i].business.value, rows) in r
  {
    var ks := SortBy(Keys(rows, BizKey), BizOrder);
    PermutationMembers(Keys(rows, BizKey), ks);
    LinesOfSorted(ks, rows);
    forall i | 0 <= i < |rows| && rows[i].business.Some?
      ensures LineOf(rows[i].business.value, rows) in LinesOf(ks, rows)
    {
      assert BizKey(rows[i]) in ks;
    }
    LinesOf(ks, rows)
  }

  lemma {:induction false} LinesOfMass(ks: seq<Option<Business>>, rows: seq<SummaryRow>)
    requires forall i :: 0 <= i < |ks| ==> ks[i].Some?
    ensures Sum(LinesOf(ks, rows), LineArea) == SumGroups(ks, rows, BizKey, RowQty(Area))
  {
    if |ks| > 0 {
      LinesOfMass(ks[1..], rows);
    }
  }

  lemma KeysAllSome(rows: seq<SummaryRow>, ks: seq<Option<Business>>)
    requires forall i :: 0 <= i < |rows| ==> rows[i].business.Some?
    requires forall i :: 0 <= i < |ks| ==> ks[i] in Keys(rows, BizKey)
    ensures forall i :: 0 <= i < |ks| ==> ks[i].Some?
  {
    forall i | 0 <= i < |ks|
      ensures ks[i].Some?
    {
      var n :| 0 <= n < |rows| && BizKey(rows[n]) == ks[i];
    }
  }

  /** When every summary row has its business, as the per-business
      summary guarantees, the aggregate's areas add up to the rows'. */
  lemma BusinessAggregateMass(rows: seq<SummaryRow>)
    requires forall i :: 0 <= i < |rows| ==> rows[i].business.Some?
    ensures Sum(BusinessAggregate(rows), LineArea) == Sum(rows, RowQty(Area))
  {
    var keys := Keys(rows, BizKey);
    var ks := SortBy(keys, BizOrder);
    PermutationMembers(keys, ks);
    PermutationNoDup(keys, ks);
    KeysAllSome(rows, ks);
    LinesOfMass(ks, rows);
    GroupsPreserveSum(ks, rows, BizKey, RowQty(Area));
  }

  // ----- The trend over the years -----

  /** A point of the yield trend: a year's main-crop totals. */
  datatype TrendPoint = TrendPoint(rok: int, vymera: real, vaha: real, vynos: real)

  predicate HasMainCrops(fields: seq<Field>, crops: seq<Crop>, y: int)
  {
    |JoinCrops(fields, crops, y, "Y")| > 0
  }

  function PointOf(fields: seq<Field>, crops: seq<Crop>, y: int): TrendPoint
  {
    var h := HeadlineOf(fields, crops, y);
    TrendPoint(y, h.vymera, h.cistaVaha, h.vynos)
  }

  function PointFor(fields: seq<Field>, crops: seq<Crop>): int -> Option<TrendPoint>
  {
    (y: int) => if HasMainCrops(fields, crops, y) then Some(PointOf(fields, crops, y)) else None
  }

  /** A year's point, when it has one, is the point of that year. */
  lemma PointForYear(fields: seq<Field>, crops: seq<Crop>)
    ensures forall y :: PointFor(fields, crops)(y).Some? ==>
      (HasMainCrops(fields, crops, y) && PointFor(fields, crops)(y).value == PointOf(fields, crops, y)
       && PointYear(PointFor(fields, crops)(y).value) == y)
  {
  }

  function PointYear(p: TrendPoint): int
  {
    p.rok
  }

  /** Collecting over ascending years values that carry their year keeps
      the years ascending. */
  lemma {:induction false} CollectAscending<R>(ys: seq<int>, f: int -> Option<R>, year: R -> int)
    requires StrictlyIncreasing(ys)
    requires forall n :: 0 <= n < |ys| && f(ys[n]).Some? ==> year(f(ys[n]).value) == ys[n]
    ensures forall i :: 0 <= i < |Collect(ys, f)| - 1 ==> year(Collect(ys, f)[i]) < year(Collect(ys, f)[i + 1])
  {
    if |ys| > 0 {
      var tail := ys[1..];
      var rest := Collect(tail, f);
      var c := Collect(ys, f);
      assert StrictlyIncreasing(tail) by {
        forall n | 0 <= n < |tail| - 1
          ensures tail[n] < tail[n + 1]
        {
          assert tail[n] == ys[n + 1] && tail[n + 1] == ys[n + 2];
        }
      }
      assert forall n :: 0 <= n < |tail| && f(tail[n]).Some? ==> year(f(tail[n]).value) == tail[n] by {
        forall n | 0 <= n < |tail| && f(tail[n]).Some?
          ensures year(f(tail[n]).value) == tail[n]
        {
          assert tail[n] == ys[n + 1];
        }
      }
      CollectAscending(tail, f, year);
      if f(ys[0]).Some? {
        assert c == [f(ys[0]).value] + rest;
        if |rest| > 0 {
          var n :| 0 <= n < |tail| && f(tail[n]) == Some(rest[0]);
          assert tail[n] == ys[n + 1];
          StrictFirst(ys, n + 1);
        }
        forall i | 0 <= i < |c| - 1
          ensures year(c[i]) < year(c[i + 1])
        {
          if i > 0 {
            assert c[i] == rest[i - 1] && c[i + 1] == rest[i];
          }
        }
      } else {
        assert c == rest;
      }
    }
  }

  lemma {:induction false} StrictFirst(ys: seq<int>, k: int)
    requires StrictlyIncreasing(ys) && 0 < k < |ys|
    ensures ys[0] < ys[k]
  {
    if k > 1 {
      StrictFirst(ys, k - 1);
    }
  }

  /** The business-by-year table of the trend section. */
  function BusinessYearTable(fields: seq<Field>, businesses: seq<Business>): (t: YearTable)
    ensures forall i, j :: 0 <= i <= j < |t.names| ==> StrLe(t.names[i], t.names[j])
    ensures NoDup(t.names) && StrictlyIncreasing(t.years)
    ensures |t.cells| == |t.names|
    ensures forall i :: 0 <= i < |t.names| ==> (|t.cells[i]| == |t.years|
      && forall j :: 0 <= j < |t.years| ==> t.cells[i][j] == CellOf(fields, BusinessLabel(businesses), t.names[i], t.years[j]))
  {
    PivotOf(fields, BusinessLabel(businesses))
  }

  /** The trend section: shown only when the fields span more than one
      year and some year has main-crop fields; its points are those years
      in ascending order. */
  datatype TrendView = TrendView(points: seq<TrendPoint>, table: YearTable)

  /** The trend points: one per field year that has main-crop fields,
      years ascending. */
  function TrendPoints(fields: seq<Field>, crops: seq<Crop>): (points: seq<TrendPoint>)
    ensures forall i :: 0 <= i < |points| - 1 ==> points[i].rok < points[i + 1].rok
  {
    var ys := SortedDistinct(Years(fields));
    var f := PointFor(fields, crops);
    PointForYear(fields, crops);
    CollectAscending(ys, f, PointYear);
    Collect(ys, f)
  }

  /** Each trend point is the headline of a field year with main-crop
      fields. */
  lemma TrendPointsAreHeadlines(fields: seq<Field>, crops: seq<Crop>)
    ensures var points := TrendPoints(fields, crops);
      forall i :: 0 <= i < |points| ==>
        (points[i].rok in Years(fields) && HasMainCrops(fields, crops, points[i].rok)
         && points[i] == PointOf(fields, crops, points[i].rok))
  {
    var ys := SortedDistinct(Years(fields));
    var f := PointFor(fields, crops);
    var points := TrendPoints(fields, crops);
    assert points == Collect(ys, f);
    PointForYear(fields, crops);
    forall i | 0 <= i < |points|
      ensures points[i].rok in Years(fields) && HasMainCrops(fields, crops, points[i].rok)
        && points[i] == PointOf(fields, crops, points[i].rok)
    {
      var n :| 0 <= n < |ys| && f(ys[n]) == Some(points[i]);
      var y := ys[n];
      assert HasMainCrops(fields, crops, y) && points[i] == PointOf(fields, crops, y) && PointYear(points[i]) == y;
      assert y in Years(fields);
    }
  }

  /** Every field year with main-crop fields has its point. */
  lemma TrendPointsCover(fields: seq<Field>, crops: seq<Crop>)
    ensures forall i :: 0 <= i < |fields| && HasMainCrops(fields, crops, fields[i].rokSklizne) ==>
      PointOf(fields, crops, fields[i].rokSklizne) in TrendPoints(fields, crops)
  {
    var ys := SortedDistinct(Years(fields));
    var f := PointFor(fields, crops);
    assert TrendPoints(fields, crops) == Collect(ys, f);
    CollectCovers(ys, f);
    forall i | 0 <= i < |fields| && HasMainCrops(fields, crops, fields[i].rokSklizne)
      ensures PointOf(fields, crops, fields[i].rokSklizne) in Collect(ys, f)
    {
      assert Years(fields)[i] == fields[i].rokSklizne;
      var k :| 0 <= k < |ys| && ys[k] == fields[i].rokSklizne;
      assert f(ys[k]) == Some(PointOf(fields, crops, fields[i].rokSklizne));
    }
  }

  /** There are trend points exactly when some field year has main-crop
      fields. */
  lemma TrendPointsExist(fields: seq<Field>, crops: seq<Crop>)
    ensures |TrendPoints(fields, crops)| > 0 <==>
      exists i :: 0 <= i < |fields| && HasMainCrops(fields, crops, fields[i].rokSklizne)
  {
    var points := TrendPoints(fields, crops);
    TrendPointsAreHeadlines(fields, crops);
    if |points| > 0 {
      var k :| 0 <= k < |Years(fields)| && Years(fields)[k] == points[0].rok;
      assert HasMainCrops(fields, crops, fields[k].rokSklizne);
    }
    if i :| 0 <= i < |fields| && HasMainCrops(fields, crops, fields[i].rokSklizne) {
      TrendPointsCover(fields, crops);
      assert PointOf(fields, crops, fields[i].rokSklizne) in points;
    }
  }

  /** The trend section is shown only when the fields span more than one
      year and some year has main-crop fields. */
  function TrendSection(fields: seq<Field>, crops: seq<Crop>, businesses: seq<Business>): (r: Option<TrendView>)
    ensures r.Some? <==> (|SortedDistinct(Years(fields))| > 1
      && exists i :: 0 <= i < |fields| && HasMainCrops(fields, crops, fields[i].rokSklizne))
    ensures r.Some? ==> r.value.table == BusinessYearTable(fields, businesses)
    ensures r.Some? ==> r.value.points == TrendPoints(fields, crops)
  {
    var ys := SortedDistinct(Years(fields));
    var points := TrendPoints(fields, crops);
    TrendPointsExist(fields, crops);
    if |ys| > 1 && |points| > 0 then Some(TrendView(points, BusinessYearTable(fields, businesses))) else None
  }
}

=== FILE: fieldimport.dfy ===
/** The one-off import of the 2025 harvest from the businesses' spreadsheet
    exports into the field table: crop and variety names are resolved
    through name maps built from the crop and variety tables, the old
    2025 fields are dropped, and every spreadsheet row naming a crop
    becomes a new field with the next free id. */
module FieldImport {
  import opened Wrappers
  import opened Seqs
  import opened Records
  import opened Text

  /** The harvest year the import writes. */
  const ImportYear: int := 2025

  // ----- Name maps -----

  /** A name map entry: the normalised name and the id it maps to. */
  datatype Entry = Entry(key: string, id: int)

  /** Names are compared lower-cased and stripped. */
  function NameKey(s: string): string
  {
    Strip(Lower(s))
  }

  function EntryKey(e: Entry): string
  {
    e.key
  }

  /** A dict built by comprehension over a table: one entry per distinct
      key, in order of first appearance, holding the id of the LAST row
      with that key. */
  function NameMap<T>(rows: seq<T>, key: T -> string, id: T -> int): (m: seq<Entry>)
    ensures |m| == |Keys(rows, key)|
    ensures forall i :: 0 <= i < |m| ==> m[i].key == Keys(rows, key)[i]
    ensures forall i :: 0 <= i < |m| ==> LastOf(rows, key, id, m[i])
  {
    var ks := Keys(rows, key);
    assert forall k :: k in ks ==> exists j :: 0 <= j < |rows| && key(rows[j]) == k;
    seq(|ks|, i requires 0 <= i < |ks| => LastEntry(rows, key, id, ks[i]))
  }

  /** `e` holds the id of the last row whose key is `e`'s key. */
  ghost predicate LastOf<T>(rows: seq<T>, key: T -> string, id: T -> int, e: Entry)
  {
    exists j :: (0 <= j < |rows| && key(rows[j]) == e.key && id(rows[j]) == e.id
      && forall k :: j < k < |rows| ==> key(rows[k]) != e.key)
  }

  /** The entry of one key: the id of the last row carrying it. */
  function LastEntry<T>(rows: seq<T>, key: T -> string, id: T -> int, k: string): (e: Entry)
    requires exists j :: 0 <= j < |rows| && key(rows[j]) == k
    ensures e.key == k && LastOf(rows, key, id, e)
  {
    var j :| 0 <= j < |rows| && key(rows[j]) == k;
    assert KeyIs(key, k)(rows[j]);
    var last := LastIndex(rows, KeyIs(key, k)).value;
    Entry(k, id(rows[last]))
  }

  function CropKey(c: Crop): string
  {
    NameKey(c.nazev)
  }

  function CropRowId(c: Crop): int
  {
    c.id
  }

  function VarietyKey(v: Variety): string
  {
    NameKey(v.nazev)
  }

  function VarietyRowId(v: Variety): int
  {
    v.id
  }

  /** The crop map: normalised crop name to crop id. */
  function CropMap(crops: seq<Crop>): seq<Entry>
  {
    NameMap(crops, CropKey, CropRowId)
  }

  /** The variety map: normalised variety name to variety id. */
  function VarietyMap(varieties: seq<Variety>): seq<Entry>
  {
    NameMap(varieties, VarietyKey, VarietyRowId)
  }

  function KeyEquals(name: string): Entry -> bool
  {
    (e: Entry) => e.key == name
  }

  /** Either name contains the other. */
  function Overlaps(name: string): Entry -> bool
  {
    (e: Entry) => Contains(e.key, name) || Contains(name, e.key)
  }

  /** Either name starts with the other. */
  function Prefixes(name: string): Entry -> bool
  {
    (e: Entry) => StartsWith(name, e.key) || StartsWith(e.key, name)
  }

  /** The crop lookup on a normalised name: the exact entry if there is
      one, else the first entry whose key contains the name or is
      contained in it, else nothing. */
  function CropLookup(m: seq<Entry>, name: string): (r: Option<int>)
    ensures (exists i :: 0 <= i < |m| && m[i].key == name) ==>
      exists i :: 0 <= i < |m| && m[i].key == name && r == Some(m[i].id)
    ensures (forall i :: 0 <= i < |m| ==> m[i].key != name) ==>
      (r.Some? <==> exists i :: 0 <= i < |m| && Overlaps(name)(m[i]))
  {
    match FirstIndex(m, KeyEquals(name))
    case Some(i) => Some(m[i].id)
    case None =>
      match FirstIndex(m, Overlaps(name))
      case Some(i) => Some(m[i].id)
      case None => None
  }

  /** A name contains itself. */
  lemma ContainsSelf(s: string)
    ensures Contains(s, s)
  {
    assert OccursAt(s, s, 0);
  }

  /** Whatever the crop lookup returns is the id of the first entry
      equal to the name, or, when no entry equals it, of the first entry
      overlapping it. */
  lemma CropLookupFirst(m: seq<Entry>, name: string)
    ensures CropLookup(m, name).Some? ==> exists i :: (0 <= i < |m| && CropLookup(m, name) == Some(m[i].id)
      && Overlaps(name)(m[i]) && (forall j :: 0 <= j < i ==> m[j].key != name)
      && (m[i].key == name || ((forall j :: 0 <= j < |m| ==> m[j].key != name)
                               && forall j :: 0 <= j < i ==> !Overlaps(name)(m[j]))))
  {
    ContainsSelf(name);
    match FirstIndex(m, KeyEquals(name))
    case Some(i) =>
      assert CropLookup(m, name) == Some(m[i].id) && Overlaps(name)(m[i]);
    case None =>
      match FirstIndex(m, Overlaps(name))
      case Some(i) =>
        assert CropLookup(m, name) == Some(m[i].id);
        assert forall j :: 0 <= j < i ==> m[j].key != name && !Overlaps(name)(m[j]);
      case None =>
  }

  /** `get_crop_id`: nothing for a missing or empty cell, else the lookup
      of the normalised name. */
  function CropId(m: seq<Entry>, cell: Option<string>): (r: Option<int>)
    ensures cell.None? || cell == Some("") ==> r.None?
    ensures r.Some? ==> cell.Some? && exists i :: 0 <= i < |m| && r == Some(m[i].id) && Overlaps(NameKey(cell.value))(m[i])
  {
    if cell.None? || cell.value == "" then None
    else
      CropLookupFirst(m, NameKey(cell.value));
      CropLookup(m, NameKey(cell.value))
  }

  /** `get_variety_id` as written: nothing for a missing or empty cell;
      else the exact entry of the normalised name; else the first entry
      whose key starts the name or that the name starts. */
  function VarietyIdAsWritten(m: seq<Entry>, cell: Option<string>): (r: Option<int>)
    ensures cell.None? || cell == Some("") ==> r.None?
    ensures (cell.Some? && cell.value != "") ==> var name := NameKey(cell.value);
      ((exists i :: 0 <= i < |m| && m[i].key == name) ==> exists i :: 0 <= i < |m| && m[i].key == name && r == Some(m[i].id))
      && (r.Some? <==> exists i :: 0 <= i < |m| && Prefixes(name)(m[i]))
    ensures r.Some? ==> exists i :: 0 <= i < |m| && r == Some(m[i].id)
  {
    if cell.None? || cell.value == "" then None
    else
      var name := NameKey(cell.value);
      match FirstIndex(m, KeyEquals(name))
      case Some(i) =>
        assert StartsWith(name, name);
        Some(m[i].id)
      case None =>
        match FirstIndex(m, Prefixes(name))
        case Some(i) => Some(m[i].id)
        case None => None
  }

  /** A variety cell of blanks alone normalises to the empty name, which
      every key starts with: it is given the first variety of the map
      instead of none. */
  lemma BlankVarietyMapsToFirst(m: seq<Entry>, cell: string)
    requires |m| > 0 && cell != "" && forall i :: 0 <= i < |cell| ==> cell[i] == ' '
    ensures VarietyIdAsWritten(m, Some(cell)).Some?
  {
    var lower := Lower(cell);
    assert forall i :: 0 <= i < |lower| ==> IsSpace(lower[i]);
    var a, b :| Trimmed(lower, a, b) && NameKey(cell) == lower[a..b];
    assert NameKey(cell) == "";
    assert Prefixes("")(m[0]);
  }

  /** `get_variety_id` as intended: a cell that normalises to the empty
      name maps to nothing, like an empty cell. */
  function VarietyId(m: seq<Entry>, cell: Option<string>): (r: Option<int>)
    ensures cell.None? || NameKey(cell.value) == "" ==> r.None?
    ensures (cell.Some? && NameKey(cell.value) != "") ==> r == VarietyIdAsWritten(m, cell)
  {
    if cell.None? || NameKey(cell.value) == "" then None
    else VarietyIdAsWritten(m, cell)
  }

  /** With the blank case closed, whatever the lookup returns is the id
      of an entry sharing a non-empty prefix relation with the name. */
  lemma VarietyIdNeedsName(m: seq<Entry>, cell: Option<string>)
    requires VarietyId(m, cell).Some?
    ensures cell.Some? && NameKey(cell.value) != ""
    ensures exists i :: (0 <= i < |m| && VarietyId(m, cell) == Some(m[i].id) && Prefixes(NameKey(cell.value))(m[i]))
  {
    var name := NameKey(cell.value);
    match FirstIndex(m, KeyEquals(name))
    case Some(i) =>
      assert StartsWith(name, name);
    case None =>
      var i := FirstIndex(m, Prefixes(name)).value;
  }

  // ----- Spreadsheet layout -----

  /** The columns the import reads. */
  datatype Role = Plodina | NazevHonu | Odruda | Vymera | Sklizeno | HrubaVaha | CistaVaha

  /** The role a header names, checked in this order; the first check that
      matches wins. */
  function RoleOf(col: string): (r: Option<Role>)
    ensures Contains(Lower(col), "plodina") ==> r == Some(Plodina)
    ensures r.None? ==> !Contains(Lower(col), "plodina") && !Contains(Lower(col), "sklizeno")
  {
    var l := Lower(col);
    if col == "Plodina" || Contains(l, "plodina") then Some(Plodina)
    else if col == "Název honu" || Contains(l, "název honu") then Some(NazevHonu)
    else if Contains(l, "odrůda") || Contains(l, "odruda") then Some(Odruda)
    else if Contains(l, "výměra") || Contains(l, "vymera") then Some(Vymera)
    else if Contains(l, "sklizeno") then Some(Sklizeno)
    else if Contains(l, "hrubá váha") || Contains(l, "hruba vaha") then Some(HrubaVaha)
    else if Contains(l, "čistá váha") || Contains(l, "cista vaha") then Some(CistaVaha)
    else None
  }

  /** The exact-name tests are subsumed by the lower-cased containment
      tests that follow them. */
  lemma ExactHeadersSubsumed()
    ensures Contains(Lower("Plodina"), "plodina")
    ensures Contains(Lower("Název honu"), "název honu")
  {
    assert Lower("Plodina") == "plodina";
    assert OccursAt("plodina", "plodina", 0);
    assert Lower("Název honu") == "název honu";
    assert OccursAt("název honu", "název honu", 0);
  }

  function HasRole(role: Role): string -> bool
  {
    (col: string) => RoleOf(col) == Some(role)
  }

  /** The column read for a role: the last header naming it, as later
      headers overwrite earlier ones in the column map. */
  function ColumnFor(cols: seq<string>, role: Role): (r: Option<nat>)
    ensures r.Some? ==> (r.value < |cols| && RoleOf(cols[r.value]) == Some(role)
      && forall j :: r.value < j < |cols| ==> RoleOf(cols[j]) != Some(role))
    ensures r.None? ==> forall j :: 0 <= j < |cols| ==> RoleOf(cols[j]) != Some(role)
  {
    LastIndex(cols, HasRole(role))
  }

  /** Whether a row of a sheet read without a header has a cell whose
      text contains "Plodina". */
  function NamesCrop(row: seq<string>): bool
  {
    exists k :: 0 <= k < |row| && Contains(row[k], "Plodina")
  }

  function NonEmpty(sheet: seq<seq<string>>): bool
  {
    |sheet| > 0
  }

  /** The sheet and header row read: the first non-empty sheet, and in it
      the first row with a cell containing "Plodina", else its first row.
      Nothing when every sheet is empty. */
  function PickSheet(sheets: seq<seq<seq<string>>>): (r: Option<(nat, nat)>)
    ensures r.None? <==> forall s :: 0 <= s < |sheets| ==> |sheets[s]| == 0
    ensures r.Some? ==> (r.value.0 < |sheets| && |sheets[r.value.0]| > 0
      && (forall s :: 0 <= s < r.value.0 ==> |sheets[s]| == 0)
      && r.value.1 < |sheets[r.value.0]|
      && (forall k :: 0 <= k < r.value.1 ==> !NamesCrop(sheets[r.value.0][k]))
      && (r.value.1 > 0 ==> NamesCrop(sheets[r.value.0][r.value.1])))
  {
    match FirstIndex(sheets, NonEmpty)
    case None => None
    case Some(s) =>
      match FirstIndex(sheets[s], NamesCrop)
      case Some(h) => Some((s, h))
      case None => Some((s, 0))
  }

  // ----- Row conversion -----

  /** A numeric spreadsheet cell: missing, text, or a number. */
  datatype Cell = NanCell | TextCell(text: string) | NumCell(x: real)

  /** Python `float()` of a cell as the import applies it: a missing or
      empty cell is 0, text must be plain decimal notation (None when
      `float` raises). */
  function CellValue(c: Cell): (r: Option<real>)
    ensures c.NanCell? || c == TextCell("") ==> r == Some(0.0)
    ensures c.NumCell? ==> r == Some(c.x)
  {
    match c
    case NanCell => Some(0.0)
    case NumCell(x) => Some(x)
    case TextCell(s) => if s == "" then Some(0.0) else ParseDecimal(Strip(s))
  }

  /** One spreadsheet row, already read through the column map; a column
      the map lacks reads as an empty name or the number 0. */
  datatype RawRow = RawRow(
    plodina: Option<string>,
    odruda: Option<string>,
    vymera: Cell,
    sklizeno: Cell,
    cistaVaha: Cell,
    hrubaVaha: Cell,
    nazevHonu: Option<string>)

  /** Rows without a crop name, or with one of blanks only, are skipped. */
  predicate Skipped(row: RawRow)
  {
    row.plodina.None? || Strip(row.plodina.value) == ""
  }

  function Imported(row: RawRow): bool
  {
    !Skipped(row)
  }

  /** The four quantities of a row; if any of them fails to convert, all
      four are 0. */
  datatype Amounts = Amounts(vymera: real, sklizeno: real, cistaVaha: real, hrubaVaha: real)

  function AmountsOf(row: RawRow): (a: Amounts)
    ensures (CellValue(row.vymera).Some? && CellValue(row.sklizeno).Some? && CellValue(row.cistaVaha).Some?
      && CellValue(row.hrubaVaha).Some?) ==>
      a == Amounts(CellValue(row.vymera).value, CellValue(row.sklizeno).value, CellValue(row.cistaVaha).value,
        CellValue(row.hrubaVaha).value)
    ensures (CellValue(row.vymera).None? || CellValue(row.sklizeno).None? || CellValue(row.cistaVaha).None?
      || CellValue(row.hrubaVaha).None?) ==> a == Amounts(0.0, 0.0, 0.0, 0.0)
  {
    match (CellValue(row.vymera), CellValue(row.sklizeno), CellValue(row.cistaVaha), CellValue(row.hrubaVaha))
    case (Some(v), Some(s), Some(c), Some(h)) => Amounts(v, s, c, h)
    case _ => Amounts(0.0, 0.0, 0.0, 0.0)
  }

  /** The new field of a row of the export of business `podnik`. */
  function RecordOf(row: RawRow, podnik: int, id: int, cropMap: seq<Entry>, varietyMap: seq<Entry>): (f: Field)
    ensures f.id == id && f.podnikId == podnik && f.rokSklizne == ImportYear
    ensures f.plodinaId == CropId(cropMap, row.plodina) && f.odrudaId == VarietyIdAsWritten(varietyMap, row.odruda)
    ensures var a := AmountsOf(row);
      f.vymera == a.vymera && f.cistaVaha == a.cistaVaha && f.hrubaVaha == a.hrubaVaha
      && f.sklizeno == (if a.sklizeno > 0.0 then a.sklizeno else a.vymera)
    ensures f.nazevHonu == Some(row.nazevHonu.GetOr("")) && f.cisloHonu == "" && f.datumSeti == ""
  {
    var a := AmountsOf(row);
    Field(id, podnik, CropId(cropMap, row.plodina), VarietyIdAsWritten(varietyMap, row.odruda), ImportYear,
      a.vymera, if a.sklizeno > 0.0 then a.sklizeno else a.vymera, a.cistaVaha, a.hrubaVaha,
      "", Some(row.nazevHonu.GetOr("")), "")
  }

  /** The field a row would become with the intended variety lookup: it
      differs from `RecordOf` at most in the variety, and only for a cell
      of blanks alone, which gets no variety. */
  function RecordOfIntended(row: RawRow, podnik: int, id: int, cropMap: seq<Entry>, varietyMap: seq<Entry>): (f: Field)
    ensures var g := RecordOf(row, podnik, id, cropMap, varietyMap);
      f.(odrudaId := g.odrudaId) == g
    ensures f.odrudaId != RecordOf(row, podnik, id, cropMap, varietyMap).odrudaId ==>
      row.odruda.Some? && row.odruda.value != "" && NameKey(row.odruda.value) == "" && f.odrudaId.None?
    ensures f.odrudaId.Some? ==> row.odruda.Some? && NameKey(row.odruda.value) != ""
  {
    RecordOf(row, podnik, id, cropMap, varietyMap).(odrudaId := VarietyId(varietyMap, row.odruda))
  }

  /** A row whose variety cell is blanks alone gets the first matching
      variety as written, and none as intended. */
  lemma BlankVarietyRecordDiffers(row: RawRow, podnik: int, id: int, cropMap: seq<Entry>, varietyMap: seq<Entry>)
    requires |varietyMap| > 0 && row.odruda.Some? && row.odruda.value != ""
    requires forall i :: 0 <= i < |row.odruda.value| ==> row.odruda.value[i] == ' '
    ensures RecordOf(row, podnik, id, cropMap, varietyMap).odrudaId.Some?
    ensures RecordOfIntended(row, podnik, id, cropMap, varietyMap).odrudaId.None?
  {
    BlankVarietyMapsToFirst(varietyMap, row.odruda.value);
    var lower := Lower(row.odruda.value);
    assert forall i :: 0 <= i < |lower| ==> IsSpace(lower[i]);
    var a, b :| Trimmed(lower, a, b) && NameKey(row.odruda.value) == lower[a..b];
  }

  /** A row tagged with the business of the file it came from. */
  datatype Tagged = Tagged(podnik: int, row: RawRow)

  function FieldId(f: Field): int
  {
    f.id
  }

  function TaggedImported(t: Tagged): bool
  {
    Imported(t.row)
  }

  /** The field a row becomes, given its id: `RecordOf` with the two name
      maps fixed. */
  function MakeRecord(cropMap: seq<Entry>, varietyMap: seq<Entry>): (Tagged, int) -> Field
  {
    (t: Tagged, id: int) => RecordOf(t.row, t.podnik, id, cropMap, varietyMap)
  }

  /** A maker of new fields that gives each the id it is handed and the
      year 2025. */
  ghost predicate Fresh(make: (Tagged, int) -> Field)
  {
    forall t, id :: make(t, id).id == id && make(t, id).rokSklizne == ImportYear
  }

  lemma MakeRecordFresh(cropMap: seq<Entry>, varietyMap: seq<Entry>)
    ensures Fresh(MakeRecord(cropMap, varietyMap))
  {
    forall t, id
      ensures MakeRecord(cropMap, varietyMap)(t, id).id == id
      ensures MakeRecord(cropMap, varietyMap)(t, id).rokSklizne == ImportYear
    {
      var f := RecordOf(t.row, t.podnik, id, cropMap, varietyMap);
    }
  }

  /** One row of the import: a row that names a crop appends its field
      with the next free id; any other row leaves the table as it is. */
  function Step(table: seq<Field>, t: Tagged, make: (Tagged, int) -> Field): (r: seq<Field>)
    ensures !Imported(t.row) ==> r == table
    ensures Imported(t.row) ==> |r| == |table| + 1
    ensures |table| <= |r| && r[..|table|] == table
  {
    if Imported(t.row) then table + [make(t, NextId(table, FieldId))] else table
  }

  /** A field `Step` appends is of year 2025 and has an id above every id
      of the table. */
  lemma StepFresh(table: seq<Field>, t: Tagged, make: (Tagged, int) -> Field)
    requires Fresh(make)
    ensures var r := Step(table, t, make);
      |r| > |table| ==> (r[|table|].rokSklizne == ImportYear
        && forall i :: 0 <= i < |table| ==> table[i].id < r[|table|].id)
  {
    if Imported(t.row) {
      var f := make(t, NextId(table, FieldId));
      assert Step(table, t, make)[|table|] == f;
      assert forall i :: 0 <= i < |table| ==> FieldId(table[i]) < f.id;
    }
  }

  /** Appends the fields of the rows, one at a time, each with the next
      free id of the table so far. */
  function ImportRows(table: seq<Field>, rows: seq<Tagged>, make: (Tagged, int) -> Field): (r: seq<Field>)
    decreases |rows|
  {
    if |rows| == 0 then table
    else ImportRows(Step(table, rows[0], make), rows[1..], make)
  }

  function NotImportYear(f: Field): bool
  {
    f.rokSklizne != ImportYear
  }

  function InImportYear(f: Field): bool
  {
    f.rokSklizne == ImportYear
  }

  /** The whole import: drop the old 2025 fields, then append the rows of
      the exports found, in file order. */
  function Import(fields: seq<Field>, crops: seq<Crop>, varieties: seq<Variety>, rows: seq<Tagged>): seq<Field>
  {
    ImportRows(Filter(fields, NotImportYear), rows, MakeRecord(CropMap(crops), VarietyMap(varieties)))
  }

  /** Importing appends one field per row that names a crop. */
  lemma {:induction false} ImportRowsLength(table: seq<Field>, rows: seq<Tagged>, make: (Tagged, int) -> Field)
    ensures |ImportRows(table, rows, make)| == |table| + |Filter(rows, TaggedImported)|
    decreases |rows|
  {
    if |rows| > 0 {
      var t := rows[0];
      var next := Step(table, t, make);
      ImportRowsLength(next, rows[1..], make);
      assert ImportRows(table, rows, make) == ImportRows(next, rows[1..], make);
      assert Filter(rows, TaggedImported) == (if TaggedImported(t) then [t] else []) + Filter(rows[1..], TaggedImported);
    }
  }

  /** Importing keeps the table so far as a prefix, and every field after
      it is of year 2025. */
  lemma {:induction false} ImportRowsExtends(table: seq<Field>, rows: seq<Tagged>, make: (Tagged, int) -> Field)
    requires Fresh(make)
    ensures var r := ImportRows(table, rows, make);
      |table| <= |r| && r[..|table|] == table
      && forall i :: |table| <= i < |r| ==> r[i].rokSklizne == ImportYear
    decreases |rows|
  {
    if |rows| > 0 {
      var t := rows[0];
      var next := Step(table, t, make);
      ImportRowsExtends(next, rows[1..], make);
      var r := ImportRows(next, rows[1..], make);
      assert r == ImportRows(table, rows, make);
      assert r[..|table|] == next[..|table|];
      StepFresh(table, t, make);
    }
  }

  /** Every appended field has an id above the ids of all fields before
      it. */
  lemma {:induction false} ImportRowsFresh(table: seq<Field>, rows: seq<Tagged>, make: (Tagged, int) -> Field)
    requires Fresh(make)
    ensures var r := ImportRows(table, rows, make);
      forall i, j :: 0 <= i < j < |r| && j >= |table| ==> r[i].id < r[j].id
    decreases |rows|
  {
    if |rows| > 0 {
      var t := rows[0];
      var next := Step(table, t, make);
      ImportRowsFresh(next, rows[1..], make);
      ImportRowsExtends(next, rows[1..], make);
      var r := ImportRows(next, rows[1..], make);
      assert r == ImportRows(table, rows, make);
      StepFresh(table, t, make);
      if |next| > |table| {
        forall i, j | 0 <= i < j < |r| && j == |table|
          ensures r[i].id < r[j].id
        {
          assert r[i] == next[i] == table[i] && r[j] == next[j];
        }
      }
    }
  }

  /** No two fields of a table share an id. */
  predicate DistinctIds(table: seq<Field>)
  {
    forall i, j :: 0 <= i < j < |table| ==> table[i].id != table[j].id
  }

  /** Importing into a table of distinct ids keeps the ids distinct. */
  lemma ImportRowsDistinct(table: seq<Field>, rows: seq<Tagged>, make: (Tagged, int) -> Field)
    requires Fresh(make)
    requires DistinctIds(table)
    ensures DistinctIds(ImportRows(table, rows, make))
  {
    var r := ImportRows(table, rows, make);
    ImportRowsExtends(table, rows, make);
    ImportRowsFresh(table, rows, make);
    forall i, j | 0 <= i < j < |r|
      ensures r[i].id != r[j].id
    {
      if j < |table| {
        assert r[i] == table[i] && r[j] == table[j];
      }
    }
  }

  /** Importing into a table of no 2025 fields: the 2025 fields of the
      result are exactly the new ones. */
  lemma ImportRowsYear(table: seq<Field>, rows: seq<Tagged>, make: (Tagged, int) -> Field)
    requires Fresh(make)
    requires forall i :: 0 <= i < |table| ==> NotImportYear(table[i])
    ensures |Filter(ImportRows(table, rows, make), InImportYear)| == |Filter(rows, TaggedImported)|
  {
    var r := ImportRows(table, rows, make);
    ImportRowsExtends(table, rows, make);
    ImportRowsLength(table, rows, make);
    assert r == r[..|table|] + r[|table|..];
    FilterAppend(r[..|table|], r[|table|..], InImportYear);
    FilterNone(table, InImportYear);
    FilterAll(r[|table|..], InImportYear);
  }

  /** After the import, the fields of other years are kept in order, and
      the 2025 fields are exactly the new ones, one per row that names a
      crop. */
  lemma ImportReplacesYear(fields: seq<Field>, crops: seq<Crop>, varieties: seq<Variety>, rows: seq<Tagged>)
    requires DistinctIds(fields)
    ensures var kept := Filter(fields, NotImportYear);
      var r := Import(fields, crops, varieties, rows);
      |kept| <= |r| && r[..|kept|] == kept
      && |Filter(r, InImportYear)| == |Filter(rows, TaggedImported)|
      && DistinctIds(r)
  {
    var kept := Filter(fields, NotImportYear);
    var make := MakeRecord(CropMap(crops), VarietyMap(varieties));
    assert Import(fields, crops, varieties, rows) == ImportRows(kept, rows, make);
    MakeRecordFresh(CropMap(crops), VarietyMap(varieties));
    FilterKeepsDistinct(fields, NotImportYear, FieldId);
    ImportRowsExtends(kept, rows, make);
    ImportRowsDistinct(kept, rows, make);
    ImportRowsYear(kept, rows, make);
  }

  // ----- Names that did not map -----

  /** Python truthiness of a looked-up id: nothing and id 0 are false. */
  predicate Unresolved(id: Option<int>)
  {
    id.None? || id.value == 0
  }

  /** The crop names reported as unmapped: those of imported rows whose
      crop id is unresolved. */
  function UnmappedCrops(rows: seq<Tagged>, cropMap: seq<Entry>): (r: set<string>)
    ensures forall n :: n in r <==> exists i :: (0 <= i < |rows| && Imported(rows[i].row)
      && rows[i].row.plodina == Some(n) && Unresolved(CropId(cropMap, rows[i].row.plodina)))
  {
    set i | 0 <= i < |rows| && Imported(rows[i].row)
      && Unresolved(CropId(cropMap, rows[i].row.plodina)) :: rows[i].row.plodina.value
  }

  /** The text Python prints for a variety cell: a missing cell is "nan". */
  function VarietyText(cell: Option<string>): string
  {
    if cell.None? then "nan" else cell.value
  }

  /** Whether a variety cell counts as given: a missing cell is a truthy
      NaN in Python, an empty text is not. */
  predicate VarietyGiven(cell: Option<string>)
  {
    cell.None? || cell.value != ""
  }

  /** The variety names reported as unmapped: those of imported rows
      whose cell counts as given and whose id is unresolved. A missing
      cell is reported as "nan". */
  function UnmappedVarieties(rows: seq<Tagged>, varietyMap: seq<Entry>): (r: set<string>)
    ensures forall n :: n in r <==> exists i :: (0 <= i < |rows| && Imported(rows[i].row)
      && VarietyGiven(rows[i].row.odruda) && Unresolved(VarietyIdAsWritten(varietyMap, rows[i].row.odruda))
      && VarietyText(rows[i].row.odruda) == n)
  {
    set i | 0 <= i < |rows| && Imported(rows[i].row) && VarietyGiven(rows[i].row.odruda)
      && Unresolved(VarietyIdAsWritten(varietyMap, rows[i].row.odruda)) :: VarietyText(rows[i].row.odruda)
  }

  /** A variety cell of blanks alone is never reported when the map is
      non-empty and holds no id 0: the lookup as written resolves it. */
  lemma BlankVarietyNotReported(rows: seq<Tagged>, varietyMap: seq<Entry>, cell: string)
    requires |varietyMap| > 0 && forall i :: 0 <= i < |varietyMap| ==> varietyMap[i].id != 0
    requires cell != "" && forall i :: 0 <= i < |cell| ==> cell[i] == ' '
    ensures cell !in UnmappedVarieties(rows, varietyMap)
  {
    if cell in UnmappedVarieties(rows, varietyMap) {
      var i :| 0 <= i < |rows| && Imported(rows[i].row) && VarietyGiven(rows[i].row.odruda)
        && Unresolved(VarietyIdAsWritten(varietyMap, rows[i].row.odruda)) && VarietyText(rows[i].row.odruda) == cell;
      assert rows[i].row.odruda != None by {
        assert "nan"[0] != ' ';
      }
      BlankVarietyMapsToFirst(varietyMap, cell);
    }
  }
}

=== FILE: forms.dfy ===
/** The entry forms of the pages: each checks its inputs in a fixed order
    and either names the first problem or builds the record to store. Ids
    the data manager assigns on add are outside these forms; ids a form
    computes itself are part of its record. */
module Forms {
  import opened Wrappers
  import opened Seqs
  import Numeric
  import opened Records
  import opened Auth
  import Aggregations
  import Odpisy
  import Statistiky

  /** The outcome of a form: the error shown, or the record to store. */
  datatype Submit<T> = Rejected(message: string) | Accepted(record: T)

  const NoPermission := "Nemáte oprávnění k přidávání záznamů"
  const AllRequired := "Všechna pole jsou povinná"

  /** The add forms of the catalogue pages: a name first, then write
      permission. */
  function CheckNamed<T>(nazev: string, role: string, record: T): (r: Submit<T>)
    ensures nazev == "" ==> r == Rejected("Název je povinný")
    ensures nazev != "" && !HasPermission(role, "write") ==> r == Rejected(NoPermission)
    ensures r.Accepted? <==> nazev != "" && HasPermission(role, "write")
    ensures r.Accepted? ==> r.record == record
  {
    if nazev == "" then Rejected("Název je povinný")
    else if HasPermission(role, "write") then Accepted(record)
    else Rejected(NoPermission)
  }

  /** A choice from a drop-down: nothing chosen, or an empty label, counts
      as missing. */
  predicate Chosen(s: Option<string>)
  {
    s.Some? && s.value != ""
  }

  /** `{row.nazev: row.id for row in table}[name]`: the id of the LAST row
      with that name, since later rows overwrite earlier ones. */
  function LastIdByName<T>(rows: seq<T>, name: T -> string, id: T -> int, n: string): (r: int)
    requires exists i :: 0 <= i < |rows| && name(rows[i]) == n
    ensures exists i :: (0 <= i < |rows| && name(rows[i]) == n && r == id(rows[i])
      && forall j :: i < j < |rows| ==> name(rows[j]) != n)
  {
    var k := LastIndex(rows, (x: T) => name(x) == n);
    id(rows[k.value])
  }

  predicate NamedIn<T>(rows: seq<T>, name: T -> string, s: Option<string>)
  {
    Chosen(s) ==> exists i :: 0 <= i < |rows| && name(rows[i]) == s.value
  }

  function TypeName(t: PlotType): string { t.nazev }
  function PlaceName(p: Place): string { p.nazev }
  function PlaceId(p: Place): int { p.id }

  // ----- Data entry page ("zadávání") -----

  datatype PageMode = NoBusiness | ReadOnly | Editable

  /** No allowed business stops the page; the add toolbar is offered only
      where the user may edit the selected business. */
  function EntryMode(user: SessionUser, businesses: seq<Business>, selected: int): (r: PageMode)
    ensures r == NoBusiness <==> |GetAllowedPodniky(user, businesses)| == 0
    ensures r == Editable <==> |GetAllowedPodniky(user, businesses)| > 0 && CanEditPodnik(user, selected)
  {
    if |GetAllowedPodniky(user, businesses)| == 0 then NoBusiness
    else if CanEditPodnik(user, selected) then Editable
    else ReadOnly
  }

  /** A watcher never gets the toolbar. */
  lemma WatcherReadsOnly(user: SessionUser, businesses: seq<Business>, selected: int)
    requires user.role == Some("watcher") || user.role.None?
    ensures EntryMode(user, businesses, selected) != Editable
  {
  }

  /** A field as an entry form builds it, before the store gives it an id. */
  datatype FieldDraft = FieldDraft(
    podnikId: int,
    plodinaId: Option<int>,
    odrudaId: Option<int>,
    rokSklizne: int,
    vymera: real,
    sklizeno: real,
    cistaVaha: real,
    hrubaVaha: real,
    cisloHonu: string,
    nazevHonu: string,
    datumSeti: string)

  /** The stored row once the data manager has given the draft its id. */
  function Complete(d: FieldDraft, id: int): (f: Field)
    ensures f.id == id && f.podnikId == d.podnikId && f.plodinaId == d.plodinaId && f.rokSklizne == d.rokSklizne
    ensures f.vymera == d.vymera && f.cistaVaha == d.cistaVaha && f.nazevHonu == Some(d.nazevHonu)
  {
    Field(id, d.podnikId, d.plodinaId, d.odrudaId, d.rokSklizne, d.vymera, d.sklizeno, d.cistaVaha, d.hrubaVaha,
          d.cisloHonu, Some(d.nazevHonu), d.datumSeti)
  }

  /** "-- Nevybráno --" is the option 0 and stores no id. */
  function OptionalId(selected: int): (r: Option<int>)
    ensures r.Some? <==> selected > 0
    ensures r.Some? ==> r.value == selected
  {
    if selected > 0 then Some(selected) else None
  }

  /** The new-field form: a field name, then a positive area; the harvest
      values start at 0. */
  function NewFieldForm(nazevHonu: string, cisloHonu: string, vymera: real, rok: int, crop: int, variety: int, podnikId: int): (r: Submit<FieldDraft>)
    ensures nazevHonu == "" ==> r == Rejected("Vyplňte název honu")
    ensures nazevHonu != "" && vymera <= 0.0 ==> r == Rejected("Výměra musí být větší než 0")
    ensures r.Accepted? <==> nazevHonu != "" && vymera > 0.0
    ensures r.Accepted? ==> (r.record.podnikId == podnikId && r.record.rokSklizne == rok && r.record.vymera == vymera
      && r.record.nazevHonu == nazevHonu && r.record.cisloHonu == cisloHonu
      && r.record.plodinaId == OptionalId(crop) && r.record.odrudaId == OptionalId(variety)
      && r.record.sklizeno == 0.0 && r.record.cistaVaha == 0.0 && r.record.hrubaVaha == 0.0 && r.record.datumSeti == "")
  {
    if nazevHonu == "" then Rejected("Vyplňte název honu")
    else if vymera <= 0.0 then Rejected("Výměra musí být větší než 0")
    else Accepted(FieldDraft(podnikId, OptionalId(crop), OptionalId(variety), rok, vymera, 0.0, 0.0, 0.0, cisloHonu, nazevHonu, ""))
  }

  function PlotId(p: Plot): int { p.id }

  /** The entry page's plot form: a positive size; the id is one above the
      largest plot id, or 1. */
  function EntryPlotForm(velikost: real, rok: int, typ: int, podnikId: int, plots: seq<Plot>): (r: Submit<Plot>)
    ensures velikost <= 0.0 ==> r == Rejected("Velikost musí být větší než 0")
    ensures r.Accepted? <==> velikost > 0.0
    ensures r.Accepted? ==> (r.record.podnikId == podnikId && r.record.year == rok && r.record.velikost == velikost
      && r.record.nazevId == typ)
    ensures r.Accepted? ==> forall i :: 0 <= i < |plots| ==> plots[i].id < r.record.id
    ensures r.Accepted? && |plots| == 0 ==> r.record.id == 1
  {
    if velikost <= 0.0 then Rejected("Velikost musí být větší než 0")
    else Accepted(Plot(NextId(plots, PlotId), podnikId, rok, velikost, typ))
  }

  function RainId(r: RainRecord): int { r.id }

  /** The entry page's rainfall form: no negative volume, then a collection
      point (an id of 0 counts as none); the date is stored at midnight. */
  function EntryRainForm(objem: real, misto: Option<int>, podnikId: int, datum: string, table: seq<RainRecord>): (r: Submit<RainRecord>)
    ensures objem < 0.0 ==> r == Rejected("Objem nemůže být záporný")
    ensures objem >= 0.0 && (misto.None? || misto.value == 0) ==> r == Rejected("Vyberte sběrné místo")
    ensures r.Accepted? <==> objem >= 0.0 && misto.Some? && misto.value != 0
    ensures r.Accepted? ==> (r.record.mistoId == misto.value && r.record.podnikId == podnikId
      && r.record.objem == objem && r.record.datum == datum + " 00:00:00")
    ensures r.Accepted? ==> forall i :: 0 <= i < |table| ==> table[i].id < r.record.id
  {
    if objem < 0.0 then Rejected("Objem nemůže být záporný")
    else if misto.None? || misto.value == 0 then Rejected("Vyberte sběrné místo")
    else Accepted(RainRecord(NextId(table, RainId), misto.value, podnikId, objem, datum + " 00:00:00"))
  }

  /** The entry page's sale form: a positive quantity, then a positive
      amount; the stock is not consulted. */
  function EntrySaleForm(prodanoT: real, castkaKc: int, rok: int, datum: string, stav: Odpisy.FormStatus,
                         poznamka: string, podnikId: int, newId: int): (r: Submit<Sale>)
    ensures prodanoT <= 0.0 ==> r == Rejected("Množství musí být větší než 0")
    ensures prodanoT > 0.0 && castkaKc <= 0 ==> r == Rejected("Částka musí být větší než 0")
    ensures r.Accepted? <==> prodanoT > 0.0 && castkaKc > 0
    ensures r.Accepted? ==> r.record == Sale(newId, podnikId, rok, datum, castkaKc as real, prodanoT, "", poznamka, stav.Text())
  {
    if prodanoT <= 0.0 then Rejected("Množství musí být větší než 0")
    else if castkaKc <= 0 then Rejected("Částka musí být větší než 0")
    else Accepted(Sale(newId, podnikId, rok, datum, castkaKc as real, prodanoT, "", poznamka, stav.Text()))
  }

  /** The entry page accepts a sale the sales page refuses for exceeding
      what is left in stock. */
  lemma EntrySaleSkipsStock(prodanoT: real, castkaKc: int, zbytek: real, rok: int, datum: string,
                            stav: Odpisy.FormStatus, poznamka: string, podnikId: int, newId: int)
    requires prodanoT > 0.0 && castkaKc > 0 && prodanoT > zbytek
    ensures EntrySaleForm(prodanoT, castkaKc, rok, datum, stav, poznamka, podnikId, newId).Accepted?
    ensures Odpisy.ValidateSale(prodanoT, castkaKc, zbytek) == Some(Odpisy.ExceedsStock(zbytek))
  {
  }

  // ----- Fields page -----

  datatype YearPerms = YearPerms(create: bool, update: bool, delete: bool)

  function YearIs(year: int): YearRow -> bool
  {
    (r: YearRow) => r.year == year
  }

  /** The year's edit rights from its first "roky" row; a year without a
      row allows everything. */
  function YearPermsOf(roky: seq<YearRow>, year: int): (r: YearPerms)
    ensures FirstIndex(roky, YearIs(year)).None? ==> r == YearPerms(true, true, true)
    ensures FirstIndex(roky, YearIs(year)).Some? ==>
      var row := roky[FirstIndex(roky, YearIs(year)).value];
      row.year == year
      && (r.create <==> row.creatable == "Y") && (r.update <==> row.updatable == "Y") && (r.delete <==> row.deletable == "Y")
  {
    match FirstIndex(roky, YearIs(year))
    case None => YearPerms(true, true, true)
    case Some(k) => YearPerms(roky[k].creatable == "Y", roky[k].updatable == "Y", roky[k].deletable == "Y")
  }

  datatype FieldActions = FieldActions(add: bool, duplicate: bool, editTable: bool)

  /** Add needs the year's create right and write permission; duplicate
      also needs a field to copy; table edits need the update right. */
  function FieldActionsOf(perms: YearPerms, role: string, shownFields: nat): (r: FieldActions)
    ensures r.add <==> perms.create && HasPermission(role, "write")
    ensures r.duplicate <==> r.add && shownFields > 0
    ensures r.editTable <==> perms.update && HasPermission(role, "write")
  {
    var w := HasPermission(role, "write");
    FieldActions(perms.create && w, perms.create && w && shownFields > 0, perms.update && w)
  }

  /** A watcher cannot add, duplicate or edit in any year. */
  lemma WatcherCannotChangeFields(roky: seq<YearRow>, year: int, shownFields: nat)
    ensures FieldActionsOf(YearPermsOf(roky, year), "watcher", shownFields) == FieldActions(false, false, false)
  {
    PermissionTable("watcher", "write");
  }

  /** The add form's starting values: copied from the field being
      duplicated, else empty. */
  datatype Prefill = Prefill(plodinaId: int, vymera: real, sklizeno: real, cisloHonu: string,
                             cistaVaha: real, hrubaVaha: real, nazevHonu: string)

  /** The crop preselected: the source field's crop when it is listed,
      else the first listed crop; without crops the id input starts at 1. */
  function PrefillCrop(cropIds: seq<int>, source: Option<Field>): (r: int)
    ensures |cropIds| == 0 ==> r == 1
    ensures |cropIds| > 0 ==> r in cropIds
    ensures (|cropIds| > 0 && source.Some? && source.value.plodinaId.Some? && source.value.plodinaId.value != 0
      && source.value.plodinaId.value in cropIds) ==> r == source.value.plodinaId.value
  {
    if |cropIds| == 0 then 1
    else if source.Some? && source.value.plodinaId.Some? && source.value.plodinaId.value != 0
      && source.value.plodinaId.value in cropIds then source.value.plodinaId.value
    else cropIds[0]
  }

  /** `str()` of a possibly missing name cell: pandas gives "nan". */
  function NameText(n: Option<string>): string
  {
    if n.Some? then n.value else "nan"
  }

  function DuplicatePrefill(cropIds: seq<int>, source: Option<Field>): (r: Prefill)
    ensures r.plodinaId == PrefillCrop(cropIds, source)
    ensures source.None? ==> (r.vymera == 0.0 && r.sklizeno == 0.0 && r.cistaVaha == 0.0 && r.hrubaVaha == 0.0
      && r.cisloHonu == "" && r.nazevHonu == "")
    ensures source.Some? ==> (r.vymera == source.value.vymera && r.sklizeno == source.value.sklizeno
      && r.cistaVaha == source.value.cistaVaha && r.hrubaVaha == source.value.hrubaVaha
      && r.cisloHonu == source.value.cisloHonu && r.nazevHonu == NameText(source.value.nazevHonu))
  {
    var crop := PrefillCrop(cropIds, source);
    match source
    case None => Prefill(crop, 0.0, 0.0, "", 0.0, 0.0, "")
    case Some(f) => Prefill(crop, f.vymera, f.sklizeno, f.cisloHonu, f.cistaVaha, f.hrubaVaha, NameText(f.nazevHonu))
  }

  /** Submitting the fields page's form: a positive area; the field is
      stamped with the selected business and year, and has no variety. */
  function SubmitFieldForm(p: Prefill, datumSeti: string, podnikId: int, year: int): (r: Submit<FieldDraft>)
    ensures p.vymera <= 0.0 ==> r == Rejected("Výměra musí být větší než 0")
    ensures r.Accepted? <==> p.vymera > 0.0
    ensures r.Accepted? ==> (r.record.podnikId == podnikId && r.record.rokSklizne == year
      && r.record.plodinaId == Some(p.plodinaId) && r.record.odrudaId.None?)
  {
    if p.vymera <= 0.0 then Rejected("Výměra musí být větší než 0")
    else Accepted(FieldDraft(podnikId, Some(p.plodinaId), None, year, p.vymera, p.sklizeno, p.cistaVaha, p.hrubaVaha,
                             p.cisloHonu, p.nazevHonu, datumSeti))
  }

  /** Duplicating a field with a listed crop and a named, positive area
      stores a copy of it under the selected business and year. */
  lemma DuplicateCopiesField(cropIds: seq<int>, f: Field, podnikId: int, year: int)
    requires f.vymera > 0.0 && f.nazevHonu.Some? && f.plodinaId.Some? && f.plodinaId.value != 0 && f.plodinaId.value in cropIds
    ensures var r := SubmitFieldForm(DuplicatePrefill(cropIds, Some(f)), f.datumSeti, podnikId, year);
      r.Accepted? && Complete(r.record, f.id) == f.(podnikId := podnikId, rokSklizne := year, odrudaId := None)
  {
  }

  /** The footer's average yield over the fields shown: total net weight
      over total area, 0 without area. */
  function FieldsAverage(fields: seq<Field>): (r: real)
    ensures Sum(fields, FieldArea) > 0.0 ==> r * Sum(fields, FieldArea) == Sum(fields, FieldNet)
    ensures Sum(fields, FieldArea) <= 0.0 ==> r == 0.0
  {
    Numeric.Guarded(Sum(fields, FieldNet), Sum(fields, FieldArea))
  }

  // ----- Plot, rainfall, collection point, crop-total and variety pages -----

  datatype PlotDraft = PlotDraft(podnikId: int, nazevId: int, year: int, velikost: real)

  /** The plots page's add form: business and type chosen, then a
      non-negative size (0 is accepted), then write permission. */
  function AddPlot(podnik: Option<string>, typ: Option<string>, rok: int, velikost: real, role: string,
                   businesses: seq<Business>, types: seq<PlotType>): (r: Submit<PlotDraft>)
    requires NamedIn(businesses, BusinessName, podnik) && NamedIn(types, TypeName, typ)
    ensures !Chosen(podnik) || !Chosen(typ) ==> r == Rejected(AllRequired)
    ensures Chosen(podnik) && Chosen(typ) && velikost < 0.0 ==> r == Rejected("Výměra nemůže být záporná")
    ensures Chosen(podnik) && Chosen(typ) && velikost >= 0.0 && !HasPermission(role, "write") ==> r == Rejected(NoPermission)
    ensures r.Accepted? <==> Chosen(podnik) && Chosen(typ) && velikost >= 0.0 && HasPermission(role, "write")
    ensures r.Accepted? ==> (r.record.year == rok && r.record.velikost == velikost
      && (exists i :: 0 <= i < |businesses| && businesses[i].nazev == podnik.value && businesses[i].id == r.record.podnikId)
      && (exists i :: 0 <= i < |types| && types[i].nazev == typ.value && types[i].id == r.record.nazevId))
  {
    if !Chosen(podnik) || !Chosen(typ) then Rejected(AllRequired)
    else if velikost < 0.0 then Rejected("Výměra nemůže být záporná")
    else if HasPermission(role, "write") then
      Accepted(PlotDraft(LastIdByName(businesses, BusinessName, BusinessId, podnik.value),
                         LastIdByName(types, TypeName, TypeId, typ.value), rok, velikost))
    else Rejected(NoPermission)
  }

  datatype RainDraft = RainDraft(datum: string, podnikId: int, mistoId: int, objem: real)

  /** The rainfall page's add form: business and point chosen, then a
      non-negative volume, then write permission. */
  function AddRain(business: Option<string>, misto: Option<string>, datum: string, objem: real, role: string,
                   businesses: seq<Business>, places: seq<Place>): (r: Submit<RainDraft>)
    requires NamedIn(businesses, BusinessName, business) && NamedIn(places, PlaceName, misto)
    ensures !Chosen(business) || !Chosen(misto) ==> r == Rejected(AllRequired)
    ensures Chosen(business) && Chosen(misto) && objem < 0.0 ==> r == Rejected("Objem nemůže být záporný")
    ensures Chosen(business) && Chosen(misto) && objem >= 0.0 && !HasPermission(role, "write") ==> r == Rejected(NoPermission)
    ensures r.Accepted? <==> Chosen(business) && Chosen(misto) && objem >= 0.0 && HasPermission(role, "write")
    ensures r.Accepted? ==> (r.record.datum == datum && r.record.objem == objem
      && (exists i :: 0 <= i < |businesses| && businesses[i].nazev == business.value && businesses[i].id == r.record.podnikId)
      && (exists i :: 0 <= i < |places| && places[i].nazev == misto.value && places[i].id == r.record.mistoId))
  {
    if !Chosen(business) || !Chosen(misto) then Rejected(AllRequired)
    else if objem < 0.0 then Rejected("Objem nemůže být záporný")
    else if HasPermission(role, "write") then
      Accepted(RainDraft(datum, LastIdByName(businesses, BusinessName, BusinessId, business.value),
                         LastIdByName(places, PlaceName, PlaceId, misto.value), objem))
    else Rejected(NoPermission)
  }

  /** The collection-point page's add form: a name, then a business, then
      write permission; the record is the business's id and the name. */
  function AddPlace(nazev: string, podnik: Option<string>, role: string, businesses: seq<Business>): (r: Submit<(int, string)>)
    requires NamedIn(businesses, BusinessName, podnik)
    ensures nazev == "" ==> r == Rejected("Název je povinný")
    ensures nazev != "" && !Chosen(podnik) ==> r == Rejected("Vyberte podnik")
    ensures nazev != "" && Chosen(podnik) && !HasPermission(role, "write") ==> r == Rejected(NoPermission)
    ensures r.Accepted? <==> nazev != "" && Chosen(podnik) && HasPermission(role, "write")
    ensures r.Accepted? ==> (r.record.1 == nazev
      && exists i :: 0 <= i < |businesses| && businesses[i].nazev == podnik.value && businesses[i].id == r.record.0)
  {
    if nazev == "" then Rejected("Název je povinný")
    else if !Chosen(podnik) then Rejected("Vyberte podnik")
    else if HasPermission(role, "write") then Accepted((LastIdByName(businesses, BusinessName, BusinessId, podnik.value), nazev))
    else Rejected(NoPermission)
  }

  /** The seed-variety page's add form stores only the name. */
  function AddVariety(nazev: string, role: string): (r: Submit<string>)
    ensures r.Accepted? <==> nazev != "" && HasPermission(role, "write")
    ensures r.Accepted? ==> r.record == nazev
    ensures nazev != "" && !HasPermission(role, "write") ==> r == Rejected(NoPermission)
  {
    CheckNamed(nazev, role, nazev)
  }

  /** The crop-total page's add form: crop and business chosen, then a
      positive weight, then write permission. */
  function AddCropTotal(crop: Option<string>, business: Option<string>, vaha: real, year: int, role: string,
                        crops: seq<Crop>, businesses: seq<Business>): (r: Submit<Aggregations.CropTotal>)
    requires NamedIn(crops, CropName, crop) && NamedIn(businesses, BusinessName, business)
    ensures !Chosen(crop) || !Chosen(business) ==> r == Rejected(AllRequired)
    ensures Chosen(crop) && Chosen(business) && vaha <= 0.0 ==> r == Rejected("Váha musí být větší než 0")
    ensures Chosen(crop) && Chosen(business) && vaha > 0.0 && !HasPermission(role, "write") ==> r == Rejected(NoPermission)
    ensures r.Accepted? <==> Chosen(crop) && Chosen(business) && vaha > 0.0 && HasPermission(role, "write")
    ensures r.Accepted? ==> (r.record.year == year && r.record.cistaVaha == vaha
      && (exists i :: 0 <= i < |crops| && crops[i].nazev == crop.value && crops[i].id == r.record.plodinaId)
      && (exists i :: 0 <= i < |businesses| && businesses[i].nazev == business.value && businesses[i].id == r.record.podnikId))
  {
    if !Chosen(crop) || !Chosen(business) then Rejected(AllRequired)
    else if vaha <= 0.0 then Rejected("Váha musí být větší než 0")
    else if HasPermission(role, "write") then
      Accepted(Aggregations.CropTotal(LastIdByName(businesses, BusinessName, BusinessId, business.value),
                                      LastIdByName(crops, CropName, CropId, crop.value), year, vaha))
    else Rejected(NoPermission)
  }

  // ----- Users page -----

  /** A user row as the add form stores it: every password field empty. */
  datatype NewUser = NewUser(username: string, email: string, password: string, role: string, fullName: string,
                             businessIds: string, passwordSalt: string, passwordHash: string, passwordIters: string,
                             isActive: bool)

  function UserNameOf(u: UserRow): string { u.username }

  /** The add-user form: username, email and password given, a password
      of at least 6 characters, then a username not yet taken. */
  function AddUser(users: seq<UserRow>, username: string, email: string, password: string, role: string,
                   fullName: string, businessIds: string, isActive: bool): (r: Submit<NewUser>)
    ensures username == "" || email == "" || password == "" ==> r == Rejected("Uživatelské jméno, email a heslo jsou povinné")
    ensures username != "" && email != "" && password != "" && |password| < 6 ==> r == Rejected("Heslo musí mít alespoň 6 znaků")
    ensures r.Accepted? <==> (username != "" && email != "" && |password| >= 6
      && forall i :: 0 <= i < |users| ==> users[i].username != username)
    ensures r.Accepted? ==> (r.record.username == username && r.record.email == email && r.record.role == role
      && r.record.password == "" && r.record.passwordHash == "" && r.record.passwordSalt == "" && r.record.passwordIters == ""
      && r.record.businessIds == businessIds && r.record.isActive == isActive)
  {
    if username == "" || email == "" || password == "" then Rejected("Uživatelské jméno, email a heslo jsou povinné")
    else if |password| < 6 then Rejected("Heslo musí mít alespoň 6 znaků")
    else if exists i :: 0 <= i < |users| && users[i].username == username then
      Rejected("Uživatel '" + username + "' již existuje")
    else Accepted(NewUser(username, email, "", role, fullName, businessIds, "", "", "", isActive))
  }

  /** After a user is added under a name, the same name is refused. */
  lemma AddUserTwiceRefused(users: seq<UserRow>, u: UserRow, email: string, password: string, role: string,
                            fullName: string, businessIds: string, isActive: bool)
    requires u.username != "" && email != "" && |password| >= 6
    ensures AddUser(users + [u], u.username, email, password, role, fullName, businessIds, isActive)
      == Rejected("Uživatel '" + u.username + "' již existuje")
  {
    assert (users + [u])[|users|].username == u.username;
  }
}

=== FILE: labellines.dfy ===
/** Per-label totals of fields: `groupby(<name column>).agg(sum)` over
    a set of fields, one line per label in string order, the fields
    without a label dropped. The pages group fields this way by business
    name, by variety name and by crop name. */
module LabelLines {
  import opened Wrappers
  import opened Seqs
  import opened Records
  import opened Aggregations
  import opened YearPivot

  function FQ(q: Quantity): Field -> real
  {
    (f: Field) => FieldQty(q, f)
  }

  function LabelIs(nameOf: Field -> Option<string>, n: string): Field -> bool
  {
    (f: Field) => nameOf(f) == Some(n)
  }

  /** The column sums of some fields. */
  function FieldTotals(g: seq<Field>): (t: Totals)
    ensures forall q :: t.Get(q) == Sum(g, FQ(q))
  {
    Totals(Sum(g, FQ(Area)), Sum(g, FQ(Harvested)), Sum(g, FQ(Net)), Sum(g, FQ(Gross)))
  }

  /** One label's line: the label and the column sums of its fields. */
  datatype LabelLine = LabelLine(name: string, totals: Totals)

  function LineQty(q: Quantity): LabelLine -> real
  {
    (l: LabelLine) => l.totals.Get(q)
  }

  /** The line of label `n`: the sums over the group of fields labelled `n`. */
  function LineOf(fields: seq<Field>, nameOf: Field -> Option<string>, n: string): (l: LabelLine)
    ensures l.name == n
    ensures forall q :: l.totals.Get(q) == Sum(Group(KnownFields(fields, nameOf), KnownName(nameOf), n), FQ(q))
  {
    var g := Group(KnownFields(fields, nameOf), KnownName(nameOf), n);
    LabelLine(n, FieldTotals(g))
  }

  function LinesOf(names: seq<string>, fields: seq<Field>, nameOf: Field -> Option<string>): (r: seq<LabelLine>)
    ensures |r| == |names|
    ensures forall i :: 0 <= i < |names| ==> r[i] == LineOf(fields, nameOf, names[i])
  {
    if |names| == 0 then []
    else [LineOf(fields, nameOf, names[0])] + LinesOf(names[1..], fields, nameOf)
  }

  /** The grouped lines: one per distinct label, labels ascending. */
  function Lines(fields: seq<Field>, nameOf: Field -> Option<string>): (r: seq<LabelLine>)
    ensures |r| == |TableNames(fields, nameOf)|
    ensures forall i :: 0 <= i < |r| ==> r[i].name == TableNames(fields, nameOf)[i]
    ensures forall i, j :: 0 <= i < j < |r| ==> r[i].name != r[j].name && StrLe(r[i].name, r[j].name)
  {
    LinesOf(TableNames(fields, nameOf), fields, nameOf)
  }

  /** A line sums exactly the fields carrying its label. */
  lemma LineIsLabelSum(fields: seq<Field>, nameOf: Field -> Option<string>, n: string, q: Quantity)
    ensures LineOf(fields, nameOf, n).totals.Get(q) == Sum(Filter(fields, LabelIs(nameOf, n)), FQ(q))
  {
    var known := KnownFields(fields, nameOf);
    GroupIsFilter(known, KnownName(nameOf), n);
    FilterFilter(fields, Labelled(nameOf), KeyIs(KnownName(nameOf), n));
    FilterAgree(fields, Both(Labelled(nameOf), KeyIs(KnownName(nameOf), n)), LabelIs(nameOf, n));
  }

  lemma {:induction false} LinesOfSum(names: seq<string>, fields: seq<Field>, nameOf: Field -> Option<string>, q: Quantity)
    ensures Sum(LinesOf(names, fields, nameOf), LineQty(q))
      == SumGroups(names, KnownFields(fields, nameOf), KnownName(nameOf), FQ(q))
  {
    if |names| > 0 {
      LinesOfSum(names[1..], fields, nameOf, q);
      SumOne(LineOf(fields, nameOf, names[0]), LinesOf(names[1..], fields, nameOf), LineQty(q));
    }
  }

  /** Every labelled field's label is among the table's labels. */
  lemma KnownNamesListed(fields: seq<Field>, nameOf: Field -> Option<string>)
    ensures forall k :: 0 <= k < |KnownFields(fields, nameOf)| ==>
      KeyIn(KnownName(nameOf), TableNames(fields, nameOf))(KnownFields(fields, nameOf)[k])
  {
    var known := KnownFields(fields, nameOf);
    var ns := NamesOf(known, nameOf);
    assert TableNames(fields, nameOf) == SortedStrings(ns);
    forall k | 0 <= k < |known|
      ensures KnownName(nameOf)(known[k]) in TableNames(fields, nameOf)
    {
      assert ns[k] == KnownName(nameOf)(known[k]);
    }
  }

  /** The lines together carry every labelled field once: their column
      sums are the sums over the labelled fields. */
  lemma LinesMass(fields: seq<Field>, nameOf: Field -> Option<string>, q: Quantity)
    ensures Sum(Lines(fields, nameOf), LineQty(q)) == Sum(KnownFields(fields, nameOf), FQ(q))
  {
    var known := KnownFields(fields, nameOf);
    var names := TableNames(fields, nameOf);
    LinesOfSum(names, fields, nameOf, q);
    SumGroupsFiltered(names, known, KnownName(nameOf), FQ(q));
    KnownNamesListed(fields, nameOf);
    FilterAll(known, KeyIn(KnownName(nameOf), names));
  }

  /** When every field has a label, nothing is dropped. */
  lemma AllLabelled(fields: seq<Field>, nameOf: Field -> Option<string>)
    requires forall i :: 0 <= i < |fields| ==> nameOf(fields[i]).Some?
    ensures KnownFields(fields, nameOf) == fields
  {
    FilterAll(fields, Labelled(nameOf));
  }
}

=== FILE: listings.dfy ===
/** The table pages: the crop-total and collection-rainfall listings, the
    year-rights table, the user-to-business access matrix, the user list
    and the seed-variety list. Each page turns stored rows into the rows
    it shows, filtered, sorted and counted. */
module Listings {
  import opened Wrappers
  import opened Seqs
  import opened Text
  import opened Numeric
  import opened Records
  import opened Auth
  import Aggregations

  /** A filter drop-down: "Vše" (everything) or one value. */
  datatype Choice<T> = Everything | Only(value: T)

  // ----- Crop totals ("sumplodiny") -----

  /** A crop-total row with the crop and business names joined in. */
  datatype TotalLine = TotalLine(year: int, plodina: Option<string>, podnik: Option<string>, cistaVaha: real)

  function CropNameOf(crops: seq<Crop>, id: int): (r: Option<string>)
    ensures r.Some? <==> exists i :: 0 <= i < |crops| && crops[i].id == id
  {
    match FindByCell(crops, CropId, Some(id))
    case None => None
    case Some(c) => Some(c.nazev)
  }

  function BusinessNameOf(businesses: seq<Business>, id: int): (r: Option<string>)
    ensures r.Some? <==> exists i :: 0 <= i < |businesses| && businesses[i].id == id
    ensures r.Some? ==> exists i :: 0 <= i < |businesses| && businesses[i].id == id && businesses[i].nazev == r.value
  {
    match FindById(businesses, BusinessId, id)
    case None => None
    case Some(b) => Some(b.nazev)
  }

  function TotalLineOf(t: Aggregations.CropTotal, crops: seq<Crop>, businesses: seq<Business>): TotalLine
  {
    TotalLine(t.year, CropNameOf(crops, t.plodinaId), BusinessNameOf(businesses, t.podnikId), t.cistaVaha)
  }

  function TotalYear(t: Aggregations.CropTotal): int
  {
    t.year
  }

  function TotalWeight(t: Aggregations.CropTotal): real
  {
    t.cistaVaha
  }

  /** The year filter starts on the latest year; without rows it offers
      only "Vše". */
  function DefaultYearChoice(totals: seq<Aggregations.CropTotal>): (r: Choice<int>)
    ensures r.Everything? <==> |totals| == 0
    ensures r.Only? ==> ((exists i :: 0 <= i < |totals| && totals[i].year == r.value)
      && forall i :: 0 <= i < |totals| ==> totals[i].year <= r.value)
  {
    if |totals| == 0 then Everything
    else
      var ys := seq(|totals|, i requires 0 <= i < |totals| => totals[i].year);
      var m := MaxInt(ys);
      assert forall i :: 0 <= i < |totals| ==> ys[i] == totals[i].year;
      Only(m)
  }

  predicate TotalShown(l: TotalLine, year: Choice<int>, business: Choice<string>)
  {
    (year.Only? ==> l.year == year.value) && (business.Only? ==> l.podnik == Some(business.value))
  }

  function TotalShownBy(year: Choice<int>, business: Choice<string>): TotalLine -> bool
  {
    l => TotalShown(l, year, business)
  }

  function YearDesc(l: TotalLine): seq<real>
  {
    [-(l.year as real)]
  }

  function TotalLines(totals: seq<Aggregations.CropTotal>, crops: seq<Crop>, businesses: seq<Business>): (r: seq<TotalLine>)
    ensures |r| == |totals|
    ensures forall i :: 0 <= i < |totals| ==> r[i] == TotalLineOf(totals[i], crops, businesses)
  {
    seq(|totals|, i requires 0 <= i < |totals| => TotalLineOf(totals[i], crops, businesses))
  }

  /** Earlier rows have later (or equal) years. */
  predicate YearsDescending(r: seq<TotalLine>)
  {
    forall i, j :: 0 <= i <= j < |r| ==> r[j].year <= r[i].year
  }

  lemma YearDescSorted(r: seq<TotalLine>)
    requires SortedBy(r, YearDesc)
    ensures YearsDescending(r)
  {
    SortedAll(r, YearDesc);
    forall i, j | 0 <= i <= j < |r|
      ensures r[j].year <= r[i].year
    {
      LexSingle(-(r[i].year as real), -(r[j].year as real));
    }
  }

  /** The listing: every row joined to its names, the filters applied, the
      latest year first. */
  function TotalsListing(totals: seq<Aggregations.CropTotal>, crops: seq<Crop>, businesses: seq<Business>,
                         year: Choice<int>, business: Choice<string>): (r: seq<TotalLine>)
    ensures forall i :: 0 <= i < |r| ==> TotalShown(r[i], year, business)
    ensures forall i :: (0 <= i < |totals| && TotalShown(TotalLineOf(totals[i], crops, businesses), year, business)
      ==> TotalLineOf(totals[i], crops, businesses) in r)
    ensures YearsDescending(r)
    ensures forall i :: 0 <= i < |r| ==> r[i] in TotalLines(totals, crops, businesses)
    ensures forall l :: multiset(r)[l] ==
              if TotalShown(l, year, business) then multiset(TotalLines(totals, crops, businesses))[l] else 0
  {
    var lines := TotalLines(totals, crops, businesses);
    var r := SelectSorted(lines, TotalShownBy(year, business), YearDesc);
    YearDescSorted(r);
    r
  }

  /** The distinct years of the rows, ascending. */
  function TotalYears(totals: seq<Aggregations.CropTotal>): (ys: seq<int>)
    ensures StrictlyIncreasing(ys) && NoDup(ys)
    ensures forall i :: 0 <= i < |totals| ==> totals[i].year in ys
    ensures forall i :: 0 <= i < |ys| ==> exists k :: 0 <= k < |totals| && totals[k].year == ys[i]
  {
    var all := seq(|totals|, i requires 0 <= i < |totals| => totals[i].year);
    var ys := SortedDistinct(all);
    assert forall i :: 0 <= i < |totals| ==> all[i] == totals[i].year;
    ys
  }

  /** The yearly chart: one bar per year, ascending, each the sum of that
      year's weights. */
  function YearlySums(totals: seq<Aggregations.CropTotal>): (r: seq<(int, real)>)
    ensures |r| == |TotalYears(totals)|
    ensures forall i :: 0 <= i < |r| ==> r[i].0 == TotalYears(totals)[i]
    ensures forall i :: 0 <= i < |r| ==> r[i].1 == Sum(Group(totals, TotalYear, r[i].0), TotalWeight)
  {
    var ys := TotalYears(totals);
    var sums := GroupTotals(ys, totals, TotalYear, TotalWeight);
    seq(|ys|, i requires 0 <= i < |ys| => (ys[i], sums[i]))
  }

  function YearlySumsValues(totals: seq<Aggregations.CropTotal>): (v: seq<real>)
    ensures v == GroupTotals(TotalYears(totals), totals, TotalYear, TotalWeight)
  {
    var r := YearlySums(totals);
    seq(|r|, i requires 0 <= i < |r| => r[i].1)
  }

  function BarYear(bar: (int, real)): int
  {
    bar.0
  }

  /** The bars cover every row's year, rise strictly, and add up to the
      page's total weight. */
  lemma YearlySumsMass(totals: seq<Aggregations.CropTotal>)
    ensures forall i :: 0 <= i < |YearlySums(totals)| - 1 ==> YearlySums(totals)[i].0 < YearlySums(totals)[i + 1].0
    ensures forall i :: 0 <= i < |totals| ==> totals[i].year in MapSeq(YearlySums(totals), BarYear)
    ensures Sum(YearlySumsValues(totals), Self) == Sum(totals, TotalWeight)
  {
    YearlyBarsCover(totals);
    YearlyBarsMass(totals);
  }

  lemma YearlyBarsCover(totals: seq<Aggregations.CropTotal>)
    ensures forall i :: 0 <= i < |totals| ==> totals[i].year in MapSeq(YearlySums(totals), BarYear)
  {
    assert MapSeq(YearlySums(totals), BarYear) == TotalYears(totals);
  }

  lemma YearlyBarsMass(totals: seq<Aggregations.CropTotal>)
    ensures Sum(YearlySumsValues(totals), Self) == Sum(totals, TotalWeight)
  {
    var ys := TotalYears(totals);
    GroupTotalsSum(ys, totals, TotalYear, TotalWeight);
    GroupsPreserveSum(ys, totals, TotalYear, TotalWeight);
  }

  // ----- Collection rainfall ("sběrné srážky") -----

  /** A rainfall row with the business and collection-point names joined in. */
  datatype RainLine = RainLine(datum: string, podnik: Option<string>, misto: Option<string>, objem: real)

  function PlaceNameOf(places: seq<Place>, id: int): (r: Option<string>)
    ensures r.Some? <==> exists i :: 0 <= i < |places| && places[i].id == id
  {
    match FirstIndex(places, (p: Place) => p.id == id)
    case None => None
    case Some(k) => Some(places[k].nazev)
  }

  function RainLineOf(r: RainRecord, places: seq<Place>, businesses: seq<Business>): RainLine
  {
    RainLine(r.datum, BusinessNameOf(businesses, r.podnikId), PlaceNameOf(places, r.mistoId), r.objem)
  }

  function RainShownBy(business: Choice<string>): RainLine -> bool
  {
    (l: RainLine) => business.Only? ==> l.podnik == Some(business.value)
  }

  function DateDesc(l: RainLine): seq<real>
  {
    StrKeyDesc(l.datum)
  }

  function RainLines(rows: seq<RainRecord>, places: seq<Place>, businesses: seq<Business>): (r: seq<RainLine>)
    ensures |r| == |rows|
    ensures forall i :: 0 <= i < |rows| ==> r[i] == RainLineOf(rows[i], places, businesses)
  {
    if |rows| == 0 then [] else [RainLineOf(rows[0], places, businesses)] + RainLines(rows[1..], places, businesses)
  }

  /** Earlier rows have later (or equal) dates in the order of the text. */
  predicate DatesDescending(r: seq<RainLine>)
  {
    forall i, j :: 0 <= i <= j < |r| ==> StrLe(r[j].datum, r[i].datum)
  }

  lemma DateDescSorted(r: seq<RainLine>)
    requires SortedBy(r, DateDesc)
    ensures DatesDescending(r)
  {
    SortedAll(r, DateDesc);
    forall i, j | 0 <= i <= j < |r|
      ensures StrLe(r[j].datum, r[i].datum)
    {
      StrKeyDescOrder(r[i].datum, r[j].datum);
    }
  }

  /** The listing: the business filter applied, the latest date first in
      the order of the date text. */
  function RainListing(rows: seq<RainRecord>, places: seq<Place>, businesses: seq<Business>, business: Choice<string>): (r: seq<RainLine>)
    ensures forall i :: 0 <= i < |r| ==> business.Only? ==> r[i].podnik == Some(business.value)
    ensures forall i :: (0 <= i < |rows| && RainShownBy(business)(RainLineOf(rows[i], places, businesses))
      ==> RainLineOf(rows[i], places, businesses) in r)
    ensures DatesDescending(r)
    ensures forall i :: 0 <= i < |r| ==> r[i] in RainLines(rows, places, businesses)
    ensures forall l :: multiset(r)[l] ==
              if business.Only? ==> l.podnik == Some(business.value) then multiset(RainLines(rows, places, businesses))[l] else 0
  {
    var lines := RainLines(rows, places, businesses);
    var r := SelectSorted(lines, RainShownBy(business), DateDesc);
    DateDescSorted(r);
    r
  }

  function Volume(r: RainRecord): real
  {
    r.objem
  }

  function LineVolume(l: RainLine): real
  {
    l.objem
  }

  /** With no business filter the listing shows the whole volume the page
      reports as its total. */
  lemma UnfilteredRainVolume(rows: seq<RainRecord>, places: seq<Place>, businesses: seq<Business>)
    ensures Sum(RainListing(rows, places, businesses, Everything), LineVolume) == Sum(rows, Volume)
  {
    var lines := RainLines(rows, places, businesses);
    FilterAll(lines, RainShownBy(Everything));
    SumPermutation(lines, RainListing(rows, places, businesses, Everything), LineVolume);
    MappedSum(rows, places, businesses);
  }

  lemma {:induction false} MappedSum(rows: seq<RainRecord>, places: seq<Place>, businesses: seq<Business>)
    ensures Sum(RainLines(rows, places, businesses), LineVolume) == Sum(rows, Volume)
  {
    if |rows| > 0 {
      MappedSum(rows[1..], places, businesses);
    }
  }

  // ----- Year rights ("roky") -----

  /** The year-rights page is for the admin role only. */
  predicate YearsPageOpen(role: string)
  {
    role == "admin"
  }

  /** A year's rights as the checkboxes show them. */
  datatype YearFlags = YearFlags(year: int, creatable: bool, updatable: bool, deletable: bool)

  function FlagsOf(r: YearRow): (f: YearFlags)
    ensures f.year == r.year
    ensures (f.creatable <==> r.creatable == "Y") && (f.updatable <==> r.updatable == "Y") && (f.deletable <==> r.deletable == "Y")
  {
    YearFlags(r.year, r.creatable == "Y", r.updatable == "Y", r.deletable == "Y")
  }

  function FlagRows(rows: seq<YearRow>): (r: seq<YearFlags>)
    ensures |r| == |rows|
    ensures forall i :: 0 <= i < |rows| ==> r[i] == FlagsOf(rows[i])
  {
    if |rows| == 0 then [] else [FlagsOf(rows[0])] + FlagRows(rows[1..])
  }

  function FlagYearDesc(f: YearFlags): seq<real>
  {
    [-(f.year as real)]
  }

  /** The table: every row as checkboxes, the latest year first. */
  function YearsTable(rows: seq<YearRow>): (r: seq<YearFlags>)
    ensures |r| == |rows|
    ensures multiset(r) == multiset(FlagRows(rows))
    ensures forall i, j :: 0 <= i <= j < |r| ==> r[j].year <= r[i].year
  {
    var r := SortBy(FlagRows(rows), FlagYearDesc);
    PermutationMembers(FlagRows(rows), r);
    forall i, j | 0 <= i <= j < |r|
      ensures r[j].year <= r[i].year
    {
      SortedByPairwise(r, FlagYearDesc, i, j);
      LexSingle(-(r[i].year as real), -(r[j].year as real));
    }
    r
  }

  function CreatableY(r: YearRow): bool { r.creatable == "Y" }
  function UpdatableY(r: YearRow): bool { r.updatable == "Y" }
  function DeletableY(r: YearRow): bool { r.deletable == "Y" }
  function Creatable(f: YearFlags): bool { f.creatable }
  function Updatable(f: YearFlags): bool { f.updatable }
  function Deletable(f: YearFlags): bool { f.deletable }

  lemma {:induction false} FlagCounts(rows: seq<YearRow>)
    ensures Count(FlagRows(rows), Creatable) == Count(rows, CreatableY)
    ensures Count(FlagRows(rows), Updatable) == Count(rows, UpdatableY)
    ensures Count(FlagRows(rows), Deletable) == Count(rows, DeletableY)
  {
    if |rows| > 0 {
      FlagCounts(rows[1..]);
      assert FlagRows(rows)[1..] == FlagRows(rows[1..]);
    }
  }

  /** The counts under the table are the ticked boxes of each column: the
      rows whose stored flag is "Y". */
  lemma YearsTableCounts(rows: seq<YearRow>)
    ensures Count(YearsTable(rows), Creatable) == Count(rows, CreatableY)
    ensures Count(YearsTable(rows), Updatable) == Count(rows, UpdatableY)
    ensures Count(YearsTable(rows), Deletable) == Count(rows, DeletableY)
  {
    FlagCounts(rows);
    CountPermutation(YearsTable(rows), FlagRows(rows), Creatable);
    CountPermutation(YearsTable(rows), FlagRows(rows), Updatable);
    CountPermutation(YearsTable(rows), FlagRows(rows), Deletable);
  }

  // ----- User-to-business access ("userpodniky") -----

  /** One matrix row: the user, their role, and one tick per business
      column. */
  datatype AccessRow = AccessRow(username: string, role: string, cells: seq<bool>)

  function BusinessNameKey(b: Business): seq<real>
  {
    StrKey(b.nazev)
  }

  /** A user may reach a business iff a link row pairs them; a link table
      without the two id columns grants nothing. */
  predicate Linked(links: seq<Link>, hasColumns: bool, userId: int, podnikId: int)
  {
    hasColumns && exists k :: 0 <= k < |links| && links[k].userId == userId && links[k].podnikId == podnikId
  }

  function AccessRowOf(u: UserRow, columns: seq<Business>, links: seq<Link>, hasColumns: bool): (r: AccessRow)
    ensures r.username == u.username && r.role == u.role && |r.cells| == |columns|
    ensures forall j :: 0 <= j < |columns| ==> (r.cells[j] <==> Linked(links, hasColumns, u.id, columns[j].id))
  {
    AccessRow(u.username, u.role,
              seq(|columns|, j requires 0 <= j < |columns| => Linked(links, hasColumns, u.id, columns[j].id)))
  }

  function UsernameKey(r: AccessRow): seq<real>
  {
    StrKey(r.username)
  }

  /** The page is for user managers only. */
  predicate UsersPagesOpen(role: string)
  {
    HasPermission(role, "manage_users")
  }

  /** The business columns, ordered by name. */
  function Columns(businesses: seq<Business>): (cols: seq<Business>)
    ensures multiset(cols) == multiset(businesses)
    ensures forall i, j :: 0 <= i <= j < |cols| ==> StrLe(cols[i].nazev, cols[j].nazev)
  {
    var cols := SortBy(businesses, BusinessNameKey);
    forall i, j | 0 <= i <= j < |cols|
      ensures StrLe(cols[i].nazev, cols[j].nazev)
    {
      SortedByPairwise(cols, BusinessNameKey, i, j);
      StrKeyOrder(cols[i].nazev, cols[j].nazev);
    }
    cols
  }

  /** One row per user over the columns `cols`, ordered by username. */
  function UserRows(users: seq<UserRow>, cols: seq<Business>, links: seq<Link>, hasColumns: bool): (sorted: seq<AccessRow>)
    ensures |sorted| == |users|
    ensures forall i :: 0 <= i < |sorted| ==> exists u :: u in users && sorted[i] == AccessRowOf(u, cols, links, hasColumns)
    ensures forall k :: 0 <= k < |users| ==> AccessRowOf(users[k], cols, links, hasColumns) in sorted
    ensures forall i, j :: 0 <= i <= j < |sorted| ==> StrLe(sorted[i].username, sorted[j].username)
  {
    var rows := seq(|users|, k requires 0 <= k < |users| => AccessRowOf(users[k], cols, links, hasColumns));
    var sorted := SortBy(rows, UsernameKey);
    PermutationMembers(rows, sorted);
    assert |multiset(sorted)| == |multiset(rows)|;
    forall i, j | 0 <= i <= j < |sorted|
      ensures StrLe(sorted[i].username, sorted[j].username)
    {
      SortedByPairwise(sorted, UsernameKey, i, j);
      StrKeyOrder(sorted[i].username, sorted[j].username);
    }
    forall i | 0 <= i < |sorted|
      ensures exists u :: u in users && sorted[i] == AccessRowOf(u, cols, links, hasColumns)
    {
      var k :| 0 <= k < |rows| && rows[k] == sorted[i];
      assert users[k] in users;
    }
    forall k | 0 <= k < |users|
      ensures AccessRowOf(users[k], cols, links, hasColumns) in sorted
    {
      assert rows[k] in rows;
    }
    sorted
  }

  /** The matrix: business columns by name, one row per user ordered by
      username; a tick exactly where a link exists. */
  function AccessMatrix(users: seq<UserRow>, businesses: seq<Business>, links: seq<Link>, hasColumns: bool): (m: (seq<Business>, seq<AccessRow>))
    ensures multiset(m.0) == multiset(businesses)
    ensures forall i, j :: 0 <= i <= j < |m.0| ==> StrLe(m.0[i].nazev, m.0[j].nazev)
    ensures |m.1| == |users|
    ensures forall i :: 0 <= i < |m.1| ==> exists u :: u in users && m.1[i] == AccessRowOf(u, m.0, links, hasColumns)
    ensures forall k :: 0 <= k < |users| ==> AccessRowOf(users[k], m.0, links, hasColumns) in m.1
    ensures forall i, j :: 0 <= i <= j < |m.1| ==> StrLe(m.1[i].username, m.1[j].username)
  {
    var cols := Columns(businesses);
    (cols, UserRows(users, cols, links, hasColumns))
  }

  /** The matrix agrees with the session's business list: for a non-admin,
      a ticked column is a business the user may open. */
  lemma TickedMeansAuthorized(users: seq<UserRow>, businesses: seq<Business>, links: seq<Link>,
                              i: int, j: int, user: SessionUser)
    requires 0 <= i < |AccessMatrix(users, businesses, links, true).1|
    requires var m := AccessMatrix(users, businesses, links, true);
      0 <= j < |m.0| && m.1[i].cells[j] && user.role != Some("admin")
    requires var m := AccessMatrix(users, businesses, links, true);
      forall u :: u in users && m.1[i] == AccessRowOf(u, m.0, links, true) ==> user.podniky == Some(LinkedIds(links, u.id))
    ensures AuthorizePodnik(user, AccessMatrix(users, businesses, links, true).0[j].id)
  {
    var m := AccessMatrix(users, businesses, links, true);
    var u :| u in users && m.1[i] == AccessRowOf(u, m.0, links, true);
    var k :| 0 <= k < |links| && links[k].userId == u.id && links[k].podnikId == m.0[j].id;
    assert links[k].podnikId in LinkedIds(links, u.id);
  }

  // ----- Users ("uživatelé") -----

  /** The businesses carrying id `n`. */
  function IdIs(n: int): Business -> bool
  {
    (b: Business) => b.id == n
  }

  /** One entry of a user's business list as the table shows it: the
      business's name when `int(float(entry))` names a business (the last
      row with that id), else "ID:" and the entry. */
  function IdLabel(entry: string, businesses: seq<Business>): (r: string)
    ensures ParseDecimal(entry).None? ==> r == "ID:" + entry
    ensures ParseDecimal(entry).Some? ==>
      var k := LastIndex(businesses, IdIs(Trunc(ParseDecimal(entry).value)));
      (k.None? ==> r == "ID:" + entry)
      && (k.Some? ==> r == businesses[k.value].nazev && businesses[k.value].id == Trunc(ParseDecimal(entry).value))
  {
    match ParseDecimal(entry)
    case None => "ID:" + entry
    case Some(x) =>
      match LastIndex(businesses, IdIs(Trunc(x)))
      case None => "ID:" + entry
      case Some(k) => businesses[k].nazev
  }

  /** The labels of the comma-separated parts, each stripped, empty parts
      skipped. */
  function IdLabels(parts: seq<string>, businesses: seq<Business>): (r: seq<string>)
    ensures |r| <= |parts|
  {
    if |parts| == 0 then []
    else
      var t := Strip(parts[0]);
      var rest := IdLabels(parts[1..], businesses);
      if t == "" then rest else [IdLabel(t, businesses)] + rest
  }

  /** The "Podniky" column: "Všechny" for an admin, nothing for an empty
      list, otherwise the labels joined by ", ". */
  function BusinessesColumn(role: string, businessIds: Option<string>, businesses: seq<Business>): (r: string)
    ensures role == "admin" ==> r == "Všechny"
    ensures role != "admin" && (businessIds.None? || businessIds == Some("")) ==> r == ""
    ensures role != "admin" && businessIds.Some? && businessIds.value != ""
      ==> r == JoinWith(IdLabels(Split(businessIds.value, ','), businesses), ", ")
  {
    if role == "admin" then "Všechny"
    else if businessIds.None? || businessIds.value == "" then ""
    else JoinWith(IdLabels(Split(businessIds.value, ','), businesses), ", ")
  }

  /** The label of a business id: its name, or "ID:" and the id. */
  function NameOrId(n: int, businesses: seq<Business>): string
  {
    match LastIndex(businesses, IdIs(n))
    case None => "ID:" + ShowInt(n)
    case Some(k) => businesses[k].nazev
  }

  function NamesOrIds(ids: seq<int>, businesses: seq<Business>): (r: seq<string>)
    ensures |r| == |ids|
  {
    if |ids| == 0 then [] else [NameOrId(ids[0], businesses)] + NamesOrIds(ids[1..], businesses)
  }

  /** An entry written as a plain integer is labelled like that integer. */
  lemma LabelOfInt(t: string, businesses: seq<Business>)
    requires ParseInt(t).Some? && t == ShowInt(ParseInt(t).value)
    ensures IdLabel(t, businesses) == NameOrId(ParseInt(t).value, businesses)
  {
    var n := ParseInt(t).value;
    ParseIntAsDecimal(t);
    assert Trunc(n as real) == n;
  }

  /** An entry that access control reads as an id, written plainly. */
  predicate PlainEntry(part: string)
  {
    Strip(part) == "" || (ParseInt(Strip(part)).Some? && Strip(part) == ShowInt(ParseInt(Strip(part)).value))
  }

  /** Where the list parses as the ids the session grants, the column
      labels exactly those ids: the table shows what access control
      reads. */
  lemma {:induction false} LabelsFollowParsedIds(parts: seq<string>, businesses: seq<Business>)
    requires ParseIdParts(parts).Some?
    requires forall i :: 0 <= i < |parts| ==> PlainEntry(parts[i])
    ensures IdLabels(parts, businesses) == NamesOrIds(ParseIdParts(parts).value, businesses)
  {
    if |parts| > 0 {
      var t := Strip(parts[0]);
      assert PlainEntry(parts[0]);
      assert forall i :: 0 <= i < |parts| - 1 ==> parts[1..][i] == parts[i + 1];
      LabelsFollowParsedIds(parts[1..], businesses);
      if t != "" {
        LabelOfInt(t, businesses);
        var ids := ParseIdParts(parts).value;
        assert ids == [ParseInt(t).value] + ParseIdParts(parts[1..]).value;
        assert ids[1..] == ParseIdParts(parts[1..]).value;
      }
    }
  }

  function IsActive(u: UserRow): bool { u.isActive == Some(true) }
  function IsAdmin(u: UserRow): bool { u.role == "admin" }
  function IsEditor(u: UserRow): bool { u.role == "editor" }

  /** The counts under the table: all users, active users, admins and
      editors. */
  datatype UserCounts = UserCounts(total: nat, active: nat, admins: nat, editors: nat)

  function CountUsers(users: seq<UserRow>): (c: UserCounts)
    ensures c.total == |users|
    ensures c.active <= c.total && c.admins + c.editors <= c.total
    ensures c.admins == 0 <==> forall i :: 0 <= i < |users| ==> users[i].role != "admin"
  {
    CountRoles(users);
    UserCounts(|users|, Count(users, IsActive), Count(users, IsAdmin), Count(users, IsEditor))
  }

  lemma {:induction false} CountRoles(users: seq<UserRow>)
    ensures Count(users, IsAdmin) + Count(users, IsEditor) <= |users|
  {
    if |users| > 0 {
      CountRoles(users[1..]);
    }
  }

  // ----- Seed varieties ("odrůdy osiva") -----

  /** The variety table: the names only (the id column dropped), with rows
      addable and removable exactly for users who may write. */
  function VarietyTable(varieties: seq<(int, string)>, role: string): (t: (seq<string>, bool))
    ensures |t.0| == |varieties|
    ensures forall i :: 0 <= i < |varieties| ==> t.0[i] == varieties[i].1
    ensures t.1 <==> HasPermission(role, "write")
  {
    (seq(|varieties|, i requires 0 <= i < |varieties| => varieties[i].1), HasPermission(role, "write"))
  }
}

=== FILE: nabidky.dfy ===
/** The read-only offers overview ("přehled nabídek"): buyers' offers
    recorded against the sales of one business and year, classified by
    crop from the sale's note, the best offer of each buyer, and how much
    each sale was negotiated up from its first offer. */
module Nabidky {
  import opened Wrappers
  import opened Seqs
  import opened Text
  import opened Records

  /** A numeric cell after coercion: unreadable or missing becomes 0. */
  function CoerceAmount(cell: Option<real>): (r: real)
    ensures cell.Some? ==> r == cell.value
    ensures cell.None? ==> r == 0.0
  {
    cell.GetOr(0.0)
  }

  /** The note keywords in the order they are tried, with their labels. */
  const CropKeywords: seq<(string, string)> := [
    ("pšenic", "Pšenice"),
    ("ječmen", "Ječmen"),
    ("řepk", "Řepka"),
    ("kukuřic", "Kukuřice"),
    ("oves", "Oves"),
    ("žit", "Žito")
  ]

  const Other: string := "Ostatní"

  /** Index of the first keyword occurring in `text`. */
  function FirstKeyword(text: string, kws: seq<(string, string)>): (r: Option<nat>)
    ensures r.Some? ==> r.value < |kws| && Contains(text, kws[r.value].0)
    ensures r.Some? ==> forall j :: 0 <= j < r.value ==> !Contains(text, kws[j].0)
    ensures r.None? ==> forall j :: 0 <= j < |kws| ==> !Contains(text, kws[j].0)
  {
    if |kws| == 0 then None
    else if Contains(text, kws[0].0) then Some(0)
    else match FirstKeyword(text, kws[1..])
      case None => None
      case Some(k) => Some(k + 1)
  }

  /** `extract_crop_type`: the label of the first keyword found in the
      lower-cased note, "Ostatní" (other) for a missing or empty note or
      when none is found. */
  function ExtractCropType(note: Option<string>): (r: string)
    ensures note.None? || note.value == "" ==> r == Other
    ensures r == Other <==>
      note.None? || note.value == "" ||
      forall j :: 0 <= j < |CropKeywords| ==> !Contains(Lower(note.value), CropKeywords[j].0)
    ensures forall k :: 0 <= k < |CropKeywords| ==>
      (r == CropKeywords[k].1 <==>
        note.Some? && note.value != "" && Contains(Lower(note.value), CropKeywords[k].0) &&
        forall j :: 0 <= j < k ==> !Contains(Lower(note.value), CropKeywords[j].0))
  {
    LabelsDistinct();
    if note.None? || note.value == "" then Other
    else match FirstKeyword(Lower(note.value), CropKeywords)
      case Some(k) => CropKeywords[k].1
      case None => Other
  }

  lemma LabelsDistinct()
    ensures forall k :: 0 <= k < |CropKeywords| ==> CropKeywords[k].1 != Other
    ensures forall j, k :: 0 <= j < k < |CropKeywords| ==> CropKeywords[j].1 != CropKeywords[k].1
  {
  }

  /** The classification ignores letter case. */
  lemma ExtractIgnoresCase(s: string)
    ensures ExtractCropType(Some(Lower(s))) == ExtractCropType(Some(s))
  {
    LowerIdempotent(s);
    assert Lower(s) == "" <==> s == "";
  }

  /** An offer row with the sale it was matched to and its crop label. */
  datatype OfferRow = OfferRow(offer: Offer, sale: Option<Sale>, plodina: string)

  /** Left merge on the sale id: the first sale carrying that id. */
  function FindSale(sales: seq<Sale>, id: int): (r: Option<Sale>)
    ensures r.Some? ==> r.value in sales && r.value.id == id
    ensures r.None? ==> forall i :: 0 <= i < |sales| ==> sales[i].id != id
  {
    if |sales| == 0 then None
    else if sales[0].id == id then Some(sales[0])
    else FindSale(sales[1..], id)
  }

  function SaleIds(sales: seq<Sale>): (r: seq<int>)
    ensures |r| == |sales|
    ensures forall i :: 0 <= i < |r| ==> r[i] == sales[i].id
  {
    seq(|sales|, i requires 0 <= i < |sales| => sales[i].id)
  }

  function OfferFor(ids: seq<int>): Offer -> bool
  {
    (o: Offer) => o.odpisId in ids
  }

  /** The offers recorded against the shown sales, each with its sale and
      crop label. */
  function OfferRows(offers: seq<Offer>, sales: seq<Sale>): (r: seq<OfferRow>)
    ensures forall i :: 0 <= i < |r| ==>
      r[i].offer in offers && r[i].sale.Some? && r[i].sale.value in sales &&
      r[i].sale.value.id == r[i].offer.odpisId &&
      r[i].plodina == ExtractCropType(Some(r[i].sale.value.poznamka))
    ensures forall i :: 0 <= i < |offers| && offers[i].odpisId in SaleIds(sales) ==>
      exists j :: 0 <= j < |r| && r[j].offer == offers[i]
  {
    var kept := Filter(offers, OfferFor(SaleIds(sales)));
    var r := seq(|kept|, i requires 0 <= i < |kept| => Annotate(kept[i], sales));
    OfferRowsCover(offers, sales, kept, r);
    r
  }

  lemma {:induction false} OfferRowsCover(offers: seq<Offer>, sales: seq<Sale>, kept: seq<Offer>, r: seq<OfferRow>)
    requires kept == Filter(offers, OfferFor(SaleIds(sales)))
    requires |r| == |kept|
    requires forall i :: 0 <= i < |kept| ==> kept[i].odpisId in SaleIds(sales) && r[i] == Annotate(kept[i], sales)
    ensures forall i :: 0 <= i < |r| ==>
      r[i].offer in offers && r[i].sale.Some? && r[i].sale.value in sales &&
      r[i].sale.value.id == r[i].offer.odpisId &&
      r[i].plodina == ExtractCropType(Some(r[i].sale.value.poznamka))
    ensures forall i :: 0 <= i < |offers| && offers[i].odpisId in SaleIds(sales) ==>
      exists j :: 0 <= j < |r| && r[j].offer == offers[i]
  {
    forall i | 0 <= i < |offers| && offers[i].odpisId in SaleIds(sales)
      ensures exists j :: 0 <= j < |r| && r[j].offer == offers[i]
    {
      assert OfferFor(SaleIds(sales))(offers[i]);
      var j :| 0 <= j < |kept| && kept[j] == offers[i];
      assert r[j].offer == offers[i];
    }
  }

  function Annotate(o: Offer, sales: seq<Sale>): (r: OfferRow)
    requires o.odpisId in SaleIds(sales)
    ensures r.offer == o && r.sale == FindSale(sales, o.odpisId) && r.sale.Some?
    ensures r.plodina == ExtractCropType(Some(r.sale.value.poznamka))
  {
    var s := FindSale(sales, o.odpisId);
    assert s.Some? by {
      var k :| 0 <= k < |sales| && SaleIds(sales)[k] == o.odpisId;
    }
    OfferRow(o, s, ExtractCropType(Some(s.value.poznamka)))
  }

  function PlodinaIs(name: string): OfferRow -> bool
  {
    (r: OfferRow) => r.plodina == name
  }

  /** The crop filter: "Všechny" (all) keeps every row, any other choice
      the rows of that crop. */
  function SelectCrop(rows: seq<OfferRow>, selected: string): (r: seq<OfferRow>)
    ensures selected == "Všechny" ==> r == rows
    ensures selected != "Všechny" ==>
      forall i :: 0 <= i < |rows| ==> (rows[i] in r <==> rows[i].plodina == selected)
    ensures multiset(r) <= multiset(rows)
    ensures Embeds(r, rows)
    ensures forall x :: multiset(r)[x] == if selected == "Všechny" || x.plodina == selected then multiset(rows)[x] else 0
  {
    if selected == "Všechny" then
      EmbedsRefl(rows);
      rows
    else
      FilterMask(rows, PlodinaIs(selected));
      Filter(rows, PlodinaIs(selected))
  }

  function Buyer(r: OfferRow): string
  {
    r.offer.odberatel
  }

  function OfferAmount(r: OfferRow): real
  {
    r.offer.nabidkaKc
  }

  function Amounts(rows: seq<OfferRow>): (r: seq<real>)
    ensures |r| == |rows|
    ensures forall i :: 0 <= i < |r| ==> r[i] == rows[i].offer.nabidkaKc
  {
    seq(|rows|, i requires 0 <= i < |rows| => rows[i].offer.nabidkaKc)
  }

  /** One bar of the buyers chart: the buyer's highest offer. */
  datatype BuyerBar = BuyerBar(odberatel: string, nabidka: real, plodina: string)

  function BarValue(b: BuyerBar): seq<real>
  {
    [b.nabidka]
  }

  /** Some offer in `rows` comes from `name`. */
  predicate HasBuyer(rows: seq<OfferRow>, name: string)
  {
    exists i :: 0 <= i < |rows| && Buyer(rows[i]) == name
  }

  /** `b` shows an offer of its buyer that no other offer of theirs
      exceeds. */
  predicate IsBuyerMax(rows: seq<OfferRow>, b: BuyerBar)
  {
    (exists i :: 0 <= i < |rows| && Buyer(rows[i]) == b.odberatel && OfferAmount(rows[i]) == b.nabidka) &&
    (forall i :: 0 <= i < |rows| && Buyer(rows[i]) == b.odberatel ==> OfferAmount(rows[i]) <= b.nabidka)
  }

  predicate HasBar(bars: seq<BuyerBar>, name: string)
  {
    exists j :: 0 <= j < |bars| && bars[j].odberatel == name
  }

  /** The bar of one buyer. */
  function BuyerBarOf(name: string, rows: seq<OfferRow>): (b: BuyerBar)
    ensures b.odberatel == name
    ensures HasBuyer(rows, name) ==> IsBuyerMax(rows, b)
  {
    var g := Group(rows, Buyer, name);
    if |g| == 0 then BuyerBar(name, 0.0, "")
    else
      var m := MaxReal(Amounts(g));
      BuyerMaxInGroup(rows, name, g, m);
      BuyerBar(name, m, g[0].plodina)
  }

  lemma BuyerMaxInGroup(rows: seq<OfferRow>, name: string, g: seq<OfferRow>, m: real)
    requires g == Group(rows, Buyer, name) && |g| > 0
    requires m in Amounts(g) && forall i :: 0 <= i < |g| ==> Amounts(g)[i] <= m
    ensures IsBuyerMax(rows, BuyerBar(name, m, g[0].plodina))
  {
    var i :| 0 <= i < |Amounts(g)| && Amounts(g)[i] == m;
    assert g[i] in rows;
    forall j | 0 <= j < |rows| && Buyer(rows[j]) == name
      ensures OfferAmount(rows[j]) <= m
    {
      assert rows[j] in g;
      var k :| 0 <= k < |g| && g[k] == rows[j];
      assert Amounts(g)[k] <= m;
    }
  }

  /** The bars of the buyers `names`, in that order. */
  function BarsFor(names: seq<string>, rows: seq<OfferRow>): (r: seq<BuyerBar>)
    ensures |r| == |names|
    ensures forall k :: 0 <= k < |names| ==> r[k] == BuyerBarOf(names[k], rows)
  {
    seq(|names|, k requires 0 <= k < |names| => BuyerBarOf(names[k], rows))
  }

  /** The buyers chart: one bar per buyer with that buyer's highest
      offer, in ascending order of the offer. */
  function BuyerBars(rows: seq<OfferRow>): (r: seq<BuyerBar>)
    ensures SortedBy(r, BarValue)
    ensures forall j {:trigger IsBuyerMax(rows, r[j])} :: 0 <= j < |r| ==> IsBuyerMax(rows, r[j])
    ensures forall i :: 0 <= i < |rows| ==> HasBar(r, Buyer(rows[i]))
  {
    var names := Keys(rows, Buyer);
    var bars := BarsFor(names, rows);
    var r := SortBy(bars, BarValue);
    BarsCover(rows, names, bars, r);
    r
  }

  /** Reordered, the bars of the buyers are still each buyer's highest
      offer, and every buyer still has one. */
  lemma BarsCover(rows: seq<OfferRow>, names: seq<string>, bars: seq<BuyerBar>, r: seq<BuyerBar>)
    requires names == Keys(rows, Buyer)
    requires |bars| == |names|
    requires forall k :: 0 <= k < |names| ==> bars[k] == BuyerBarOf(names[k], rows)
    requires multiset(r) == multiset(bars)
    ensures forall j {:trigger IsBuyerMax(rows, r[j])} :: 0 <= j < |r| ==> IsBuyerMax(rows, r[j])
    ensures forall i :: 0 <= i < |rows| ==> HasBar(r, Buyer(rows[i]))
  {
    PermutationMembers(bars, r);
    BarsAreMaxima(rows, names, bars, r);
    BarsForBuyers(rows, names, bars, r);
  }

  lemma BarsAreMaxima(rows: seq<OfferRow>, names: seq<string>, bars: seq<BuyerBar>, r: seq<BuyerBar>)
    requires names == Keys(rows, Buyer)
    requires |bars| == |names|
    requires forall k :: 0 <= k < |names| ==> bars[k] == BuyerBarOf(names[k], rows)
    requires forall j :: 0 <= j < |r| ==> r[j] in bars
    ensures forall j {:trigger IsBuyerMax(rows, r[j])} :: 0 <= j < |r| ==> IsBuyerMax(rows, r[j])
  {
    forall j | 0 <= j < |r|
      ensures IsBuyerMax(rows, r[j])
    {
      var k :| 0 <= k < |bars| && bars[k] == r[j];
      assert names[k] in names;
      assert HasBuyer(rows, names[k]);
    }
  }

  lemma BarsForBuyers(rows: seq<OfferRow>, names: seq<string>, bars: seq<BuyerBar>, r: seq<BuyerBar>)
    requires names == Keys(rows, Buyer)
    requires |bars| == |names|
    requires forall k :: 0 <= k < |names| ==> bars[k] == BuyerBarOf(names[k], rows)
    requires forall k :: 0 <= k < |bars| ==> bars[k] in r
    ensures forall i :: 0 <= i < |rows| ==> HasBar(r, Buyer(rows[i]))
  {
    forall i | 0 <= i < |rows|
      ensures HasBar(r, Buyer(rows[i]))
    {
      var k :| 0 <= k < |names| && names[k] == Buyer(rows[i]);
      assert bars[k] in r;
      var j :| 0 <= j < |r| && r[j] == bars[k];
    }
  }

  /** The last bar of the chart shows the highest offer overall, the
      figure of the "Nejvyšší nabídka" (highest offer) metric. */
  lemma {:induction false} LastBarIsHighestOffer(rows: seq<OfferRow>)
    requires |rows| > 0
    ensures |BuyerBars(rows)| > 0
    ensures BuyerBars(rows)[|BuyerBars(rows)| - 1].nabidka == MaxReal(Amounts(rows))
  {
    HighestBar(rows, BuyerBars(rows), MaxReal(Amounts(rows)));
  }

  lemma {:induction false} HighestBar(rows: seq<OfferRow>, r: seq<BuyerBar>, m: real)
    requires m in Amounts(rows) && forall i :: 0 <= i < |rows| ==> Amounts(rows)[i] <= m
    requires SortedBy(r, BarValue)
    requires forall j {:trigger IsBuyerMax(rows, r[j])} :: 0 <= j < |r| ==> IsBuyerMax(rows, r[j])
    requires forall i :: 0 <= i < |rows| ==> HasBar(r, Buyer(rows[i]))
    ensures |r| > 0 && r[|r| - 1].nabidka == m
  {
    var i :| 0 <= i < |Amounts(rows)| && Amounts(rows)[i] == m;
    assert HasBar(r, Buyer(rows[i]));
    var j :| 0 <= j < |r| && r[j].odberatel == Buyer(rows[i]);
    assert IsBuyerMax(rows, r[j]);
    assert m <= r[j].nabidka;
    var last := |r| - 1;
    SortedByPairwise(r, BarValue, j, last);
    LexSingle(r[j].nabidka, r[last].nabidka);
    var top := r[last].nabidka;
    assert m <= top;
    assert IsBuyerMax(rows, r[last]);
    var k :| 0 <= k < |rows| && Buyer(rows[k]) == r[last].odberatel && OfferAmount(rows[k]) == top;
    assert Amounts(rows)[k] == top;
    assert top <= m;
  }

  function OfferSale(r: OfferRow): int
  {
    r.offer.odpisId
  }

  function DateKey(r: OfferRow): seq<real>
  {
    StrKey(r.offer.datumNabidky)
  }

  /** The offer with the earliest date (the first such in table order). */
  function Earliest(g: seq<OfferRow>): (r: OfferRow)
    requires |g| > 0
    ensures r in g
    ensures forall i :: 0 <= i < |g| ==> LexLe(DateKey(r), DateKey(g[i]))
  {
    if |g| == 1 then
      LexRefl(DateKey(g[0]));
      g[0]
    else
      var t := Earliest(g[1..]);
      LexTotal(DateKey(g[0]), DateKey(t));
      if LexLe(DateKey(g[0]), DateKey(t)) then
        forall i | 1 <= i < |g|
          ensures LexLe(DateKey(g[0]), DateKey(g[i]))
        {
          assert g[i] == g[1..][i - 1];
          LexTrans(DateKey(g[0]), DateKey(t), DateKey(g[i]));
        }
        LexRefl(DateKey(g[0]));
        g[0]
      else
        assert forall i :: 1 <= i < |g| ==> g[i] == g[1..][i - 1];
        t
  }

  /** The offer with the latest date. */
  function Latest(g: seq<OfferRow>): (r: OfferRow)
    requires |g| > 0
    ensures r in g
    ensures forall i :: 0 <= i < |g| ==> LexLe(DateKey(g[i]), DateKey(r))
  {
    if |g| == 1 then
      LexRefl(DateKey(g[0]));
      g[0]
    else
      var t := Latest(g[1..]);
      LexTotal(DateKey(g[0]), DateKey(t));
      assert forall i :: 1 <= i < |g| ==> g[i] == g[1..][i - 1];
      if LexLe(DateKey(g[0]), DateKey(t)) then t
      else
        forall i | 1 <= i < |g|
          ensures LexLe(DateKey(g[i]), DateKey(g[0]))
        {
          LexTrans(DateKey(g[i]), DateKey(t), DateKey(g[0]));
        }
        LexRefl(DateKey(g[0]));
        g[0]
  }

  /** The difference column of the offers table: final price less the
      offer, undefined when the sale is unknown. */
  function Rozdil(row: OfferRow): (r: Option<real>)
    ensures r.Some? <==> row.sale.Some?
    ensures r.Some? ==> r.value + row.offer.nabidkaKc == row.sale.value.castkaKc
  {
    match row.sale
    case Some(s) => Some(s.castkaKc - row.offer.nabidkaKc)
    case None => None
  }

  /** One sale's line of the comparison: first and last offer and how
      much the final price exceeds the first offer. */
  datatype Comparison = Comparison(
    odpisId: int,
    plodina: string,
    odberatel: string,
    prvni: real,
    posledni: real,
    finalni: Option<real>,
    vyjednano: Option<real>)

  /** Some offer in `rows` belongs to sale `id`. */
  predicate HasOffer(rows: seq<OfferRow>, id: int)
  {
    exists i :: 0 <= i < |rows| && OfferSale(rows[i]) == id
  }

  /** `amount` is the amount of an offer for sale `id` dated no later
      than any other offer for that sale. */
  predicate IsFirstOffer(rows: seq<OfferRow>, id: int, amount: real)
  {
    exists i :: 0 <= i < |rows| && OfferSale(rows[i]) == id && OfferAmount(rows[i]) == amount &&
      (forall j :: 0 <= j < |rows| && OfferSale(rows[j]) == id ==> LexLe(DateKey(rows[i]), DateKey(rows[j])))
  }

  /** Row `a` is an offer for sale `id` dated no later than any other. */
  predicate EarliestFor(rows: seq<OfferRow>, id: int, a: int)
  {
    0 <= a < |rows| && OfferSale(rows[a]) == id
    && forall j :: 0 <= j < |rows| && OfferSale(rows[j]) == id ==> LexLe(DateKey(rows[a]), DateKey(rows[j]))
  }

  /** Row `b` is an offer for sale `id` dated no earlier than any other. */
  predicate LatestFor(rows: seq<OfferRow>, id: int, b: int)
  {
    0 <= b < |rows| && OfferSale(rows[b]) == id
    && forall j :: 0 <= j < |rows| && OfferSale(rows[j]) == id ==> LexLe(DateKey(rows[j]), DateKey(rows[b]))
  }

  /** The final price a row carries: the amount of its sale, if known. */
  function FinalPrice(row: OfferRow): (r: Option<real>)
    ensures r.Some? <==> row.sale.Some?
    ensures r.Some? ==> r.value == row.sale.value.castkaKc
  {
    match row.sale
    case Some(s) => Some(s.castkaKc)
    case None => None
  }

  /** The comparison line of a sale: crop, buyer, offer and final price
      of its earliest offer, the amount of its latest offer, and the
      difference between final price and first offer. */
  function CompareSale(id: int, rows: seq<OfferRow>): (c: Comparison)
    ensures c.odpisId == id
    ensures HasOffer(rows, id) ==> exists a :: (EarliestFor(rows, id, a)
      && c.plodina == rows[a].plodina && c.odberatel == rows[a].offer.odberatel
      && c.prvni == OfferAmount(rows[a]) && c.finalni == FinalPrice(rows[a]))
    ensures HasOffer(rows, id) ==> exists b :: LatestFor(rows, id, b) && c.posledni == OfferAmount(rows[b])
    ensures HasOffer(rows, id) ==> IsFirstOffer(rows, id, c.prvni)
    ensures !HasOffer(rows, id) ==> c.finalni.None?
    ensures c.vyjednano.Some? <==> c.finalni.Some?
    ensures c.vyjednano.Some? ==> c.vyjednano.value == c.finalni.value - c.prvni
  {
    var g := Group(rows, OfferSale, id);
    if |g| == 0 then
      Comparison(id, "", "", 0.0, 0.0, None, None)
    else
      var first := Earliest(g);
      var last := Latest(g);
      assert exists a :: EarliestFor(rows, id, a) && rows[a] == first by {
        var a := RowIn(rows, id, g, first, true);
      }
      assert exists b :: LatestFor(rows, id, b) && rows[b] == last by {
        var b := RowIn(rows, id, g, last, false);
      }
      Comparison(id, first.plodina, first.offer.odberatel, first.offer.nabidkaKc, last.offer.nabidkaKc,
                 FinalPrice(first), Rozdil(first))
  }

  /** The position in `rows` of a row of the sale's group that is dated
      no later (`early`) or no earlier (`!early`) than the rest of the
      group: it is earliest, or latest, among all the sale's offers. */
  lemma RowIn(rows: seq<OfferRow>, id: int, g: seq<OfferRow>, x: OfferRow, early: bool) returns (a: nat)
    requires g == Group(rows, OfferSale, id)
    requires x in g
    requires early ==> forall i :: 0 <= i < |g| ==> LexLe(DateKey(x), DateKey(g[i]))
    requires !early ==> forall i :: 0 <= i < |g| ==> LexLe(DateKey(g[i]), DateKey(x))
    ensures a < |rows| && rows[a] == x
    ensures early ==> EarliestFor(rows, id, a)
    ensures !early ==> LatestFor(rows, id, a)
  {
    var i :| 0 <= i < |g| && g[i] == x;
    assert x in rows;
    a :| 0 <= a < |rows| && rows[a] == x;
    forall j | 0 <= j < |rows| && OfferSale(rows[j]) == id
      ensures rows[j] in g
    {
    }
  }

  predicate HasComparison(cs: seq<Comparison>, id: int)
  {
    exists j :: 0 <= j < |cs| && cs[j].odpisId == id
  }

  /** The comparison lines: exactly one per sale that has offers, each
      starting from that sale's earliest offer. */
  function Comparisons(rows: seq<OfferRow>): (r: seq<Comparison>)
    ensures forall i :: 0 <= i < |rows| ==> HasComparison(r, OfferSale(rows[i]))
    ensures forall j :: 0 <= j < |r| ==> HasOffer(rows, r[j].odpisId) && IsFirstOffer(rows, r[j].odpisId, r[j].prvni)
    ensures forall j, k :: 0 <= j < k < |r| ==> r[j].odpisId != r[k].odpisId
    ensures forall j :: 0 <= j < |r| ==> r[j] == CompareSale(r[j].odpisId, rows)
  {
    var ids := Keys(rows, OfferSale);
    var r := seq(|ids|, k requires 0 <= k < |ids| => CompareSale(ids[k], rows));
    ComparisonsCover(rows, ids, r);
    r
  }

  lemma ComparisonsCover(rows: seq<OfferRow>, ids: seq<int>, r: seq<Comparison>)
    requires ids == Keys(rows, OfferSale)
    requires |r| == |ids|
    requires forall k :: 0 <= k < |ids| ==> r[k] == CompareSale(ids[k], rows)
    ensures forall i :: 0 <= i < |rows| ==> HasComparison(r, OfferSale(rows[i]))
    ensures forall j :: 0 <= j < |r| ==> HasOffer(rows, r[j].odpisId) && IsFirstOffer(rows, r[j].odpisId, r[j].prvni)
    ensures forall j, k :: 0 <= j < k < |r| ==> r[j].odpisId != r[k].odpisId
    ensures forall j :: 0 <= j < |r| ==> r[j] == CompareSale(r[j].odpisId, rows)
  {
    assert forall k :: 0 <= k < |ids| ==> r[k].odpisId == ids[k];
    SalesCovered(rows, ids, r);
    ComparedSalesHaveOffers(rows, ids, r);
  }

  lemma SalesCovered(rows: seq<OfferRow>, ids: seq<int>, r: seq<Comparison>)
    requires ids == Keys(rows, OfferSale)
    requires |r| == |ids| && forall k :: 0 <= k < |ids| ==> r[k].odpisId == ids[k]
    ensures forall i :: 0 <= i < |rows| ==> HasComparison(r, OfferSale(rows[i]))
  {
    forall i | 0 <= i < |rows|
      ensures HasComparison(r, OfferSale(rows[i]))
    {
      var k :| 0 <= k < |ids| && ids[k] == OfferSale(rows[i]);
      assert r[k].odpisId == ids[k];
    }
  }

  lemma ComparedSalesHaveOffers(rows: seq<OfferRow>, ids: seq<int>, r: seq<Comparison>)
    requires ids == Keys(rows, OfferSale)
    requires |r| == |ids| && forall k :: 0 <= k < |ids| ==> r[k].odpisId == ids[k]
    ensures forall j :: 0 <= j < |r| ==> HasOffer(rows, r[j].odpisId)
  {
    forall j | 0 <= j < |r|
      ensures HasOffer(rows, r[j].odpisId)
    {
      assert ids[j] in ids;
    }
  }

  function Negotiated(c: Comparison): real
  {
    c.vyjednano.GetOr(0.0)
  }

  function FinalIfKnown(c: Comparison): real
  {
    c.finalni.GetOr(0.0)
  }

  function FirstIfFinal(c: Comparison): real
  {
    if c.finalni.Some? then c.prvni else 0.0
  }

  /** The "negotiated extra" total sums the defined differences; it is
      the known final prices less the first offers of those sales. */
  lemma {:induction false} NegotiatedTotal(cs: seq<Comparison>)
    requires forall i :: 0 <= i < |cs| ==>
      (cs[i].vyjednano.Some? <==> cs[i].finalni.Some?) &&
      (cs[i].vyjednano.Some? ==> cs[i].vyjednano.value == cs[i].finalni.value - cs[i].prvni)
    ensures Sum(cs, Negotiated) == Sum(cs, FinalIfKnown) - Sum(cs, FirstIfFinal)
  {
    if |cs| > 0 {
      NegotiatedTotal(cs[1..]);
    }
  }
}

=== FILE: namedsums.dfy ===
/** `groupby(<name>).agg(sum)` over rows of any table: one line per
    distinct name, names in string order, each the sum of one column
    over the rows of that name. */
module NamedSums {
  import opened Seqs

  datatype NamedSum = NamedSum(name: string, total: real)

  function Total(n: NamedSum): real
  {
    n.total
  }

  /** The group keys: the distinct names, ascending. */
  function Names<T>(s: seq<T>, nameOf: T -> string): (r: seq<string>)
    ensures NoDup(r)
    ensures forall i, j :: 0 <= i <= j < |r| ==> StrLe(r[i], r[j])
  {
    SortedStrings(MapSeq(s, nameOf))
  }

  /** A name is a group key exactly when some row carries it. */
  lemma NamesExactly<T>(s: seq<T>, nameOf: T -> string, n: string)
    ensures n in Names(s, nameOf) <==> exists i :: 0 <= i < |s| && nameOf(s[i]) == n
  {
    var ns := MapSeq(s, nameOf);
    if n in Names(s, nameOf) {
      var k :| 0 <= k < |Names(s, nameOf)| && Names(s, nameOf)[k] == n;
      assert n in ns;
      var i :| 0 <= i < |ns| && ns[i] == n;
      assert nameOf(s[i]) == n;
    }
    if exists i :: 0 <= i < |s| && nameOf(s[i]) == n {
      var i :| 0 <= i < |s| && nameOf(s[i]) == n;
      assert ns[i] == n;
    }
  }

  /** The line of each name of `names`. */
  function SumsOf<T>(names: seq<string>, s: seq<T>, nameOf: T -> string, f: T -> real): (r: seq<NamedSum>)
    ensures |r| == |names|
    ensures forall i :: 0 <= i < |names| ==> r[i] == NamedSum(names[i], Sum(Group(s, nameOf, names[i]), f))
  {
    seq(|names|, i requires 0 <= i < |names| => NamedSum(names[i], Sum(Group(s, nameOf, names[i]), f)))
  }

  lemma {:induction false} SumsOfTotal<T>(names: seq<string>, s: seq<T>, nameOf: T -> string, f: T -> real)
    ensures Sum(SumsOf(names, s, nameOf, f), Total) == SumGroups(names, s, nameOf, f)
  {
    if |names| > 0 {
      SumsOfTotal(names[1..], s, nameOf, f);
      assert SumsOf(names, s, nameOf, f)[1..] == SumsOf(names[1..], s, nameOf, f);
    }
  }

  /** The grouped lines, names ascending. */
  function Grouped<T>(s: seq<T>, nameOf: T -> string, f: T -> real): (r: seq<NamedSum>)
    ensures |r| == |Names(s, nameOf)|
    ensures forall i :: 0 <= i < |r| ==> (r[i].name == Names(s, nameOf)[i]
      && r[i].total == Sum(Group(s, nameOf, r[i].name), f))
  {
    SumsOf(Names(s, nameOf), s, nameOf, f)
  }

  /** Grouping neither creates nor loses mass: the lines add up to the
      column sum over all rows. */
  lemma GroupedMass<T>(s: seq<T>, nameOf: T -> string, f: T -> real)
    ensures Sum(Grouped(s, nameOf, f), Total) == Sum(s, f)
  {
    var names := Names(s, nameOf);
    SumsOfTotal(names, s, nameOf, f);
    forall i | 0 <= i < |s|
      ensures nameOf(s[i]) in names
    {
      NamesExactly(s, nameOf, nameOf(s[i]));
    }
    GroupsPreserveSum(names, s, nameOf, f);
  }
}

=== FILE: numeric.dfy ===
/** Numeric conversions the reports rely on: Python's `round(x, 2)` and
    `int(x)`, over exact reals. */
module Numeric {

  /** Python `round(x, 2)`: nearest multiple of 0.01, ties to the even
      hundredth. */
  function Round2(x: real): (r: real)
    ensures -0.005 <= r - x <= 0.005
    ensures x >= 0.0 ==> r >= 0.0
    ensures (r * 100.0).Floor as real == r * 100.0
  {
    var y := x * 100.0;
    var f := y.Floor;
    var d := y - f as real;
    var n := if d < 0.5 then f else if d > 0.5 then f + 1 else if f % 2 == 0 then f else f + 1;
    n as real / 100.0
  }

  /** The guarded ratio `num / den if den > 0 else 0` the pages use for
      yields, average prices and shares. */
  function Guarded(num: real, den: real): (r: real)
    ensures den > 0.0 ==> r * den == num
    ensures den <= 0.0 ==> r == 0.0
  {
    if den > 0.0 then num / den else 0.0
  }

  /** Rounding leaves a value that already has two decimals unchanged. */
  lemma Round2OnGrid(n: int)
    ensures Round2(n as real / 100.0) == n as real / 100.0
  {
    var y := (n as real / 100.0) * 100.0;
    assert y == n as real;
    assert y.Floor == n;
  }

  /** Python `int(x)` on a float: truncation toward zero. */
  function Trunc(x: real): (r: int)
    ensures x >= 0.0 ==> r as real <= x < r as real + 1.0
    ensures x < 0.0 ==> r as real - 1.0 < x <= r as real
  {
    if x >= 0.0 then x.Floor else -((-x).Floor)
  }

  /** Real multiplication. Products are written through this function so
      that the solver treats equal factors as equal products; the ring
      and order laws the proofs need are the lemmas below. */
  function Mul(a: real, b: real): real
  {
    a * b
  }

  lemma MulPositive(a: real, b: real)
    requires a > 0.0 && b > 0.0
    ensures Mul(a, b) > 0.0
  {
  }

  lemma MulNonNegative(a: real, b: real)
    requires a >= 0.0 && b >= 0.0
    ensures Mul(a, b) >= 0.0
  {
    if a > 0.0 && b > 0.0 {
      MulPositive(a, b);
    }
  }

  lemma SquarePositive(a: real)
    requires a != 0.0
    ensures Mul(a, a) > 0.0
  {
    if a > 0.0 {
      MulPositive(a, a);
    } else {
      MulPositive(-a, -a);
      assert Mul(-a, -a) == Mul(a, a);
    }
  }

  lemma SquareNonNegative(a: real)
    ensures Mul(a, a) >= 0.0
  {
    if a != 0.0 {
      SquarePositive(a);
    }
  }

  lemma MulAddLeft(c: real, a: real, b: real)
    ensures Mul(c, a + b) == Mul(c, a) + Mul(c, b)
  {
  }

  lemma MulSubLeft(c: real, a: real, b: real)
    ensures Mul(c, a - b) == Mul(c, a) - Mul(c, b)
  {
  }

  lemma MulSubRight(a: real, b: real, c: real)
    ensures Mul(a - b, c) == Mul(a, c) - Mul(b, c)
  {
  }

  lemma MulAddOne(n: real, c: real)
    ensures Mul(n + 1.0, c) == Mul(n, c) + c
  {
  }

  lemma MulZero(a: real, b: real)
    requires b == 0.0
    ensures Mul(a, b) == 0.0
  {
  }

  /** A factor times a positive number has the sign of the product. */
  lemma SignOfFactor(s: real, d: real, p: real)
    requires d > 0.0 && Mul(s, d) == p
    ensures s > 0.0 <==> p > 0.0
    ensures s < 0.0 <==> p < 0.0
  {
    if s > 0.0 {
      MulPositive(s, d);
    } else if s < 0.0 {
      MulPositive(-s, d);
      assert Mul(-s, d) == -Mul(s, d);
    } else {
      MulZero(d, s);
      assert Mul(s, d) == Mul(d, s);
    }
  }

  lemma DivCancel(a: real, d: real)
    requires d != 0.0
    ensures Mul(a / d, d) == a
    ensures Mul(d, a / d) == a
  {
  }

  /** Multiplying by a positive factor keeps a strict order. */
  lemma MulStrictMono(n: real, a: real, b: real)
    requires n > 0.0 && a < b
    ensures Mul(n, a) < Mul(n, b)
  {
    MulPositive(n, b - a);
    MulSubLeft(n, b, a);
  }

  /** A quotient by a positive divisor is at least `lo` exactly when the
      dividend is at least `lo` times the divisor. */
  lemma DivLowerBound(s: real, n: real, lo: real)
    requires n > 0.0 && Mul(n, lo) <= s
    ensures lo <= s / n
  {
    DivCancel(s, n);
    if s / n < lo {
      MulStrictMono(n, s / n, lo);
    }
  }

  lemma DivUpperBound(s: real, n: real, hi: real)
    requires n > 0.0 && s <= Mul(n, hi)
    ensures s / n <= hi
  {
    DivCancel(s, n);
    if hi < s / n {
      MulStrictMono(n, hi, s / n);
    }
  }
}

=== FILE: odpisy.dfy ===
/** The sales ledger ("odpisy"): a business's stock for a harvest year is
    its net production less what it has sold or contracted, a new sale is
    accepted only while stock remains, and the carry-over table gives the
    balance of every year. */
module Odpisy {
  import opened Wrappers
  import opened Seqs
  import opened Records
  import opened Auth

  /** The businesses the page offers: a non-admin with a non-empty list
      sees the listed ones, everybody else the whole table. */
  function VisibleBusinesses(user: SessionUser, businesses: seq<Business>): (r: seq<Business>)
    ensures multiset(r) <= multiset(businesses)
    ensures user.role != Some("admin") && |Podniky(user)| > 0 ==>
      forall i :: 0 <= i < |businesses| ==> (businesses[i] in r <==> businesses[i].id in Podniky(user))
    ensures user.role == Some("admin") || |Podniky(user)| == 0 ==> r == businesses
    ensures Embeds(r, businesses)
    ensures forall b :: multiset(r)[b] ==
              if user.role == Some("admin") || |Podniky(user)| == 0 || b.id in Podniky(user) then multiset(businesses)[b] else 0
  {
    if user.role != Some("admin") && |Podniky(user)| > 0 then
      FilterMask(businesses, IdIn(Podniky(user)));
      Filter(businesses, IdIn(Podniky(user)))
    else
      EmbedsRefl(businesses);
      businesses
  }

  /** The page's scoping agrees with `get_allowed_podniky` except for a
      non-admin without a list, who sees every business here and none
      there. */
  lemma ScopingVersusAllowed(user: SessionUser, businesses: seq<Business>)
    ensures user.role == Some("admin") || |Podniky(user)| > 0 ==>
      VisibleBusinesses(user, businesses) == GetAllowedPodniky(user, businesses)
    ensures user.role != Some("admin") && |Podniky(user)| == 0 ==>
      VisibleBusinesses(user, businesses) == businesses && GetAllowedPodniky(user, businesses) == []
  {
  }

  function FieldOfBusiness(podnikId: int): Field -> bool
  {
    (f: Field) => f.podnikId == podnikId
  }

  function SaleOfBusiness(podnikId: int): Sale -> bool
  {
    (s: Sale) => s.podnikId == podnikId
  }

  function FieldAt(podnikId: int, year: int): Field -> bool
  {
    (f: Field) => f.podnikId == podnikId && f.rokSklizne == year
  }

  function SaleAt(podnikId: int, year: int): Sale -> bool
  {
    (s: Sale) => s.podnikId == podnikId && s.rok == year
  }

  function SaleYear(s: Sale): int
  {
    s.rok
  }

  function SaleTons(s: Sale): real
  {
    s.prodanoT
  }

  function SaleAmount(s: Sale): real
  {
    s.castkaKc
  }

  function StatusIs(stav: string): Sale -> bool
  {
    (s: Sale) => s.stav == stav
  }

  /** A status the stock computation ignores. */
  function OtherStatus(s: Sale): bool
  {
    s.stav != "prodano" && s.stav != "nasmlouvano"
  }

  /** The fields of one business in one harvest year, in table order. */
  function FieldsAt(fields: seq<Field>, podnikId: int, year: int): (r: seq<Field>)
    ensures forall i :: 0 <= i < |r| ==> r[i] in fields && r[i].podnikId == podnikId && r[i].rokSklizne == year
    ensures forall i :: 0 <= i < |fields| && fields[i].podnikId == podnikId && fields[i].rokSklizne == year ==>
      fields[i] in r
  {
    Group(Filter(fields, FieldOfBusiness(podnikId)), FieldYear, year)
  }

  /** The two masks together keep the fields in table order, each field
      of the business and year as often as it occurs, and no other. */
  lemma FieldsAtMask(fields: seq<Field>, podnikId: int, year: int)
    ensures Embeds(FieldsAt(fields, podnikId, year), fields)
    ensures forall f :: multiset(FieldsAt(fields, podnikId, year))[f] ==
              if f.podnikId == podnikId && f.rokSklizne == year then multiset(fields)[f] else 0
  {
    GroupOfFilter(fields, FieldOfBusiness(podnikId), FieldYear, year, FieldAt(podnikId, year));
    FilterMask(fields, FieldAt(podnikId, year));
  }

  /** The sales of one business in one year, in table order. */
  function SalesAt(sales: seq<Sale>, podnikId: int, year: int): (r: seq<Sale>)
    ensures forall i :: 0 <= i < |r| ==> r[i] in sales && r[i].podnikId == podnikId && r[i].rok == year
    ensures forall i :: 0 <= i < |sales| && sales[i].podnikId == podnikId && sales[i].rok == year ==>
      sales[i] in r
  {
    Group(Filter(sales, SaleOfBusiness(podnikId)), SaleYear, year)
  }

  /** The two masks together keep the sales in table order, each sale of
      the business and year as often as it occurs, and no other. */
  lemma SalesAtMask(sales: seq<Sale>, podnikId: int, year: int)
    ensures Embeds(SalesAt(sales, podnikId, year), sales)
    ensures forall s :: multiset(SalesAt(sales, podnikId, year))[s] ==
              if s.podnikId == podnikId && s.rok == year then multiset(sales)[s] else 0
  {
    GroupOfFilter(sales, SaleOfBusiness(podnikId), SaleYear, year, SaleAt(podnikId, year));
    FilterMask(sales, SaleAt(podnikId, year));
  }

  /** The stock figures of one business and year. */
  datatype Stock = Stock(produkce: real, prodanoT: real, vydelanoKc: real, nasmlouvanoT: real, nasmlouvanoKc: real)
  {
    function CelkemProdano(): real
    {
      prodanoT + nasmlouvanoT
    }

    function CelkemTrzba(): real
    {
      vydelanoKc + nasmlouvanoKc
    }

    /** What is left in store. */
    function Zbytek(): real
    {
      produkce - CelkemProdano()
    }
  }

  /** Net production from the fields; tonnage and money of the sold
      ("prodano") and of the contracted ("nasmlouvano") sales. */
  function StockOf(fields: seq<Field>, sales: seq<Sale>, podnikId: int, year: int): Stock
  {
    var mine := SalesAt(sales, podnikId, year);
    var sold := Filter(mine, StatusIs("prodano"));
    var contracted := Filter(mine, StatusIs("nasmlouvano"));
    Stock(Sum(FieldsAt(fields, podnikId, year), FieldNet),
          Sum(sold, SaleTons), Sum(sold, SaleAmount),
          Sum(contracted, SaleTons), Sum(contracted, SaleAmount))
  }

  /** Every sale of the year falls in exactly one of sold, contracted or
      some other status, so the three tonnages add up to all of it. */
  lemma {:induction false} StatusSplit(s: seq<Sale>)
    ensures Sum(s, SaleTons)
         == Sum(Filter(s, StatusIs("prodano")), SaleTons)
          + Sum(Filter(s, StatusIs("nasmlouvano")), SaleTons)
          + Sum(Filter(s, OtherStatus), SaleTons)
  {
    if |s| > 0 {
      StatusSplit(s[1..]);
      SumFilterHead(s, StatusIs("prodano"), SaleTons);
      SumFilterHead(s, StatusIs("nasmlouvano"), SaleTons);
      SumFilterHead(s, OtherStatus, SaleTons);
    }
  }

  /** The year's sales of other statuses (anything but sold or contracted)
      neither reduce nor add to the stock. */
  lemma StockAccountsForStatuses(fields: seq<Field>, sales: seq<Sale>, podnikId: int, year: int)
    ensures Sum(SalesAt(sales, podnikId, year), SaleTons)
         == StockOf(fields, sales, podnikId, year).CelkemProdano()
          + Sum(Filter(SalesAt(sales, podnikId, year), OtherStatus), SaleTons)
  {
    StatusSplit(SalesAt(sales, podnikId, year));
  }

  /** Appending a sale that belongs elsewhere, or whose status is neither
      sold nor contracted, leaves the stock as it was. */
  lemma IgnoredSaleKeepsStock(fields: seq<Field>, sales: seq<Sale>, podnikId: int, year: int, x: Sale)
    requires OtherStatus(x) || x.podnikId != podnikId || x.rok != year
    ensures StockOf(fields, sales + [x], podnikId, year) == StockOf(fields, sales, podnikId, year)
  {
    var m := Filter(sales, SaleOfBusiness(podnikId));
    var g := Group(m, SaleYear, year);
    FilterSnoc(sales, x, SaleOfBusiness(podnikId));
    if x.podnikId == podnikId {
      GroupSnoc(m, x, SaleYear, year);
      if x.rok == year {
        assert SalesAt(sales + [x], podnikId, year) == g + [x];
        FilterSnoc(g, x, StatusIs("prodano"));
        FilterSnoc(g, x, StatusIs("nasmlouvano"));
        assert Filter(g + [x], StatusIs("prodano")) == Filter(g, StatusIs("prodano"));
        assert Filter(g + [x], StatusIs("nasmlouvano")) == Filter(g, StatusIs("nasmlouvano"));
      } else {
        assert SalesAt(sales + [x], podnikId, year) == g;
      }
    } else {
      assert Filter(sales + [x], SaleOfBusiness(podnikId)) == m;
      assert SalesAt(sales + [x], podnikId, year) == g;
    }
  }

  /** Why a new sale was refused, in the order the form checks. */
  datatype SaleError = QuantityNotPositive | AmountNotPositive | ExceedsStock(zbytek: real)

  /** The add-sale form's checks: quantity, then amount, then stock;
      selling exactly what is left is allowed. */
  function ValidateSale(prodanoT: real, castkaKc: int, zbytek: real): (r: Option<SaleError>)
    ensures r.None? <==> prodanoT > 0.0 && castkaKc > 0 && prodanoT <= zbytek
    ensures r == Some(QuantityNotPositive) <==> prodanoT <= 0.0
    ensures r == Some(AmountNotPositive) <==> prodanoT > 0.0 && castkaKc <= 0
    ensures r == Some(ExceedsStock(zbytek)) <==> prodanoT > 0.0 && castkaKc > 0 && prodanoT > zbytek
  {
    if prodanoT <= 0.0 then Some(QuantityNotPositive)
    else if castkaKc <= 0 then Some(AmountNotPositive)
    else if prodanoT > zbytek then Some(ExceedsStock(zbytek))
    else None
  }

  /** The two statuses the form offers. */
  datatype FormStatus = Nasmlouvano | Prodano
  {
    function Text(): string
    {
      match this
      case Nasmlouvano => "nasmlouvano"
      case Prodano => "prodano"
    }
  }

  /** What the user typed into the add-sale form; the invoice is the name
      of the uploaded file, if any. */
  datatype SaleForm = SaleForm(
    datumSmlouvy: string,
    prodanoT: real,
    castkaKc: int,
    stav: FormStatus,
    poznamka: string,
    faktura: Option<string>)

  datatype Submission = Rejected(error: SaleError) | Accepted(sale: Sale)

  /** Submitting the form for the selected business and year; `newId` is
      the id the data manager gives the stored row. */
  function SubmitSale(fields: seq<Field>, sales: seq<Sale>, podnikId: int, year: int,
                      form: SaleForm, newId: int): (r: Submission)
    ensures r.Accepted? ==>
      r.sale.podnikId == podnikId && r.sale.rok == year && r.sale.prodanoT == form.prodanoT &&
      r.sale.castkaKc == form.castkaKc as real && r.sale.stav == form.stav.Text() &&
      r.sale.faktura == form.faktura.GetOr("") && r.sale.datumSmlouvy == form.datumSmlouvy &&
      r.sale.poznamka == form.poznamka
    ensures r.Rejected? <==>
              !(form.prodanoT > 0.0 && form.castkaKc > 0 &&
                form.prodanoT <= StockOf(fields, sales, podnikId, year).Zbytek())
  {
    var zbytek := StockOf(fields, sales, podnikId, year).Zbytek();
    match ValidateSale(form.prodanoT, form.castkaKc, zbytek)
    case Some(e) => Rejected(e)
    case None =>
      Accepted(Sale(newId, podnikId, year, form.datumSmlouvy, form.castkaKc as real, form.prodanoT,
                    form.faktura.GetOr(""), form.poznamka, form.stav.Text()))
  }

  /** An accepted sale takes exactly its tonnage out of the stock, and the
      stock never goes negative through the form. */
  lemma AcceptedSaleKeepsStock(fields: seq<Field>, sales: seq<Sale>, podnikId: int, year: int,
                               form: SaleForm, newId: int)
    requires SubmitSale(fields, sales, podnikId, year, form, newId).Accepted?
    ensures var before := StockOf(fields, sales, podnikId, year);
            var after := StockOf(fields, sales + [SubmitSale(fields, sales, podnikId, year, form, newId).sale], podnikId, year);
            after.Zbytek() == before.Zbytek() - form.prodanoT &&
            after.Zbytek() >= 0.0 &&
            after.produkce == before.produkce &&
            after.CelkemTrzba() == before.CelkemTrzba() + form.castkaKc as real
  {
    var x := SubmitSale(fields, sales, podnikId, year, form, newId).sale;
    var m := Filter(sales, SaleOfBusiness(podnikId));
    var g := Group(m, SaleYear, year);
    FilterSnoc(sales, x, SaleOfBusiness(podnikId));
    GroupSnoc(m, x, SaleYear, year);
    assert SalesAt(sales + [x], podnikId, year) == g + [x];
    FilterSnoc(g, x, StatusIs("prodano"));
    FilterSnoc(g, x, StatusIs("nasmlouvano"));
    var sold := Filter(g, StatusIs("prodano"));
    var contracted := Filter(g, StatusIs("nasmlouvano"));
    SumOne(x, [], SaleTons);
    SumOne(x, [], SaleAmount);
    if form.stav.Prodano? {
      assert Filter(g + [x], StatusIs("prodano")) == sold + [x];
      assert Filter(g + [x], StatusIs("nasmlouvano")) == contracted;
      SumAppend(sold, [x], SaleTons);
      SumAppend(sold, [x], SaleAmount);
    } else {
      assert Filter(g + [x], StatusIs("prodano")) == sold;
      assert Filter(g + [x], StatusIs("nasmlouvano")) == contracted + [x];
      SumAppend(contracted, [x], SaleTons);
      SumAppend(contracted, [x], SaleAmount);
    }
  }

  /** Share of the production already sold or contracted, in percent;
      zero when nothing was produced. */
  function SoldPercent(celkem: real, produkce: real): (r: real)
    ensures produkce <= 0.0 ==> r == 0.0
    ensures produkce > 0.0 ==> r * produkce == celkem * 100.0
  {
    if produkce > 0.0 then celkem / produkce * 100.0 else 0.0
  }

  /** With some production, the share stays within 100 % exactly when
      the stock is not overdrawn. */
  lemma PercentWithinStock(s: Stock)
    requires s.produkce > 0.0
    ensures SoldPercent(s.CelkemProdano(), s.produkce) <= 100.0 <==> s.Zbytek() >= 0.0
  {
    var r := SoldPercent(s.CelkemProdano(), s.produkce);
    assert r * s.produkce == s.CelkemProdano() * 100.0;
    if r <= 100.0 {
      assert r * s.produkce <= 100.0 * s.produkce;
    } else {
      assert r * s.produkce > 100.0 * s.produkce;
    }
  }

  /** The remaining-stock slice of the pie chart, never negative. */
  function PieRemainder(zbytek: real): (r: real)
    ensures r >= 0.0 && r >= zbytek
    ensures r == zbytek || r == 0.0
  {
    if zbytek > 0.0 then zbytek else 0.0
  }

  /** When the stock is not overdrawn the three pie slices make up the
      whole production. */
  lemma PieCoversProduction(s: Stock)
    requires s.Zbytek() >= 0.0
    ensures s.prodanoT + s.nasmlouvanoT + PieRemainder(s.Zbytek()) == s.produkce
  {
  }

  /** The year offered first: the current year if it is among the
      years, otherwise the latest one, and the current year when there
      are none. */
  function DefaultYear(years: seq<int>, currentYear: int): (r: int)
    ensures currentYear in years ==> r == currentYear
    ensures |years| == 0 ==> r == currentYear
    ensures r != currentYear ==> r in years && forall i :: 0 <= i < |years| ==> years[i] <= r
  {
    var ys := SortedDistinct(years);
    if |ys| == 0 then currentYear
    else if currentYear in ys then currentYear
    else
      StrictLast(ys);
      ys[|ys| - 1]
  }

  /** One line of the carry-over table. */
  datatype Balance = Balance(rok: int, produkce: real, prodano: real, zustatek: real)

  function Zustatek(b: Balance): real
  {
    b.zustatek
  }

  /** The carry-over lines for the years `ys`: production and everything
      sold in that year, whatever its status. */
  function BalanceRows(ys: seq<int>, fields: seq<Field>, sales: seq<Sale>, podnikId: int): (r: seq<Balance>)
    ensures |r| == |ys|
    ensures forall i :: 0 <= i < |r| ==> r[i].rok == ys[i] && r[i].zustatek == r[i].produkce - r[i].prodano
  {
    if |ys| == 0 then []
    else
      var b := BalanceOf(ys[0], fields, sales, podnikId);
      var rest := BalanceRows(ys[1..], fields, sales, podnikId);
      assert forall i :: 0 <= i < |rest| ==> rest[i].rok == ys[i + 1];
      [b] + rest
  }

  /** The carry-over line of one year: its production less everything
      sold in it. */
  function BalanceOf(y: int, fields: seq<Field>, sales: seq<Sale>, podnikId: int): (b: Balance)
    ensures b.rok == y && b.zustatek == b.produkce - b.prodano
  {
    var p := Sum(FieldsAt(fields, podnikId, y), FieldNet);
    var s := Sum(SalesAt(sales, podnikId, y), SaleTons);
    Balance(y, p, s, p - s)
  }

  /** The years the business has fields in, ascending. */
  function BusinessYears(fields: seq<Field>, podnikId: int): (r: seq<int>)
    ensures StrictlyIncreasing(r)
    ensures forall i :: 0 <= i < |fields| && fields[i].podnikId == podnikId ==> fields[i].rokSklizne in r
    ensures forall i :: 0 <= i < |r| ==>
      exists j :: 0 <= j < |fields| && fields[j].podnikId == podnikId && fields[j].rokSklizne == r[i]
  {
    var mine := Filter(fields, FieldOfBusiness(podnikId));
    var r := SortedDistinct(Years(mine));
    assert forall i :: 0 <= i < |fields| && fields[i].podnikId == podnikId ==> fields[i] in mine;
    r
  }

  /** The carry-over table, one line per year of the business. */
  function CarryOver(fields: seq<Field>, sales: seq<Sale>, podnikId: int): (r: seq<Balance>)
    ensures |r| == |BusinessYears(fields, podnikId)|
  {
    BalanceRows(BusinessYears(fields, podnikId), fields, sales, podnikId)
  }

  /** The carry-over line of a year counts the sold, the contracted and
      every other sale, and its production is the stock's. */
  lemma CarryOverLine(fields: seq<Field>, sales: seq<Sale>, podnikId: int, i: int)
    requires 0 <= i < |CarryOver(fields, sales, podnikId)|
    ensures var b := CarryOver(fields, sales, podnikId)[i];
            var st := StockOf(fields, sales, podnikId, b.rok);
            b.produkce == st.produkce &&
            b.prodano == st.CelkemProdano() + Sum(Filter(SalesAt(sales, podnikId, b.rok), OtherStatus), SaleTons)
  {
    var ys := BusinessYears(fields, podnikId);
    CarryOverLineAt(ys, fields, sales, podnikId, i);
    StockAccountsForStatuses(fields, sales, podnikId, ys[i]);
  }

  lemma {:induction false} CarryOverLineAt(ys: seq<int>, fields: seq<Field>, sales: seq<Sale>, podnikId: int, i: int)
    requires 0 <= i < |ys|
    ensures BalanceRows(ys, fields, sales, podnikId)[i].produkce == Sum(FieldsAt(fields, podnikId, ys[i]), FieldNet)
    ensures BalanceRows(ys, fields, sales, podnikId)[i].prodano == Sum(SalesAt(sales, podnikId, ys[i]), SaleTons)
  {
    if i > 0 {
      CarryOverLineAt(ys[1..], fields, sales, podnikId, i - 1);
      assert ys[1..][i - 1] == ys[i];
      assert BalanceRows(ys, fields, sales, podnikId)[i] == BalanceRows(ys[1..], fields, sales, podnikId)[i - 1];
    } else {
      assert BalanceRows(ys, fields, sales, podnikId)[0] == BalanceOf(ys[0], fields, sales, podnikId);
    }
  }

  /** The balances of a list of years add up to the production of those
      years less their sales. */
  lemma {:induction false} BalanceRowsSum(ys: seq<int>, fields: seq<Field>, sales: seq<Sale>, podnikId: int)
    ensures Sum(BalanceRows(ys, fields, sales, podnikId), Zustatek)
         == SumGroups(ys, Filter(fields, FieldOfBusiness(podnikId)), FieldYear, FieldNet)
          - SumGroups(ys, Filter(sales, SaleOfBusiness(podnikId)), SaleYear, SaleTons)
  {
    if |ys| > 0 {
      BalanceRowsSum(ys[1..], fields, sales, podnikId);
      var rest := BalanceRows(ys[1..], fields, sales, podnikId);
      SumOne(BalanceRows(ys, fields, sales, podnikId)[0], rest, Zustatek);
    }
  }

  /** The overall balance under the carry-over table is the business's
      whole net production less its sales in the years it has fields in;
      sales booked to a year without fields are not subtracted. */
  lemma OverallBalance(fields: seq<Field>, sales: seq<Sale>, podnikId: int)
    ensures Sum(CarryOver(fields, sales, podnikId), Zustatek)
         == Sum(Filter(fields, FieldOfBusiness(podnikId)), FieldNet)
          - Sum(Filter(Filter(sales, SaleOfBusiness(podnikId)), KeyIn(SaleYear, BusinessYears(fields, podnikId))), SaleTons)
  {
    var ys := BusinessYears(fields, podnikId);
    var mine := Filter(fields, FieldOfBusiness(podnikId));
    BalanceRowsSum(ys, fields, sales, podnikId);
    assert forall i :: 0 <= i < |mine| ==> FieldYear(mine[i]) in ys;
    SortedIntsNoDup(ys);
    GroupsPreserveSum(ys, mine, FieldYear, FieldNet);
    SumGroupsFiltered(ys, Filter(sales, SaleOfBusiness(podnikId)), SaleYear, SaleTons);
  }
}

=== FILE: odrudy.dfy ===
/** The varieties page: for one harvest year and one crop, the totals and
    yields of each business and of each seed variety, and the page's
    overall average net yield. */
module Odrudy {
  import opened Wrappers
  import opened Seqs
  import opened Records
  import opened Auth
  import opened Aggregations
  import opened YearPivot
  import opened LabelLines
  import Odpisy

  // ----- The year and the user's fields -----

  /** The year choices: the distinct harvest years, latest first. */
  function YearChoices(fields: seq<Field>): (r: seq<int>)
    ensures forall i, j :: 0 <= i < j < |r| ==> r[i] > r[j]
    ensures forall y :: y in r <==> y in Years(fields)
  {
    var asc := SortedDistinct(Years(fields));
    ReversedMembers(asc);
    ReversedDescending(asc);
    Reversed(asc)
  }

  /** The first year choice is the latest harvest year of any field. */
  lemma FirstChoiceLatest(fields: seq<Field>)
    requires |fields| > 0
    ensures |YearChoices(fields)| > 0
    ensures exists i :: 0 <= i < |fields| && fields[i].rokSklizne == YearChoices(fields)[0]
    ensures forall i :: 0 <= i < |fields| ==> fields[i].rokSklizne <= YearChoices(fields)[0]
  {
    var ys := YearChoices(fields);
    var years := Years(fields);
    assert years[0] in ys;
    assert ys[0] in years;
    forall i | 0 <= i < |fields|
      ensures fields[i].rokSklizne <= ys[0]
    {
      assert years[i] in ys;
    }
  }

  /** The preselected year: the current year when some field has it,
      else the first choice, the latest year. */
  function DefaultYear(fields: seq<Field>, currentYear: int): (y: int)
    requires |fields| > 0
    ensures (exists i :: 0 <= i < |fields| && fields[i].rokSklizne == currentYear) ==> y == currentYear
    ensures (forall i :: 0 <= i < |fields| ==> fields[i].rokSklizne != currentYear) ==>
      (exists i :: 0 <= i < |fields| && fields[i].rokSklizne == y)
      && forall i :: 0 <= i < |fields| ==> fields[i].rokSklizne <= y
  {
    FirstChoiceLatest(fields);
    var ys := YearChoices(fields);
    if currentYear in ys then currentYear else ys[0]
  }

  /** Whether a non-admin's business list cuts the page down. */
  predicate Scoped(user: SessionUser)
  {
    user.role != Some("admin") && |Podniky(user)| > 0
  }

  function InYearFor(year: int, user: SessionUser): Field -> bool
  {
    (f: Field) => f.rokSklizne == year && (!Scoped(user) || f.podnikId in Podniky(user))
  }

  /** The fields the page works on: the year's fields, of the user's own
      businesses for a non-admin with a business list. */
  function UserYearFields(fields: seq<Field>, year: int, user: SessionUser): (r: seq<Field>)
    ensures forall i :: 0 <= i < |r| ==>
      r[i] in fields && r[i].rokSklizne == year && (!Scoped(user) || r[i].podnikId in Podniky(user))
    ensures forall i :: (0 <= i < |fields| && fields[i].rokSklizne == year
      && (!Scoped(user) || fields[i].podnikId in Podniky(user))) ==> fields[i] in r
    ensures Embeds(r, fields)
    ensures forall f :: multiset(r)[f] ==
              if f.rokSklizne == year && (!Scoped(user) || f.podnikId in Podniky(user)) then multiset(fields)[f] else 0
  {
    FilterMask(fields, InYearFor(year, user));
    Filter(fields, InYearFor(year, user))
  }

  // ----- The crop choices -----

  function CropName(crops: seq<Crop>): Field -> Option<string>
  {
    (f: Field) => match FindByCell(crops, CropId, f.plodinaId) case None => None case Some(c) => Some(c.nazev)
  }

  /** The crop names of the fields, distinct, in order of first appearance. */
  function DataCrops(yf: seq<Field>, crops: seq<Crop>): (r: seq<string>)
    ensures NoDup(r)
  {
    Dedup(Collect(yf, CropName(crops)))
  }

  /** A name is among the data crops exactly when some field's crop has it. */
  lemma DataCropsExactly(yf: seq<Field>, crops: seq<Crop>, n: string)
    ensures n in DataCrops(yf, crops) <==> exists i :: 0 <= i < |yf| && CropName(crops)(yf[i]) == Some(n)
  {
    var c := Collect(yf, CropName(crops));
    CollectCovers(yf, CropName(crops));
    if n in DataCrops(yf, crops) {
      var k :| 0 <= k < |c| && c[k] == n;
    }
    if exists i :: 0 <= i < |yf| && CropName(crops)(yf[i]) == Some(n) {
      var i :| 0 <= i < |yf| && CropName(crops)(yf[i]) == Some(n);
      var k :| 0 <= k < |c| && c[k] == n;
    }
  }

  function RankOf(c: Crop): seq<real>
  {
    [c.poradi as real]
  }

  function KeepIfIn(names: seq<string>): Crop -> Option<Crop>
  {
    (c: Crop) => if c.nazev in names then Some(c) else None
  }

  /** The crop table in rank order, cut to the crops named in `names`. */
  function RankedCrops(crops: seq<Crop>, names: seq<string>): (r: seq<Crop>)
    ensures SortedBy(r, RankOf)
    ensures forall i :: 0 <= i < |r| ==> r[i] in crops && r[i].nazev in names
  {
    var s := SortBy(crops, RankOf);
    PermutationMembers(crops, s);
    CollectSorted(s, KeepIfIn(names), RankOf, RankOf);
    Collect(s, KeepIfIn(names))
  }

  function NotIn(names: seq<string>): string -> bool
  {
    (n: string) => n !in names
  }

  /** The crop choices: the data crops in the crop table's rank order,
      then those the crop table does not name. */
  function Choices(crops: seq<Crop>, names: seq<string>): (r: seq<string>)
    ensures forall n :: n in r <==> n in names
  {
    var ranked := MapSeq(RankedCrops(crops, names), Records.CropName);
    var rest := Filter(names, NotIn(ranked));
    assert forall n :: n in ranked ==> n in names by {
      forall n | n in ranked
        ensures n in names
      {
        var k :| 0 <= k < |ranked| && ranked[k] == n;
      }
    }
    ranked + rest
  }

  /** A data crop is the name of some crop of the table, so it is among
      the ranked crops. */
  lemma DataCropRanked(yf: seq<Field>, crops: seq<Crop>, n: string)
    requires n in DataCrops(yf, crops)
    ensures n in MapSeq(RankedCrops(crops, DataCrops(yf, crops)), Records.CropName)
  {
    var names := DataCrops(yf, crops);
    var rc := RankedCrops(crops, names);
    var s := SortBy(crops, RankOf);
    PermutationMembers(crops, s);
    CollectCovers(s, KeepIfIn(names));
    var ranked := MapSeq(rc, Records.CropName);
    DataCropsExactly(yf, crops, n);
    var i :| 0 <= i < |yf| && CropName(crops)(yf[i]) == Some(n);
    var c := FindByCell(crops, CropId, yf[i].plodinaId).value;
    var k :| 0 <= k < |s| && s[k] == c;
    var m :| 0 <= m < |rc| && rc[m] == c;
    assert ranked[m] == n;
  }

  /** Every data crop is a crop of the table, so the choices are exactly
      the ranked crops: nothing is appended after them. */
  lemma ChoicesByRank(yf: seq<Field>, crops: seq<Crop>)
    ensures Choices(crops, DataCrops(yf, crops)) == MapSeq(RankedCrops(crops, DataCrops(yf, crops)), Records.CropName)
  {
    var names := DataCrops(yf, crops);
    var ranked := MapSeq(RankedCrops(crops, names), Records.CropName);
    forall k | 0 <= k < |names|
      ensures !NotIn(ranked)(names[k])
    {
      DataCropRanked(yf, crops, names[k]);
    }
    FilterNone(names, NotIn(ranked));
  }

  // ----- The report -----

  function OfCrop(crops: seq<Crop>, crop: string): Field -> bool
  {
    (f: Field) => CropName(crops)(f) == Some(crop)
  }

  /** A business's or variety's line with its gross and net yields. */
  datatype YieldLine = YieldLine(line: LabelLine, hrubyVynos: real, cistyVynos: real)

  function YieldLines(ls: seq<LabelLine>): (r: seq<YieldLine>)
    ensures |r| == |ls|
    ensures forall i :: 0 <= i < |ls| ==> (r[i].line == ls[i]
      && r[i].hrubyVynos == CalculateVynos(ls[i].totals.hrubaVaha, ls[i].totals.vymera)
      && r[i].cistyVynos == CalculateVynos(ls[i].totals.cistaVaha, ls[i].totals.vymera))
  {
    seq(|ls|, i requires 0 <= i < |ls| => YieldLine(ls[i],
      CalculateVynos(ls[i].totals.hrubaVaha, ls[i].totals.vymera),
      CalculateVynos(ls[i].totals.cistaVaha, ls[i].totals.vymera)))
  }

  function VarietyLabel(varieties: seq<Variety>): Field -> Option<string>
  {
    (f: Field) => match FindByCell(varieties, VarietyId, f.odrudaId) case None => None case Some(v) => Some(v.nazev)
  }

  /** The variety section: a note without a variety table, a note when no
      field of the crop has a known variety, else one line per variety. */
  datatype VarietyView = NoVarietyTable | NoVarieties | VarietyLines(lines: seq<YieldLine>)

  function VarietySection(cf: seq<Field>, varieties: seq<Variety>): (v: VarietyView)
    ensures |varieties| == 0 <==> v.NoVarietyTable?
    ensures v.NoVarieties? <==> |varieties| > 0 && forall i :: 0 <= i < |cf| ==> VarietyLabel(varieties)(cf[i]).None?
    ensures v.VarietyLines? ==> v.lines == YieldLines(Lines(cf, VarietyLabel(varieties)))
  {
    if |varieties| == 0 then NoVarietyTable
    else if |KnownFields(cf, VarietyLabel(varieties))| == 0 then NoVarieties
    else
      var k := KnownFields(cf, VarietyLabel(varieties));
      assert k[0] in cf;
      VarietyLines(YieldLines(Lines(cf, VarietyLabel(varieties))))
  }

  /** The four headline numbers under the summary table. */
  datatype Overall = Overall(vymera: real, hrubaVaha: real, cistaVaha: real, prumer: real)

  /** The headline numbers: the column sums of the business lines and the
      unrounded average net yield, 0 without area. */
  function OverallOf(ls: seq<LabelLine>): (o: Overall)
    ensures o.vymera == Sum(ls, LineQty(Area)) && o.cistaVaha == Sum(ls, LineQty(Net))
    ensures o.hrubaVaha == Sum(ls, LineQty(Gross))
    ensures o.vymera > 0.0 ==> o.prumer * o.vymera == o.cistaVaha
    ensures o.vymera <= 0.0 ==> o.prumer == 0.0
  {
    var v := Sum(ls, LineQty(Area));
    var c := Sum(ls, LineQty(Net));
    Overall(v, Sum(ls, LineQty(Gross)), c, if v > 0.0 then c / v else 0.0)
  }

  /** What the page shows: one of its notes, or the report. */
  datatype Page =
    | NoFields
    | NoYearFields
    | NoCropTable
    | NoCropsInData
    | NoCropFields
    | NoBusinessColumn
    | Report(lines: seq<YieldLine>, varieties: VarietyView, overall: Overall)

  /** The page for the chosen year and crop. Without a business table the
      source's grouping column is missing and the page stops with an
      error; that outcome is `NoBusinessColumn`. */
  function PageOf(fields: seq<Field>, crops: seq<Crop>, businesses: seq<Business>, varieties: seq<Variety>,
                  user: SessionUser, year: int, crop: string): (p: Page)
    ensures p.NoFields? <==> |fields| == 0
    ensures p.NoYearFields? <==> |fields| > 0 && forall i :: 0 <= i < |fields| ==> fields[i].rokSklizne != year
    ensures p.NoCropTable? <==> (exists i :: 0 <= i < |fields| && fields[i].rokSklizne == year) && |crops| == 0
    ensures p.NoCropsInData? ==> |crops| > 0 && |DataCrops(UserYearFields(fields, year, user), crops)| == 0
    ensures p.NoBusinessColumn? ==> |businesses| == 0
    ensures p.Report? ==> (|crops| > 0 && |businesses| > 0
      && |Filter(UserYearFields(fields, year, user), OfCrop(crops, crop))| > 0)
    ensures p.Report? ==> var cf := Filter(UserYearFields(fields, year, user), OfCrop(crops, crop));
      p.lines == YieldLines(Lines(cf, BusinessLabel(businesses)))
      && p.varieties == VarietySection(cf, varieties)
      && p.overall == OverallOf(Lines(cf, BusinessLabel(businesses)))
  {
    if |fields| == 0 then NoFields
    else if |Filter(fields, (f: Field) => f.rokSklizne == year)| == 0 then NoYearFields
    else
      var yf := UserYearFields(fields, year, user);
      var any := Filter(fields, (f: Field) => f.rokSklizne == year);
      assert any[0] in fields;
      if |crops| == 0 then NoCropTable
      else if |DataCrops(yf, crops)| == 0 then NoCropsInData
      else
        var cf := Filter(yf, OfCrop(crops, crop));
        if |cf| == 0 then NoCropFields
        else if |businesses| == 0 then NoBusinessColumn
        else
          var ls := Lines(cf, BusinessLabel(businesses));
          Report(YieldLines(ls), VarietySection(cf, varieties), OverallOf(ls))
  }

  /** A crop offered as a choice always has fields, so picking a choice
      never gives the no-data note. */
  lemma ChosenCropHasFields(yf: seq<Field>, crops: seq<Crop>, crop: string)
    requires crop in Choices(crops, DataCrops(yf, crops))
    ensures |Filter(yf, OfCrop(crops, crop))| > 0
  {
    DataCropsExactly(yf, crops, crop);
    var i :| 0 <= i < |yf| && CropName(crops)(yf[i]) == Some(crop);
    assert OfCrop(crops, crop)(yf[i]);
  }

  /** The headline sums are the sums over the crop's fields of a known
      business: fields of an unknown business are left out of every line
      and of the average. */
  lemma OverallOverKnownBusinesses(cf: seq<Field>, businesses: seq<Business>)
    ensures OverallOf(Lines(cf, BusinessLabel(businesses))).vymera
      == Sum(KnownFields(cf, BusinessLabel(businesses)), FQ(Area))
    ensures OverallOf(Lines(cf, BusinessLabel(businesses))).cistaVaha
      == Sum(KnownFields(cf, BusinessLabel(businesses)), FQ(Net))
    ensures OverallOf(Lines(cf, BusinessLabel(businesses))).hrubaVaha
      == Sum(KnownFields(cf, BusinessLabel(businesses)), FQ(Gross))
  {
    LinesMass(cf, BusinessLabel(businesses), Area);
    LinesMass(cf, BusinessLabel(businesses), Net);
    LinesMass(cf, BusinessLabel(businesses), Gross);
  }

  /** The variety lines together carry the crop's fields of a known
      variety. */
  lemma VarietyMass(cf: seq<Field>, varieties: seq<Variety>, q: Quantity)
    requires VarietySection(cf, varieties).VarietyLines?
    ensures Sum(Lines(cf, VarietyLabel(varieties)), LineQty(q)) == Sum(KnownFields(cf, VarietyLabel(varieties)), FQ(q))
  {
    LinesMass(cf, VarietyLabel(varieties), q);
  }
}

=== FILE: osevniplany.dfy ===
/** The sowing plans of one business in one harvest year: one table per
    crop name, crops in string order, each listing the crop's fields
    with their rounded area and variety, closed by the rounded total
    area. */
module OsevniPlany {
  import opened Wrappers
  import opened Seqs
  import opened Records
  import opened NamedSums
  import opened Numeric
  import PrehledPodniku
  import PozemkyTekro
  import Statistiky

  /** One field's line of a plan. */
  datatype PlanRow = PlanRow(nazevHonu: string, cisloHonu: string, vymera: real, odruda: string)

  /** One crop's table: its fields' lines and the rounded total area. */
  datatype CropPlan = CropPlan(plodina: string, rows: seq<PlanRow>, celkem: real)

  /** What the page shows. Without a crop table but with a variety table
      the variety merge keeps its name column unsuffixed and the source
      then reads the suffixed column and stops with an error:
      `MissingVarietyName`. Without businesses the empty picker selects
      nothing and the name lookup fails: `NoBusinessChoice`. */
  datatype Page =
    | NoData
    | NoBusinessChoice
    | NoFieldsFor(year: int, podnik: string)
    | MissingVarietyName
    | Plans(year: int, podnik: string, plans: seq<CropPlan>)

  /** The business picker: one entry per distinct id in `poradi` order,
      named after the last business with that id. */
  function BusinessChoices(businesses: seq<Business>): seq<PrehledPodniku.Choice>
  {
    PrehledPodniku.Choices(PozemkyTekro.BusinessOrder(businesses))
  }

  /** A reordering of the businesses carries the same ids. */
  lemma SameIds(a: seq<Business>, b: seq<Business>, id: int)
    requires multiset(a) == multiset(b)
    ensures (exists k :: 0 <= k < |a| && a[k].id == id) <==> exists j :: 0 <= j < |b| && b[j].id == id
  {
    PermutationMembers(a, b);
    if exists k :: 0 <= k < |a| && a[k].id == id {
      var k :| 0 <= k < |a| && a[k].id == id;
      var j :| 0 <= j < |b| && b[j] == a[k];
    }
    if exists j :: 0 <= j < |b| && b[j].id == id {
      var j :| 0 <= j < |b| && b[j].id == id;
      var k :| 0 <= k < |a| && a[k] == b[j];
    }
  }

  /** The picker offers exactly the ids of the businesses. */
  lemma BusinessChoicesExactly(businesses: seq<Business>, id: int)
    ensures (exists i :: 0 <= i < |BusinessChoices(businesses)| && BusinessChoices(businesses)[i].id == id)
      <==> exists j :: 0 <= j < |businesses| && businesses[j].id == id
  {
    var bs := PozemkyTekro.BusinessOrder(businesses);
    assert BusinessChoices(businesses) == PrehledPodniku.Choices(bs);
    PrehledPodniku.ChoicesExactly(bs, id);
    SameIds(bs, businesses, id);
  }

  /** The variety name of a field, empty when the variety is unknown. */
  function VarietyName(varieties: seq<Variety>): Field -> string
  {
    (f: Field) =>
      match FindByCell(varieties, VarietyId, f.odrudaId)
      case None => ""
      case Some(v) => v.nazev
  }

  function PlanRowOf(f: Field, varieties: seq<Variety>): (r: PlanRow)
    ensures r.nazevHonu == (if f.nazevHonu.Some? then f.nazevHonu.value else "")
    ensures r.cisloHonu == f.cisloHonu
    ensures -0.005 <= r.vymera - f.vymera <= 0.005
    ensures r.odruda == VarietyName(varieties)(f)
  {
    PlanRow(f.nazevHonu.GetOr(""), f.cisloHonu, Round2(f.vymera), VarietyName(varieties)(f))
  }

  function RowArea(r: PlanRow): real
  {
    r.vymera
  }

  /** The lines of some fields, in table order. */
  function PlanRows(fs: seq<Field>, varieties: seq<Variety>): (r: seq<PlanRow>)
    ensures |r| == |fs|
    ensures forall i :: 0 <= i < |r| ==> r[i] == PlanRowOf(fs[i], varieties)
  {
    seq(|fs|, i requires 0 <= i < |fs| => PlanRowOf(fs[i], varieties))
  }

  /** Rounding each line moves the sum of the shown areas by at most
      half a hundredth per line. */
  lemma {:induction false} RoundedRowsNear(fs: seq<Field>, varieties: seq<Variety>)
    ensures -0.005 * |fs| as real <= Sum(PlanRows(fs, varieties), RowArea) - Sum(fs, FieldArea)
    ensures Sum(PlanRows(fs, varieties), RowArea) - Sum(fs, FieldArea) <= 0.005 * |fs| as real
  {
    if |fs| > 0 {
      RoundedRowsNear(fs[1..], varieties);
      assert PlanRows(fs, varieties)[1..] == PlanRows(fs[1..], varieties);
    }
  }

  /** The table of the crop named `name` over the selected fields `fs`. */
  function PlanOf(fs: seq<Field>, crops: seq<Crop>, varieties: seq<Variety>, name: string): (p: CropPlan)
    ensures p.plodina == name
    ensures var g := Group(fs, Statistiky.CropNameOf(crops), name);
      p.rows == PlanRows(g, varieties) && -0.005 <= p.celkem - Sum(g, FieldArea) <= 0.005
  {
    var g := Group(fs, Statistiky.CropNameOf(crops), name);
    CropPlan(name, PlanRows(g, varieties), Round2(Sum(g, FieldArea)))
  }

  /** The selected fields: those of the year and the business. */
  function Selected(year: int, podnik: int): Field -> bool
  {
    (f: Field) => f.rokSklizne == year && f.podnikId == podnik
  }

  /** The tables of the selected fields, one per crop name, ascending. */
  function PlansOf(fs: seq<Field>, crops: seq<Crop>, varieties: seq<Variety>): (r: seq<CropPlan>)
    ensures |r| == |Names(fs, Statistiky.CropNameOf(crops))|
    ensures forall i :: 0 <= i < |r| ==> r[i] == PlanOf(fs, crops, varieties, Names(fs, Statistiky.CropNameOf(crops))[i])
  {
    var names := Names(fs, Statistiky.CropNameOf(crops));
    seq(|names|, i requires 0 <= i < |names| => PlanOf(fs, crops, varieties, names[i]))
  }

  /** The page for the chosen year and business; the business is one
      the picker offers whenever there are businesses. */
  function PageOf(fields: seq<Field>, crops: seq<Crop>, varieties: seq<Variety>, businesses: seq<Business>,
                  year: int, podnik: int): (p: Page)
    requires |businesses| > 0 ==> exists i :: 0 <= i < |businesses| && businesses[i].id == podnik
    ensures p.NoData? <==> |fields| == 0
    ensures p.NoBusinessChoice? <==> |fields| > 0 && |businesses| == 0
    ensures p.NoFieldsFor? <==> (|fields| > 0 && |businesses| > 0
      && forall i :: 0 <= i < |fields| ==> !Selected(year, podnik)(fields[i]))
    ensures p.MissingVarietyName? <==> (|businesses| > 0
      && (exists i :: 0 <= i < |fields| && Selected(year, podnik)(fields[i]))
      && |crops| == 0 && |varieties| > 0)
    ensures p.NoFieldsFor? || p.Plans? ==> (p.year == year
      && exists i :: 0 <= i < |businesses| && businesses[i].id == podnik && businesses[i].nazev == p.podnik)
    ensures p.Plans? ==> p.plans == PlansOf(Filter(fields, Selected(year, podnik)), crops, varieties)
  {
    if |fields| == 0 then NoData
    else if |businesses| == 0 then NoBusinessChoice
    else
      var bs := PozemkyTekro.BusinessOrder(businesses);
      var i :| 0 <= i < |businesses| && businesses[i].id == podnik;
      assert businesses[i] in multiset(bs);
      var choice := PrehledPodniku.ChoiceOf(bs, podnik);
      var k :| 0 <= k < |bs| && bs[k].id == podnik && choice.nazev == bs[k].nazev;
      assert bs[k] in multiset(businesses);
      var fs := Filter(fields, Selected(year, podnik));
      FilterEmpty(fields, Selected(year, podnik));
      if |fs| == 0 then NoFieldsFor(year, choice.nazev)
      else
        if |crops| == 0 && |varieties| > 0 then MissingVarietyName
        else Plans(year, choice.nazev, PlansOf(fs, crops, varieties))
  }

  /** A crop gets a table exactly when some selected field carries its
      name, and every selected field is listed in that table. */
  lemma PlansExactly(fs: seq<Field>, crops: seq<Crop>, varieties: seq<Variety>, name: string)
    ensures name in Names(fs, Statistiky.CropNameOf(crops)) <==>
      exists i :: 0 <= i < |fs| && Statistiky.CropNameOf(crops)(fs[i]) == name
    ensures forall i :: 0 <= i < |fs| && Statistiky.CropNameOf(crops)(fs[i]) == name ==>
      PlanRowOf(fs[i], varieties) in PlanOf(fs, crops, varieties, name).rows
  {
    NamesExactly(fs, Statistiky.CropNameOf(crops), name);
    var g := Group(fs, Statistiky.CropNameOf(crops), name);
    forall i | 0 <= i < |fs| && Statistiky.CropNameOf(crops)(fs[i]) == name
      ensures PlanRowOf(fs[i], varieties) in PlanOf(fs, crops, varieties, name).rows
    {
      var k :| 0 <= k < |g| && g[k] == fs[i];
      assert PlanRows(g, varieties)[k] == PlanRowOf(fs[i], varieties);
    }
  }

  /** Together the tables' unrounded totals are the area of all the
      selected fields. */
  lemma PlansMass(fs: seq<Field>, crops: seq<Crop>)
    ensures Sum(Grouped(fs, Statistiky.CropNameOf(crops), FieldArea), Total) == Sum(fs, FieldArea)
  {
    GroupedMass(fs, Statistiky.CropNameOf(crops), FieldArea);
  }
}

=== FILE: overlay.dfy ===
/** `DataManager`: CSV tables read through a per-file cache, with the
    records a session adds appended behind the file's rows. Updates and
    deletions are recorded in the session but no read applies them. The
    files themselves never change here; a file that cannot be read is
    absent from `files`. */
module Overlay {
  import opened Wrappers
  import opened Seqs

  /** A table cell: an integer, a text, or missing (NaN). */
  datatype Cell = Int(n: int) | Txt(s: string) | Nan

  /** A row, column name to cell; a column the row lacks reads as NaN. */
  type Row = map<string, Cell>

  /** A DataFrame: its column names and its rows. */
  datatype Frame = Frame(columns: set<string>, rows: seq<Row>)

  /** The manager's cache together with the session's pending changes. */
  datatype Store = Store(
    files: map<string, Frame>,
    cache: map<string, Frame>,
    newRecords: map<string, seq<Row>>,
    updated: map<string, map<int, Row>>,
    deleted: map<string, seq<int>>)

  function Get(r: Row, column: string): Cell
  {
    if column in r then r[column] else Nan
  }

  /** The records the session added to a file, oldest first. */
  function Pending(st: Store, filename: string): seq<Row>
  {
    if filename in st.newRecords then st.newRecords[filename] else []
  }

  /** Columns named by any of the rows. */
  function RowColumns(rows: seq<Row>): (cs: set<string>)
    ensures forall i :: 0 <= i < |rows| ==> rows[i].Keys <= cs
  {
    if |rows| == 0 then {} else rows[0].Keys + RowColumns(rows[1..])
  }

  /** `pd.concat([df, pd.DataFrame(new_records)])` when there are records. */
  function Merge(df: Frame, news: seq<Row>): (m: Frame)
    ensures m.rows == df.rows + news
    ensures df.columns <= m.columns
  {
    if |news| > 0 then Frame(df.columns + RowColumns(news), df.rows + news)
    else df
  }

  /** The cache only ever holds what a fresh read would produce. */
  predicate Coherent(st: Store)
  {
    forall f :: f in st.cache ==> f in st.files && st.cache[f] == Merge(st.files[f], Pending(st, f))
  }

  /** `load_csv`: a cached copy unless a reload is forced; otherwise the
      file's rows followed by the session's added records, which are then
      cached. An unreadable file gives an empty frame and caches nothing. */
  function LoadCsv(st: Store, filename: string, forceReload: bool): (res: (Store, Frame))
    ensures filename in st.cache && !forceReload ==> res == (st, st.cache[filename])
    ensures (filename !in st.cache || forceReload) && filename in st.files ==>
      (res.1.rows == st.files[filename].rows + Pending(st, filename)
       && res.0 == st.(cache := st.cache[filename := res.1]))
    ensures (filename !in st.cache || forceReload) && filename !in st.files ==>
      res == (st, Frame({}, []))
  {
    if filename in st.cache && !forceReload then (st, st.cache[filename])
    else if filename !in st.files then (st, Frame({}, []))
    else
      var df := Merge(st.files[filename], Pending(st, filename));
      (st.(cache := st.cache[filename := df]), df)
  }

  /** The cache entry of one file, if any, is what a fresh read gives. */
  predicate FreshFor(st: Store, filename: string)
  {
    filename in st.cache ==> filename in st.files && st.cache[filename] == Merge(st.files[filename], Pending(st, filename))
  }

  /** Reading keeps the cache coherent, and what it returns is what a
      fresh read returns: the cache is never stale. */
  lemma LoadCoherent(st: Store, filename: string, forceReload: bool)
    requires Coherent(st)
    ensures Coherent(LoadCsv(st, filename, forceReload).0)
    ensures LoadCsv(st, filename, forceReload).1 == LoadCsv(st, filename, true).1
  {
  }

  /** The ids of the rows that have an integer id. */
  function IntIds(rows: seq<Row>): (ids: seq<int>)
    ensures forall i :: 0 <= i < |rows| && Get(rows[i], "id").Int? ==> Get(rows[i], "id").n in ids
    ensures forall k :: 0 <= k < |ids| ==> exists i :: 0 <= i < |rows| && Get(rows[i], "id") == Int(ids[k])
  {
    if |rows| == 0 then []
    else
      var rest := IntIds(rows[1..]);
      assert forall i :: 1 <= i < |rows| ==> rows[i] == rows[1..][i - 1];
      if Get(rows[0], "id").Int? then [Get(rows[0], "id").n] + rest else rest
  }

  /** `df['id'].max() + 1` over a frame without text ids: pandas skips
      missing ids, and with none left the maximum, and so the new id, is
      NaN. */
  function NextId(rows: seq<Row>): (c: Cell)
    ensures c.Int? <==> exists i :: 0 <= i < |rows| && Get(rows[i], "id").Int?
    ensures c.Int? ==> (forall i :: 0 <= i < |rows| && Get(rows[i], "id").Int? ==> Get(rows[i], "id").n < c.n)
    ensures c.Int? ==> exists i :: 0 <= i < |rows| && Get(rows[i], "id") == Int(c.n - 1)
    ensures !c.Int? ==> c == Nan
  {
    var ids := IntIds(rows);
    if |ids| == 0 then Nan else Int(MaxInt(ids) + 1)
  }

  /** Some row's id is text. `max()` cannot compare text with a number,
      and the maximum of text ids is text, to which `+ 1` cannot be
      added: either way computing the next id raises `TypeError`. */
  predicate HasTextId(rows: seq<Row>)
  {
    exists i :: 0 <= i < |rows| && Get(rows[i], "id").Txt?
  }

  /** `add_record` raises on the frame it read: it computes the next id
      only for a frame with an id column and rows. */
  predicate AddFails(df: Frame)
  {
    "id" in df.columns && |df.rows| > 0 && HasTextId(df.rows)
  }

  /** The record `add_record` stores, given the frame it read: the next
      id when the frame has an id column and at least one row, and the
      modification stamp `now` when it has that column; every other cell
      is the caller's. */
  function NewRecord(df: Frame, data: Row, now: string): (rec: Row)
    ensures "id" in df.columns && |df.rows| > 0 ==> Get(rec, "id") == NextId(df.rows)
    ensures !("id" in df.columns && |df.rows| > 0) ==> Get(rec, "id") == Get(data, "id")
    ensures "datum_upravy" in df.columns ==> Get(rec, "datum_upravy") == Txt(now)
    ensures "datum_upravy" !in df.columns ==> Get(rec, "datum_upravy") == Get(data, "datum_upravy")
    ensures forall c :: c in data && c != "id" && c != "datum_upravy" ==> c in rec && rec[c] == data[c]
  {
    var withId := if "id" in df.columns && |df.rows| > 0 then data["id" := NextId(df.rows)] else data;
    if "datum_upravy" in df.columns then withId["datum_upravy" := Txt(now)] else withId
  }

  /** `add_record`: the record, completed from the frame `load_csv` gives,
      is appended to the session's records for the file and the file's
      cache entry is dropped. When computing the next id raises, the
      error is reported instead: nothing is appended, the entry the read
      cached stays, and the caller's data come back unchanged. */
  function AddRecord(st: Store, filename: string, data: Row, now: string): (res: (Store, Row, bool))
    ensures res.2 <==> !AddFails(LoadCsv(st, filename, false).1)
    ensures res.2 ==> res.1 == NewRecord(LoadCsv(st, filename, false).1, data, now)
    ensures !res.2 ==> res.1 == data && res.0.cache == LoadCsv(st, filename, false).0.cache
    ensures res.0.files == st.files && res.0.updated == st.updated && res.0.deleted == st.deleted
    ensures Pending(res.0, filename) == Pending(st, filename) + (if res.2 then [res.1] else [])
    ensures forall f :: f != filename ==> Pending(res.0, f) == Pending(st, f)
    ensures res.2 ==> filename !in res.0.cache
  {
    var (st1, df) := LoadCsv(st, filename, false);
    if AddFails(df) then (st1, data, false)
    else
      var rec := NewRecord(df, data, now);
      var st2 := st1.(newRecords := st1.newRecords[filename := Pending(st1, filename) + [rec]],
                      cache := st1.cache - {filename});
      (st2, rec, true)
  }

  /** Adding keeps the cache coherent, whether or not it succeeds. */
  lemma AddCoherent(st: Store, filename: string, data: Row, now: string)
    requires Coherent(st)
    ensures Coherent(AddRecord(st, filename, data, now).0)
  {
    var st2 := AddRecord(st, filename, data, now).0;
    LoadCoherent(st, filename, false);
    forall f | f in st2.cache
      ensures f in st2.files && st2.cache[f] == Merge(st2.files[f], Pending(st2, f))
    {
      assert f in LoadCsv(st, filename, false).0.cache;
    }
  }

  /** A record added to a readable file is read back after the file's rows
      and the records added before it; after a failed add a read returns
      what it returned before. */
  lemma AddThenLoad(st: Store, filename: string, data: Row, now: string)
    requires filename in st.files
    ensures var (st2, rec, ok) := AddRecord(st, filename, data, now);
      && (ok ==> LoadCsv(st2, filename, false).1.rows == st.files[filename].rows + Pending(st, filename) + [rec])
      && (!ok ==> LoadCsv(st2, filename, false).1 == LoadCsv(st, filename, false).1)
  {
  }

  /** On a coherent store, a read of a readable file is its rows
      followed by the session's records. */
  lemma LoadFresh(st: Store, filename: string)
    requires FreshFor(st, filename) && filename in st.files
    ensures LoadCsv(st, filename, false).1 == Merge(st.files[filename], Pending(st, filename))
  {
  }

  /** On a coherent store, an add to a table with an id column and an
      integer id succeeds exactly when no id read is text, and then the
      id it assigns is one above the largest id read. */
  lemma AddIdOnCoherent(st: Store, filename: string, d: Row, now: string)
    requires FreshFor(st, filename) && filename in st.files && "id" in st.files[filename].columns
    requires NextId(st.files[filename].rows + Pending(st, filename)).Int?
    ensures var rows := st.files[filename].rows + Pending(st, filename);
      var a := AddRecord(st, filename, d, now);
      && (a.2 <==> !HasTextId(rows))
      && (a.2 ==> Get(a.1, "id") == NextId(rows))
  {
    LoadFresh(st, filename);
  }

  /** Two adds in a row to a table with integer ids both succeed exactly
      when no id read is text. Then they get consecutive ids: the first
      is one above every id already read, and the second one above the
      first. */
  lemma ConsecutiveAddsIncrease(st: Store, filename: string, d1: Row, d2: Row, now: string)
    requires Coherent(st)
    requires filename in st.files && "id" in st.files[filename].columns
    requires exists i :: 0 <= i < |st.files[filename].rows| && Get(st.files[filename].rows[i], "id").Int?
    ensures var a := AddRecord(st, filename, d1, now);
      var b := AddRecord(a.0, filename, d2, now);
      && (a.2 <==> !HasTextId(st.files[filename].rows + Pending(st, filename)))
      && b.2 == a.2
      && (a.2 ==>
           && Get(a.1, "id").Int? && Get(b.1, "id").Int? && Get(b.1, "id").n == Get(a.1, "id").n + 1
           && forall k :: 0 <= k < |st.files[filename].rows| && Get(st.files[filename].rows[k], "id").Int? ==>
                Get(st.files[filename].rows[k], "id").n < Get(a.1, "id").n)
  {
    assert FreshFor(st, filename);
    var rows := st.files[filename].rows + Pending(st, filename);
    var a := AddRecord(st, filename, d1, now);
    FirstAdd(st, filename, d1, now);
    AddKeepsFresh(st, filename, d1, now);
    var rowsA := st.files[filename].rows + Pending(a.0, filename);
    if a.2 {
      NextIdAppend(rows, a.1);
      TextIdAppend(rows, a.1);
      assert rowsA == rows + [a.1];
    } else {
      assert rowsA == rows;
    }
    AddIdOnCoherent(a.0, filename, d2, now);
  }

  /** The first add to a file with an integer id succeeds exactly when no
      id read is text, and then gives an integer id above every id in the
      file. */
  lemma FirstAdd(st: Store, filename: string, d: Row, now: string)
    requires FreshFor(st, filename)
    requires filename in st.files && "id" in st.files[filename].columns
    requires exists i :: 0 <= i < |st.files[filename].rows| && Get(st.files[filename].rows[i], "id").Int?
    ensures var rows := st.files[filename].rows + Pending(st, filename);
      var a := AddRecord(st, filename, d, now);
      && NextId(rows).Int?
      && (a.2 <==> !HasTextId(rows))
      && (a.2 ==> Get(a.1, "id") == NextId(rows))
      && forall k :: 0 <= k < |st.files[filename].rows| && Get(st.files[filename].rows[k], "id").Int? ==>
           Get(st.files[filename].rows[k], "id").n < NextId(rows).n
  {
    var fileRows := st.files[filename].rows;
    var rows := fileRows + Pending(st, filename);
    assert forall k :: 0 <= k < |fileRows| ==> rows[k] == fileRows[k];
    var i :| 0 <= i < |fileRows| && Get(fileRows[i], "id").Int?;
    assert Get(rows[i], "id").Int?;
    AddIdOnCoherent(st, filename, d, now);
  }

  /** After a successful add the file is read afresh, with the new record
      last; after a failed one the session's records are unchanged, and a
      fresh entry stays fresh. */
  lemma AddKeepsFresh(st: Store, filename: string, d: Row, now: string)
    requires filename in st.files
    ensures var a := AddRecord(st, filename, d, now);
      && (a.2 || FreshFor(st, filename) ==> FreshFor(a.0, filename))
      && filename in a.0.files && a.0.files[filename] == st.files[filename]
      && st.files[filename].rows + Pending(a.0, filename)
         == st.files[filename].rows + Pending(st, filename) + (if a.2 then [a.1] else [])
  {
  }

  /** Appending a row with an integer id adds no text id. */
  lemma TextIdAppend(rows: seq<Row>, r: Row)
    requires Get(r, "id").Int?
    ensures HasTextId(rows + [r]) <==> HasTextId(rows)
  {
    var s := rows + [r];
    if HasTextId(s) {
      var i :| 0 <= i < |s| && Get(s[i], "id").Txt?;
      assert i < |rows| && s[i] == rows[i];
    }
    if HasTextId(rows) {
      var i :| 0 <= i < |rows| && Get(rows[i], "id").Txt?;
      assert s[i] == rows[i];
    }
  }

  /** Appending a row whose id is above all others makes it the maximum. */
  lemma NextIdAppend(rows: seq<Row>, r: Row)
    requires NextId(rows).Int? && Get(r, "id") == NextId(rows)
    ensures NextId(rows + [r]) == Int(NextId(rows).n + 1)
  {
    var s := rows + [r];
    var n := NextId(rows).n;
    assert s[|rows|] == r;
    forall i | 0 <= i < |s| && Get(s[i], "id").Int?
      ensures Get(s[i], "id").n <= n
    {
      if i < |rows| {
        assert s[i] == rows[i];
      }
    }
    NextIdBound(s, n);
  }

  /** A bound on the integer ids bounds the next id. */
  lemma NextIdBound(rows: seq<Row>, m: int)
    requires forall i :: 0 <= i < |rows| && Get(rows[i], "id").Int? ==> Get(rows[i], "id").n <= m
    ensures NextId(rows).Int? ==> NextId(rows).n <= m + 1
  {
    var c := NextId(rows);
    if c.Int? {
      var j :| 0 <= j < |rows| && Get(rows[j], "id") == Int(c.n - 1);
    }
  }

  /** The patches recorded for a file, by record id. */
  function Patches(st: Store, filename: string): map<int, Row>
  {
    if filename in st.updated then st.updated[filename] else map[]
  }

  /** The ids recorded as deleted from a file, oldest first. */
  function Deletions(st: Store, filename: string): seq<int>
  {
    if filename in st.deleted then st.deleted[filename] else []
  }

  /** `update_record`: the patch, stamped with `now`, is stored under the
      record id, replacing any earlier patch for that id, and the file's
      cache entry is dropped. Always reports success. */
  function UpdateRecord(st: Store, filename: string, recordId: int, data: Row, now: string): (res: (Store, bool))
    ensures res.1
    ensures Patches(res.0, filename) == Patches(st, filename)[recordId := data["datum_upravy" := Txt(now)]]
    ensures forall f :: f != filename ==> Patches(res.0, f) == Patches(st, f)
    ensures res.0.files == st.files && res.0.newRecords == st.newRecords && res.0.deleted == st.deleted
    ensures filename !in res.0.cache
    ensures forall f :: f in res.0.cache ==> f in st.cache && res.0.cache[f] == st.cache[f]
  {
    var patch := data["datum_upravy" := Txt(now)];
    (st.(updated := st.updated[filename := Patches(st, filename)[recordId := patch]],
         cache := st.cache - {filename}), true)
  }

  /** `delete_record`: the id is appended to the file's deletions, even
      when it is already there, and the file's cache entry is dropped.
      Always reports success. */
  function DeleteRecord(st: Store, filename: string, recordId: int): (res: (Store, bool))
    ensures res.1
    ensures Deletions(res.0, filename) == Deletions(st, filename) + [recordId]
    ensures forall f :: f != filename ==> Deletions(res.0, f) == Deletions(st, f)
    ensures res.0.files == st.files && res.0.newRecords == st.newRecords && res.0.updated == st.updated
    ensures filename !in res.0.cache
    ensures forall f :: f in res.0.cache ==> f in st.cache && res.0.cache[f] == st.cache[f]
  {
    (st.(deleted := st.deleted[filename := Deletions(st, filename) + [recordId]],
         cache := st.cache - {filename}), true)
  }

  /** A second update of the same record replaces the first: only the
      latest patch is kept. */
  lemma UpdateOverwrites(st: Store, filename: string, recordId: int, d1: Row, d2: Row, now1: string, now2: string)
    ensures var s1 := UpdateRecord(st, filename, recordId, d1, now1).0;
      var s2 := UpdateRecord(s1, filename, recordId, d2, now2).0;
      Patches(s2, filename) == Patches(st, filename)[recordId := d2["datum_upravy" := Txt(now2)]]
  {
  }

  /** No read applies updates or deletions: after either, reading a file
      gives exactly what a fresh read of the store before gave. */
  lemma ChangesNotApplied(st: Store, filename: string, g: string, recordId: int, data: Row, now: string)
    ensures LoadCsv(UpdateRecord(st, filename, recordId, data, now).0, g, true).1 == LoadCsv(st, g, true).1
    ensures LoadCsv(DeleteRecord(st, filename, recordId).0, g, true).1 == LoadCsv(st, g, true).1
  {
    var u := UpdateRecord(st, filename, recordId, data, now).0;
    var d := DeleteRecord(st, filename, recordId).0;
    assert Pending(u, g) == Pending(st, g);
    assert Pending(d, g) == Pending(st, g);
  }

  /** Updating and deleting keep the cache coherent. */
  lemma ChangesCoherent(st: Store, filename: string, recordId: int, data: Row, now: string)
    requires Coherent(st)
    ensures Coherent(UpdateRecord(st, filename, recordId, data, now).0)
    ensures Coherent(DeleteRecord(st, filename, recordId).0)
  {
    var u := UpdateRecord(st, filename, recordId, data, now).0;
    var d := DeleteRecord(st, filename, recordId).0;
    forall f | f in u.cache
      ensures f in u.files && u.cache[f] == Merge(u.files[f], Pending(u, f))
    {
      assert Pending(u, f) == Pending(st, f);
    }
    forall f | f in d.cache
      ensures f in d.files && d.cache[f] == Merge(d.files[f], Pending(d, f))
    {
      assert Pending(d, f) == Pending(st, f);
    }
  }

  /** `podnik_id` of a row, when it holds an integer in `ids`. */
  function PodnikIn(ids: seq<int>): Row -> bool
  {
    (r: Row) => Get(r, "podnik_id").Int? && Get(r, "podnik_id").n in ids
  }

  /** `filter_by_business`: unchanged when no ids are given or the frame
      has no `podnik_id` column; otherwise exactly the rows whose
      `podnik_id` is one of the ids, in order (a missing id matches none). */
  function FilterByBusiness(df: Frame, ids: seq<int>): (r: Frame)
    ensures r.columns == df.columns
    ensures |ids| == 0 || "podnik_id" !in df.columns ==> r == df
    ensures |ids| > 0 && "podnik_id" in df.columns ==>
      (multiset(r.rows) <= multiset(df.rows)
       && (forall i :: 0 <= i < |r.rows| ==> Get(r.rows[i], "podnik_id").Int? && Get(r.rows[i], "podnik_id").n in ids)
       && (forall i :: 0 <= i < |df.rows| && PodnikIn(ids)(df.rows[i]) ==> df.rows[i] in r.rows))
    ensures Embeds(r.rows, df.rows)
    ensures |ids| > 0 && "podnik_id" in df.columns ==>
      forall row :: multiset(r.rows)[row] ==
                if Get(row, "podnik_id").Int? && Get(row, "podnik_id").n in ids then multiset(df.rows)[row] else 0
  {
    if |ids| == 0 || "podnik_id" !in df.columns then
      EmbedsRefl(df.rows);
      df
    else
      FilterMask(df.rows, PodnikIn(ids));
      Frame(df.columns, Filter(df.rows, PodnikIn(ids)))
  }

  /** Filtering twice by the same ids changes nothing more. */
  lemma FilterByBusinessIdempotent(df: Frame, ids: seq<int>)
    ensures FilterByBusiness(FilterByBusiness(df, ids), ids) == FilterByBusiness(df, ids)
  {
    if |ids| > 0 && "podnik_id" in df.columns {
      FilterIdempotent(df.rows, PodnikIn(ids));
    }
  }
}

=== FILE: plodinytekro.dfy ===
/** The crops-by-year page: one business-by-year table per crop, crops
    in the order of their rank in the crop table. Each table's cells are
    the area, the net production and the net yield of that crop's fields
    of one business in one harvest year. */
module PlodinyTekro {
  import opened Wrappers
  import opened Seqs
  import opened Records
  import opened YearPivot
  import Statistiky
  import Odpisy

  /** Shown for every field when the crop table is empty. */
  const UnknownCrop: string := "Neznámá"
  /** Shown for every field when the business table is empty. */
  const UnknownBusiness: string := "Neznámý"
  /** The rank of a crop without one. */
  const UnknownRank: int := 999

  /** A crop name with its rank, as joined onto a field. */
  datatype CropPair = CropPair(name: string, poradi: int)

  /** The crop pair joined onto a field: the crop's name and rank, none
      when the crop id matches no crop, and the unknown crop at rank 999
      for every field when the crop table is empty. */
  function PairOf(crops: seq<Crop>, f: Field): (r: Option<CropPair>)
    ensures |crops| == 0 ==> r == Some(CropPair(UnknownCrop, UnknownRank))
    ensures |crops| > 0 ==> (r.Some? <==> FindByCell(crops, CropId, f.plodinaId).Some?)
  {
    if |crops| == 0 then Some(CropPair(UnknownCrop, UnknownRank))
    else
      match FindByCell(crops, CropId, f.plodinaId)
      case None => None
      case Some(c) => Some(CropPair(c.nazev, c.poradi))
  }

  function Pairs(fields: seq<Field>, crops: seq<Crop>): (r: seq<Option<CropPair>>)
    ensures |r| == |fields|
    ensures forall i :: 0 <= i < |fields| ==> r[i] == PairOf(crops, fields[i])
  {
    seq(|fields|, i requires 0 <= i < |fields| => PairOf(crops, fields[i]))
  }

  /** Sort key of a joined pair: its rank, 999 for a missing one. */
  function PairKey(p: Option<CropPair>): seq<real>
  {
    [(if p.Some? then p.value.poradi else UnknownRank) as real]
  }

  function RankKey(p: CropPair): seq<real>
  {
    [p.poradi as real]
  }

  function Present(p: Option<CropPair>): Option<CropPair>
  {
    p
  }

  /** The distinct joined pairs ordered by rank, the fields of no known
      crop dropped. Two crops sharing a name but not a rank both appear. */
  function CropOrder(fields: seq<Field>, crops: seq<Crop>): (r: seq<CropPair>)
    ensures SortedBy(r, RankKey)
    ensures NoDup(r)
  {
    var d := Dedup(Pairs(fields, crops));
    var s := SortBy(d, PairKey);
    PermutationNoDup(d, s);
    CollectSorted(s, Present, PairKey, RankKey);
    CollectNoDup(s, Present);
    Collect(s, Present)
  }

  /** Ranks never decrease along the crop order. */
  lemma CropOrderRanked(fields: seq<Field>, crops: seq<Crop>)
    ensures forall i, j :: 0 <= i <= j < |CropOrder(fields, crops)| ==>
      CropOrder(fields, crops)[i].poradi <= CropOrder(fields, crops)[j].poradi
  {
    var r := CropOrder(fields, crops);
    SortedAll(r, RankKey);
    forall i, j | 0 <= i <= j < |r|
      ensures r[i].poradi <= r[j].poradi
    {
      LexHead(RankKey(r[i]), RankKey(r[j]));
    }
  }

  /** Every field of a known crop has its crop in the order. */
  lemma CropOrderCovers(fields: seq<Field>, crops: seq<Crop>)
    ensures forall i :: 0 <= i < |fields| && PairOf(crops, fields[i]).Some? ==>
      PairOf(crops, fields[i]).value in CropOrder(fields, crops)
  {
    var ps := Pairs(fields, crops);
    var d := Dedup(ps);
    var s := SortBy(d, PairKey);
    PermutationMembers(d, s);
    CollectCovers(s, Present);
    forall i | 0 <= i < |fields| && PairOf(crops, fields[i]).Some?
      ensures PairOf(crops, fields[i]).value in CropOrder(fields, crops)
    {
      assert ps[i] in d;
      var n :| 0 <= n < |s| && s[n] == ps[i];
      assert Present(s[n]).Some?;
    }
  }

  /** Every crop in the order is the crop of some field. */
  lemma CropOrderFromFields(fields: seq<Field>, crops: seq<Crop>)
    ensures forall p :: p in CropOrder(fields, crops) ==>
      exists i :: 0 <= i < |fields| && PairOf(crops, fields[i]) == Some(p)
  {
    var ps := Pairs(fields, crops);
    var d := Dedup(ps);
    var s := SortBy(d, PairKey);
    var r := CropOrder(fields, crops);
    assert r == Collect(s, Present);
    PermutationMembers(d, s);
    forall k | 0 <= k < |r|
      ensures exists i :: 0 <= i < |fields| && PairOf(crops, fields[i]) == Some(r[k])
    {
      var n :| 0 <= n < |s| && Present(s[n]) == Some(r[k]);
      assert s[n] in d;
      var i :| 0 <= i < |ps| && ps[i] == s[n];
      assert PairOf(crops, fields[i]) == Some(r[k]);
    }
  }

  /** A field shown in the table of crop `name`. */
  function OfCrop(crops: seq<Crop>, name: string): Field -> bool
  {
    (f: Field) => PairOf(crops, f).Some? && PairOf(crops, f).value.name == name
  }

  /** The fields of one crop name, whatever the crop's rank. */
  function CropFields(fields: seq<Field>, crops: seq<Crop>, name: string): (r: seq<Field>)
    ensures forall i :: 0 <= i < |r| ==> r[i] in fields && OfCrop(crops, name)(r[i])
    ensures forall i :: 0 <= i < |fields| && OfCrop(crops, name)(fields[i]) ==> fields[i] in r
  {
    Filter(fields, OfCrop(crops, name))
  }

  /** The mask keeps the table order, and each field of the crop as often
      as it occurs in the table. */
  lemma CropFieldsMask(fields: seq<Field>, crops: seq<Crop>, name: string)
    ensures Embeds(CropFields(fields, crops, name), fields)
    ensures forall f :: multiset(CropFields(fields, crops, name))[f] ==
              if PairOf(crops, f).Some? && PairOf(crops, f).value.name == name then multiset(fields)[f] else 0
  {
    FilterMask(fields, OfCrop(crops, name));
  }

  /** The business a field's row is shown under: its business's name,
      none for an unknown business, and one common name for every field
      when the business table is empty. */
  function PodnikLabel(businesses: seq<Business>): Field -> Option<string>
  {
    if |businesses| == 0 then (f: Field) => Some(UnknownBusiness) else BusinessLabel(businesses)
  }

  /** One crop's section of the page. */
  datatype CropSection = CropSection(crop: string, table: YearTable)

  function Sections(order: seq<CropPair>, fields: seq<Field>, crops: seq<Crop>, businesses: seq<Business>): (r: seq<CropSection>)
    ensures |r| == |order|
    ensures forall i :: 0 <= i < |order| ==> r[i] == CropSection(order[i].name,
      PivotOf(CropFields(fields, crops, order[i].name), PodnikLabel(businesses)))
  {
    seq(|order|, i requires 0 <= i < |order| => CropSection(order[i].name,
      PivotOf(CropFields(fields, crops, order[i].name), PodnikLabel(businesses))))
  }

  /** The page: nothing without fields; otherwise one section per crop
      of the rank order, each the business-by-year table of that crop's
      fields. */
  function Page(fields: seq<Field>, crops: seq<Crop>, businesses: seq<Business>): (r: Option<seq<CropSection>>)
    ensures r.None? <==> |fields| == 0
    ensures r.Some? ==> |r.value| == |CropOrder(fields, crops)|
    ensures r.Some? ==> forall i :: 0 <= i < |r.value| ==>
      r.value[i].crop == CropOrder(fields, crops)[i].name
      && r.value[i].table.names == TableNames(CropFields(fields, crops, r.value[i].crop), PodnikLabel(businesses))
      && r.value[i].table.years == TableYears(CropFields(fields, crops, r.value[i].crop), PodnikLabel(businesses))
  {
    if |fields| == 0 then None
    else Some(Sections(CropOrder(fields, crops), fields, crops, businesses))
  }

  /** Every crop of the order has fields, so no section is left empty. */
  lemma SectionsHaveFields(fields: seq<Field>, crops: seq<Crop>)
    ensures forall p :: p in CropOrder(fields, crops) ==> |CropFields(fields, crops, p.name)| > 0
  {
    CropOrderFromFields(fields, crops);
    forall p | p in CropOrder(fields, crops)
      ensures |CropFields(fields, crops, p.name)| > 0
    {
      var i :| 0 <= i < |fields| && PairOf(crops, fields[i]) == Some(p);
      assert OfCrop(crops, p.name)(fields[i]);
    }
  }

  /** The fields counted in the cell of crop `name`, business `b` and
      year `y`. */
  function InCropCell(crops: seq<Crop>, businesses: seq<Business>, name: string, b: string, y: int): Field -> bool
  {
    Both(OfCrop(crops, name), InCell(PodnikLabel(businesses), b, y))
  }

  /** A cell of a crop's table sums exactly the fields of that crop, that
      business and that year. */
  lemma CellIsCropBusinessYear(fields: seq<Field>, crops: seq<Crop>, businesses: seq<Business>, name: string, b: string, y: int)
    ensures CellOf(CropFields(fields, crops, name), PodnikLabel(businesses), b, y).vymera
      == Sum(Filter(fields, InCropCell(crops, businesses, name, b, y)), FieldArea)
    ensures CellOf(CropFields(fields, crops, name), PodnikLabel(businesses), b, y).produkce
      == Sum(Filter(fields, InCropCell(crops, businesses, name, b, y)), FieldNet)
  {
    FilterFilter(fields, OfCrop(crops, name), InCell(PodnikLabel(businesses), b, y));
  }

  /** Without a business table every field of a crop falls in one row,
      shown under the unknown business. */
  lemma NoBusinessesOneRow(fields: seq<Field>, crops: seq<Crop>, businesses: seq<Business>, name: string)
    requires |businesses| == 0
    requires |CropFields(fields, crops, name)| > 0
    ensures TableNames(CropFields(fields, crops, name), PodnikLabel(businesses)) == [UnknownBusiness]
  {
    var cf := CropFields(fields, crops, name);
    OneLabelOneRow(cf, PodnikLabel(businesses), UnknownBusiness);
  }
}

=== FILE: podnikyprehled.dfy ===
/** The businesses overview: for one harvest year, one crop table per
    business, businesses in rank order, each table one row per crop
    name, largest area first, closed by a total row. */
module PodnikyPrehled {
  import opened Wrappers
  import opened Seqs
  import opened Records
  import opened Aggregations
  import opened YearPivot
  import opened LabelLines
  import opened PrehledTekro
  import Odrudy
  import Odpisy

  /** The preselected year: the first choice, which is the latest
      harvest year of any field. */
  function LatestYear(fields: seq<Field>): (y: int)
    requires |fields| > 0
    ensures exists i :: 0 <= i < |fields| && fields[i].rokSklizne == y
    ensures forall i :: 0 <= i < |fields| ==> fields[i].rokSklizne <= y
  {
    Odrudy.FirstChoiceLatest(fields);
    Odrudy.YearChoices(fields)[0]
  }

  /** One business's block of the page. */
  datatype Section = Section(podnik: string, table: StatTable)

  /** Whether a business has fields in the year. */
  predicate HasFieldsIn(yf: seq<Field>, businesses: seq<Business>, n: string)
  {
    |OfPodnik(yf, businesses, n)| > 0
  }

  function HasFields(yf: seq<Field>, businesses: seq<Business>): string -> bool
  {
    (n: string) => HasFieldsIn(yf, businesses, n)
  }

  /** The businesses of `order` that get a block, in that order: those
      with fields in the year. A name listed twice gets two blocks. */
  function Shown(order: seq<string>, yf: seq<Field>, businesses: seq<Business>): (r: seq<string>)
    ensures forall n :: n in r <==> n in order && |OfPodnik(yf, businesses, n)| > 0
    ensures forall i :: 0 <= i < |r| ==> HasFieldsIn(yf, businesses, r[i])
  {
    FilterMembers(order, HasFields(yf, businesses));
    Filter(order, HasFields(yf, businesses))
  }

  /** The crop table of a business's fields of the year. */
  function Block(yf: seq<Field>, crops: seq<Crop>, businesses: seq<Business>, n: string): (t: StatTable)
    requires HasFieldsIn(yf, businesses, n)
    ensures Some(t) == CropTable(OfPodnik(yf, businesses, n), crops)
  {
    CropTable(OfPodnik(yf, businesses, n), crops).value
  }

  /** The blocks of the businesses shown, one crop table each. */
  function Sections(shown: seq<string>, yf: seq<Field>, crops: seq<Crop>, businesses: seq<Business>): (r: seq<Section>)
    requires forall i :: 0 <= i < |shown| ==> HasFieldsIn(yf, businesses, shown[i])
    ensures |r| == |shown|
    ensures forall i :: 0 <= i < |r| ==> (r[i].podnik == shown[i]
      && r[i].table == Block(yf, crops, businesses, shown[i]))
  {
    seq(|shown|, i requires 0 <= i < |shown| => Section(shown[i], Block(yf, crops, businesses, shown[i])))
  }

  /** What the page shows. Without a crop table but with a business
      table the source looks up a business-name column the merge never
      made and stops with an error: `MissingBusinessName`. */
  datatype Page =
    | NoFields
    | NoYearFields
    | MissingBusinessName
    | Report(sections: seq<Section>)

  function PageOf(fields: seq<Field>, crops: seq<Crop>, businesses: seq<Business>, year: int): (p: Page)
    ensures p.NoFields? <==> |fields| == 0
    ensures p.NoYearFields? <==> |fields| > 0 && forall i :: 0 <= i < |fields| ==> fields[i].rokSklizne != year
    ensures p.MissingBusinessName? <==> (|fields| > 0 && (exists i :: 0 <= i < |fields| && fields[i].rokSklizne == year)
      && |crops| == 0 && |businesses| > 0)
    ensures p.Report? ==> p.sections == ReportOf(Filter(fields, InYear(year)), crops, businesses)
  {
    var yf := Filter(fields, InYear(year));
    FilterEmpty(fields, InYear(year));
    if |fields| == 0 then Page.NoFields
    else if |yf| == 0 then Page.NoYearFields
    else
      if |crops| == 0 && |businesses| > 0 then Page.MissingBusinessName
      else Page.Report(ReportOf(yf, crops, businesses))
  }

  /** The report of the year's fields `yf`: one section per shown
      business, in business order. */
  function ReportOf(yf: seq<Field>, crops: seq<Crop>, businesses: seq<Business>): seq<Section>
  {
    Sections(Shown(PodnikOrder(yf, businesses), yf, businesses), yf, crops, businesses)
  }

  /** A block's total row sums exactly the year's fields of its business. */
  lemma SectionMass(yf: seq<Field>, crops: seq<Crop>, businesses: seq<Business>, n: string, q: Quantity)
    requires HasFieldsIn(yf, businesses, n)
    ensures Block(yf, crops, businesses, n).celkem.totals.Get(q)
      == Sum(Filter(yf, LabelIs(PodnikLabel(businesses), n)), FQ(q))
  {
    CropTableMass(OfPodnik(yf, businesses, n), crops, q);
  }

  /** With a business table, blocks are only ever shown under the names
      in that table: fields of an unknown business appear in no block
      unless some business is itself called the unknown business. */
  lemma BlocksNameBusinesses(yf: seq<Field>, businesses: seq<Business>)
    requires |businesses| > 0
    ensures forall n :: n in Shown(PodnikOrder(yf, businesses), yf, businesses) ==>
      exists b :: b in businesses && b.nazev == n
  {
    var order := PodnikOrder(yf, businesses);
    var s: seq<Business> :| SortedBy(s, BusinessRank) && multiset(s) == multiset(businesses) && order == MapSeq(s, BusinessName);
    var shown := Shown(order, yf, businesses);
    forall n | n in shown
      ensures exists b :: b in businesses && b.nazev == n
    {
      assert n in order;
      var k :| 0 <= k < |order| && order[k] == n;
      assert s[k].nazev == n;
      assert s[k] in multiset(businesses);
      assert s[k] in businesses;
    }
  }

  /** Without a business table every field of the year is shown in one
      block, under the unknown business. */
  lemma NoBusinessesOneBlock(yf: seq<Field>)
    requires |yf| > 0
    ensures Shown(PodnikOrder(yf, []), yf, []) == [UnknownBusiness]
    ensures OfPodnik(yf, [], UnknownBusiness) == yf
  {
    var nameOf := PodnikLabel([]);
    OneLabelOneRow(yf, nameOf, UnknownBusiness);
    FilterAll(yf, LabelIs(nameOf, UnknownBusiness));
  }
}

=== FILE: pozemky.dfy ===
/** The land page: area per land type and year, the year picked for the
    detail, and the detail itself, one table per business of the area
    it holds per land type in that year. The form adding a plot is
    `Forms.AddPlot`; the per-type summary is `Aggregations.PozemkySummary`. */
module Pozemky {
  import opened Wrappers
  import opened Seqs
  import opened Records
  import opened NamedSums
  import opened PrehledPodniku

  // ----- Area per land type and year -----

  /** Whether a plot's land type is in the type table; a pivot drops
      the plots whose type the merge left missing. */
  function KnownType(types: seq<PlotType>): Plot -> bool
  {
    (p: Plot) => FindById(types, TypeId, p.nazevId).Some?
  }

  /** Plots of a listed land type harvested in `year`. */
  function TypedIn(types: seq<PlotType>, year: int): Plot -> bool
  {
    (p: Plot) => FindById(types, TypeId, p.nazevId).Some? && p.year == year
  }

  /** Plots of the listed land type named `n` in `year`: one cell. */
  function TypeYear(types: seq<PlotType>, n: string, year: int): Plot -> bool
  {
    (p: Plot) => FindById(types, TypeId, p.nazevId).Some? && FindById(types, TypeId, p.nazevId).value.nazev == n
      && p.year == year
  }

  /** The area of land type `n` in `year`; zero when there is none. */
  function Cell(plots: seq<Plot>, types: seq<PlotType>, n: string, year: int): real
  {
    Sum(Filter(plots, TypeYear(types, n, year)), Velikost)
  }

  /** Rows are land-type names ascending, columns years ascending;
      `columns[j][i]` is the area of type `types[i]` in `years[j]`. */
  datatype TypePivot = TypePivot(types: seq<string>, years: seq<int>, columns: seq<seq<NamedSum>>)

  /** One year's column: the area of each type in that year. */
  function Column(plots: seq<Plot>, types: seq<PlotType>, names: seq<string>, year: int): (c: seq<NamedSum>)
    ensures |c| == |names|
    ensures forall i :: 0 <= i < |c| ==> c[i] == NamedSum(names[i], Cell(plots, types, names[i], year))
  {
    var slice := Filter(plots, TypedIn(types, year));
    forall i | 0 <= i < |names|
      ensures Group(slice, TypeName(types), names[i]) == Filter(plots, TypeYear(types, names[i], year))
    {
      GroupOfFilter(plots, TypedIn(types, year), TypeName(types), names[i], TypeYear(types, names[i], year));
    }
    SumsOf(names, slice, TypeName(types), Velikost)
  }

  /** The row labels: the names of the land types plots have, ascending. */
  function TypeRows(plots: seq<Plot>, types: seq<PlotType>): (r: seq<string>)
    ensures NoDup(r) && forall i, j :: 0 <= i <= j < |r| ==> StrLe(r[i], r[j])
  {
    Names(Filter(plots, KnownType(types)), TypeName(types))
  }

  /** The column labels: the years of plots of a listed type, ascending. */
  function PivotYears(plots: seq<Plot>, types: seq<PlotType>): (r: seq<int>)
    ensures StrictlyIncreasing(r)
  {
    SortedDistinct(MapSeq(Filter(plots, KnownType(types)), PlotYear))
  }

  /** The type-by-year table; shown only when there are plots and land
      types. */
  function PivotOf(plots: seq<Plot>, types: seq<PlotType>): (r: Option<TypePivot>)
    ensures r.None? <==> |plots| == 0 || |types| == 0
    ensures r.Some? ==> (r.value.types == TypeRows(plots, types) && r.value.years == PivotYears(plots, types)
      && |r.value.columns| == |r.value.years|
      && forall j :: 0 <= j < |r.value.years| ==>
           r.value.columns[j] == Column(plots, types, r.value.types, r.value.years[j]))
  {
    if |plots| == 0 || |types| == 0 then None
    else
      var names := TypeRows(plots, types);
      var years := PivotYears(plots, types);
      Some(TypePivot(names, years, seq(|years|, j requires 0 <= j < |years| => Column(plots, types, names, years[j]))))
  }

  /** A plot of a listed type names its row. */
  lemma TypeRowOfPlot(plots: seq<Plot>, types: seq<PlotType>, n: string, i: int)
    requires 0 <= i < |plots| && TypeYear(types, n, plots[i].year)(plots[i])
    ensures n in TypeRows(plots, types)
  {
    var typed := Filter(plots, KnownType(types));
    NamesExactly(typed, TypeName(types), n);
    assert plots[i] in typed;
    var k :| 0 <= k < |typed| && typed[k] == plots[i];
    assert TypeName(types)(typed[k]) == n;
  }

  /** Every row is named by some plot of a listed type. */
  lemma PlotOfTypeRow(plots: seq<Plot>, types: seq<PlotType>, n: string)
    requires n in TypeRows(plots, types)
    ensures exists i :: 0 <= i < |plots| && TypeYear(types, n, plots[i].year)(plots[i])
  {
    var typed := Filter(plots, KnownType(types));
    NamesExactly(typed, TypeName(types), n);
    var k :| 0 <= k < |typed| && TypeName(types)(typed[k]) == n;
    assert typed[k] in plots;
    var i :| 0 <= i < |plots| && plots[i] == typed[k];
    assert TypeYear(types, n, plots[i].year)(plots[i]);
  }

  /** The rows are exactly the land types some plot has. */
  lemma TypeRowsExactly(plots: seq<Plot>, types: seq<PlotType>, n: string)
    ensures n in TypeRows(plots, types) <==>
      exists i :: 0 <= i < |plots| && TypeYear(types, n, plots[i].year)(plots[i])
  {
    if exists i :: 0 <= i < |plots| && TypeYear(types, n, plots[i].year)(plots[i]) {
      var i :| 0 <= i < |plots| && TypeYear(types, n, plots[i].year)(plots[i]);
      TypeRowOfPlot(plots, types, n, i);
    }
    if n in TypeRows(plots, types) {
      PlotOfTypeRow(plots, types, n);
    }
  }

  /** The columns are exactly the years of plots of a listed type. */
  lemma PivotYearsExactly(plots: seq<Plot>, types: seq<PlotType>, y: int)
    ensures y in PivotYears(plots, types) <==> exists i :: 0 <= i < |plots| && TypedIn(types, y)(plots[i])
  {
    IntsOfSelected(plots, KnownType(types), PlotYear, y);
    SortedDistinctMembers(MapSeq(Filter(plots, KnownType(types)), PlotYear), y);
  }

  /** A year's column adds up to the area of all plots of a listed type
      in that year: no plot of a listed type is left out of the table. */
  lemma ColumnMass(plots: seq<Plot>, types: seq<PlotType>, y: int)
    ensures Sum(Column(plots, types, TypeRows(plots, types), y), Total)
         == Sum(Filter(plots, TypedIn(types, y)), Velikost)
  {
    var names := TypeRows(plots, types);
    var slice := Filter(plots, TypedIn(types, y));
    assert Column(plots, types, names, y) == SumsOf(names, slice, TypeName(types), Velikost);
    SumsOfTotal(names, slice, TypeName(types), Velikost);
    forall i | 0 <= i < |slice|
      ensures TypeName(types)(slice[i]) in names
    {
      var x := slice[i];
      assert x in plots;
      var m :| 0 <= m < |plots| && plots[m] == x;
      TypeRowsExactly(plots, types, TypeName(types)(x));
      assert TypeYear(types, TypeName(types)(x), plots[m].year)(plots[m]);
    }
    GroupsPreserveSum(names, slice, TypeName(types), Velikost);
  }

  // ----- The detail year -----

  /** The year choices of the detail: every plot year once, latest first. */
  function DetailYears(plots: seq<Plot>): (r: seq<int>)
    ensures forall i, j :: 0 <= i < j < |r| ==> r[i] > r[j]
    ensures forall y :: y in r <==> exists i :: 0 <= i < |plots| && plots[i].year == y
  {
    var ys := MapSeq(plots, PlotYear);
    var asc := SortedDistinct(ys);
    ReversedMembers(asc);
    ReversedDescending(asc);
    forall y
      ensures y in Reversed(asc) <==> exists i :: 0 <= i < |plots| && plots[i].year == y
    {
      SortedDistinctMembers(ys, y);
      if y in ys {
        var i :| 0 <= i < |ys| && ys[i] == y;
        assert plots[i].year == y;
      }
      if exists i :: 0 <= i < |plots| && plots[i].year == y {
        var i :| 0 <= i < |plots| && plots[i].year == y;
        assert ys[i] == y;
      }
    }
    Reversed(asc)
  }

  /** The preselected detail year: the current year when no plot exists
      or some plot has it, else the latest plot year. */
  function DetailYear(plots: seq<Plot>, currentYear: int): (y: int)
    ensures (|plots| == 0 || exists i :: 0 <= i < |plots| && plots[i].year == currentYear) ==> y == currentYear
    ensures (|plots| > 0 && forall i :: 0 <= i < |plots| ==> plots[i].year != currentYear) ==>
      (exists i :: 0 <= i < |plots| && plots[i].year == y)
      && forall i :: 0 <= i < |plots| ==> plots[i].year <= y
  {
    var ys := DetailYears(plots);
    if |plots| == 0 then currentYear
    else
      assert plots[0].year in ys;
      if currentYear in ys then currentYear
      else
        assert ys[0] in ys;
        forall i | 0 <= i < |plots|
          ensures plots[i].year <= ys[0]
        {
          assert plots[i].year in ys;
        }
        ys[0]
  }

  // ----- The detail per business -----

  /** Whether a plot lands in the business-by-type grouping: both its
      land type and its business are listed, as pandas drops a missing
      group key. */
  function Placed(types: seq<PlotType>, businesses: seq<Business>, year: int): Plot -> bool
  {
    (p: Plot) => p.year == year && FindById(types, TypeId, p.nazevId).Some? && FindById(businesses, BusinessId, p.podnikId).Some?
  }

  /** The business name of a plot; applied only to plots whose business
      is listed. */
  function Owner(businesses: seq<Business>): Plot -> string
  {
    (p: Plot) =>
      match FindById(businesses, BusinessId, p.podnikId)
      case None => ""
      case Some(b) => b.nazev
  }

  /** The plots of the year held by the business named `n`, of a listed
      land type. */
  function HeldBy(types: seq<PlotType>, businesses: seq<Business>, year: int, n: string): Plot -> bool
  {
    (p: Plot) => p.year == year && FindById(types, TypeId, p.nazevId).Some?
      && FindById(businesses, BusinessId, p.podnikId).Some? && FindById(businesses, BusinessId, p.podnikId).value.nazev == n
  }

  /** One business's table: area per land-type name, names ascending,
      and the total in its caption. */
  datatype Holding = Holding(podnik: string, rows: seq<NamedSum>, total: real)

  function HoldingOf(plots: seq<Plot>, types: seq<PlotType>, businesses: seq<Business>, year: int, n: string): (h: Holding)
    ensures h.podnik == n
    ensures forall i :: 0 <= i < |h.rows| ==>
      h.rows[i].total == Sum(Group(Filter(plots, HeldBy(types, businesses, year, n)), TypeName(types), h.rows[i].name), Velikost)
    ensures NoDup(HoldingTypes(h)) && forall i, j :: 0 <= i <= j < |h.rows| ==> StrLe(h.rows[i].name, h.rows[j].name)
    ensures h.total == Sum(h.rows, Total)
  {
    var held := Filter(plots, Placed(types, businesses, year));
    GroupOfFilter(plots, Placed(types, businesses, year), Owner(businesses), n, HeldBy(types, businesses, year, n));
    var rows := Grouped(Filter(plots, HeldBy(types, businesses, year, n)), TypeName(types), Velikost);
    var h := Holding(n, rows, Sum(rows, Total));
    assert HoldingTypes(h) == Names(Filter(plots, HeldBy(types, businesses, year, n)), TypeName(types));
    h
  }

  /** The land-type names of a business's table. */
  function HoldingTypes(h: Holding): (r: seq<string>)
    ensures |r| == |h.rows|
    ensures forall i :: 0 <= i < |r| ==> r[i] == h.rows[i].name
  {
    seq(|h.rows|, i requires 0 <= i < |h.rows| => h.rows[i].name)
  }

  /** What the detail shows: nothing for a year without plots; no tables
      without a type table or a business table, as then a grouping
      column is missing; else one table per business. */
  datatype Detail =
    | NoPlotsInYear
    | Ungrouped
    | Holdings(holdings: seq<Holding>)

  /** The businesses that get a table: the distinct names of the
      businesses holding plots of a listed type, ascending. */
  function Holders(plots: seq<Plot>, types: seq<PlotType>, businesses: seq<Business>, year: int): (r: seq<string>)
    ensures NoDup(r) && forall i, j :: 0 <= i <= j < |r| ==> StrLe(r[i], r[j])
  {
    Names(Filter(plots, Placed(types, businesses, year)), Owner(businesses))
  }

  function DetailOf(plots: seq<Plot>, types: seq<PlotType>, businesses: seq<Business>, year: int): (d: Detail)
    ensures d.NoPlotsInYear? <==> forall i :: 0 <= i < |plots| ==> plots[i].year != year
    ensures d.Ungrouped? <==> ((exists i :: 0 <= i < |plots| && plots[i].year == year)
      && (|types| == 0 || |businesses| == 0))
    ensures d.Holdings? ==> var hs := Holders(plots, types, businesses, year);
      |d.holdings| == |hs| && forall i :: 0 <= i < |hs| ==>
        d.holdings[i] == HoldingOf(plots, types, businesses, year, hs[i])
  {
    if forall i :: 0 <= i < |plots| ==> plots[i].year != year then NoPlotsInYear
    else if |types| == 0 || |businesses| == 0 then Ungrouped
    else
      var hs := Holders(plots, types, businesses, year);
      Holdings(seq(|hs|, i requires 0 <= i < |hs| => HoldingOf(plots, types, businesses, year, hs[i])))
  }

  /** A business gets a table exactly when it holds a plot of a listed
      land type in the year. */
  lemma HoldersExactly(plots: seq<Plot>, types: seq<PlotType>, businesses: seq<Business>, year: int, n: string)
    ensures n in Holders(plots, types, businesses, year) <==>
      exists i :: 0 <= i < |plots| && HeldBy(types, businesses, year, n)(plots[i])
  {
    var placed := Filter(plots, Placed(types, businesses, year));
    NamesExactly(placed, Owner(businesses), n);
    if exists i :: 0 <= i < |plots| && HeldBy(types, businesses, year, n)(plots[i]) {
      var i :| 0 <= i < |plots| && HeldBy(types, businesses, year, n)(plots[i]);
      assert plots[i] in placed;
      var k :| 0 <= k < |placed| && placed[k] == plots[i];
      assert Owner(businesses)(placed[k]) == n;
    }
    if n in Holders(plots, types, businesses, year) {
      var k :| 0 <= k < |placed| && Owner(businesses)(placed[k]) == n;
      assert placed[k] in plots;
      var i :| 0 <= i < |plots| && plots[i] == placed[k];
      assert HeldBy(types, businesses, year, n)(plots[i]);
    }
  }

  /** A business's caption total is the area of every plot it holds in
      the year whose land type is listed. */
  lemma HoldingMass(plots: seq<Plot>, types: seq<PlotType>, businesses: seq<Business>, year: int, n: string)
    ensures HoldingOf(plots, types, businesses, year, n).total == Sum(Filter(plots, HeldBy(types, businesses, year, n)), Velikost)
  {
    GroupedMass(Filter(plots, HeldBy(types, businesses, year, n)), TypeName(types), Velikost);
  }
}

=== FILE: pozemkytekro.dfy ===
/** The land overview of every business: for each business in rank
    order, a table of the area per land type (in rank order) and year,
    closed by a total row per year. */
module PozemkyTekro {
  import opened Seqs
  import opened Records
  import opened PrehledPodniku
  import Catalog

  /** A land-type row: the type's name and its area in each year. */
  datatype TypeRow = TypeRow(typ: string, cells: seq<real>)

  /** One business's block: a note when it holds no plots at all, else
      its table with the total row. */
  datatype Block =
    | NoPlots(podnik: string)
    | Table(podnik: string, rows: seq<TypeRow>, celkem: seq<real>)

  /** What the page shows: a warning without plots or without land
      types, else the year columns and one block per business. */
  datatype Page =
    | NoPlotData
    | NoTypes
    | Tables(years: seq<int>, blocks: seq<Block>)

  /** The year columns: every plot year once, ascending. */
  function AllYears(plots: seq<Plot>): (r: seq<int>)
    ensures StrictlyIncreasing(r)
    ensures forall i :: 0 <= i < |plots| ==> plots[i].year in r
    ensures forall i :: 0 <= i < |r| ==> exists k :: 0 <= k < |plots| && plots[k].year == r[i]
  {
    var ys := MapSeq(plots, PlotYear);
    var r := SortedDistinct(ys);
    forall i | 0 <= i < |r|
      ensures exists k :: 0 <= k < |plots| && plots[k].year == r[i]
    {
      var k :| 0 <= k < |ys| && ys[k] == r[i];
    }
    r
  }

  /** The businesses in ascending `poradi`. */
  function BusinessOrder(businesses: seq<Business>): (r: seq<Business>)
    ensures multiset(r) == multiset(businesses) && |r| == |businesses|
    ensures forall i, j :: 0 <= i <= j < |r| ==> r[i].poradi <= r[j].poradi
  {
    var r := SortBy(businesses, BusinessPoradi);
    assert |multiset(r)| == |multiset(businesses)|;
    forall i, j | 0 <= i <= j < |r|
      ensures r[i].poradi <= r[j].poradi
    {
      SortedByPairwise(r, BusinessPoradi, i, j);
      LexSingle(r[i].poradi as real, r[j].poradi as real);
    }
    r
  }

  function InPlotYear(year: int): Plot -> bool
  {
    (p: Plot) => p.year == year
  }

  /** Plots of land-type id `typeId` in `year`; the match is on the id,
      not on the name. */
  function TypeIdIn(typeId: int, year: int): Plot -> bool
  {
    (p: Plot) => p.nazevId == typeId && p.year == year
  }

  function NazevId(p: Plot): int
  {
    p.nazevId
  }

  /** Plots of `year` whose land-type id is none of the listed types'. */
  function Unlisted(types: seq<PlotType>, year: int): Plot -> bool
  {
    (p: Plot) => p.year == year && p.nazevId !in Catalog.TypeIds(types)
  }

  /** One year's cells of the type rows of a business's plots `bp`. */
  function TypeColumn(bp: seq<Plot>, types: seq<PlotType>, year: int): (r: seq<real>)
    ensures |r| == |types|
    ensures forall i :: 0 <= i < |r| ==> r[i] == Sum(Filter(bp, TypeIdIn(types[i].id, year)), Velikost)
  {
    seq(|types|, i requires 0 <= i < |types| => Sum(Filter(bp, TypeIdIn(types[i].id, year)), Velikost))
  }

  /** The type rows of a business's plots: row `i` for `types[i]`, its
      cell for year `years[j]` the area of that type in that year, zero
      when there is none. */
  function Rows(bp: seq<Plot>, types: seq<PlotType>, years: seq<int>): (r: seq<TypeRow>)
    ensures |r| == |types|
    ensures forall i :: 0 <= i < |r| ==> (r[i].typ == types[i].nazev && |r[i].cells| == |years|
      && forall j :: 0 <= j < |years| ==> r[i].cells[j] == TypeColumn(bp, types, years[j])[i])
  {
    seq(|types|, i requires 0 <= i < |types| =>
      TypeRow(types[i].nazev, seq(|years|, j requires 0 <= j < |years| => TypeColumn(bp, types, years[j])[i])))
  }

  /** The total row: all the business's land of each year, whatever its
      type. */
  function Celkem(bp: seq<Plot>, years: seq<int>): (r: seq<real>)
    ensures |r| == |years|
    ensures forall j :: 0 <= j < |years| ==> r[j] == Sum(Filter(bp, InPlotYear(years[j])), Velikost)
  {
    seq(|years|, j requires 0 <= j < |years| => Sum(Filter(bp, InPlotYear(years[j])), Velikost))
  }

  function BlockOf(plots: seq<Plot>, types: seq<PlotType>, years: seq<int>, b: Business): (k: Block)
    ensures k.podnik == b.nazev
    ensures k.NoPlots? <==> forall i :: 0 <= i < |plots| ==> plots[i].podnikId != b.id
    ensures k.Table? ==> var bp := Filter(plots, OfBusinessPlot(b.id));
      k.rows == Rows(bp, types, years) && k.celkem == Celkem(bp, years)
  {
    var bp := Filter(plots, OfBusinessPlot(b.id));
    if |bp| == 0 then NoPlots(b.nazev)
    else
      assert bp[0] in plots;
      Table(b.nazev, Rows(bp, types, years), Celkem(bp, years))
  }

  /** One block per business, in the given order. */
  function Blocks(plots: seq<Plot>, types: seq<PlotType>, years: seq<int>, bs: seq<Business>): (r: seq<Block>)
    ensures |r| == |bs|
    ensures forall i :: 0 <= i < |bs| ==> r[i] == BlockOf(plots, types, years, bs[i])
  {
    seq(|bs|, i requires 0 <= i < |bs| => BlockOf(plots, types, years, bs[i]))
  }

  function PageOf(plots: seq<Plot>, types: seq<PlotType>, businesses: seq<Business>): (p: Page)
    ensures p.NoPlotData? <==> |plots| == 0
    ensures p.NoTypes? <==> |plots| > 0 && |types| == 0
    ensures p.Tables? ==> (p.years == AllYears(plots) && |p.blocks| == |businesses|
      && forall i :: 0 <= i < |businesses| ==>
           p.blocks[i] == BlockOf(plots, Catalog.TypesByPoradi(types), p.years, BusinessOrder(businesses)[i]))
  {
    if |plots| == 0 then NoPlotData
    else if |types| == 0 then NoTypes
    else Tables(AllYears(plots), Blocks(plots, Catalog.TypesByPoradi(types), AllYears(plots), BusinessOrder(businesses)))
  }

  /** With distinct type ids, a year's total is the sum of that year's
      type cells plus the land of types the table does not list: the
      total row can exceed the sum of the rows above it. */
  lemma CelkemSplit(bp: seq<Plot>, types: seq<PlotType>, y: int)
    requires NoDup(Catalog.TypeIds(types))
    ensures Sum(Filter(bp, InPlotYear(y)), Velikost)
         == Sum(TypeColumn(bp, types, y), Self) + Sum(Filter(bp, Unlisted(types, y)), Velikost)
  {
    var ids := Catalog.TypeIds(types);
    var s := Filter(bp, InPlotYear(y));
    var col := TypeColumn(bp, types, y);
    forall i | 0 <= i < |ids|
      ensures col[i] == Sum(Group(s, NazevId, ids[i]), Velikost)
    {
      GroupOfFilter(bp, InPlotYear(y), NazevId, ids[i], TypeIdIn(ids[i], y));
    }
    assert col == GroupTotals(ids, s, NazevId, Velikost);
    GroupTotalsSum(ids, s, NazevId, Velikost);
    SumGroupsFiltered(ids, s, NazevId, Velikost);
    SumFilterSplit(s, KeyIn(NazevId, ids), Velikost);
    FilterFilter(bp, InPlotYear(y), Not(KeyIn(NazevId, ids)));
    FilterAgree(bp, Both(InPlotYear(y), Not(KeyIn(NazevId, ids))), Unlisted(types, y));
  }

  /** When every plot of the business has a listed type, the total row
      is exactly the sum of the type rows. */
  lemma CelkemAddsUp(bp: seq<Plot>, types: seq<PlotType>, y: int)
    requires NoDup(Catalog.TypeIds(types))
    requires forall i :: 0 <= i < |bp| ==> bp[i].nazevId in Catalog.TypeIds(types)
    ensures Sum(Filter(bp, InPlotYear(y)), Velikost) == Sum(TypeColumn(bp, types, y), Self)
  {
    CelkemSplit(bp, types, y);
    FilterNone(bp, Unlisted(types, y));
  }
}

=== FILE: prehledpodniku.dfy ===
/** The overview of one business: the businesses a user may pick, the
    years with data for the picked business, its land by plot type and
    its crops' net production, area and yield in the picked year. The
    rain section of the same page is in module Rainfall. */
module PrehledPodniku {
  import opened Wrappers
  import opened Seqs
  import Numeric
  import opened Records
  import opened Auth
  import opened Aggregations
  import opened LabelLines
  import opened NamedSums
  import PrehledTekro
  import Statistiky

  // ----- The business picker -----

  /** The businesses offered: all of them for an empty list, otherwise
      those whose id is listed. */
  function Visible(businesses: seq<Business>, ids: seq<int>): (r: seq<Business>)
    ensures forall b :: b in r <==> b in businesses && (|ids| == 0 || b.id in ids)
    ensures Embeds(r, businesses)
    ensures forall b :: multiset(r)[b] == if |ids| == 0 || b.id in ids then multiset(businesses)[b] else 0
  {
    if |ids| == 0 then
      EmbedsRefl(businesses);
      businesses
    else
      FilterMembers(businesses, IdIn(ids));
      FilterMask(businesses, IdIn(ids));
      Filter(businesses, IdIn(ids))
  }

  /** One entry of the picker. */
  datatype Choice = Choice(id: int, nazev: string)

  function HasId(id: int): Business -> bool
  {
    (b: Business) => b.id == id
  }

  /** The entry of an id: its name is that of the last business with the
      id, as building a dictionary keeps the last value. */
  function ChoiceOf(bs: seq<Business>, id: int): (c: Choice)
    requires exists i :: 0 <= i < |bs| && bs[i].id == id
    ensures c.id == id
    ensures exists i :: (0 <= i < |bs| && bs[i].id == id && c.nazev == bs[i].nazev
      && forall j :: i < j < |bs| ==> bs[j].id != id)
  {
    var i :| 0 <= i < |bs| && bs[i].id == id;
    assert HasId(id)(bs[i]);
    var k := LastIndex(bs, HasId(id)).value;
    Choice(id, bs[k].nazev)
  }

  /** The picker: one entry per distinct id, in order of first
      appearance. */
  function Choices(bs: seq<Business>): (r: seq<Choice>)
    ensures |r| == |Keys(bs, BusinessId)|
    ensures forall i :: 0 <= i < |r| ==> r[i] == ChoiceOf(bs, Keys(bs, BusinessId)[i])
  {
    var ks := Keys(bs, BusinessId);
    assert forall k :: k in ks ==> exists i :: 0 <= i < |bs| && bs[i].id == k;
    seq(|ks|, i requires 0 <= i < |ks| => ChoiceOf(bs, ks[i]))
  }

  /** The ids offered are distinct and are exactly the visible ids. */
  lemma ChoicesExactly(bs: seq<Business>, id: int)
    ensures NoDup(Keys(bs, BusinessId))
    ensures (exists i :: 0 <= i < |Choices(bs)| && Choices(bs)[i].id == id)
      <==> exists j :: 0 <= j < |bs| && bs[j].id == id
  {
    var ks := Keys(bs, BusinessId);
    if exists j :: 0 <= j < |bs| && bs[j].id == id {
      var j :| 0 <= j < |bs| && bs[j].id == id;
      assert BusinessId(bs[j]) in ks;
      var i :| 0 <= i < |ks| && ks[i] == id;
      assert Choices(bs)[i].id == id;
    }
  }

  /** What the picker shows. */
  datatype Picker =
    | LinkKeyError(column: string)
    | NoBusinesses
    | NoAccess
    | Pick(choices: seq<Choice>)

  /** The page's start: the user's businesses are selected from the link
      table first (as the statistics page does), so a missing link column
      stops the page before anything else; then the two warnings, or the
      picker over the visible businesses. */
  function PickerOf(businesses: seq<Business>, user: SessionUser, header: set<string>, links: seq<Link>): (p: Picker)
    ensures p.LinkKeyError? <==> Statistiky.StatsScope(user, header, links).MissingLinkColumn?
    ensures p.LinkKeyError? ==> p.column == Statistiky.StatsScope(user, header, links).column
    ensures var scope := Statistiky.StatsScope(user, header, links);
      scope.Scope? ==>
        && (p.NoBusinesses? <==> |businesses| == 0)
        && (p.NoAccess? <==> |businesses| > 0 && |Visible(businesses, scope.ids)| == 0)
        && (p.Pick? ==> p.choices == Choices(Visible(businesses, scope.ids)) && |p.choices| > 0)
  {
    match Statistiky.StatsScope(user, header, links)
    case MissingLinkColumn(c) => LinkKeyError(c)
    case Scope(ids) =>
      var vis := Visible(businesses, ids);
      if |businesses| == 0 then NoBusinesses
      else if |vis| == 0 then NoAccess
      else
        assert BusinessId(vis[0]) in Keys(vis, BusinessId);
        Pick(Choices(vis))
  }

  /** Once the link table is read, a non-admin with links picks only
      among linked businesses; an admin, and a non-admin without any
      link, among all of them. A non-admin reaches the picker only when
      the table has the columns `user_id` and `podnik_id`. */
  lemma PickerScope(businesses: seq<Business>, user: SessionUser, header: set<string>, links: seq<Link>, b: Business)
    requires b in businesses
    ensures !PickerOf(businesses, user, header, links).LinkKeyError? <==>
      user.role == Some("admin") || ("user_id" in header && "podnik_id" in header)
    ensures var scope := Statistiky.StatsScope(user, header, links);
      scope.Scope? ==>
        (b in Visible(businesses, scope.ids) <==>
         user.role == Some("admin") || |scope.ids| == 0 || Link(user.id, b.id) in links)
  {
  }

  // ----- The year -----

  function PlotYear(p: Plot): int
  {
    p.year
  }

  function OfBusinessPlot(id: int): Plot -> bool
  {
    (p: Plot) => p.podnikId == id
  }

  function OfBusinessField(id: int): Field -> bool
  {
    (f: Field) => f.podnikId == id
  }

  /** The year choices: the distinct years of the business's plots and
      fields, ascending. */
  function YearsFor(plots: seq<Plot>, fields: seq<Field>, id: int): (r: seq<int>)
    ensures StrictlyIncreasing(r)
  {
    SortedDistinct(MapSeq(Filter(plots, OfBusinessPlot(id)), PlotYear) + MapSeq(Filter(fields, OfBusinessField(id)), FieldYear))
  }

  /** A value is among those of the selected rows exactly when some row
      passing the selection has it. */
  lemma IntsOfSelected<T>(s: seq<T>, p: T -> bool, f: T -> int, y: int)
    ensures y in MapSeq(Filter(s, p), f) <==> exists i :: 0 <= i < |s| && p(s[i]) && f(s[i]) == y
  {
    var sel := Filter(s, p);
    FilterMembers(s, p);
    if y in MapSeq(sel, f) {
      var j :| 0 <= j < |sel| && MapSeq(sel, f)[j] == y;
      assert sel[j] in s;
    }
    if exists i :: 0 <= i < |s| && p(s[i]) && f(s[i]) == y {
      var i :| 0 <= i < |s| && p(s[i]) && f(s[i]) == y;
      assert s[i] in sel;
      var j :| 0 <= j < |sel| && sel[j] == s[i];
      assert MapSeq(sel, f)[j] == y;
    }
  }

  /** A year is offered exactly when a plot or a field of the business
      has it. */
  lemma YearsForExactly(plots: seq<Plot>, fields: seq<Field>, id: int, y: int)
    ensures y in YearsFor(plots, fields, id) <==>
      (exists i :: 0 <= i < |plots| && plots[i].podnikId == id && plots[i].year == y)
      || (exists i :: 0 <= i < |fields| && fields[i].podnikId == id && fields[i].rokSklizne == y)
  {
    var a := MapSeq(Filter(plots, OfBusinessPlot(id)), PlotYear);
    var b := MapSeq(Filter(fields, OfBusinessField(id)), FieldYear);
    assert YearsFor(plots, fields, id) == SortedDistinct(a + b);
    SortedDistinctMembers(a + b, y);
    assert y in a + b <==> y in a || y in b;
    IntsOfSelected(plots, OfBusinessPlot(id), PlotYear, y);
    IntsOfSelected(fields, OfBusinessField(id), FieldYear, y);
  }

  /** The preselected year is the last choice: the latest one. */
  lemma LastYearIsLatest(plots: seq<Plot>, fields: seq<Field>, id: int)
    requires |YearsFor(plots, fields, id)| > 0
    ensures var ys := YearsFor(plots, fields, id);
      forall y :: y in ys ==> y <= ys[|ys| - 1]
  {
    var ys := YearsFor(plots, fields, id);
    StrictMax(ys);
  }

  // ----- The land section -----

  const UnknownType: string := "Neznámý"

  /** The plot type a plot is counted under. */
  function TypeName(types: seq<PlotType>): Plot -> string
  {
    (p: Plot) =>
      match FindById(types, TypeId, p.nazevId)
      case None => UnknownType
      case Some(t) => t.nazev
  }

  function Velikost(p: Plot): real
  {
    p.velikost
  }

  function InBusinessYear(id: int, year: int): Plot -> bool
  {
    (p: Plot) => p.podnikId == id && p.year == year
  }

  function AreaDesc(n: NamedSum): seq<real>
  {
    [-n.total]
  }

  /** The land table: area per plot type, largest first, and the total. */
  datatype Land = Land(rows: seq<NamedSum>, total: real)

  function LandOf(plots: seq<Plot>, types: seq<PlotType>, id: int, year: int): (l: Option<Land>)
    ensures l.None? <==> |Filter(plots, InBusinessYear(id, year))| == 0 || |types| == 0
    ensures l.Some? ==> var g := Grouped(Filter(plots, InBusinessYear(id, year)), TypeName(types), Velikost);
      SortedBy(l.value.rows, AreaDesc) && multiset(l.value.rows) == multiset(g)
      && l.value.total == Sum(l.value.rows, Total)
  {
    var ps := Filter(plots, InBusinessYear(id, year));
    if |ps| == 0 || |types| == 0 then None
    else
      var rows := SortBy(Grouped(ps, TypeName(types), Velikost), AreaDesc);
      Some(Land(rows, Sum(rows, Total)))
  }

  /** The land total is the area of all the business's plots of the
      year, whatever their type. */
  lemma LandTotal(plots: seq<Plot>, types: seq<PlotType>, id: int, year: int)
    requires LandOf(plots, types, id, year).Some?
    ensures LandOf(plots, types, id, year).value.total == Sum(Filter(plots, InBusinessYear(id, year)), Velikost)
  {
    var ps := Filter(plots, InBusinessYear(id, year));
    var l := LandOf(plots, types, id, year).value;
    SumPermutation(l.rows, Grouped(ps, TypeName(types), Velikost), Total);
    GroupedMass(ps, TypeName(types), Velikost);
  }

  // ----- The crop section -----

  /** One crop's line: net production, area and the unguarded yield,
      which is not a number for a crop of no area. */
  datatype CropRow = CropRow(plodina: string, cistaVaha: real, vymera: real, vynos: Option<real>)

  function RowOf(l: LabelLine): (r: CropRow)
    ensures r.plodina == l.name && r.cistaVaha == l.totals.cistaVaha && r.vymera == l.totals.vymera
    ensures r.vynos.None? <==> l.totals.vymera == 0.0
    ensures r.vynos.Some? ==> r.vynos.value * r.vymera == r.cistaVaha
  {
    CropRow(l.name, l.totals.cistaVaha, l.totals.vymera,
      if l.totals.vymera == 0.0 then None else Some(l.totals.cistaVaha / l.totals.vymera))
  }

  function RowsOf(ls: seq<LabelLine>): (r: seq<CropRow>)
    ensures |r| == |ls|
    ensures forall i :: 0 <= i < |ls| ==> r[i] == RowOf(ls[i])
  {
    seq(|ls|, i requires 0 <= i < |ls| => RowOf(ls[i]))
  }

  function NetDesc(r: CropRow): seq<real>
  {
    [-r.cistaVaha]
  }

  function RowNet(r: CropRow): real
  {
    r.cistaVaha
  }

  function RowArea(r: CropRow): real
  {
    r.vymera
  }

  /** The crop table and its three figures. */
  datatype Crops = Crops(rows: seq<CropRow>, production: real, area: real, avgYield: real)

  function InFieldYear(id: int, year: int): Field -> bool
  {
    (f: Field) => f.podnikId == id && f.rokSklizne == year
  }

  function CropsOf(fields: seq<Field>, crops: seq<Crop>, id: int, year: int): (c: Option<Crops>)
    ensures c.None? <==> |Filter(fields, InFieldYear(id, year))| == 0 || |crops| == 0
    ensures c.Some? ==> var ls := Lines(Filter(fields, InFieldYear(id, year)), PrehledTekro.CropLabel(crops));
      SortedBy(c.value.rows, NetDesc) && multiset(c.value.rows) == multiset(RowsOf(ls))
      && c.value.production == Sum(c.value.rows, RowNet) && c.value.area == Sum(c.value.rows, RowArea)
    ensures c.Some? ==> c.value.avgYield == Numeric.Guarded(c.value.production, c.value.area)
  {
    var fs := Filter(fields, InFieldYear(id, year));
    if |fs| == 0 || |crops| == 0 then None
    else
      var rows := SortBy(RowsOf(Lines(fs, PrehledTekro.CropLabel(crops))), NetDesc);
      var production := Sum(rows, RowNet);
      var area := Sum(rows, RowArea);
      Some(Crops(rows, production, area, Numeric.Guarded(production, area)))
  }

  lemma {:induction false} RowsOfSums(ls: seq<LabelLine>)
    ensures Sum(RowsOf(ls), RowNet) == Sum(ls, LineQty(Net))
    ensures Sum(RowsOf(ls), RowArea) == Sum(ls, LineQty(Area))
  {
    if |ls| > 0 {
      RowsOfSums(ls[1..]);
      assert RowsOf(ls)[1..] == RowsOf(ls[1..]);
    }
  }

  /** The production and the area are those of every field of the
      business in the year, fields of unknown crops included. */
  lemma CropsMass(fields: seq<Field>, crops: seq<Crop>, id: int, year: int)
    requires CropsOf(fields, crops, id, year).Some?
    ensures CropsOf(fields, crops, id, year).value.production == Sum(Filter(fields, InFieldYear(id, year)), FQ(Net))
    ensures CropsOf(fields, crops, id, year).value.area == Sum(Filter(fields, InFieldYear(id, year)), FQ(Area))
  {
    var fs := Filter(fields, InFieldYear(id, year));
    var ls := Lines(fs, PrehledTekro.CropLabel(crops));
    var c := CropsOf(fields, crops, id, year).value;
    SumPermutation(c.rows, RowsOf(ls), RowNet);
    SumPermutation(c.rows, RowsOf(ls), RowArea);
    RowsOfSums(ls);
    LinesMass(fs, PrehledTekro.CropLabel(crops), Net);
    LinesMass(fs, PrehledTekro.CropLabel(crops), Area);
    PrehledTekro.EveryFieldLabelled(fs, crops, []);
  }

  // ----- The page -----

  /** The page for a picked business: nothing without a year of data,
      otherwise the year choices and, for the picked year, the land and
      the crop sections, each absent when it has no data. */
  datatype Page =
    | NoData
    | Report(years: seq<int>, land: Option<Land>, crops: Option<Crops>)

  function PageOf(plots: seq<Plot>, types: seq<PlotType>, fields: seq<Field>, crops: seq<Crop>, id: int, year: int): (p: Page)
    ensures p.NoData? <==> |YearsFor(plots, fields, id)| == 0
    ensures p.Report? ==> (p.years == YearsFor(plots, fields, id)
      && p.land == LandOf(plots, types, id, year) && p.crops == CropsOf(fields, crops, id, year))
  {
    var ys := YearsFor(plots, fields, id);
    if |ys| == 0 then NoData
    else Report(ys, LandOf(plots, types, id, year), CropsOf(fields, crops, id, year))
  }
}

=== FILE: prehledtekro.dfy ===
/** The year overview of the whole farm: a table per business of the
    ordinary crops, a table per business and crop of the special crops
    (sugar beet and potatoes), and a table per crop of everything, each
    closed by a total row. */
module PrehledTekro {
  import opened Wrappers
  import opened Seqs
  import Numeric
  import opened Records
  import opened Aggregations
  import opened YearPivot
  import opened LabelLines

  const UnknownCrop: string := "Neznámá"
  const UnknownBusiness: string := "Neznámý"
  /** The rank of a business missing from the rank order. */
  const Unranked: int := 999
  /** The crops reported in their own table. */
  const SpecialCrops: seq<string> := ["Cukrová řepa", "brambory", "Brambory", "cukrová řepa"]

  // ----- Labels -----

  /** The crop a field is shown under: its crop's name, the unknown crop
      when the crop id matches none or there is no crop table. */
  function CropLabel(crops: seq<Crop>): Field -> Option<string>
  {
    (f: Field) =>
      if |crops| == 0 then Some(UnknownCrop)
      else match FindByCell(crops, CropId, f.plodinaId)
        case None => Some(UnknownCrop)
        case Some(c) => Some(c.nazev)
  }

  /** The business a field is shown under, the unknown business when the
      business id matches none or there is no business table. */
  function PodnikLabel(businesses: seq<Business>): Field -> Option<string>
  {
    (f: Field) =>
      match FindById(businesses, BusinessId, f.podnikId)
      case None => Some(UnknownBusiness)
      case Some(b) => Some(b.nazev)
  }

  function IsSpecial(crops: seq<Crop>): Field -> bool
  {
    (f: Field) => CropLabel(crops)(f).value in SpecialCrops
  }

  function IsOrdinary(crops: seq<Crop>): Field -> bool
  {
    Not(IsSpecial(crops))
  }

  // ----- Row metrics -----

  /** An unguarded column division `num / den`, with a 0/0 replaced by
      `fill`; a nonzero number over zero is infinite, here `None`. */
  function Ratio(num: real, den: real, fill: real): (r: Option<real>)
    ensures r.None? <==> den == 0.0 && num != 0.0
    ensures r.Some? && den != 0.0 ==> r.value * den == num
    ensures den == 0.0 && num == 0.0 ==> r == Some(fill)
  {
    if den != 0.0 then Some(num / den) else if num == 0.0 then Some(fill) else None
  }

  /** The derived columns of a row: harvested share of the area in
      percent, gross and net yield per harvested hectare, and the
      gross-to-net loss in percent. */
  datatype Metrics = Metrics(sklizenoPct: Option<real>, hrubyVynos: Option<real>, cistyVynos: Option<real>, rozdilPct: Option<real>)

  function RowMetrics(t: Totals): Metrics
  {
    Metrics(
      Ratio(100.0 * t.sklizeno, t.vymera, 0.0),
      Ratio(t.hrubaVaha, t.sklizeno, 0.0),
      Ratio(t.cistaVaha, t.sklizeno, 0.0),
      Ratio(100.0 * (t.hrubaVaha - t.cistaVaha), t.hrubaVaha, 100.0))
  }

  /** A table row: its first column (business or crop), the crop column
      of the special-crop table ("" elsewhere), the sums and the derived
      columns. */
  datatype StatRow = StatRow(first: string, plodina: string, totals: Totals, metrics: Metrics)

  function StatQty(q: Quantity): StatRow -> real
  {
    (r: StatRow) => r.totals.Get(q)
  }

  /** The total row: column sums, and derived columns guarded by `> 0`. */
  datatype CelkemRow = CelkemRow(totals: Totals, sklizenoPct: real, hrubyVynos: real, cistyVynos: real, rozdilPct: real)

  function CelkemOf(rows: seq<StatRow>): (c: CelkemRow)
    ensures forall q :: c.totals.Get(q) == Sum(rows, StatQty(q))
    ensures c.sklizenoPct == Numeric.Guarded(100.0 * c.totals.sklizeno, c.totals.vymera)
    ensures c.hrubyVynos == Numeric.Guarded(c.totals.hrubaVaha, c.totals.sklizeno)
    ensures c.cistyVynos == Numeric.Guarded(c.totals.cistaVaha, c.totals.sklizeno)
    ensures c.rozdilPct == Numeric.Guarded(100.0 * (c.totals.hrubaVaha - c.totals.cistaVaha), c.totals.hrubaVaha)
  {
    var t := Totals(Sum(rows, StatQty(Area)), Sum(rows, StatQty(Harvested)), Sum(rows, StatQty(Net)), Sum(rows, StatQty(Gross)));
    CelkemRow(t,
      Numeric.Guarded(100.0 * t.sklizeno, t.vymera),
      Numeric.Guarded(t.hrubaVaha, t.sklizeno),
      Numeric.Guarded(t.cistaVaha, t.sklizeno),
      Numeric.Guarded(100.0 * (t.hrubaVaha - t.cistaVaha), t.hrubaVaha))
  }

  /** A row with neither gross nor net weight shows a 100 % loss, while a
      total row with neither shows 0 %. */
  lemma RozdilFillDiffers(t: Totals)
    requires t.hrubaVaha == 0.0 && t.cistaVaha == 0.0
    ensures RowMetrics(t).rozdilPct == Some(100.0)
    ensures CelkemOf([StatRow("", "", t, RowMetrics(t))]).rozdilPct == 0.0
  {
    var rows := [StatRow("", "", t, RowMetrics(t))];
    assert Sum(rows, StatQty(Gross)) == t.hrubaVaha by { SumOne(rows[0], [], StatQty(Gross)); }
    assert Sum(rows, StatQty(Net)) == t.cistaVaha by { SumOne(rows[0], [], StatQty(Net)); }
  }

  /** A table: its rows and the total row. */
  datatype StatTable = StatTable(rows: seq<StatRow>, celkem: CelkemRow)

  /** The rows of grouped lines: under the line's name, or under business
      `b` with the line's name as the crop. */
  function RowsOf(ls: seq<LabelLine>, b: Option<string>): (r: seq<StatRow>)
    ensures |r| == |ls|
    ensures forall i :: 0 <= i < |ls| ==> (r[i].totals == ls[i].totals
      && r[i].metrics == RowMetrics(ls[i].totals)
      && (if b.None? then r[i].first == ls[i].name && r[i].plodina == "" else r[i].first == b.value && r[i].plodina == ls[i].name))
  {
    if |ls| == 0 then []
    else
      var l := ls[0];
      [if b.None? then StatRow(l.name, "", l.totals, RowMetrics(l.totals)) else StatRow(b.value, l.name, l.totals, RowMetrics(l.totals))]
        + RowsOf(ls[1..], b)
  }

  lemma {:induction false} RowsOfSum(ls: seq<LabelLine>, b: Option<string>, q: Quantity)
    ensures Sum(RowsOf(ls, b), StatQty(q)) == Sum(ls, LineQty(q))
  {
    if |ls| > 0 {
      RowsOfSum(ls[1..], b, q);
      SumOne(RowsOf(ls, b)[0], RowsOf(ls[1..], b), StatQty(q));
      assert RowsOf(ls, b) == [RowsOf(ls, b)[0]] + RowsOf(ls[1..], b);
    }
  }

  /** Every field has a crop and a business to be shown under. */
  lemma EveryFieldLabelled(fs: seq<Field>, crops: seq<Crop>, businesses: seq<Business>)
    ensures KnownFields(fs, CropLabel(crops)) == fs
    ensures KnownFields(fs, PodnikLabel(businesses)) == fs
  {
    AllLabelled(fs, CropLabel(crops));
    AllLabelled(fs, PodnikLabel(businesses));
  }

  /** A table's total in one column; no table counts nothing. */
  function TableTotal(t: Option<StatTable>, q: Quantity): real
  {
    if t.None? then 0.0 else t.value.celkem.totals.Get(q)
  }

  // ----- The crop table -----

  function AreaDesc(r: StatRow): seq<real>
  {
    [-r.totals.vymera]
  }

  /** The per-crop table: one row per crop name, largest area first, and
      the total; no table for no fields. */
  function CropTable(fs: seq<Field>, crops: seq<Crop>): (t: Option<StatTable>)
    ensures t.None? <==> |fs| == 0
    ensures t.Some? ==> (SortedBy(t.value.rows, AreaDesc)
      && multiset(t.value.rows) == multiset(RowsOf(Lines(fs, CropLabel(crops)), None))
      && t.value.celkem == CelkemOf(t.value.rows))
  {
    if |fs| == 0 then None
    else
      var rows := SortBy(RowsOf(Lines(fs, CropLabel(crops)), None), AreaDesc);
      Some(StatTable(rows, CelkemOf(rows)))
  }

  /** The crop table's total row sums every field once. */
  lemma CropTableMass(fs: seq<Field>, crops: seq<Crop>, q: Quantity)
    ensures TableTotal(CropTable(fs, crops), q) == Sum(fs, FQ(q))
  {
    if |fs| > 0 {
      var ls := Lines(fs, CropLabel(crops));
      var t := CropTable(fs, crops).value;
      SumPermutation(t.rows, RowsOf(ls, None), StatQty(q));
      RowsOfSum(ls, None, q);
      LinesMass(fs, CropLabel(crops), q);
      EveryFieldLabelled(fs, crops, []);
    }
  }

  // ----- The business tables -----

  function BusinessRank(b: Business): seq<real>
  {
    [b.poradi as real]
  }

  /** The business order: the business table's names by rank, or the
      sorted names of the fields' businesses without a business table. */
  function PodnikOrder(fs: seq<Field>, businesses: seq<Business>): (r: seq<string>)
    ensures |businesses| > 0 ==> exists s :: (SortedBy(s, BusinessRank) && multiset(s) == multiset(businesses)
      && r == MapSeq(s, BusinessName))
    ensures |businesses| == 0 ==> r == TableNames(fs, PodnikLabel(businesses))
  {
    if |businesses| > 0 then MapSeq(SortBy(businesses, BusinessRank), BusinessName)
    else TableNames(fs, PodnikLabel(businesses))
  }

  /** A row's rank: the first position of its business in the order, 999
      when the order does not name it. */
  function Rank(order: seq<string>, name: string): (k: int)
    ensures name in order ==> 0 <= k < |order| && order[k] == name && forall j :: 0 <= j < k ==> order[j] != name
    ensures name !in order ==> k == Unranked
  {
    match FirstIndex(order, (n: string) => n == name)
    case None => Unranked
    case Some(i) => i
  }

  function RankKey(order: seq<string>): StatRow -> seq<real>
  {
    (r: StatRow) => [Rank(order, r.first) as real]
  }

  /** The per-business table of the ordinary crops: one row per business
      name in business order, and the total; no table for no fields. */
  function BusinessTable(fs: seq<Field>, businesses: seq<Business>): (t: Option<StatTable>)
    ensures t.None? <==> |fs| == 0
    ensures t.Some? ==> (SortedBy(t.value.rows, RankKey(PodnikOrder(fs, businesses)))
      && multiset(t.value.rows) == multiset(RowsOf(Lines(fs, PodnikLabel(businesses)), None))
      && t.value.celkem == CelkemOf(t.value.rows))
  {
    if |fs| == 0 then None
    else
      var rows := SortBy(RowsOf(Lines(fs, PodnikLabel(businesses)), None), RankKey(PodnikOrder(fs, businesses)));
      Some(StatTable(rows, CelkemOf(rows)))
  }

  lemma BusinessTableMass(fs: seq<Field>, businesses: seq<Business>, q: Quantity)
    ensures TableTotal(BusinessTable(fs, businesses), q) == Sum(fs, FQ(q))
  {
    if |fs| > 0 {
      var ls := Lines(fs, PodnikLabel(businesses));
      var t := BusinessTable(fs, businesses).value;
      SumPermutation(t.rows, RowsOf(ls, None), StatQty(q));
      RowsOfSum(ls, None, q);
      LinesMass(fs, PodnikLabel(businesses), q);
      EveryFieldLabelled(fs, [], businesses);
    }
  }

  /** The fields of one business. */
  function OfPodnik(fs: seq<Field>, businesses: seq<Business>, b: string): seq<Field>
  {
    Filter(fs, LabelIs(PodnikLabel(businesses), b))
  }

  /** The rows of the special-crop table before ordering: for each
      business name, its crops in name order, as grouping by the pair
      (business, crop) gives them. */
  function PairRows(names: seq<string>, fs: seq<Field>, crops: seq<Crop>, businesses: seq<Business>): seq<StatRow>
  {
    if |names| == 0 then []
    else (RowsOf(Lines(OfPodnik(fs, businesses, names[0]), CropLabel(crops)), Some(names[0]))
      + PairRows(names[1..], fs, crops, businesses))
  }

  lemma {:induction false} PairRowsSum(names: seq<string>, fs: seq<Field>, crops: seq<Crop>, businesses: seq<Business>, q: Quantity)
    ensures Sum(PairRows(names, fs, crops, businesses), StatQty(q))
      == Sum(LinesOf(names, fs, PodnikLabel(businesses)), LineQty(q))
  {
    if |names| > 0 {
      var g := OfPodnik(fs, businesses, names[0]);
      var ls := Lines(g, CropLabel(crops));
      PairRowsSum(names[1..], fs, crops, businesses, q);
      SumAppend(RowsOf(ls, Some(names[0])), PairRows(names[1..], fs, crops, businesses), StatQty(q));
      RowsOfSum(ls, Some(names[0]), q);
      LinesMass(g, CropLabel(crops), q);
      EveryFieldLabelled(g, crops, businesses);
      LineIsLabelSum(fs, PodnikLabel(businesses), names[0], q);
      SumOne(LineOf(fs, PodnikLabel(businesses), names[0]), LinesOf(names[1..], fs, PodnikLabel(businesses)), LineQty(q));
    }
  }

  /** The special-crop table: one row per business and crop, in business
      order, and the total; no table for no fields. */
  function SpecialTable(fs: seq<Field>, crops: seq<Crop>, businesses: seq<Business>): (t: Option<StatTable>)
    ensures t.None? <==> |fs| == 0
    ensures t.Some? ==> (SortedBy(t.value.rows, RankKey(PodnikOrder(fs, businesses)))
      && multiset(t.value.rows) == multiset(PairRows(TableNames(fs, PodnikLabel(businesses)), fs, crops, businesses))
      && t.value.celkem == CelkemOf(t.value.rows))
  {
    if |fs| == 0 then None
    else
      var rows := SortBy(PairRows(TableNames(fs, PodnikLabel(businesses)), fs, crops, businesses), RankKey(PodnikOrder(fs, businesses)));
      Some(StatTable(rows, CelkemOf(rows)))
  }

  lemma SpecialTableMass(fs: seq<Field>, crops: seq<Crop>, businesses: seq<Business>, q: Quantity)
    ensures TableTotal(SpecialTable(fs, crops, businesses), q) == Sum(fs, FQ(q))
  {
    if |fs| > 0 {
      var names := TableNames(fs, PodnikLabel(businesses));
      var t := SpecialTable(fs, crops, businesses).value;
      SumPermutation(t.rows, PairRows(names, fs, crops, businesses), StatQty(q));
      PairRowsSum(names, fs, crops, businesses, q);
      LinesMass(fs, PodnikLabel(businesses), q);
      EveryFieldLabelled(fs, crops, businesses);
    }
  }

  // ----- The page -----

  /** What the page shows. Without a crop table but with a business
      table the source looks up a business-name column the merge never
      made and stops with an error: `MissingBusinessName`. */
  datatype Page =
    | NoFields
    | NoYearFields
    | MissingBusinessName
    | Report(businessTable: Option<StatTable>, specialTable: Option<StatTable>, cropTable: Option<StatTable>)

  function InYear(year: int): Field -> bool
  {
    (f: Field) => f.rokSklizne == year
  }

  function PageOf(fields: seq<Field>, crops: seq<Crop>, businesses: seq<Business>, year: int): (p: Page)
    ensures p.NoFields? <==> |fields| == 0
    ensures p.NoYearFields? <==> |fields| > 0 && forall i :: 0 <= i < |fields| ==> fields[i].rokSklizne != year
    ensures p.MissingBusinessName? <==> ((exists i :: 0 <= i < |fields| && fields[i].rokSklizne == year)
      && |crops| == 0 && |businesses| > 0)
    ensures p.Report? ==> var yf := Filter(fields, InYear(year));
      |yf| > 0
      && p.businessTable == BusinessTable(Filter(yf, IsOrdinary(crops)), businesses)
      && p.specialTable == SpecialTable(Filter(yf, IsSpecial(crops)), crops, businesses)
      && p.cropTable == CropTable(yf, crops)
  {
    var yf := Filter(fields, InYear(year));
    FilterEmpty(fields, InYear(year));
    if |fields| == 0 then NoFields
    else if |yf| == 0 then NoYearFields
    else
      if |crops| == 0 && |businesses| > 0 then MissingBusinessName
      else
        Report(
          BusinessTable(Filter(yf, IsOrdinary(crops)), businesses),
          SpecialTable(Filter(yf, IsSpecial(crops)), crops, businesses),
          CropTable(yf, crops))
  }

  /** The two business tables split the year's fields: their totals add
      up to the crop table's total, column by column. */
  lemma TablesAddUp(yf: seq<Field>, crops: seq<Crop>, businesses: seq<Business>, q: Quantity)
    ensures TableTotal(BusinessTable(Filter(yf, IsOrdinary(crops)), businesses), q)
      + TableTotal(SpecialTable(Filter(yf, IsSpecial(crops)), crops, businesses), q)
      == TableTotal(CropTable(yf, crops), q)
  {
    SumFilterSplit(yf, IsSpecial(crops), FQ(q));
    BusinessTableMass(Filter(yf, IsOrdinary(crops)), businesses, q);
    SpecialTableMass(Filter(yf, IsSpecial(crops)), crops, businesses, q);
    CropTableMass(yf, crops, q);
  }

  /** On the page: the business tables' totals add up to the crop
      table's. */
  lemma TotalsAddUp(fields: seq<Field>, crops: seq<Crop>, businesses: seq<Business>, year: int, q: Quantity)
    requires PageOf(fields, crops, businesses, year).Report?
    ensures var p := PageOf(fields, crops, businesses, year);
      TableTotal(p.businessTable, q) + TableTotal(p.specialTable, q) == TableTotal(p.cropTable, q)
  {
    TablesAddUp(Filter(fields, InYear(year)), crops, businesses, q);
  }
}

=== FILE: rainfall.dfy ===
/** The rainfall reports: the monthly table of every business for a year,
    the daily grid of one business and month with its manual entry, and
    the per-business yearly totals of the business overview. Dates are the
    stored text, read as a calendar date. */
module Rainfall {
  import opened Wrappers
  import opened Seqs
  import opened Text
  import opened Numeric
  import opened Records
  import opened Auth

  datatype Date = Date(year: int, month: int, day: int)

  predicate LeapYear(y: int)
  {
    y % 4 == 0 && (y % 100 != 0 || y % 400 == 0)
  }

  /** `calendar.monthrange(year, month)[1]`: the length of the month. */
  function DaysInMonth(year: int, month: int): (d: int)
    requires 1 <= month <= 12
    ensures 28 <= d <= 31
  {
    if month == 2 then (if LeapYear(year) then 29 else 28)
    else if month == 4 || month == 6 || month == 9 || month == 11 then 30
    else 31
  }

  function MonthLengths(year: int, from: int): (r: int)
    requires 1 <= from <= 13
    decreases 13 - from
  {
    if from == 13 then 0 else DaysInMonth(year, from) + MonthLengths(year, from + 1)
  }

  /** The months make up a year of 365 days, 366 in a leap year. */
  lemma YearLength(year: int)
    ensures MonthLengths(year, 1) == if LeapYear(year) then 366 else 365
  {
    assert MonthLengths(year, 12) == 31;
    assert MonthLengths(year, 3) == 306;
  }

  predicate ValidDate(d: Date)
  {
    1 <= d.month <= 12 && 1 <= d.day <= DaysInMonth(d.year, d.month)
  }

  /** "YYYY-MM-DD", alone or followed by a space and a time of day. */
  predicate DateText(s: string)
  {
    |s| >= 10 && AllDigits(s[..4]) && s[4] == '-' && AllDigits(s[5..7]) && s[7] == '-' && AllDigits(s[8..10])
    && (|s| == 10 || s[10] == ' ')
  }

  /** `pd.to_datetime(..., errors='coerce')` of a stored date: the calendar
      date, or None (NaT) for text that is not a date. */
  function ParseDate(s: string): (r: Option<Date>)
    ensures r.Some? ==> ValidDate(r.value) && r.value.year >= 0
  {
    if DateText(s) then
      var d := Date(DigitsValue(s[..4]), DigitsValue(s[5..7]), DigitsValue(s[8..10]));
      if ValidDate(d) then Some(d) else None
    else None
  }

  /** `date.strftime('%Y-%m-%d')`. */
  function FormatDate(d: Date): (s: string)
    requires 0 <= d.year && 0 <= d.month && 0 <= d.day
  {
    ZeroPad(d.year, 4) + "-" + ZeroPad(d.month, 2) + "-" + ZeroPad(d.day, 2)
  }

  /** A date written by the entry form reads back as the same date. */
  lemma FormatParse(d: Date)
    requires ValidDate(d) && 0 <= d.year <= 9999
    ensures ParseDate(FormatDate(d)) == Some(d)
  {
    ShowNatWidth(d.year, 4);
    ShowNatWidth(d.month, 2);
    ShowNatWidth(d.day, 2);
    var y := ZeroPad(d.year, 4);
    var m := ZeroPad(d.month, 2);
    var dd := ZeroPad(d.day, 2);
    var s := FormatDate(d);
    assert s == y + "-" + m + "-" + dd;
    assert s[..4] == y;
    assert s[5..7] == m;
    assert s[8..10] == dd;
  }

  function DateOf(r: RainRecord): Option<Date>
  {
    ParseDate(r.datum)
  }

  predicate InYear(r: RainRecord, y: int)
  {
    DateOf(r).Some? && DateOf(r).value.year == y
  }

  function YearOfRow(r: RainRecord): Option<int>
  {
    match DateOf(r)
    case None => None
    case Some(d) => Some(d.year)
  }

  /** The distinct years of the readable dates, ascending. */
  function DatedYears(rows: seq<RainRecord>): (ys: seq<int>)
    ensures StrictlyIncreasing(ys)
    ensures forall i :: 0 <= i < |rows| && YearOfRow(rows[i]).Some? ==> YearOfRow(rows[i]).value in ys
    ensures forall i :: 0 <= i < |ys| ==> exists k :: 0 <= k < |rows| && YearOfRow(rows[k]) == Some(ys[i])
  {
    var found := Collect(rows, YearOfRow);
    CollectCovers(rows, YearOfRow);
    var asc := SortedDistinct(found);
    forall i | 0 <= i < |asc|
      ensures exists k :: 0 <= k < |rows| && YearOfRow(rows[k]) == Some(asc[i])
    {
      var j :| 0 <= j < |found| && found[j] == asc[i];
    }
    asc
  }

  /** The year selector: the years of the readable dates, latest first; the
      first entry is the default. */
  function YearsLatestFirst(rows: seq<RainRecord>): (ys: seq<int>)
    ensures forall i :: 0 <= i < |ys| - 1 ==> ys[i] > ys[i + 1]
    ensures forall i :: 0 <= i < |rows| && YearOfRow(rows[i]).Some? ==> YearOfRow(rows[i]).value in ys
    ensures forall i :: 0 <= i < |ys| ==> exists k :: 0 <= k < |rows| && YearOfRow(rows[k]) == Some(ys[i])
  {
    var asc := DatedYears(rows);
    var r := Reversed(asc);
    LatestFirstCovers(rows, asc, r);
    r
  }

  lemma LatestFirstCovers(rows: seq<RainRecord>, asc: seq<int>, r: seq<int>)
    requires |r| == |asc| && forall i :: 0 <= i < |asc| ==> r[i] == asc[|asc| - 1 - i]
    requires forall i :: 0 <= i < |asc| ==> exists k :: 0 <= k < |rows| && YearOfRow(rows[k]) == Some(asc[i])
    requires forall i :: 0 <= i < |rows| && YearOfRow(rows[i]).Some? ==> YearOfRow(rows[i]).value in asc
    ensures forall i :: 0 <= i < |rows| && YearOfRow(rows[i]).Some? ==> YearOfRow(rows[i]).value in r
    ensures forall i :: 0 <= i < |r| ==> exists k :: 0 <= k < |rows| && YearOfRow(rows[k]) == Some(r[i])
  {
    forall i | 0 <= i < |rows| && YearOfRow(rows[i]).Some?
      ensures YearOfRow(rows[i]).value in r
    {
      var j :| 0 <= j < |asc| && asc[j] == YearOfRow(rows[i]).value;
      assert r[|asc| - 1 - j] == asc[j];
    }
    forall i | 0 <= i < |r|
      ensures exists k :: 0 <= k < |rows| && YearOfRow(rows[k]) == Some(r[i])
    {
      var j := |asc| - 1 - i;
      assert r[i] == asc[j];
      var k :| 0 <= k < |rows| && YearOfRow(rows[k]) == Some(asc[j]);
    }
  }

  /** The business name a row is shown under: the first business with its
      id, else "Neznámý". */
  function JoinedName(r: RainRecord, businesses: seq<Business>): string
  {
    match FindById(businesses, BusinessId, r.podnikId)
    case None => "Neznámý"
    case Some(b) => b.nazev
  }

  // ----- The monthly table -----

  /** A line of the table's business order: the business (selected by id,
      or by name when its id is 0), and its order key. */
  datatype Entry = Entry(byId: Option<int>, name: string, poradi: int)

  function EntryOf(b: Business): (e: Entry)
    ensures e.name == b.nazev && e.poradi == b.poradi
    ensures e.byId.Some? <==> b.id != 0
    ensures e.byId.Some? ==> e.byId.value == b.id
  {
    Entry(if b.id != 0 then Some(b.id) else None, b.nazev, b.poradi)
  }

  function EntryPoradi(e: Entry): seq<real>
  {
    [e.poradi as real]
  }

  function Entries(bs: seq<Business>): (r: seq<Entry>)
    ensures |r| == |bs|
    ensures forall i :: 0 <= i < |bs| ==> r[i] == EntryOf(bs[i])
  {
    if |bs| == 0 then [] else [EntryOf(bs[0])] + Entries(bs[1..])
  }

  /** The businesses by `poradi`; without a business table, one line
      "Neznámý" that gathers every row. */
  function OrderEntries(businesses: seq<Business>): (r: seq<Entry>)
    ensures SortedBy(r, EntryPoradi)
    ensures |businesses| == 0 ==> r == [Entry(None, "Neznámý", 0)]
    ensures |businesses| > 0 ==> multiset(r) == multiset(Entries(businesses))
  {
    if |businesses| == 0 then [Entry(None, "Neznámý", 0)]
    else SortBy(Entries(businesses), EntryPoradi)
  }

  predicate Belongs(r: RainRecord, businesses: seq<Business>, e: Entry)
  {
    match e.byId
    case Some(id) => r.podnikId == id
    case None => JoinedName(r, businesses) == e.name
  }

  function InYearOf(businesses: seq<Business>, y: int, e: Entry): RainRecord -> bool
  {
    (r: RainRecord) => InYear(r, y) && Belongs(r, businesses, e)
  }

  /** The rows of one table line. */
  function Selected(rows: seq<RainRecord>, businesses: seq<Business>, y: int, e: Entry): (sel: seq<RainRecord>)
    ensures forall i :: 0 <= i < |sel| ==> InYear(sel[i], y) && Belongs(sel[i], businesses, e)
    ensures forall i :: 0 <= i < |rows| && InYear(rows[i], y) && Belongs(rows[i], businesses, e) ==> rows[i] in sel
  {
    Filter(rows, InYearOf(businesses, y, e))
  }

  /** The mask keeps the table order, and each row of the line as often
      as it occurs in the table. */
  lemma SelectedMask(rows: seq<RainRecord>, businesses: seq<Business>, y: int, e: Entry)
    ensures Embeds(Selected(rows, businesses, y, e), rows)
    ensures forall x :: multiset(Selected(rows, businesses, y, e))[x] ==
              if InYear(x, y) && Belongs(x, businesses, e) then multiset(rows)[x] else 0
  {
    FilterMask(rows, InYearOf(businesses, y, e));
  }

  function MonthKey(r: RainRecord): int
  {
    match DateOf(r)
    case None => 0
    case Some(d) => d.month
  }

  function Volume(r: RainRecord): real
  {
    r.objem
  }

  function Numbers(n: nat): (ds: seq<int>)
    ensures |ds| == n
    ensures forall i :: 0 <= i < n ==> ds[i] == i + 1
    ensures StrictlyIncreasing(ds)
  {
    seq(n, i requires 0 <= i < n => i + 1)
  }

  lemma InNumbers(n: nat, k: int)
    requires 1 <= k <= n
    ensures k in Numbers(n)
  {
    assert Numbers(n)[k - 1] == k;
  }

  lemma MonthKeyRange(r: RainRecord)
    requires DateOf(r).Some?
    ensures 1 <= MonthKey(r) <= 12
  {
  }

  /** The untruncated month sums of some dated rows. */
  function MonthSums(sel: seq<RainRecord>): (sums: seq<real>)
    ensures |sums| == 12
    ensures forall m :: 1 <= m <= 12 ==> sums[m - 1] == Sum(Group(sel, MonthKey, m), Volume)
  {
    var r := GroupTotals(Numbers(12), sel, MonthKey, Volume);
    forall m | 1 <= m <= 12
      ensures r[m - 1] == Sum(Group(sel, MonthKey, m), Volume)
    {
      assert Numbers(12)[m - 1] == m;
    }
    r
  }

  /** Every dated row falls in one of the twelve months, so the month sums
      add up to the rows' volume. */
  lemma MonthSumsMass(sel: seq<RainRecord>)
    requires forall i :: 0 <= i < |sel| ==> DateOf(sel[i]).Some?
    ensures Sum(MonthSums(sel), Self) == Sum(sel, Volume)
  {
    var ms := Numbers(12);
    GroupTotalsSum(ms, sel, MonthKey, Volume);
    SortedIntsNoDup(ms);
    forall i | 0 <= i < |sel|
      ensures MonthKey(sel[i]) in ms
    {
      MonthKeyRange(sel[i]);
      InNumbers(12, MonthKey(sel[i]));
    }
    GroupsPreserveSum(ms, sel, MonthKey, Volume);
  }

  function Truncs(xs: seq<real>): (r: seq<int>)
    ensures |r| == |xs|
    ensures forall i :: 0 <= i < |xs| ==> r[i] == Trunc(xs[i])
  {
    if |xs| == 0 then [] else [Trunc(xs[0])] + Truncs(xs[1..])
  }

  function IntSum(xs: seq<int>): int
  {
    if |xs| == 0 then 0 else xs[0] + IntSum(xs[1..])
  }

  /** One table line: the business, each month's `int()` of its sum, and
      "Celkem" as `int()` of the sum of the untruncated months. */
  datatype MonthRow = MonthRow(entry: Entry, months: seq<int>, celkem: int)

  function EntryOfRow(row: MonthRow): seq<real>
  {
    EntryPoradi(row.entry)
  }

  function RowOf(e: Entry, sel: seq<RainRecord>): (row: MonthRow)
    requires forall i :: 0 <= i < |sel| ==> DateOf(sel[i]).Some?
    ensures row.entry == e && |row.months| == 12
    ensures forall m :: 1 <= m <= 12 ==> row.months[m - 1] == Trunc(Sum(Group(sel, MonthKey, m), Volume))
    ensures row.celkem == Trunc(Sum(sel, Volume))
  {
    var sums := MonthSums(sel);
    MonthSumsMass(sel);
    MonthRow(e, Truncs(sums), Trunc(Sum(sums, Self)))
  }

  /** The table line of one business, if it has rows that year. */
  function Line(rows: seq<RainRecord>, businesses: seq<Business>, y: int, e: Entry): (r: Option<MonthRow>)
    ensures r.Some? <==> |Selected(rows, businesses, y, e)| > 0
    ensures r.Some? ==> r.value.entry == e
  {
    var sel := Selected(rows, businesses, y, e);
    if |sel| == 0 then None else Some(RowOf(e, sel))
  }

  function LineFor(rows: seq<RainRecord>, businesses: seq<Business>, y: int): Entry -> Option<MonthRow>
  {
    (e: Entry) => Line(rows, businesses, y, e)
  }

  /** The year's table: a line per business with rows that year, in
      `poradi` order. */
  function MonthlyTable(rows: seq<RainRecord>, businesses: seq<Business>, y: int): (r: seq<MonthRow>)
    ensures forall i, j :: 0 <= i <= j < |r| ==> r[i].entry.poradi <= r[j].entry.poradi
  {
    var order := OrderEntries(businesses);
    var f := LineFor(rows, businesses, y);
    var r := Collect(order, f);
    forall n | 0 <= n < |order| && f(order[n]).Some?
      ensures EntryOfRow(f(order[n]).value) == EntryPoradi(order[n])
    {
      assert f(order[n]) == Line(rows, businesses, y, order[n]);
    }
    CollectSorted(order, f, EntryPoradi, EntryOfRow);
    SortedAll(r, EntryOfRow);
    forall i, j | 0 <= i <= j < |r|
      ensures r[i].entry.poradi <= r[j].entry.poradi
    {
      LexSingle(r[i].entry.poradi as real, r[j].entry.poradi as real);
    }
    r
  }

  /** The table holds exactly the lines of the businesses that have rows
      that year. */
  lemma MonthlyTableLines(rows: seq<RainRecord>, businesses: seq<Business>, y: int)
    ensures forall row :: row in MonthlyTable(rows, businesses, y) ==>
      exists e :: e in OrderEntries(businesses) && Line(rows, businesses, y, e) == Some(row)
    ensures forall e :: e in OrderEntries(businesses) && Line(rows, businesses, y, e).Some? ==>
      Line(rows, businesses, y, e).value in MonthlyTable(rows, businesses, y)
  {
    var order := OrderEntries(businesses);
    var f := LineFor(rows, businesses, y);
    var r := MonthlyTable(rows, businesses, y);
    assert r == Collect(order, f);
    CollectCovers(order, f);
    forall row | row in r
      ensures exists e :: e in order && Line(rows, businesses, y, e) == Some(row)
    {
      var i :| 0 <= i < |r| && r[i] == row;
      var n :| 0 <= n < |order| && f(order[n]) == Some(r[i]);
      assert f(order[n]) == Line(rows, businesses, y, order[n]);
      assert order[n] in order;
    }
    forall e | e in order && Line(rows, businesses, y, e).Some?
      ensures Line(rows, businesses, y, e).value in r
    {
      var n :| 0 <= n < |order| && order[n] == e;
      assert f(order[n]) == Line(rows, businesses, y, order[n]);
    }
  }

  /** Truncating each value loses less than one per value. */
  lemma {:induction false} TruncSumBounds(xs: seq<real>)
    requires forall i :: 0 <= i < |xs| ==> xs[i] >= 0.0
    ensures IntSum(Truncs(xs)) as real <= Sum(xs, Self)
    ensures |xs| > 0 ==> Sum(xs, Self) < IntSum(Truncs(xs)) as real + |xs| as real
  {
    if |xs| > 0 {
      TruncSumBounds(xs[1..]);
      assert Truncs(xs)[1..] == Truncs(xs[1..]);
      var a := Trunc(xs[0]);
      var b := IntSum(Truncs(xs[1..]));
      assert IntSum(Truncs(xs)) == a + b;
      assert (a + b) as real == a as real + b as real;
      assert Sum(xs, Self) == xs[0] + Sum(xs[1..], Self);
      assert |xs| as real == 1.0 + |xs[1..]| as real;
      if |xs| == 1 {
        assert Sum(xs[1..], Self) == 0.0 && b == 0;
      }
    }
  }

  /** With no negative volumes, "Celkem" is at least the sum of the month
      cells shown and exceeds it by at most 11: the truncation of twelve
      sums versus one. */
  lemma CelkemVersusMonths(e: Entry, sel: seq<RainRecord>)
    requires forall i :: 0 <= i < |sel| ==> DateOf(sel[i]).Some? && sel[i].objem >= 0.0
    ensures IntSum(RowOf(e, sel).months) <= RowOf(e, sel).celkem <= IntSum(RowOf(e, sel).months) + 11
  {
    var sums := MonthSums(sel);
    forall m | 0 <= m < 12
      ensures sums[m] >= 0.0
    {
      var g := Group(sel, MonthKey, m + 1);
      forall i | 0 <= i < |g|
        ensures Volume(g[i]) >= 0.0
      {
        assert g[i] in sel;
      }
      SumNonNegative(g, Volume);
    }
    SumNonNegative(sums, Self);
    TruncSumBounds(sums);
    MonthSumsMass(sel);
    var total := Sum(sums, Self);
    var shown := IntSum(Truncs(sums));
    assert shown as real <= total < shown as real + 12.0;
    assert RowOf(e, sel).months == Truncs(sums);
    assert RowOf(e, sel).celkem == Trunc(total);
  }

  // ----- The daily grid -----

  /** The grid's business: by id, or by name for a line without one. */
  datatype DetailKey = ById(id: int) | ByName(name: string)

  predicate OfDetail(r: RainRecord, businesses: seq<Business>, key: DetailKey)
  {
    match key
    case ById(id) => r.podnikId == id
    case ByName(n) => JoinedName(r, businesses) == n
  }

  function InMonthOf(businesses: seq<Business>, y: int, m: int, key: DetailKey): RainRecord -> bool
  {
    (r: RainRecord) => InYear(r, y) && MonthKey(r) == m && OfDetail(r, businesses, key)
  }

  function DayKey(r: RainRecord): int
  {
    match DateOf(r)
    case None => 0
    case Some(d) => d.day
  }

  /** The untruncated day sums of the business's rows in the month, one per
      day of the month. */
  function DaySums(rows: seq<RainRecord>, businesses: seq<Business>, y: int, m: int, key: DetailKey): (sums: seq<real>)
    requires 1 <= m <= 12
    ensures |sums| == DaysInMonth(y, m)
    ensures forall d :: 1 <= d <= |sums| ==>
      sums[d - 1] == Sum(Group(Filter(rows, InMonthOf(businesses, y, m, key)), DayKey, d), Volume)
  {
    var ds := Numbers(DaysInMonth(y, m));
    var sel := Filter(rows, InMonthOf(businesses, y, m, key));
    var r := GroupTotals(ds, sel, DayKey, Volume);
    forall d | 1 <= d <= |r|
      ensures r[d - 1] == Sum(Group(sel, DayKey, d), Volume)
    {
      assert ds[d - 1] == d;
    }
    r
  }

  /** The grid's single line: `int()` of each day's sum. */
  function DayGrid(rows: seq<RainRecord>, businesses: seq<Business>, y: int, m: int, key: DetailKey): (cells: seq<int>)
    requires 1 <= m <= 12
    ensures |cells| == DaysInMonth(y, m)
    ensures forall i :: 0 <= i < |cells| ==> cells[i] == Trunc(DaySums(rows, businesses, y, m, key)[i])
  {
    Truncs(DaySums(rows, businesses, y, m, key))
  }

  /** Every measurement of the month lands in one day column: the day sums
      add up to the month's volume. */
  lemma DaysCoverMonth(rows: seq<RainRecord>, businesses: seq<Business>, y: int, m: int, key: DetailKey)
    requires 1 <= m <= 12
    ensures Sum(DaySums(rows, businesses, y, m, key), Self) == Sum(Filter(rows, InMonthOf(businesses, y, m, key)), Volume)
  {
    var sel := Filter(rows, InMonthOf(businesses, y, m, key));
    var ds := Numbers(DaysInMonth(y, m));
    GroupTotalsSum(ds, sel, DayKey, Volume);
    SortedIntsNoDup(ds);
    forall i | 0 <= i < |sel|
      ensures DayKey(sel[i]) in ds
    {
      var d := DateOf(sel[i]).value;
      assert d.month == m && d.year == y;
      InNumbers(|ds|, d.day);
    }
    GroupsPreserveSum(ds, sel, DayKey, Volume);
  }

  /** The day the entry form starts on: today when the grid shows the
      current month, else the 1st, never past the month's end. */
  function DefaultDay(today: Date, y: int, m: int): (d: int)
    requires 1 <= m <= 12 && ValidDate(today)
    ensures 1 <= d <= DaysInMonth(y, m)
    ensures today.year == y && today.month == m ==> d == today.day
    ensures !(today.year == y && today.month == m) ==> d == 1
  {
    var d := if today.month == m && today.year == y then today.day else 1;
    if d < DaysInMonth(y, m) then d else DaysInMonth(y, m)
  }

  /** The entry form is offered to admins and editors. */
  predicate MayEnterRain(role: string)
  {
    role == "admin" || role == "editor"
  }

  /** The page's role check agrees with the write permission. */
  lemma MayEnterIsWrite(role: string)
    ensures MayEnterRain(role) <==> HasPermission(role, "write")
  {
    PermissionTable(role, "write");
  }

  /** A manual entry: no collection point is recorded. */
  datatype ManualRain = ManualRain(id: int, podnikId: int, datum: string, objem: int)

  function RainId(r: RainRecord): int
  {
    r.id
  }

  function NameIs(n: string): Business -> bool
  {
    (b: Business) => b.nazev == n
  }

  /** The new row: the next id, the grid's business (the first business
      with the name, for a line selected by name), the chosen day. */
  function ManualEntry(table: seq<RainRecord>, businesses: seq<Business>, key: DetailKey,
                       y: int, m: int, den: int, objem: int): (r: ManualRain)
    requires 1 <= y <= 9999 && 1 <= m <= 12 && 1 <= den <= DaysInMonth(y, m) && objem >= 0
    requires key.ByName? ==> exists i :: 0 <= i < |businesses| && businesses[i].nazev == key.name
    ensures forall i :: 0 <= i < |table| ==> table[i].id < r.id
    ensures |table| == 0 ==> r.id == 1
    ensures key.ById? ==> r.podnikId == key.id
    ensures key.ByName? ==> exists i :: (0 <= i < |businesses| && businesses[i].nazev == key.name
      && businesses[i].id == r.podnikId && forall j :: 0 <= j < i ==> businesses[j].nazev != key.name)
    ensures r.objem == objem
    ensures ParseDate(r.datum) == Some(Date(y, m, den))
  {
    var podnik := match key
      case ById(id) => id
      case ByName(n) => businesses[FirstIndex(businesses, NameIs(n)).value].id;
    FormatParse(Date(y, m, den));
    ManualRain(NextId(table, RainId), podnik, FormatDate(Date(y, m, den)), objem)
  }

  // ----- Yearly totals of the business overview -----

  /** A bar of the overview's rainfall chart. */
  datatype NameTotal = NameTotal(name: string, objem: real)

  function NameOf(businesses: seq<Business>): RainRecord -> string
  {
    (r: RainRecord) => JoinedName(r, businesses)
  }

  function InYearP(y: int): RainRecord -> bool
  {
    (r: RainRecord) => InYear(r, y)
  }

  function TotalVolume(t: NameTotal): real
  {
    t.objem
  }

  function VolumeDesc(t: NameTotal): seq<real>
  {
    [-t.objem]
  }

  function NameTotals(names: seq<string>, yr: seq<RainRecord>, businesses: seq<Business>): (r: seq<NameTotal>)
    ensures |r| == |names|
    ensures forall i :: 0 <= i < |names| ==> r[i] == NameTotal(names[i], Sum(Group(yr, NameOf(businesses), names[i]), Volume))
  {
    if |names| == 0 then []
    else [NameTotal(names[0], Sum(Group(yr, NameOf(businesses), names[0]), Volume))] + NameTotals(names[1..], yr, businesses)
  }

  lemma {:induction false} NameTotalsSum(names: seq<string>, yr: seq<RainRecord>, businesses: seq<Business>)
    ensures Sum(NameTotals(names, yr, businesses), TotalVolume) == SumGroups(names, yr, NameOf(businesses), Volume)
  {
    if |names| > 0 {
      NameTotalsSum(names[1..], yr, businesses);
    }
  }

  function YearRows(rows: seq<RainRecord>, y: int): seq<RainRecord>
  {
    Filter(rows, InYearP(y))
  }

  function BarsOf(rows: seq<RainRecord>, businesses: seq<Business>, y: int): seq<NameTotal>
  {
    var yr := YearRows(rows, y);
    NameTotals(Keys(yr, NameOf(businesses)), yr, businesses)
  }

  /** The year's rainfall per business name (rows of unknown businesses
      under "Neznámý", businesses sharing a name together), largest first;
      nothing without a business table. */
  function RainByBusiness(rows: seq<RainRecord>, businesses: seq<Business>, y: int): (r: seq<NameTotal>)
    ensures |businesses| == 0 ==> r == []
    ensures |businesses| > 0 ==> multiset(r) == multiset(BarsOf(rows, businesses, y))
    ensures forall i, j :: 0 <= i <= j < |r| ==> r[j].objem <= r[i].objem
  {
    if |businesses| == 0 then []
    else
      var r := SortBy(BarsOf(rows, businesses, y), VolumeDesc);
      SortedAll(r, VolumeDesc);
      forall i, j | 0 <= i <= j < |r|
        ensures r[j].objem <= r[i].objem
      {
        LexSingle(-r[i].objem, -r[j].objem);
      }
      r
  }

  /** Each bar is one business name of the year's rows with the sum of
      its rows. */
  lemma RainByBusinessSums(rows: seq<RainRecord>, businesses: seq<Business>, y: int)
    requires |businesses| > 0
    ensures forall t :: t in RainByBusiness(rows, businesses, y) ==>
      t.objem == Sum(Group(YearRows(rows, y), NameOf(businesses), t.name), Volume)
  {
    var yr := YearRows(rows, y);
    var bars := BarsOf(rows, businesses, y);
    var r := RainByBusiness(rows, businesses, y);
    PermutationMembers(bars, r);
    forall t | t in r
      ensures t.objem == Sum(Group(yr, NameOf(businesses), t.name), Volume)
    {
      var j :| 0 <= j < |bars| && bars[j] == t;
    }
  }

  /** Every business name of the year's rows has a bar. */
  lemma RainByBusinessCovers(rows: seq<RainRecord>, businesses: seq<Business>, y: int)
    requires |businesses| > 0
    ensures forall k :: 0 <= k < |YearRows(rows, y)| ==>
      (exists t :: (t in RainByBusiness(rows, businesses, y) && t.name == JoinedName(YearRows(rows, y)[k], businesses)))
  {
    var yr := YearRows(rows, y);
    var names := Keys(yr, NameOf(businesses));
    var bars := BarsOf(rows, businesses, y);
    var r := RainByBusiness(rows, businesses, y);
    PermutationMembers(bars, r);
    forall k | 0 <= k < |yr|
      ensures exists t :: t in r && t.name == JoinedName(yr[k], businesses)
    {
      assert NameOf(businesses)(yr[k]) in names;
      var j :| 0 <= j < |names| && names[j] == JoinedName(yr[k], businesses);
      assert bars[j] in r;
    }
  }

  /** The bars add up to the year's whole collected rainfall. */
  lemma RainByBusinessMass(rows: seq<RainRecord>, businesses: seq<Business>, y: int)
    requires |businesses| > 0
    ensures Sum(RainByBusiness(rows, businesses, y), TotalVolume) == Sum(YearRows(rows, y), Volume)
  {
    var yr := YearRows(rows, y);
    var names := Keys(yr, NameOf(businesses));
    var totals := BarsOf(rows, businesses, y);
    SumPermutation(totals, RainByBusiness(rows, businesses, y), TotalVolume);
    NameTotalsSum(names, yr, businesses);
    GroupsPreserveSum(names, yr, NameOf(businesses), Volume);
  }
}

=== FILE: rainfetch.dfy ===
/** The rain collector of the main app: one station reading saved as a
    rain record of its business ("srážky"), and the once-a-day automatic
    download of yesterday's readings for every business with a sensor. */
module RainFetch {
  import opened Wrappers
  import opened Seqs
  import opened Text
  import opened Records
  import Weather

  /** The collection point ("sběrné místo") each business's rain is filed
      under. */
  const MistoMap: map<int, int> := map[1 := 30, 2 := 29, 3 := 28, 4 := 27, 5 := 26, 6 := 25, 8 := 42, 9 := 43]

  function MistoFor(biz: int): (r: int)
    ensures biz in MistoMap ==> r == MistoMap[biz]
    ensures biz !in MistoMap ==> r == 30
  {
    if biz in MistoMap then MistoMap[biz] else 30
  }

  function RecordId(r: RainRecord): int { r.id }

  /** A record of business `biz` on day `date`; a missing date matches no
      record. */
  function SameDay(biz: int, date: Option<string>): RainRecord -> bool
  {
    (r: RainRecord) => r.podnikId == biz && date.Some? && r.datum == date.value
  }

  predicate HasRow(table: seq<RainRecord>, biz: int, date: string)
  {
    exists i :: 0 <= i < |table| && table[i].podnikId == biz && table[i].datum == date
  }

  /** Save `rain` for (`biz`, `date`): overwrite the volume of the first
      record of that day, or append a new record with a fresh id. A missing
      date is stored as an empty text. */
  function Upsert(table: seq<RainRecord>, biz: int, rain: real, date: Option<string>): (r: seq<RainRecord>)
    ensures FirstIndex(table, SameDay(biz, date)).Some? ==>
      var k := FirstIndex(table, SameDay(biz, date)).value;
      |r| == |table| && r[k] == table[k].(objem := rain)
      && r[k].podnikId == biz && Some(r[k].datum) == date
      && (forall i :: 0 <= i < |table| && i != k ==> r[i] == table[i])
    ensures FirstIndex(table, SameDay(biz, date)).None? ==> |r| == |table| + 1
    ensures |r| >= |table|
    ensures forall i :: 0 <= i < |table| ==> r[i].podnikId == table[i].podnikId && r[i].datum == table[i].datum && r[i].id == table[i].id
  {
    match FirstIndex(table, SameDay(biz, date))
    case Some(k) => table[k := table[k].(objem := rain)]
    case None => table + [RainRecord(NextId(table, RecordId), MistoFor(biz), biz, rain, date.GetOr(""))]
  }

  /** Without a record of the day a new one is appended after the
      untouched table, with an id above every existing id and the
      business's collection point. */
  lemma UpsertAppends(table: seq<RainRecord>, biz: int, rain: real, date: Option<string>)
    requires FirstIndex(table, SameDay(biz, date)).None?
    ensures var r := Upsert(table, biz, rain, date);
      |r| == |table| + 1 && r[..|table|] == table
      && r[|table|].podnikId == biz && r[|table|].objem == rain && r[|table|].mistoId == MistoFor(biz)
      && (forall i :: 0 <= i < |table| ==> table[i].id < r[|table|].id)
      && (|table| == 0 ==> r[0].id == 1)
  {
    var r := Upsert(table, biz, rain, date);
    assert r[..|table|] == table;
  }

  /** With a date, the saved day is afterwards on record with the saved
      volume. */
  lemma UpsertRecords(table: seq<RainRecord>, biz: int, rain: real, date: string)
    ensures var r := Upsert(table, biz, rain, Some(date));
      FirstIndex(r, SameDay(biz, Some(date))).Some?
      && r[FirstIndex(r, SameDay(biz, Some(date))).value].objem == rain
  {
    var r := Upsert(table, biz, rain, Some(date));
    var p := SameDay(biz, Some(date));
    match FirstIndex(table, p)
    case Some(k) =>
      assert p(r[k]);
      FirstIndexUnique(r, p, k);
    case None =>
      assert p(r[|table|]);
      assert forall j :: 0 <= j < |table| ==> r[j] == table[j];
      FirstIndexUnique(r, p, |table|);
  }

  /** Saving the same reading twice leaves the table as saving it once. */
  lemma UpsertIdempotent(table: seq<RainRecord>, biz: int, rain: real, date: string)
    ensures Upsert(Upsert(table, biz, rain, Some(date)), biz, rain, Some(date)) == Upsert(table, biz, rain, Some(date))
  {
    var r := Upsert(table, biz, rain, Some(date));
    var p := SameDay(biz, Some(date));
    UpsertRecords(table, biz, rain, date);
    var k := FirstIndex(r, p).value;
    assert r[k := r[k].(objem := rain)] == r;
  }

  /** Distinct record ids stay distinct. */
  lemma UpsertKeepsIdsDistinct(table: seq<RainRecord>, biz: int, rain: real, date: Option<string>)
    requires forall i, j :: 0 <= i < j < |table| ==> table[i].id != table[j].id
    ensures var r := Upsert(table, biz, rain, date);
      forall i, j :: 0 <= i < j < |r| ==> r[i].id != r[j].id
  {
    var r := Upsert(table, biz, rain, date);
    if FirstIndex(table, SameDay(biz, date)).None? {
      UpsertAppends(table, biz, rain, date);
    }
  }

  /** What `fetch_and_save_rain` reports: the failure message, or the
      saved volume, the day and whether an existing record was updated. */
  datatype SaveResult = SaveFailed(message: string) | Saved(rainMm: real, date: Option<string>, updated: bool)

  /** `fetch_and_save_rain` for one business, given the station's report:
      a failed report leaves the table alone; a missing rain reading counts
      as 0 mm. */
  function FetchAndSaveRain(biz: int, report: Weather.Outcome<Weather.Report>, table: seq<RainRecord>): (r: (SaveResult, seq<RainRecord>))
    ensures report.Failed? ==> r.0 == SaveFailed("Chyba: " + report.message) && r.1 == table
    ensures report.Ok? ==> r.0.Saved? && r.0.rainMm == report.value.rainMm.GetOr(0.0) && r.0.date == report.value.date
    ensures report.Ok? ==> (r.0.updated <==> FirstIndex(table, SameDay(biz, report.value.date)).Some?)
    ensures report.Ok? ==> r.1 == Upsert(table, biz, r.0.rainMm, report.value.date)
  {
    match report
    case Failed(m) => (SaveFailed("Chyba: " + m), table)
    case Ok(w) =>
      var rain := w.rainMm.GetOr(0.0);
      (Saved(rain, w.date, FirstIndex(table, SameDay(biz, w.date)).Some?), Upsert(table, biz, rain, w.date))
  }

  /** A business takes part in the automatic download when its sensor
      address is present and not empty. */
  predicate HasSensor(b: Business)
  {
    b.sensorAddr.Some? && b.sensorAddr.value != ""
  }

  /** The automatic download is due when it did not run today yet and it
      is five o'clock or later. */
  predicate ShouldFetch(lastFetch: Option<string>, today: string, hour: int)
  {
    lastFetch != Some(today) && hour >= 5
  }

  /** Yesterday's reading saved for each business in turn; a failed
      report skips its business. */
  function SaveAll(sensors: seq<Business>, yesterday: string -> Weather.Outcome<Weather.Report>, table: seq<RainRecord>): (r: seq<RainRecord>)
    requires forall i :: 0 <= i < |sensors| ==> HasSensor(sensors[i])
    ensures |r| >= |table|
    ensures forall i :: 0 <= i < |table| ==> r[i].podnikId == table[i].podnikId && r[i].datum == table[i].datum
    decreases |sensors|
  {
    if |sensors| == 0 then table
    else
      var b := sensors[0];
      assert HasSensor(b);
      var report := yesterday(b.sensorAddr.value);
      var next := FetchAndSaveRain(b.id, report, table).1;
      SaveAll(sensors[1..], yesterday, next)
  }

  /** The app's state the automatic download reads and writes: the rain
      table and the content of the last-download flag file. */
  datatype AutoState = AutoState(table: seq<RainRecord>, flag: Option<string>)

  /** `check_auto_fetch`: nothing happens without a sensor column, without
      a business with a sensor, or when the download is not due; otherwise
      every sensor business gets yesterday's reading and the flag records
      today, whatever the single downloads returned. */
  function CheckAutoFetch(hasSensorColumn: bool, businesses: seq<Business>, st: AutoState, today: string, hour: int,
                          yesterday: string -> Weather.Outcome<Weather.Report>): (r: AutoState)
    ensures !hasSensorColumn || Count(businesses, HasSensor) == 0 ==> r == st
    ensures hasSensorColumn && Count(businesses, HasSensor) > 0 ==>
      var last := if st.flag.Some? then Some(Strip(st.flag.value)) else None;
      (ShouldFetch(last, today, hour) ==> r == AutoState(SaveAll(Filter(businesses, HasSensor), yesterday, st.table), Some(today)))
      && (!ShouldFetch(last, today, hour) ==> r == st)
  {
    if !hasSensorColumn then st
    else
      var sensors := Filter(businesses, HasSensor);
      if |sensors| == 0 then
        CountFilterEmpty(businesses, HasSensor);
        st
      else
        CountFilterEmpty(businesses, HasSensor);
        var last := if st.flag.Some? then Some(Strip(st.flag.value)) else None;
        if ShouldFetch(last, today, hour) then AutoState(SaveAll(sensors, yesterday, st.table), Some(today))
        else st
  }

  /** Once it ran, a second call on the same day changes nothing. */
  lemma SecondRunSameDay(hasSensorColumn: bool, businesses: seq<Business>, st: AutoState, today: string, hour: int,
                         yesterday: string -> Weather.Outcome<Weather.Report>)
    requires Strip(today) == today
    ensures var once := CheckAutoFetch(hasSensorColumn, businesses, st, today, hour, yesterday);
      once.flag == Some(today) ==> CheckAutoFetch(hasSensorColumn, businesses, once, today, hour, yesterday) == once
  {
  }

  /** After a download every sensor business whose report came back with
      a date has a rain record of that date. */
  lemma {:induction false} SaveAllRecords(sensors: seq<Business>, yesterday: string -> Weather.Outcome<Weather.Report>,
                                          table: seq<RainRecord>, k: nat)
    requires forall i :: 0 <= i < |sensors| ==> HasSensor(sensors[i])
    requires k < |sensors| && HasSensor(sensors[k])
    requires yesterday(sensors[k].sensorAddr.value).Ok? && yesterday(sensors[k].sensorAddr.value).value.date.Some?
    ensures HasRow(SaveAll(sensors, yesterday, table), sensors[k].id, yesterday(sensors[k].sensorAddr.value).value.date.value)
    decreases |sensors|
  {
    var b := sensors[0];
    var next := FetchAndSaveRain(b.id, yesterday(b.sensorAddr.value), table).1;
    assert SaveAll(sensors, yesterday, table) == SaveAll(sensors[1..], yesterday, next);
    if k == 0 {
      var d := yesterday(b.sensorAddr.value).value.date.value;
      UpsertRecords(table, b.id, yesterday(b.sensorAddr.value).value.rainMm.GetOr(0.0), d);
      var j := FirstIndex(next, SameDay(b.id, Some(d))).value;
      assert next[j].podnikId == b.id && next[j].datum == d;
      var r := SaveAll(sensors[1..], yesterday, next);
      assert r[j].podnikId == b.id && r[j].datum == d;
    } else {
      assert sensors[1..][k - 1] == sensors[k];
      SaveAllRecords(sensors[1..], yesterday, next, k - 1);
    }
  }

  /** The automatic run covers every business with a sensor. */
  lemma AutoFetchRecordsEverySensor(businesses: seq<Business>, st: AutoState, today: string, hour: int,
                                     yesterday: string -> Weather.Outcome<Weather.Report>, b: Business)
    requires b in businesses && HasSensor(b)
    requires ShouldFetch(if st.flag.Some? then Some(Strip(st.flag.value)) else None, today, hour)
    requires yesterday(b.sensorAddr.value).Ok? && yesterday(b.sensorAddr.value).value.date.Some?
    ensures var r := CheckAutoFetch(true, businesses, st, today, hour, yesterday);
      r.flag == Some(today) && HasRow(r.table, b.id, yesterday(b.sensorAddr.value).value.date.value)
  {
    var sensors := Filter(businesses, HasSensor);
    assert b in sensors;
    var k :| 0 <= k < |sensors| && sensors[k] == b;
    SaveAllRecords(sensors, yesterday, st.table, k);
  }
}

=== FILE: records.dfy ===
/** Rows of the farm's tables, one datatype per table, and the left-merge
    lookups the reports join them with. A missing (NaN) cell in a column
    that may be empty is an `Option`. */
module Records {
  import opened Wrappers

  /** A field ("pole"): one crop grown by one business in one harvest year. */
  datatype Field = Field(
    id: int,
    podnikId: int,
    plodinaId: Option<int>,
    odrudaId: Option<int>,
    rokSklizne: int,
    vymera: real,
    sklizeno: real,
    cistaVaha: real,
    hrubaVaha: real,
    cisloHonu: string,
    nazevHonu: Option<string>,
    datumSeti: string)

  /** A crop ("plodina"); the two Y/N flags are kept as the stored text. */
  datatype Crop = Crop(id: int, nazev: string, enableMainTable: string, showInTable: string, poradi: int)

  /** A business ("podnik"), with the optional rain-sensor address. */
  datatype Business = Business(id: int, nazev: string, poradi: int, sensorAddr: Option<string>)

  /** A land plot ("pozemek") of some type in some year. */
  datatype Plot = Plot(id: int, podnikId: int, year: int, velikost: real, nazevId: int)

  /** A land type ("typ pozemku"). */
  datatype PlotType = PlotType(id: int, nazev: string, poradi: int)

  /** A rainfall measurement ("srážka") at a collection point. */
  datatype RainRecord = RainRecord(id: int, mistoId: int, podnikId: int, objem: real, datum: string)

  /** A rain collection point ("sběrné místo") of a business. */
  datatype Place = Place(id: int, podnikId: int, nazev: string)

  /** A sale or contract ("odpis") drawn from a year's production. */
  datatype Sale = Sale(
    id: int,
    podnikId: int,
    rok: int,
    datumSmlouvy: string,
    castkaKc: real,
    prodanoT: real,
    faktura: string,
    poznamka: string,
    stav: string)

  /** A buyer's offer ("nabídka") recorded against a sale. */
  datatype Offer = Offer(id: int, odpisId: int, datumNabidky: string, odberatel: string, nabidkaKc: real)

  /** A seed variety ("odrůda"). */
  datatype Variety = Variety(id: int, nazev: string)

  /** A user account; `isActive` is None when the column is absent. */
  datatype UserRow = UserRow(
    id: int,
    username: string,
    email: string,
    role: string,
    fullName: string,
    businessIds: Option<string>,
    isActive: Option<bool>)

  /** A user-to-business access link ("userpodniky"). */
  datatype Link = Link(userId: int, podnikId: int)

  /** Per-year edit permissions ("roky"), flags kept as the stored text. */
  datatype YearRow = YearRow(year: int, creatable: string, updatable: string, deletable: string)

  /** Left merge on an id column: the first row carrying the id. */
  function FindById<T>(s: seq<T>, idOf: T -> int, id: int): (r: Option<T>)
    ensures r.Some? ==> r.value in s && idOf(r.value) == id
    ensures r.None? ==> forall i :: 0 <= i < |s| ==> idOf(s[i]) != id
  {
    if |s| == 0 then None
    else if idOf(s[0]) == id then Some(s[0])
    else FindById(s[1..], idOf, id)
  }

  /** The same merge keyed by a cell that may be missing (NaN), which
      matches no row. */
  function FindByCell<T>(s: seq<T>, idOf: T -> int, id: Option<int>): (r: Option<T>)
    ensures r.Some? ==> r.value in s && id == Some(idOf(r.value))
    ensures r.None? ==> id.None? || forall i :: 0 <= i < |s| ==> idOf(s[i]) != id.value
  {
    if id.None? then None else FindById(s, idOf, id.value)
  }

  /** Ids of a business table, in table order. */
  function BusinessIds(businesses: seq<Business>): (r: seq<int>)
    ensures |r| == |businesses|
    ensures forall i :: 0 <= i < |r| ==> r[i] == businesses[i].id
  {
    seq(|businesses|, i requires 0 <= i < |businesses| => businesses[i].id)
  }

  /** The harvest years of some fields, in table order. */
  function Years(fields: seq<Field>): (r: seq<int>)
    ensures |r| == |fields|
    ensures forall i :: 0 <= i < |r| ==> r[i] == fields[i].rokSklizne
  {
    seq(|fields|, i requires 0 <= i < |fields| => fields[i].rokSklizne)
  }

  /** Columns the reports sum, group and sort by. */
  function FieldArea(f: Field): real { f.vymera }
  function FieldNet(f: Field): real { f.cistaVaha }
  function FieldYear(f: Field): int { f.rokSklizne }
  function CropId(c: Crop): int { c.id }
  function BusinessId(b: Business): int { b.id }
  function TypeId(t: PlotType): int { t.id }
  function VarietyId(v: Variety): int { v.id }
  function BusinessName(b: Business): string { b.nazev }
  function CropName(c: Crop): string { c.nazev }
  function BusinessPoradi(b: Business): seq<real> { [b.poradi as real] }
}

=== FILE: seqs.dfy ===
/** Sequence toolkit shared by the aggregation modules: sums, filters,
    grouping by key, de-duplication and a keyed sort. */
module Seqs {
  import opened Wrappers

  /** Sum of `f` over the elements of `s`. */
  function Sum<T>(s: seq<T>, f: T -> real): real
  {
    if |s| == 0 then 0.0 else f(s[0]) + Sum(s[1..], f)
  }

  lemma {:induction false} SumAppend<T>(a: seq<T>, b: seq<T>, f: T -> real)
    ensures Sum(a + b, f) == Sum(a, f) + Sum(b, f)
  {
    if |a| == 0 {
      assert a + b == b;
    } else {
      assert (a + b)[1..] == a[1..] + b;
      SumAppend(a[1..], b, f);
    }
  }

  lemma {:induction false} SumNonNegative<T>(s: seq<T>, f: T -> real)
    requires forall i :: 0 <= i < |s| ==> f(s[i]) >= 0.0
    ensures Sum(s, f) >= 0.0
  {
    if |s| > 0 {
      SumNonNegative(s[1..], f);
    }
  }

  /** Summation does not depend on the order of the rows. */
  lemma {:induction false} SumPermutation<T>(a: seq<T>, b: seq<T>, f: T -> real)
    requires multiset(a) == multiset(b)
    ensures Sum(a, f) == Sum(b, f)
    decreases |a|
  {
    if |a| == 0 {
      assert |b| == |multiset(b)| == 0;
    } else {
      var x := a[0];
      assert x in multiset(b);
      var i :| 0 <= i < |b| && b[i] == x;
      var rest := b[..i] + b[i+1..];
      assert b == b[..i] + [x] + b[i+1..];
      assert a == [x] + a[1..];
      assert multiset(b) == multiset(b[..i] + [x] + b[i+1..]);
      assert multiset(b) == multiset(b[..i]) + multiset{x} + multiset(b[i+1..]);
      assert multiset(rest) == multiset(b[..i]) + multiset(b[i+1..]);
      assert multiset(a) == multiset{x} + multiset(a[1..]);
      assert multiset(a[1..]) == multiset(a) - multiset{x};
      assert multiset(rest) == multiset(b) - multiset{x};
      SumPermutation(a[1..], rest, f);
      SumAppend(b[..i] + [x], b[i+1..], f);
      SumAppend(b[..i], [x], f);
      SumAppend(b[..i], b[i+1..], f);
      assert Sum([x], f) == f(x) by {
        assert [x][1..] == [];
      }
    }
  }

  /** The elements of `s` satisfying `p`, in their original order. */
  function Filter<T>(s: seq<T>, p: T -> bool): (r: seq<T>)
    ensures |r| <= |s|
    ensures forall i :: 0 <= i < |r| ==> r[i] in s && p(r[i])
    ensures forall i :: 0 <= i < |s| && p(s[i]) ==> s[i] in r
    ensures multiset(r) <= multiset(s)
  {
    if |s| == 0 then []
    else
      assert s == [s[0]] + s[1..];
      (if p(s[0]) then [s[0]] else []) + Filter(s[1..], p)
  }

  /** The elements failing `p`. */
  function Not<T>(p: T -> bool): T -> bool
  {
    (x: T) => !p(x)
  }

  /** Splitting rows by a predicate neither creates nor loses mass. */
  lemma {:induction false} SumFilterSplit<T>(s: seq<T>, p: T -> bool, f: T -> real)
    ensures Sum(s, f) == Sum(Filter(s, p), f) + Sum(Filter(s, Not(p)), f)
  {
    if |s| > 0 {
      SumFilterSplit(s[1..], p, f);
      var hd := if p(s[0]) then [s[0]] else [];
      var hn := if !p(s[0]) then [s[0]] else [];
      SumAppend(hd, Filter(s[1..], p), f);
      SumAppend(hn, Filter(s[1..], Not(p)), f);
      assert [s[0]][1..] == [];
    }
  }

  /** The rows of `s` whose key is `k`, in their original order. */
  function Group<T, K(==)>(s: seq<T>, key: T -> K, k: K): (r: seq<T>)
    ensures |r| <= |s|
    ensures forall i :: 0 <= i < |r| ==> r[i] in s && key(r[i]) == k
    ensures forall i :: 0 <= i < |s| && key(s[i]) == k ==> s[i] in r
  {
    if |s| == 0 then []
    else if key(s[0]) == k then [s[0]] + Group(s[1..], key, k)
    else Group(s[1..], key, k)
  }

  predicate NoDup<K(==)>(s: seq<K>)
  {
    forall i, j :: 0 <= i < j < |s| ==> s[i] != s[j]
  }

  /** A duplicate-free sequence of one repeated value has at most one
      element. */
  lemma NoDupConstant<K>(s: seq<K>, x: K)
    requires NoDup(s) && forall k :: 0 <= k < |s| ==> s[k] == x
    ensures |s| <= 1
  {
    if |s| > 0 {
      var m := if |s| > 1 then 1 else 0;
      assert s[0] == s[m];
    }
  }

  /** `s` with later repetitions removed: first-occurrence order, as
      pandas `unique()` and `groupby(sort=False)` produce it. */
  function Dedup<K(==)>(s: seq<K>): (r: seq<K>)
    ensures NoDup(r)
    ensures forall i :: 0 <= i < |r| ==> r[i] in s
    ensures forall i :: 0 <= i < |s| ==> s[i] in r
    ensures |r| <= |s|
  {
    if |s| == 0 then []
    else
      var d := Dedup(s[..|s| - 1]);
      assert s == s[..|s| - 1] + [s[|s| - 1]];
      if s[|s| - 1] in d then d else d + [s[|s| - 1]]
  }

  /** The keys of `s` under `key`, distinct, in order of first appearance. */
  function Keys<T, K(==)>(s: seq<T>, key: T -> K): (r: seq<K>)
    ensures NoDup(r)
    ensures forall i :: 0 <= i < |s| ==> key(s[i]) in r
    ensures forall k :: k in r ==> exists i :: 0 <= i < |s| && key(s[i]) == k
  {
    var ks := seq(|s|, i requires 0 <= i < |s| => key(s[i]));
    assert forall i :: 0 <= i < |s| ==> ks[i] == key(s[i]);
    Dedup(ks)
  }

  /** `f` applied to each element, in order. */
  function MapSeq<T, U>(s: seq<T>, f: T -> U): (r: seq<U>)
    ensures |r| == |s|
    ensures forall i :: 0 <= i < |s| ==> r[i] == f(s[i])
  {
    seq(|s|, i requires 0 <= i < |s| => f(s[i]))
  }

  /** Sum of `f` over each key's group, added up over the keys `ks`. */
  function SumGroups<T, K(==)>(ks: seq<K>, s: seq<T>, key: T -> K, f: T -> real): real
  {
    if |ks| == 0 then 0.0 else Sum(Group(s, key, ks[0]), f) + SumGroups(ks[1..], s, key, f)
  }

  /** The per-group sums of a group-by, one per key of `ks`. */
  function GroupTotals<T, K(==)>(ks: seq<K>, s: seq<T>, key: T -> K, f: T -> real): (r: seq<real>)
    ensures |r| == |ks|
    ensures forall i :: 0 <= i < |ks| ==> r[i] == Sum(Group(s, key, ks[i]), f)
  {
    seq(|ks|, i requires 0 <= i < |ks| => Sum(Group(s, key, ks[i]), f))
  }

  function Self(x: real): real
  {
    x
  }

  lemma {:induction false} GroupTotalsSum<T, K>(ks: seq<K>, s: seq<T>, key: T -> K, f: T -> real)
    ensures Sum(GroupTotals(ks, s, key, f), Self) == SumGroups(ks, s, key, f)
  {
    if |ks| > 0 {
      GroupTotalsSum(ks[1..], s, key, f);
      assert GroupTotals(ks, s, key, f)[1..] == GroupTotals(ks[1..], s, key, f);
    }
  }

  lemma {:induction false} SumGroupsEmpty<T, K>(ks: seq<K>, s: seq<T>, key: T -> K, f: T -> real)
    requires |s| == 0
    ensures SumGroups(ks, s, key, f) == 0.0
  {
    if |ks| > 0 {
      SumGroupsEmpty(ks[1..], s, key, f);
    }
  }

  lemma {:induction false} SumGroupsCons<T, K>(ks: seq<K>, s: seq<T>, key: T -> K, f: T -> real)
    requires |s| > 0 && NoDup(ks)
    ensures SumGroups(ks, s, key, f)
         == SumGroups(ks, s[1..], key, f) + (if key(s[0]) in ks then f(s[0]) else 0.0)
  {
    if |ks| > 0 {
      assert NoDup(ks[1..]);
      SumGroupsCons(ks[1..], s, key, f);
      if key(s[0]) == ks[0] {
        assert key(s[0]) !in ks[1..];
        var g := Group(s[1..], key, ks[0]);
        assert Group(s, key, ks[0]) == [s[0]] + g;
        assert ([s[0]] + g)[1..] == g;
      } else {
        assert key(s[0]) in ks <==> key(s[0]) in ks[1..];
      }
    }
  }

  /** Mass preservation of a group-by: when `ks` lists every key once, the
      per-group sums add up to the sum over all rows. */
  lemma {:induction false} GroupsPreserveSum<T, K>(ks: seq<K>, s: seq<T>, key: T -> K, f: T -> real)
    requires NoDup(ks)
    requires forall i :: 0 <= i < |s| ==> key(s[i]) in ks
    ensures SumGroups(ks, s, key, f) == Sum(s, f)
  {
    if |s| == 0 {
      SumGroupsEmpty(ks, s, key, f);
    } else {
      SumGroupsCons(ks, s, key, f);
      GroupsPreserveSum(ks, s[1..], key, f);
    }
  }

  lemma {:induction false} NoDupMultiplicity<K>(s: seq<K>, x: K)
    requires NoDup(s)
    ensures multiset(s)[x] <= 1
  {
    if |s| > 0 {
      assert s == [s[0]] + s[1..];
      assert NoDup(s[1..]);
      NoDupMultiplicity(s[1..], x);
      if s[0] == x {
        assert x !in s[1..];
      }
    }
  }

  lemma MultiplicityNoDup<K>(s: seq<K>)
    requires forall x :: multiset(s)[x] <= 1
    ensures NoDup(s)
  {
    forall i, j | 0 <= i < j < |s|
      ensures s[i] != s[j]
    {
      var x := s[i];
      assert s == s[..i] + [x] + s[i + 1..];
      assert multiset(s)[x] == multiset(s[..i])[x] + 1 + multiset(s[i + 1..])[x];
      assert s[j] == s[i + 1..][j - i - 1];
      assert multiset(s[i + 1..])[s[j]] >= 1;
    }
  }

  /** Reordering a list without repetitions leaves it without repetitions. */
  lemma PermutationNoDup<K>(a: seq<K>, b: seq<K>)
    requires multiset(a) == multiset(b)
    requires NoDup(a)
    ensures NoDup(b)
  {
    forall x
      ensures multiset(b)[x] <= 1
    {
      NoDupMultiplicity(a, x);
    }
    MultiplicityNoDup(b);
  }

  /** Lexicographic order on keys: Python's ordering of tuples, and of
      strings compared by code point. A proper prefix comes first. */
  predicate LexLe(a: seq<real>, b: seq<real>)
  {
    |a| == 0 || (|b| > 0 && (a[0] < b[0] || (a[0] == b[0] && LexLe(a[1..], b[1..]))))
  }

  lemma {:induction false} LexTotal(a: seq<real>, b: seq<real>)
    ensures LexLe(a, b) || LexLe(b, a)
  {
    if |a| > 0 && |b| > 0 && a[0] == b[0] {
      LexTotal(a[1..], b[1..]);
    }
  }

  lemma {:induction false} LexTrans(a: seq<real>, b: seq<real>, c: seq<real>)
    requires LexLe(a, b) && LexLe(b, c)
    ensures LexLe(a, c)
  {
    if |a| > 0 && |b| > 0 && |c| > 0 && a[0] == b[0] && b[0] == c[0] {
      LexTrans(a[1..], b[1..], c[1..]);
    }
  }

  /** Lexicographic order on one-element keys is the order of the element. */
  lemma LexSingle(a: real, b: real)
    requires LexLe([a], [b])
    ensures a <= b
  {
    assert [a][1..] == [];
  }

  /** Lexicographic order on pairs: first component, then second. */
  lemma LexPair(a1: real, a2: real, b1: real, b2: real)
    requires LexLe([a1, a2], [b1, b2])
    ensures a1 < b1 || (a1 == b1 && a2 <= b2)
  {
    assert [a1, a2][1..] == [a2];
    assert [b1, b2][1..] == [b2];
    if a1 == b1 {
      LexSingle(a2, b2);
    }
  }

  /** Each row's key is at most its successor's key. */
  predicate SortedBy<T>(s: seq<T>, key: T -> seq<real>)
  {
    forall i :: 0 <= i < |s| - 1 ==> LexLe(key(s[i]), key(s[i + 1]))
  }

  function Insert<T>(x: T, s: seq<T>, key: T -> seq<real>): (r: seq<T>)
    requires SortedBy(s, key)
    ensures multiset(r) == multiset(s) + multiset{x}
    ensures SortedBy(r, key)
    ensures |r| == |s| + 1
    ensures r[0] == x || (|s| > 0 && r[0] == s[0])
  {
    if |s| == 0 then [x]
    else if LexLe(key(x), key(s[0])) then [x] + s
    else
      LexTotal(key(x), key(s[0]));
      assert s == [s[0]] + s[1..];
      [s[0]] + Insert(x, s[1..], key)
  }

  /** The rows of `s` reordered so that keys ascend. */
  function SortBy<T>(s: seq<T>, key: T -> seq<real>): (r: seq<T>)
    ensures multiset(r) == multiset(s)
    ensures SortedBy(r, key)
  {
    if |s| == 0 then []
    else
      assert s == [s[0]] + s[1..];
      Insert(s[0], SortBy(s[1..], key), key)
  }

  /** Adjacent order extends to every pair of positions. */
  lemma {:induction false} SortedByPairwise<T>(s: seq<T>, key: T -> seq<real>, i: int, j: int)
    requires SortedBy(s, key)
    requires 0 <= i <= j < |s|
    ensures LexLe(key(s[i]), key(s[j]))
    decreases j - i
  {
    if i == j {
      LexRefl(key(s[i]));
    } else {
      SortedByPairwise(s, key, i + 1, j);
      LexTrans(key(s[i]), key(s[i + 1]), key(s[j]));
    }
  }

  lemma {:induction false} LexRefl(a: seq<real>)
    ensures LexLe(a, a)
  {
    if |a| > 0 {
      LexRefl(a[1..]);
    }
  }

  /** Key of a string compared by code point, as Python compares `str`. */
  function StrKey(s: string): (r: seq<real>)
    ensures |r| == |s|
    ensures forall i :: 0 <= i < |s| ==> r[i] == (s[i] as int) as real
  {
    seq(|s|, i requires 0 <= i < |s| => (s[i] as int) as real)
  }

  /** The rows that pass `p`, sorted by `key`: a filter then a sort. */
  function SelectSorted<T(!new)>(s: seq<T>, p: T -> bool, key: T -> seq<real>): (r: seq<T>)
    ensures SortedBy(r, key)
    ensures multiset(r) == multiset(Filter(s, p))
    ensures forall i :: 0 <= i < |r| ==> p(r[i])
    ensures forall i :: 0 <= i < |s| && p(s[i]) ==> s[i] in r
    ensures forall i :: 0 <= i < |r| ==> r[i] in s
    ensures forall x :: multiset(r)[x] == if p(x) then multiset(s)[x] else 0
  {
    var kept := Filter(s, p);
    var r := SortBy(kept, key);
    PermutationMembers(kept, r);
    FilterMask(s, p);
    r
  }

  /** Every earlier row of a sorted sequence has a key at most a later one's. */
  lemma SortedAll<T>(s: seq<T>, key: T -> seq<real>)
    requires SortedBy(s, key)
    ensures forall i, j :: 0 <= i <= j < |s| ==> LexLe(key(s[i]), key(s[j]))
  {
    forall i, j | 0 <= i <= j < |s|
      ensures LexLe(key(s[i]), key(s[j]))
    {
      SortedByPairwise(s, key, i, j);
    }
  }

  /** Python's `a <= b` on strings: code point by code point, a proper
      prefix first. */
  predicate StrLe(a: string, b: string)
  {
    |a| == 0 || (|b| > 0 && (a[0] < b[0] || (a[0] == b[0] && StrLe(a[1..], b[1..]))))
  }

  /** Sorting by `StrKey` is sorting in Python's string order. */
  lemma {:induction false} StrKeyOrder(a: string, b: string)
    ensures LexLe(StrKey(a), StrKey(b)) <==> StrLe(a, b)
  {
    if |a| > 0 && |b| > 0 {
      assert StrKey(a)[1..] == StrKey(a[1..]);
      assert StrKey(b)[1..] == StrKey(b[1..]);
      assert (a[0] as int) as real < (b[0] as int) as real <==> a[0] < b[0];
      StrKeyOrder(a[1..], b[1..]);
    }
  }

  /** Key that sorts strings in descending Python order: negated code
      points, closed by a mark above every negated code point so that a
      longer string comes before its prefix. */
  function StrKeyDesc(s: string): (r: seq<real>)
    ensures |r| == |s| + 1
  {
    seq(|s|, i requires 0 <= i < |s| => -((s[i] as int) as real)) + [1.0]
  }

  lemma {:induction false} StrKeyDescOrder(a: string, b: string)
    requires LexLe(StrKeyDesc(a), StrKeyDesc(b))
    ensures StrLe(b, a)
  {
    var ka := StrKeyDesc(a);
    var kb := StrKeyDesc(b);
    if |a| > 0 && |b| > 0 {
      assert ka[0] == -((a[0] as int) as real) && kb[0] == -((b[0] as int) as real);
      if ka[0] == kb[0] {
        assert ka[1..] == StrKeyDesc(a[1..]);
        assert kb[1..] == StrKeyDesc(b[1..]);
        StrKeyDescOrder(a[1..], b[1..]);
      }
    }
  }

  /** Largest element of a non-empty list of integers. */
  function MaxInt(s: seq<int>): (m: int)
    requires |s| > 0
    ensures m in s
    ensures forall i :: 0 <= i < |s| ==> s[i] <= m
  {
    if |s| == 1 then s[0]
    else
      var t := MaxInt(s[1..]);
      assert s == [s[0]] + s[1..];
      if s[0] >= t then s[0] else t
  }

  /** A new row's id: one above the largest id, or 1 for an empty table. */
  function NextId<T>(rows: seq<T>, id: T -> int): (r: int)
    ensures forall i :: 0 <= i < |rows| ==> id(rows[i]) < r
    ensures |rows| == 0 ==> r == 1
    ensures |rows| > 0 ==> exists i :: 0 <= i < |rows| && id(rows[i]) == r - 1
  {
    if |rows| == 0 then 1
    else
      var ids := seq(|rows|, i requires 0 <= i < |rows| => id(rows[i]));
      assert forall i :: 0 <= i < |rows| ==> ids[i] == id(rows[i]);
      MaxInt(ids) + 1
  }

  /** Largest element of a non-empty list of reals. */
  function MaxReal(s: seq<real>): (m: real)
    requires |s| > 0
    ensures m in s
    ensures forall i :: 0 <= i < |s| ==> s[i] <= m
  {
    if |s| == 1 then s[0]
    else
      var t := MaxReal(s[1..]);
      assert s == [s[0]] + s[1..];
      if s[0] >= t then s[0] else t
  }

  /** Smallest element of a non-empty list of reals. */
  function MinReal(s: seq<real>): (m: real)
    requires |s| > 0
    ensures m in s
    ensures forall i :: 0 <= i < |s| ==> m <= s[i]
  {
    if |s| == 1 then s[0]
    else
      var t := MinReal(s[1..]);
      assert s == [s[0]] + s[1..];
      if s[0] <= t then s[0] else t
  }

  /** Position of the first element satisfying `p`: what pandas'
      `df[mask].iloc[0]` selects. */
  function FirstIndex<T>(s: seq<T>, p: T -> bool): (r: Option<nat>)
    ensures r.Some? ==> r.value < |s| && p(s[r.value]) && forall j :: 0 <= j < r.value ==> !p(s[j])
    ensures r.None? ==> forall j :: 0 <= j < |s| ==> !p(s[j])
  {
    if |s| == 0 then None
    else if p(s[0]) then Some(0)
    else match FirstIndex(s[1..], p)
      case None => None
      case Some(k) => Some(k + 1)
  }

  /** Number of elements satisfying `p`. */
  function Count<T>(s: seq<T>, p: T -> bool): (n: nat)
    ensures n <= |s|
    ensures n == 0 <==> forall i :: 0 <= i < |s| ==> !p(s[i])
    ensures n == |s| <==> forall i :: 0 <= i < |s| ==> p(s[i])
  {
    if |s| == 0 then 0
    else (if p(s[0]) then 1 else 0) + Count(s[1..], p)
  }

  function Indicator<T>(p: T -> bool): T -> real
  {
    x => if p(x) then 1.0 else 0.0
  }

  /** Counting is summing an indicator. */
  lemma {:induction false} CountAsSum<T>(s: seq<T>, p: T -> bool)
    ensures Count(s, p) as real == Sum(s, Indicator(p))
  {
    if |s| > 0 {
      CountAsSum(s[1..], p);
    }
  }

  /** Counting does not depend on the order of the rows. */
  lemma CountPermutation<T>(a: seq<T>, b: seq<T>, p: T -> bool)
    requires multiset(a) == multiset(b)
    ensures Count(a, p) == Count(b, p)
  {
    CountAsSum(a, p);
    CountAsSum(b, p);
    SumPermutation(a, b, Indicator(p));
  }

  /** Position of the last element satisfying `p`, if any. */
  function LastIndex<T>(s: seq<T>, p: T -> bool): (r: Option<nat>)
    ensures r.Some? ==> r.value < |s| && p(s[r.value]) && forall j :: r.value < j < |s| ==> !p(s[j])
    ensures r.None? ==> forall j :: 0 <= j < |s| ==> !p(s[j])
  {
    if |s| == 0 then None
    else if p(s[|s| - 1]) then Some(|s| - 1)
    else LastIndex(s[..|s| - 1], p)
  }

  /** `r` is a subsequence of `s`: its elements occur in `s` in the same
      order, each at its own position. */
  predicate Embeds<T(==)>(r: seq<T>, s: seq<T>)
    decreases |s|
  {
    if |r| == 0 then true
    else if |s| == 0 then false
    else if r[0] == s[0] then Embeds(r[1..], s[1..])
    else Embeds(r, s[1..])
  }

  /** Dropping the first element of a subsequence keeps it one. */
  lemma {:induction false} EmbedsTail<T>(r: seq<T>, s: seq<T>)
    requires |r| > 0 && Embeds(r, s)
    ensures Embeds(r[1..], s)
    decreases |s|
  {
    if r[0] == s[0] {
      if |r| > 1 {
        EmbedsTail(r[1..], s[1..]);
        assert r[1..][1..] == r[2..];
      }
    } else {
      EmbedsTail(r, s[1..]);
      if |r| > 1 && r[1] == s[0] {
        assert Embeds(r[1..][1..], s[1..]) by {
          EmbedsTail(r[1..], s[1..]);
        }
      }
    }
  }

  /** A filter keeps the order of the sequence it filters. */
  lemma {:induction false} FilterEmbeds<T>(s: seq<T>, p: T -> bool)
    ensures Embeds(Filter(s, p), s)
  {
    if |s| > 0 {
      var rest := Filter(s[1..], p);
      FilterEmbeds(s[1..], p);
      FilterHead(s, p);
      if p(s[0]) {
        assert ([s[0]] + rest)[1..] == rest;
      } else {
        assert Filter(s, p) == [] + rest == rest;
        if |rest| > 0 {
          assert p(rest[0]);
        }
      }
    }
  }

  /** A filter keeps every passing element as often as it occurs, and no
      other. */
  lemma {:induction false} FilterMultiplicity<T>(s: seq<T>, p: T -> bool, x: T)
    ensures multiset(Filter(s, p))[x] == if p(x) then multiset(s)[x] else 0
  {
    if |s| > 0 {
      FilterMultiplicity(s[1..], p, x);
      FilterHead(s, p);
      assert s == [s[0]] + s[1..];
    }
  }

  /** Every sequence is a subsequence of itself. */
  lemma {:induction false} EmbedsRefl<T>(s: seq<T>)
    ensures Embeds(s, s)
  {
    if |s| > 0 {
      EmbedsRefl(s[1..]);
    }
  }

  /** A filter behaves as a pandas boolean mask: it keeps the order of
      `s`, and every passing element as often as it occurs there and no
      other. */
  lemma FilterMask<T>(s: seq<T>, p: T -> bool)
    ensures Embeds(Filter(s, p), s)
    ensures forall x :: multiset(Filter(s, p))[x] == if p(x) then multiset(s)[x] else 0
  {
    FilterEmbeds(s, p);
    forall x
      ensures multiset(Filter(s, p))[x] == if p(x) then multiset(s)[x] else 0
    {
      FilterMultiplicity(s, p, x);
    }
  }

  /** Filtering what was already filtered keeps everything. */
  lemma {:induction false} FilterIdempotent<T>(s: seq<T>, p: T -> bool)
    ensures Filter(Filter(s, p), p) == Filter(s, p)
  {
    if |s| > 0 {
      FilterIdempotent(s[1..], p);
      var rest := Filter(s[1..], p);
      if p(s[0]) {
        assert Filter(s, p) == [s[0]] + rest;
        assert ([s[0]] + rest)[1..] == rest;
      } else {
        assert Filter(s, p) == rest;
      }
    }
  }

  /** A filter every element passes keeps the sequence as it is. */
  lemma {:induction false} FilterAll<T>(s: seq<T>, p: T -> bool)
    requires forall i :: 0 <= i < |s| ==> p(s[i])
    ensures Filter(s, p) == s
  {
    if |s| > 0 {
      FilterAll(s[1..], p);
      assert s == [s[0]] + s[1..];
    }
  }

  function IntKey(x: int): seq<real>
  {
    [x as real]
  }

  /** Ascending integers without repetitions. */
  predicate StrictlyIncreasing(s: seq<int>)
  {
    forall i :: 0 <= i < |s| - 1 ==> s[i] < s[i + 1]
  }

  lemma SortedIntsStrict(r: seq<int>)
    requires SortedBy(r, IntKey) && NoDup(r)
    ensures StrictlyIncreasing(r)
  {
    forall i | 0 <= i < |r| - 1
      ensures r[i] < r[i + 1]
    {
      assert LexLe(IntKey(r[i]), IntKey(r[i + 1]));
      LexSingle(r[i] as real, r[i + 1] as real);
    }
  }

  /** Reordering keeps membership both ways. */
  lemma PermutationMembers<T>(a: seq<T>, b: seq<T>)
    requires multiset(a) == multiset(b)
    ensures forall i :: 0 <= i < |a| ==> a[i] in b
    ensures forall i :: 0 <= i < |b| ==> b[i] in a
    ensures |a| == |b|
  {
    assert |a| == |multiset(a)| == |multiset(b)| == |b|;
    forall i | 0 <= i < |a|
      ensures a[i] in b
    {
      assert a[i] in multiset(a);
    }
    forall i | 0 <= i < |b|
      ensures b[i] in a
    {
      assert b[i] in multiset(b);
    }
  }

  /** `sorted(xs.unique())`: the distinct values of `xs`, ascending. */
  function SortedDistinct(xs: seq<int>): (r: seq<int>)
    ensures StrictlyIncreasing(r) && NoDup(r)
    ensures forall i :: 0 <= i < |xs| ==> xs[i] in r
    ensures forall i :: 0 <= i < |r| ==> r[i] in xs
    ensures |r| <= |xs|
  {
    var d := Dedup(xs);
    var r := SortBy(d, IntKey);
    PermutationNoDup(d, r);
    PermutationMembers(d, r);
    SortedIntsStrict(r);
    r
  }

  /** The distinct values are the values. */
  lemma SortedDistinctMembers(xs: seq<int>, y: int)
    ensures y in SortedDistinct(xs) <==> y in xs
  {
    var r := SortedDistinct(xs);
    if y in r {
      var k :| 0 <= k < |r| && r[k] == y;
    }
    if y in xs {
      var k :| 0 <= k < |xs| && xs[k] == y;
    }
  }

  /** `sorted(set(names))`: the distinct strings, in Python string order. */
  function SortedStrings(xs: seq<string>): (r: seq<string>)
    ensures NoDup(r)
    ensures forall i :: 0 <= i < |xs| ==> xs[i] in r
    ensures forall i :: 0 <= i < |r| ==> r[i] in xs
    ensures forall i, j :: 0 <= i <= j < |r| ==> StrLe(r[i], r[j])
  {
    var d := Dedup(xs);
    var r := SortBy(d, StrKey);
    PermutationNoDup(d, r);
    PermutationMembers(d, r);
    SortedAll(r, StrKey);
    forall i, j | 0 <= i <= j < |r|
      ensures StrLe(r[i], r[j])
    {
      StrKeyOrder(r[i], r[j]);
    }
    r
  }

  /** The members of a filter are the members that pass it. */
  lemma FilterMembers<T>(s: seq<T>, p: T -> bool)
    ensures forall x :: x in Filter(s, p) <==> x in s && p(x)
  {
    forall x | x in Filter(s, p)
      ensures x in s && p(x)
    {
      var i :| 0 <= i < |Filter(s, p)| && Filter(s, p)[i] == x;
    }
    forall x | x in s && p(x)
      ensures x in Filter(s, p)
    {
      var i :| 0 <= i < |s| && s[i] == x;
    }
  }

  /** Nothing passes a filter that no element satisfies. */
  /** A filter is empty exactly when no element passes. */
  lemma FilterEmpty<T>(s: seq<T>, p: T -> bool)
    ensures |Filter(s, p)| == 0 <==> forall i :: 0 <= i < |s| ==> !p(s[i])
  {
    var r := Filter(s, p);
    if |r| > 0 {
      var i :| 0 <= i < |s| && s[i] == r[0];
      assert p(s[i]);
    }
  }

  lemma FilterNone<T>(s: seq<T>, p: T -> bool)
    requires forall i :: 0 <= i < |s| ==> !p(s[i])
    ensures Filter(s, p) == []
  {
  }

  /** The first components of lexicographically ordered keys are ordered. */
  lemma LexHead(a: seq<real>, b: seq<real>)
    requires LexLe(a, b) && |a| > 0
    ensures |b| > 0 && a[0] <= b[0]
  {
  }

  /** Rows whose key is one of `ks`. */
  function KeyIn<T, K(==)>(key: T -> K, ks: seq<K>): T -> bool
  {
    (x: T) => key(x) in ks
  }

  /** Summing the groups of some distinct keys is summing the rows whose
      key is among them. */
  lemma {:induction false} SumGroupsFiltered<T, K>(ks: seq<K>, s: seq<T>, key: T -> K, f: T -> real)
    requires NoDup(ks)
    ensures SumGroups(ks, s, key, f) == Sum(Filter(s, KeyIn(key, ks)), f)
  {
    if |s| == 0 {
      SumGroupsEmpty(ks, s, key, f);
    } else {
      SumGroupsCons(ks, s, key, f);
      SumGroupsFiltered(ks, s[1..], key, f);
      var rest := Filter(s[1..], KeyIn(key, ks));
      if KeyIn(key, ks)(s[0]) {
        assert Filter(s, KeyIn(key, ks)) == [s[0]] + rest;
        assert ([s[0]] + rest)[1..] == rest;
      } else {
        assert Filter(s, KeyIn(key, ks)) == rest;
      }
    }
  }

  /** The elements passing both `p` and `q`. */
  function Both<T>(p: T -> bool, q: T -> bool): T -> bool
  {
    (x: T) => p(x) && q(x)
  }

  /** Two filters in a row are one filter by both predicates. */
  lemma {:induction false} FilterFilter<T>(s: seq<T>, p: T -> bool, q: T -> bool)
    ensures Filter(Filter(s, p), q) == Filter(s, Both(p, q))
  {
    if |s| > 0 {
      FilterFilter(s[1..], p, q);
      var rest := Filter(s[1..], p);
      if p(s[0]) {
        assert Filter(s, p) == [s[0]] + rest;
        assert ([s[0]] + rest)[1..] == rest;
      } else {
        assert Filter(s, p) == rest;
      }
    }
  }

  /** Filters by predicates that agree on every element of `s` agree. */
  lemma {:induction false} FilterAgree<T>(s: seq<T>, p: T -> bool, q: T -> bool)
    requires forall i :: 0 <= i < |s| ==> p(s[i]) == q(s[i])
    ensures Filter(s, p) == Filter(s, q)
  {
    if |s| > 0 {
      FilterAgree(s[1..], p, q);
    }
  }

  function KeyIs<T, K(==)>(key: T -> K, k: K): T -> bool
  {
    (x: T) => key(x) == k
  }

  /** A group is the filter by its key. */
  lemma {:induction false} GroupIsFilter<T, K>(s: seq<T>, key: T -> K, k: K)
    ensures Group(s, key, k) == Filter(s, KeyIs(key, k))
  {
    if |s| > 0 {
      GroupIsFilter(s[1..], key, k);
    }
  }

  /** A group of a filtered table is the filter by the conjunction of
      the two conditions, stated as one predicate `q`. */
  lemma GroupOfFilter<T, K>(s: seq<T>, p: T -> bool, key: T -> K, k: K, q: T -> bool)
    requires forall i :: 0 <= i < |s| ==> (p(s[i]) && key(s[i]) == k) == q(s[i])
    ensures Group(Filter(s, p), key, k) == Filter(s, q)
  {
    GroupIsFilter(Filter(s, p), key, k);
    FilterFilter(s, p, KeyIs(key, k));
    FilterAgree(s, Both(p, KeyIs(key, k)), q);
  }

  /** Filtering a non-empty sequence: its head, if it passes, then the
      filtered tail. */
  lemma FilterHead<T>(s: seq<T>, p: T -> bool)
    requires |s| > 0
    ensures Filter(s, p) == (if p(s[0]) then [s[0]] else []) + Filter(s[1..], p)
  {
  }

  /** Filtering a concatenation filters each part. */
  lemma {:induction false} FilterAppend<T>(a: seq<T>, b: seq<T>, p: T -> bool)
    ensures Filter(a + b, p) == Filter(a, p) + Filter(b, p)
  {
    if |a| == 0 {
      assert a + b == b;
    } else {
      var ab := a + b;
      assert ab[0] == a[0] && ab[1..] == a[1..] + b;
      FilterAppend(a[1..], b, p);
      var h := if p(a[0]) then [a[0]] else [];
      calc {
        Filter(ab, p);
        { FilterHead(ab, p); }
        h + Filter(a[1..] + b, p);
        h + (Filter(a[1..], p) + Filter(b, p));
        (h + Filter(a[1..], p)) + Filter(b, p);
        { FilterHead(a, p); }
        Filter(a, p) + Filter(b, p);
      }
    }
  }

  /** Keys distinct along `s` stay distinct along any filter of it. */
  lemma {:induction false} FilterKeepsDistinct<T>(s: seq<T>, p: T -> bool, key: T -> int)
    requires forall i, j :: 0 <= i < j < |s| ==> key(s[i]) != key(s[j])
    ensures forall i, j :: 0 <= i < j < |Filter(s, p)| ==> key(Filter(s, p)[i]) != key(Filter(s, p)[j])
  {
    if |s| > 0 {
      var rest := Filter(s[1..], p);
      FilterKeepsDistinct(s[1..], p, key);
      forall x | x in rest
        ensures key(x) != key(s[0])
      {
        var k :| 0 <= k < |s[1..]| && s[1..][k] == x;
        assert s[k + 1] == x;
      }
      if p(s[0]) {
        var r := [s[0]] + rest;
        forall i, j | 0 <= i < j < |r|
          ensures key(r[i]) != key(r[j])
        {
          if i == 0 {
            assert r[j] == rest[j - 1] && r[j] in rest;
          } else {
            assert r[i] == rest[i - 1] && r[j] == rest[j - 1];
          }
        }
      }
    }
  }

  /** `s` back to front. */
  function Reversed(s: seq<int>): (r: seq<int>)
    ensures |r| == |s|
    ensures forall i :: 0 <= i < |s| ==> r[i] == s[|s| - 1 - i]
  {
    seq(|s|, i requires 0 <= i < |s| => s[|s| - 1 - i])
  }

  /** Reversing keeps the elements. */
  lemma ReversedMembers(s: seq<int>)
    ensures forall x :: x in Reversed(s) <==> x in s
  {
    var r := Reversed(s);
    forall x | x in s
      ensures x in r
    {
      var k :| 0 <= k < |s| && s[k] == x;
      assert r[|s| - 1 - k] == x;
    }
  }

  /** Reversing an ascending list gives a descending one. */
  lemma ReversedDescending(s: seq<int>)
    requires StrictlyIncreasing(s)
    ensures forall i, j :: 0 <= i < j < |Reversed(s)| ==> Reversed(s)[i] > Reversed(s)[j]
  {
    var r := Reversed(s);
    forall i, j | 0 <= i < j < |r|
      ensures r[i] > r[j]
    {
      StrictBefore(s, |s| - 1 - j, |s| - 1 - i);
    }
  }

  /** The last element of an ascending list is its largest. */
  lemma StrictMax(s: seq<int>)
    requires StrictlyIncreasing(s) && |s| > 0
    ensures forall y :: y in s ==> y <= s[|s| - 1]
  {
    forall y | y in s
      ensures y <= s[|s| - 1]
    {
      var k :| 0 <= k < |s| && s[k] == y;
      if k < |s| - 1 {
        StrictBefore(s, k, |s| - 1);
      }
    }
  }

  /** Along an ascending list, an earlier element is smaller. */
  lemma {:induction false} StrictBefore(s: seq<int>, a: int, b: int)
    requires StrictlyIncreasing(s) && 0 <= a < b < |s|
    ensures s[a] < s[b]
  {
    if a < b - 1 {
      StrictBefore(s, a, b - 1);
    }
  }

  /** Filtering a list with one more element. */
  lemma {:induction false} FilterSnoc<T>(s: seq<T>, x: T, p: T -> bool)
    ensures Filter(s + [x], p) == Filter(s, p) + (if p(x) then [x] else [])
  {
    if |s| == 0 {
      assert [x][1..] == [];
    } else {
      assert (s + [x])[1..] == s[1..] + [x];
      FilterSnoc(s[1..], x, p);
    }
  }

  /** Grouping a list with one more element. */
  lemma {:induction false} GroupSnoc<T, K>(s: seq<T>, x: T, key: T -> K, k: K)
    ensures Group(s + [x], key, k) == Group(s, key, k) + (if key(x) == k then [x] else [])
  {
    if |s| == 0 {
      assert [x][1..] == [];
    } else {
      assert (s + [x])[1..] == s[1..] + [x];
      GroupSnoc(s[1..], x, key, k);
    }
  }

  /** The sum over a filter, one element at a time. */
  lemma SumFilterHead<T>(s: seq<T>, p: T -> bool, f: T -> real)
    requires |s| > 0
    ensures Sum(Filter(s, p), f) == (if p(s[0]) then f(s[0]) else 0.0) + Sum(Filter(s[1..], p), f)
  {
    var rest := Filter(s[1..], p);
    if p(s[0]) {
      assert Filter(s, p) == [s[0]] + rest;
      assert ([s[0]] + rest)[1..] == rest;
    } else {
      assert Filter(s, p) == rest;
    }
  }

  /** The last of a strictly increasing list is its largest element. */
  lemma {:induction false} StrictLast(s: seq<int>)
    requires StrictlyIncreasing(s) && |s| > 0
    ensures forall i :: 0 <= i < |s| ==> s[i] <= s[|s| - 1]
  {
    if |s| > 1 {
      StrictLast(s[..|s| - 1]);
    }
  }

  lemma SortedIntsNoDup(s: seq<int>)
    requires StrictlyIncreasing(s)
    ensures NoDup(s)
  {
    forall i, j | 0 <= i < j < |s|
      ensures s[i] != s[j]
    {
      StrictLast(s[..j]);
      assert s[..j][i] == s[i];
      assert s[..j][j - 1] == s[j - 1];
    }
  }

  /** The sum of a list with one more element in front. */
  lemma SumOne<T>(x: T, rest: seq<T>, f: T -> real)
    ensures Sum([x] + rest, f) == f(x) + Sum(rest, f)
  {
    assert ([x] + rest)[1..] == rest;
  }

  /** The defined results of `f` over `ks`, in the order of `ks`. */
  function Collect<K, R>(ks: seq<K>, f: K -> Option<R>): (r: seq<R>)
    ensures |r| <= |ks|
    ensures forall i :: 0 <= i < |r| ==> exists n :: 0 <= n < |ks| && f(ks[n]) == Some(r[i])
  {
    if |ks| == 0 then []
    else
      var rest := Collect(ks[1..], f);
      assert forall n :: 1 <= n < |ks| ==> ks[n] == ks[1..][n - 1];
      if f(ks[0]).Some? then [f(ks[0]).value] + rest else rest
  }

  /** Every present result of `f` over `ks` is collected. */
  lemma {:induction false} CollectCovers<K, R>(ks: seq<K>, f: K -> Option<R>)
    ensures forall n :: 0 <= n < |ks| && f(ks[n]).Some? ==> f(ks[n]).value in Collect(ks, f)
  {
    if |ks| > 0 {
      CollectCovers(ks[1..], f);
      assert forall n :: 1 <= n < |ks| ==> ks[n] == ks[1..][n - 1];
    }
  }

  lemma SortedCons<T>(x: T, rest: seq<T>, key: T -> seq<real>)
    requires SortedBy(rest, key)
    requires |rest| > 0 ==> LexLe(key(x), key(rest[0]))
    ensures SortedBy([x] + rest, key)
  {
    var r := [x] + rest;
    forall i | 0 <= i < |r| - 1
      ensures LexLe(key(r[i]), key(r[i + 1]))
    {
      if i > 0 {
        assert r[i] == rest[i - 1] && r[i + 1] == rest[i];
      }
    }
  }

  /** Collecting over keys in order keeps the order, when each result
      carries its key's sort key. */
  lemma {:induction false} CollectSorted<K, R>(ks: seq<K>, f: K -> Option<R>, key: K -> seq<real>, rkey: R -> seq<real>)
    requires SortedBy(ks, key)
    requires forall n :: 0 <= n < |ks| && f(ks[n]).Some? ==> rkey(f(ks[n]).value) == key(ks[n])
    ensures SortedBy(Collect(ks, f), rkey)
  {
    if |ks| > 0 {
      var tail := ks[1..];
      assert SortedBy(tail, key) by {
        forall i | 0 <= i < |tail| - 1
          ensures LexLe(key(tail[i]), key(tail[i + 1]))
        {
          assert tail[i] == ks[i + 1] && tail[i + 1] == ks[i + 2];
        }
      }
      assert forall n :: 0 <= n < |tail| && f(tail[n]).Some? ==> rkey(f(tail[n]).value) == key(tail[n]) by {
        forall n | 0 <= n < |tail| && f(tail[n]).Some?
          ensures rkey(f(tail[n]).value) == key(tail[n])
        {
          assert tail[n] == ks[n + 1];
        }
      }
      CollectSorted(tail, f, key, rkey);
      var rest := Collect(tail, f);
      if f(ks[0]).Some? {
        if |rest| > 0 {
          var n :| 0 <= n < |tail| && f(tail[n]) == Some(rest[0]);
          assert tail[n] == ks[n + 1];
          SortedByPairwise(ks, key, 0, n + 1);
        }
        SortedCons(f(ks[0]).value, rest, rkey);
      }
    }
  }

  /** When different keys never give the same result, collecting over
      distinct keys gives distinct results. */
  lemma {:induction false} CollectNoDup<K, R>(ks: seq<K>, f: K -> Option<R>)
    requires NoDup(ks)
    requires forall a, b :: a in ks && b in ks && f(a).Some? && f(a) == f(b) ==> a == b
    ensures NoDup(Collect(ks, f))
  {
    if |ks| > 0 {
      var rest := Collect(ks[1..], f);
      CollectNoDup(ks[1..], f);
      if f(ks[0]).Some? {
        forall j | 0 <= j < |rest|
          ensures rest[j] != f(ks[0]).value
        {
          var n :| 0 <= n < |ks[1..]| && f(ks[1..][n]) == Some(rest[j]);
          assert ks[1..][n] == ks[n + 1] != ks[0];
        }
        var r := [f(ks[0]).value] + rest;
        forall i, j | 0 <= i < j < |r|
          ensures r[i] != r[j]
        {
          if i > 0 {
            assert r[i] == rest[i - 1] && r[j] == rest[j - 1];
          }
        }
      }
    }
  }

  /** Filtering a list without repetitions keeps it without repetitions. */
  lemma {:induction false} FilterNoDup<T>(s: seq<T>, p: T -> bool)
    requires NoDup(s)
    ensures NoDup(Filter(s, p))
  {
    if |s| > 0 {
      assert NoDup(s[1..]);
      FilterNoDup(s[1..], p);
      assert s[0] !in s[1..];
      if p(s[0]) {
        assert s[0] !in Filter(s[1..], p);
      }
    }
  }

  /** Counting by a predicate is the size of the filter by an equal one. */
  lemma {:induction false} CountIsFilterSize<T>(s: seq<T>, p: T -> bool, q: T -> bool)
    requires forall x :: p(x) == q(x)
    ensures Count(s, p) == |Filter(s, q)|
  {
    if |s| > 0 {
      CountIsFilterSize(s[1..], p, q);
    }
  }

  /** Nothing passes the filter exactly when nothing is counted. */
  lemma CountFilterEmpty<T>(s: seq<T>, p: T -> bool)
    ensures |Filter(s, p)| == 0 <==> Count(s, p) == 0
  {
    if |Filter(s, p)| > 0 {
      var x := Filter(s, p)[0];
      assert x in s && p(x);
    }
  }

  /** A position where `p` holds and holds nowhere before is the first. */
  lemma FirstIndexUnique<T>(s: seq<T>, p: T -> bool, k: nat)
    requires k < |s| && p(s[k]) && forall j :: 0 <= j < k ==> !p(s[j])
    ensures FirstIndex(s, p) == Some(k)
  {
  }
}

=== FILE: stability.dfy ===
/** The agent's yield analysis and stability ranking: the coefficient of
    variation of yields, per selection of business and crop, and per
    (field, crop) pair ranked from the most to the least variable.
    The standard deviation itself is a parameter `std`. */
module Stability {
  import opened Wrappers
  import opened Seqs
  import opened Records
  import opened Numeric
  import opened Text
  import Trend

  /** The coefficient of variation in percent: standard deviation over
      mean, and 0 when the mean is not positive. */
  function Cv(mean: real, sd: real): (cv: real)
    ensures mean <= 0.0 ==> cv == 0.0
    ensures mean > 0.0 ==> Mul(cv, mean) == 100.0 * sd
    ensures mean > 0.0 && sd >= 0.0 ==> cv >= 0.0
  {
    if mean > 0.0 then
      DivCancel(sd, mean);
      sd / mean * 100.0
    else 0.0
  }

  function Mean(ys: seq<real>): real
    requires |ys| > 0
  {
    Sum(ys, Self) / |ys| as real
  }

  lemma {:induction false} SumWithin(ys: seq<real>, lo: real, hi: real)
    requires forall i :: 0 <= i < |ys| ==> lo <= ys[i] <= hi
    ensures Mul(|ys| as real, lo) <= Sum(ys, Self) <= Mul(|ys| as real, hi)
  {
    if |ys| == 0 {
      assert Mul(0.0, lo) == 0.0 && Mul(0.0, hi) == 0.0;
    } else {
      SumWithin(ys[1..], lo, hi);
      MulAddOne(|ys[1..]| as real, lo);
      MulAddOne(|ys[1..]| as real, hi);
    }
  }

  /** The mean lies between the smallest and the largest value. */
  lemma MeanWithin(ys: seq<real>)
    requires |ys| > 0
    ensures MinReal(ys) <= Mean(ys) <= MaxReal(ys)
  {
    SumWithin(ys, MinReal(ys), MaxReal(ys));
    DivLowerBound(Sum(ys, Self), |ys| as real, MinReal(ys));
    DivUpperBound(Sum(ys, Self), |ys| as real, MaxReal(ys));
  }

  /** A field's yield, net weight per hectare; undefined on a field of
      zero area. */
  function FieldYield(f: Field): Option<real>
  {
    if f.vymera != 0.0 then Some(f.cistaVaha / f.vymera) else None
  }

  predicate HasYield(f: Field)
  {
    FieldYield(f).Some?
  }

  /** The known yields of some fields, in table order (`dropna`). */
  function KnownYields(fields: seq<Field>): (ys: seq<real>)
    ensures |ys| == Count(fields, HasYield)
    ensures forall i :: 0 <= i < |ys| ==> exists j :: 0 <= j < |fields| && FieldYield(fields[j]) == Some(ys[i])
  {
    if |fields| == 0 then []
    else
      var rest := KnownYields(fields[1..]);
      assert forall j :: 0 <= j < |fields[1..]| ==> fields[1..][j] == fields[j + 1];
      if HasYield(fields[0]) then [FieldYield(fields[0]).value] + rest else rest
  }

  /** The label of a field: its name, or "Pole <id>" when it has none. */
  function PoleLabel(f: Field): string
  {
    if f.nazevHonu.Some? then f.nazevHonu.value else "Pole " + ShowInt(f.id)
  }

  /** The name of a field's crop, or "Neznámá" when the crop is unknown. */
  function CropLabel(crops: seq<Crop>, f: Field): string
  {
    var c := FindByCell(crops, CropId, f.plodinaId);
    if c.Some? then c.value.nazev else "Neznámá"
  }

  function GroupKey(crops: seq<Crop>): Field -> (string, string)
  {
    (f: Field) => (PoleLabel(f), CropLabel(crops, f))
  }

  /** One line of the stability table. */
  datatype StabilityRow = StabilityRow(pole: string, plodina: string, roky: nat, prumer: real, cv: real, min: real, max: real)

  function RowKey(row: StabilityRow): (string, string)
  {
    (row.pole, row.plodina)
  }

  /** The line of one (field, crop) group, when it has at least two known
      yields. */
  function RowOf(fields: seq<Field>, crops: seq<Crop>, k: (string, string), std: seq<real> -> real): (r: Option<StabilityRow>)
    ensures r.Some? <==> Count(Group(fields, GroupKey(crops), k), HasYield) >= 2
    ensures r.Some? ==> RowKey(r.value) == k && r.value.roky >= 2
    ensures r.Some? ==> r.value.min <= r.value.prumer <= r.value.max
    ensures r.Some? && r.value.prumer <= 0.0 ==> r.value.cv == 0.0
  {
    var ys := KnownYields(Group(fields, GroupKey(crops), k));
    if |ys| >= 2 then
      MeanWithin(ys);
      Some(StabilityRow(k.0, k.1, |ys|, Mean(ys), Cv(Mean(ys), std(ys)), MinReal(ys), MaxReal(ys)))
    else None
  }

  /** `row` is the line of its own group. */
  predicate IsLine(fields: seq<Field>, crops: seq<Crop>, std: seq<real> -> real, row: StabilityRow)
  {
    RowOf(fields, crops, RowKey(row), std) == Some(row)
  }

  /** The group `k` has a line in `r`, or has fewer than two known yields. */
  predicate Covered(fields: seq<Field>, crops: seq<Crop>, std: seq<real> -> real, r: seq<StabilityRow>, k: (string, string))
  {
    RowOf(fields, crops, k, std).Some? ==> RowOf(fields, crops, k, std).value in r
  }

  function LineOf(fields: seq<Field>, crops: seq<Crop>, std: seq<real> -> real): ((string, string)) -> Option<StabilityRow>
  {
    k => RowOf(fields, crops, k, std)
  }

  /** Different groups never share a line. */
  lemma LinesDiffer(fields: seq<Field>, crops: seq<Crop>, std: seq<real> -> real, a: (string, string), b: (string, string))
    requires RowOf(fields, crops, a, std).Some? && RowOf(fields, crops, a, std) == RowOf(fields, crops, b, std)
    ensures a == b
  {
  }

  function CvRank(row: StabilityRow): seq<real>
  {
    [-row.cv]
  }

  /** The stability table: one line per (field, crop) group with at least
      two known yields, sorted by coefficient of variation, highest first. */
  function StabilityRanking(fields: seq<Field>, crops: seq<Crop>, std: seq<real> -> real): (r: seq<StabilityRow>)
    ensures forall i :: 0 <= i < |r| - 1 ==> r[i].cv >= r[i + 1].cv
    ensures forall i :: 0 <= i < |r| ==> IsLine(fields, crops, std, r[i])
    ensures forall i :: 0 <= i < |fields| ==> Covered(fields, crops, std, r, GroupKey(crops)(fields[i]))
    ensures forall i, j :: 0 <= i < j < |r| ==> RowKey(r[i]) != RowKey(r[j])
  {
    var ks := Keys(fields, GroupKey(crops));
    var rows := Collect(ks, LineOf(fields, crops, std));
    CollectedRows(fields, crops, std, ks);
    CollectCovers(ks, LineOf(fields, crops, std));
    var r := SortBy(rows, CvRank);
    RankingFacts(fields, crops, std, ks, rows, r);
    r
  }

  lemma RankingFacts(fields: seq<Field>, crops: seq<Crop>, std: seq<real> -> real,
                     ks: seq<(string, string)>, rows: seq<StabilityRow>, r: seq<StabilityRow>)
    requires forall i :: 0 <= i < |fields| ==> GroupKey(crops)(fields[i]) in ks
    requires forall i :: 0 <= i < |rows| ==> IsLine(fields, crops, std, rows[i])
    requires forall n :: 0 <= n < |ks| && LineOf(fields, crops, std)(ks[n]).Some? ==> LineOf(fields, crops, std)(ks[n]).value in rows
    requires NoDup(rows) && multiset(r) == multiset(rows) && SortedBy(r, CvRank)
    ensures forall i :: 0 <= i < |r| - 1 ==> r[i].cv >= r[i + 1].cv
    ensures forall i :: 0 <= i < |r| ==> IsLine(fields, crops, std, r[i])
    ensures forall i :: 0 <= i < |fields| ==> Covered(fields, crops, std, r, GroupKey(crops)(fields[i]))
    ensures forall i, j :: 0 <= i < j < |r| ==> RowKey(r[i]) != RowKey(r[j])
  {
    PermutationMembers(rows, r);
    PermutationNoDup(rows, r);
    CvDescending(r);
    assert forall i :: 0 <= i < |r| ==> r[i] in rows;
    RankingCovers(fields, crops, std, ks, rows, r);
  }

  lemma CvDescending(r: seq<StabilityRow>)
    requires SortedBy(r, CvRank)
    ensures forall i :: 0 <= i < |r| - 1 ==> r[i].cv >= r[i + 1].cv
  {
    forall i | 0 <= i < |r| - 1
      ensures r[i].cv >= r[i + 1].cv
    {
      LexSingle(-r[i].cv, -r[i + 1].cv);
    }
  }

  /** The collected lines are distinct and each is its group's line. */
  lemma CollectedRows(fields: seq<Field>, crops: seq<Crop>, std: seq<real> -> real, ks: seq<(string, string)>)
    requires NoDup(ks)
    ensures NoDup(Collect(ks, LineOf(fields, crops, std)))
    ensures forall i :: 0 <= i < |Collect(ks, LineOf(fields, crops, std))| ==>
      IsLine(fields, crops, std, Collect(ks, LineOf(fields, crops, std))[i])
  {
    forall a, b | a in ks && b in ks && LineOf(fields, crops, std)(a).Some? && LineOf(fields, crops, std)(a) == LineOf(fields, crops, std)(b)
      ensures a == b
    {
      LinesDiffer(fields, crops, std, a, b);
    }
    CollectNoDup(ks, LineOf(fields, crops, std));
    CollectedLines(fields, crops, std, ks, Collect(ks, LineOf(fields, crops, std)));
  }

  lemma CollectedLines(fields: seq<Field>, crops: seq<Crop>, std: seq<real> -> real,
                       ks: seq<(string, string)>, rows: seq<StabilityRow>)
    requires forall i :: 0 <= i < |rows| ==> exists n :: 0 <= n < |ks| && LineOf(fields, crops, std)(ks[n]) == Some(rows[i])
    ensures forall i :: 0 <= i < |rows| ==> IsLine(fields, crops, std, rows[i])
  {
    forall i | 0 <= i < |rows|
      ensures IsLine(fields, crops, std, rows[i])
    {
      var n :| 0 <= n < |ks| && LineOf(fields, crops, std)(ks[n]) == Some(rows[i]);
      assert RowOf(fields, crops, ks[n], std) == Some(rows[i]);
    }
  }

  lemma RankingCovers(fields: seq<Field>, crops: seq<Crop>, std: seq<real> -> real,
                      ks: seq<(string, string)>, rows: seq<StabilityRow>, r: seq<StabilityRow>)
    requires forall i :: 0 <= i < |fields| ==> GroupKey(crops)(fields[i]) in ks
    requires forall n :: 0 <= n < |ks| && LineOf(fields, crops, std)(ks[n]).Some? ==> LineOf(fields, crops, std)(ks[n]).value in rows
    requires forall i :: 0 <= i < |rows| ==> rows[i] in r
    ensures forall i :: 0 <= i < |fields| ==> Covered(fields, crops, std, r, GroupKey(crops)(fields[i]))
  {
    forall i | 0 <= i < |fields|
      ensures Covered(fields, crops, std, r, GroupKey(crops)(fields[i]))
    {
      var n :| 0 <= n < |ks| && ks[n] == GroupKey(crops)(fields[i]);
      assert LineOf(fields, crops, std)(ks[n]) == RowOf(fields, crops, ks[n], std);
    }
  }

  /** The "Analýza výnosů" statistics over the yearly yields. */
  datatype YieldStats = YieldStats(prumer: real, min: real, max: real, cv: real)

  datatype Analysis = NoData | Analysis(yearly: seq<Trend.YearTotal>, stats: Option<YieldStats>)

  function YearYield(t: Trend.YearTotal): Option<real>
  {
    if t.vymera != 0.0 then Some(t.cistaVaha / t.vymera) else None
  }

  function YearlyYields(yearly: seq<Trend.YearTotal>): (ys: seq<real>)
    ensures |ys| <= |yearly|
    ensures forall i :: 0 <= i < |ys| ==> exists j :: 0 <= j < |yearly| && YearYield(yearly[j]) == Some(ys[i])
  {
    if |yearly| == 0 then []
    else
      var rest := YearlyYields(yearly[1..]);
      assert forall j :: 0 <= j < |yearly[1..]| ==> yearly[1..][j] == yearly[j + 1];
      if YearYield(yearly[0]).Some? then [YearYield(yearly[0]).value] + rest else rest
  }

  /** The selection of the analysis tab: a business and a crop, each
      either one id or every one ("Všechny"). */
  function Selected(business: Option<int>, crop: Option<int>): Field -> bool
  {
    (f: Field) => (business.None? || f.podnikId == business.value) && (crop.None? || f.plodinaId == crop)
  }

  /** The statistics of a yearly table: none when no year has a yield. */
  function StatsOf(yearly: seq<Trend.YearTotal>, std: seq<real> -> real): (r: Option<YieldStats>)
    ensures r.Some? ==> r.value.min <= r.value.prumer <= r.value.max
    ensures r.Some? && r.value.prumer <= 0.0 ==> r.value.cv == 0.0
    ensures r.None? <==> forall i :: 0 <= i < |yearly| ==> yearly[i].vymera == 0.0
  {
    var ys := YearlyYields(yearly);
    if |ys| == 0 then
      NoYearlyYields(yearly);
      None
    else
      MeanWithin(ys);
      Some(YieldStats(Mean(ys), MinReal(ys), MaxReal(ys), Cv(Mean(ys), std(ys))))
  }

  lemma {:induction false} NoYearlyYields(yearly: seq<Trend.YearTotal>)
    ensures |YearlyYields(yearly)| == 0 <==> forall i :: 0 <= i < |yearly| ==> yearly[i].vymera == 0.0
  {
    if |yearly| > 0 {
      NoYearlyYields(yearly[1..]);
      assert forall i :: 1 <= i < |yearly| ==> yearly[i] == yearly[1..][i - 1];
    }
  }

  /** The analysis tab for a selection: the yearly totals and the mean,
      extremes and coefficient of variation of the yearly yields. */
  function YieldAnalysis(fields: seq<Field>, business: Option<int>, crop: Option<int>, std: seq<real> -> real): (r: Analysis)
    ensures r == NoData <==> forall i :: 0 <= i < |fields| ==> !Selected(business, crop)(fields[i])
    ensures r.Analysis? ==> r.yearly == Trend.Yearly(Filter(fields, Selected(business, crop)))
    ensures r.Analysis? ==> r.stats == StatsOf(r.yearly, std)
  {
    var chosen := Filter(fields, Selected(business, crop));
    if |chosen| == 0 then
      NoData
    else
      assert chosen[0] in fields;
      var yearly := Trend.Yearly(chosen);
      Analysis(yearly, StatsOf(yearly, std))
  }

  /** Choosing one crop and every business gives the same yearly table as
      the forecast tab for that crop. */
  lemma AnalysisMatchesForecast(fields: seq<Field>, cropId: int, std: seq<real> -> real)
    ensures YieldAnalysis(fields, None, Some(cropId), std).Analysis? ==>
      YieldAnalysis(fields, None, Some(cropId), std).yearly == Trend.CropYearly(fields, cropId)
  {
    SelectionIsCrop(fields, cropId);
  }

  lemma {:induction false} SelectionIsCrop(fields: seq<Field>, cropId: int)
    ensures Filter(fields, Selected(None, Some(cropId))) == Filter(fields, Trend.CropIs(cropId))
  {
    if |fields| > 0 {
      SelectionIsCrop(fields[1..], cropId);
    }
  }
}

=== FILE: statistiky.dfy ===
/** The yearly statistics page: per-year area, production, yield, sold
    tonnage and revenue, the per-crop breakdown of one year and the
    production balance. */
module Statistiky {
  import opened Wrappers
  import opened Seqs
  import Numeric
  import opened Records
  import opened Auth
  import opened Odpisy

  /** What a page gets when it selects a user's businesses from the link
      table: the ids (none meaning no restriction), or the `KeyError` for
      the first column it names that the table lacks. */
  datatype LinkScope = Scope(ids: seq<int>) | MissingLinkColumn(column: string)

  /** The businesses a user's statistics are restricted to, as the page
      selects them: none (no restriction) for admin; for anyone else the
      link table is indexed by the columns `user_id` and then `podnik_id`,
      and `links` holds those two columns' values. The same selection
      opens the business overview page. */
  function StatsScope(user: SessionUser, header: set<string>, links: seq<Link>): (r: LinkScope)
    ensures user.role == Some("admin") ==> r == Scope([])
    ensures user.role != Some("admin") && "user_id" !in header ==> r == MissingLinkColumn("user_id")
    ensures user.role != Some("admin") && "user_id" in header && "podnik_id" !in header ==>
      r == MissingLinkColumn("podnik_id")
    ensures user.role != Some("admin") && "user_id" in header && "podnik_id" in header ==>
      r.Scope? && forall p :: p in r.ids <==> Link(user.id, p) in links
  {
    if user.role == Some("admin") then Scope([])
    else if "user_id" !in header then MissingLinkColumn("user_id")
    else if "podnik_id" !in header then MissingLinkColumn("podnik_id")
    else
      var r := LinkedIds(links, user.id);
      assert forall p :: Link(user.id, p) in links ==> p in r by {
        forall p | Link(user.id, p) in links
          ensures p in r
        {
          var k :| 0 <= k < |links| && links[k] == Link(user.id, p);
        }
      }
      Scope(r)
  }

  /** The link table that the login and the access page read names its
      columns `userId` and `podnikId`, and nothing in the application
      writes it. Without a `user_id` column beside them, the page stops
      with `KeyError: 'user_id'` for every non-admin. */
  lemma LoginColumnsStopScope(user: SessionUser, links: seq<Link>)
    requires user.role != Some("admin")
    ensures StatsScope(user, {"id", "userId", "podnikId"}, links) == MissingLinkColumn("user_id")
  {
  }

  /** The selection the page evidently means: by the columns `userId` and
      `podnikId`, as the login does. */
  function IntendedScope(user: SessionUser, links: seq<Link>): (r: seq<int>)
    ensures user.role == Some("admin") ==> r == []
    ensures user.role != Some("admin") ==> forall p :: p in r <==> Link(user.id, p) in links
  {
    match StatsScope(user, {"user_id", "podnik_id"}, links)
    case Scope(ids) => ids
    case MissingLinkColumn(_) => assert false; []
  }

  /** For a user the users table does not make admin, the intended
      selection lists exactly the businesses the login stores in the
      session user. */
  lemma IntendedScopeMatchesLogin(users: seq<UserRow>, links: seq<Link>, businesses: seq<Business>,
                                  user: SessionUser, p: int)
    requires user.role != Some("admin")
    requires forall i :: 0 <= i < |users| && users[i].id == user.id ==> users[i].role != "admin"
    ensures p in IntendedScope(user, links) <==> p in GetUserPodniky(users, Some(links), Some(businesses), user.id)
  {
    NonAdminSeesLinks(users, links, businesses, user.id, p);
  }

  function FieldIn(ids: seq<int>): Field -> bool
  {
    (f: Field) => f.podnikId in ids
  }

  function SaleIn(ids: seq<int>): Sale -> bool
  {
    (s: Sale) => s.podnikId in ids
  }

  /** The fields the page works on: all of them when the scope is empty,
      otherwise those of the businesses in scope. */
  function ScopedFields(fields: seq<Field>, scope: seq<int>): (r: seq<Field>)
    ensures |scope| == 0 ==> r == fields
    ensures |scope| > 0 ==> forall i :: 0 <= i < |fields| ==> (fields[i] in r <==> fields[i].podnikId in scope)
    ensures multiset(r) <= multiset(fields)
    ensures Embeds(r, fields)
    ensures forall f :: multiset(r)[f] == if |scope| == 0 || f.podnikId in scope then multiset(fields)[f] else 0
  {
    if |scope| > 0 then
      FilterMask(fields, FieldIn(scope));
      Filter(fields, FieldIn(scope))
    else
      EmbedsRefl(fields);
      fields
  }

  /** The sales the page works on, scoped like the fields. */
  function ScopedSales(sales: seq<Sale>, scope: seq<int>): (r: seq<Sale>)
    ensures |scope| == 0 ==> r == sales
    ensures |scope| > 0 ==> forall i :: 0 <= i < |sales| ==> (sales[i] in r <==> sales[i].podnikId in scope)
    ensures multiset(r) <= multiset(sales)
    ensures Embeds(r, sales)
    ensures forall s :: multiset(r)[s] == if |scope| == 0 || s.podnikId in scope then multiset(sales)[s] else 0
  {
    if |scope| > 0 then
      FilterMask(sales, SaleIn(scope));
      Filter(sales, SaleIn(scope))
    else
      EmbedsRefl(sales);
      sales
  }

  /** The year preselected in the year box: the latest one, or none when
      no field has a year. */
  function SelectedYear(fields: seq<Field>): (r: Option<int>)
    ensures r.None? <==> |fields| == 0
    ensures r.Some? ==>
      (exists i :: 0 <= i < |fields| && fields[i].rokSklizne == r.value) &&
      forall i :: 0 <= i < |fields| ==> fields[i].rokSklizne <= r.value
  {
    var ys := SortedDistinct(Years(fields));
    if |ys| == 0 then None
    else
      StrictLast(ys);
      Some(ys[|ys| - 1])
  }

  /** One line of the per-year overview. */
  datatype YearStat = YearStat(rok: int, vymera: real, produkce: real, vynos: real, prodano: real, trzby: real)

  function StatProduction(s: YearStat): real
  {
    s.produkce
  }

  function StatSold(s: YearStat): real
  {
    s.prodano
  }

  /** The overview line of one year: area and production of its fields,
      guarded yield, and tonnage and revenue of its sold sales. */
  function YearLine(y: int, fields: seq<Field>, sold: seq<Sale>): (s: YearStat)
    ensures s.rok == y
    ensures s.vymera > 0.0 ==> s.vynos * s.vymera == s.produkce
    ensures s.vymera <= 0.0 ==> s.vynos == 0.0
  {
    var g := Group(fields, FieldYear, y);
    var mine := Group(sold, SaleYear, y);
    var area := Sum(g, FieldArea);
    var prod := Sum(g, FieldNet);
    YearStat(y, area, prod, Numeric.Guarded(prod, area), Sum(mine, SaleTons), Sum(mine, SaleAmount))
  }

  /** The overview lines of the years `ys`, given the sold sales. */
  function YearRows(ys: seq<int>, fields: seq<Field>, sold: seq<Sale>): (r: seq<YearStat>)
    ensures |r| == |ys|
    ensures forall i :: 0 <= i < |r| ==> r[i].rok == ys[i]
  {
    if |ys| == 0 then []
    else [YearLine(ys[0], fields, sold)] + YearRows(ys[1..], fields, sold)
  }

  /** Sales that count as sold: status "prodano" only. */
  function Sold(sales: seq<Sale>): (r: seq<Sale>)
    ensures forall i :: 0 <= i < |sales| ==> (sales[i] in r <==> sales[i].stav == "prodano")
  {
    Filter(sales, StatusIs("prodano"))
  }

  /** The mask keeps the table order, and each sold sale as often as it
      occurs in the table. */
  lemma SoldMask(sales: seq<Sale>)
    ensures Embeds(Sold(sales), sales)
    ensures forall s :: multiset(Sold(sales))[s] == if s.stav == "prodano" then multiset(sales)[s] else 0
  {
    FilterMask(sales, StatusIs("prodano"));
  }

  /** The overview, one line per year that has fields, ascending. */
  function YearlyStats(fields: seq<Field>, sales: seq<Sale>): (r: seq<YearStat>)
    ensures |r| == |SortedDistinct(Years(fields))|
    ensures forall i :: 0 <= i < |r| - 1 ==> r[i].rok < r[i + 1].rok
    ensures forall i :: 0 <= i < |fields| ==> exists j :: 0 <= j < |r| && r[j].rok == fields[i].rokSklizne
  {
    var ys := SortedDistinct(Years(fields));
    var r := YearRows(ys, fields, Sold(sales));
    forall i | 0 <= i < |r| - 1
      ensures r[i].rok < r[i + 1].rok
    {
      assert r[i].rok == ys[i] && r[i + 1].rok == ys[i + 1];
    }
    forall i | 0 <= i < |fields|
      ensures exists j :: 0 <= j < |r| && r[j].rok == fields[i].rokSklizne
    {
      assert Years(fields)[i] == fields[i].rokSklizne;
      var j :| 0 <= j < |ys| && ys[j] == fields[i].rokSklizne;
      assert r[j].rok == ys[j];
    }
    r
  }

  lemma {:induction false} YearRowsSums(ys: seq<int>, fields: seq<Field>, sold: seq<Sale>)
    ensures Sum(YearRows(ys, fields, sold), StatProduction) == SumGroups(ys, fields, FieldYear, FieldNet)
    ensures Sum(YearRows(ys, fields, sold), StatSold) == SumGroups(ys, sold, SaleYear, SaleTons)
  {
    if |ys| > 0 {
      YearRowsSums(ys[1..], fields, sold);
      var r := YearRows(ys, fields, sold);
      SumOne(r[0], YearRows(ys[1..], fields, sold), StatProduction);
      SumOne(r[0], YearRows(ys[1..], fields, sold), StatSold);
    }
  }

  lemma {:induction false} YearRowsAt(ys: seq<int>, fields: seq<Field>, sold: seq<Sale>, i: int)
    requires 0 <= i < |ys|
    ensures YearRows(ys, fields, sold)[i] == YearLine(ys[i], fields, sold)
  {
    if i > 0 {
      YearRowsAt(ys[1..], fields, sold, i - 1);
    }
  }

  /** A year's line of the overview sums that year's fields and its sold
      sales. */
  lemma YearlyLine(fields: seq<Field>, sales: seq<Sale>, i: int)
    requires 0 <= i < |YearlyStats(fields, sales)|
    ensures var s := YearlyStats(fields, sales)[i];
            s.produkce == Sum(Group(fields, FieldYear, s.rok), FieldNet) &&
            s.vymera == Sum(Group(fields, FieldYear, s.rok), FieldArea) &&
            s.prodano == Sum(Group(Sold(sales), SaleYear, s.rok), SaleTons) &&
            s.trzby == Sum(Group(Sold(sales), SaleYear, s.rok), SaleAmount)
  {
    YearRowsAt(SortedDistinct(Years(fields)), fields, Sold(sales), i);
  }

  /** The yearly production lines add up to the whole production, and
      the sold lines to every sold sale booked to a year with fields. */
  lemma YearlyMass(fields: seq<Field>, sales: seq<Sale>)
    ensures Sum(YearlyStats(fields, sales), StatProduction) == Sum(fields, FieldNet)
    ensures Sum(YearlyStats(fields, sales), StatSold)
         == Sum(Filter(Sold(sales), KeyIn(SaleYear, SortedDistinct(Years(fields)))), SaleTons)
  {
    var ys := SortedDistinct(Years(fields));
    YearRowsSums(ys, fields, Sold(sales));
    forall i | 0 <= i < |fields|
      ensures FieldYear(fields[i]) in ys
    {
      assert Years(fields)[i] == fields[i].rokSklizne;
    }
    GroupsPreserveSum(ys, fields, FieldYear, FieldNet);
    SumGroupsFiltered(ys, Sold(sales), SaleYear, SaleTons);
  }

  /** Contracted sales, or sales of any status other than sold, do not
      show in the yearly overview. */
  lemma UnsoldSaleIgnored(fields: seq<Field>, sales: seq<Sale>, x: Sale)
    requires x.stav != "prodano"
    ensures YearlyStats(fields, sales + [x]) == YearlyStats(fields, sales)
  {
    FilterSnoc(sales, x, StatusIs("prodano"));
    assert Sold(sales + [x]) == Sold(sales);
  }

  /** The "left" bar of the balance chart: the unsold production, never
      negative. */
  function BalanceLeft(produkce: real, prodano: real): (r: real)
    ensures r >= 0.0
    ensures r == 0.0 <==> prodano >= produkce
    ensures prodano <= produkce ==> prodano + r == produkce
  {
    if produkce - prodano > 0.0 then produkce - prodano else 0.0
  }

  /** One line of the per-crop breakdown; the yield is undefined for a
      crop without area. */
  datatype CropStat = CropStat(plodina: string, vymera: real, produkce: real, vynos: Option<real>)

  function CropProduction(s: CropStat): real
  {
    s.produkce
  }

  /** Descending production as an ascending key. */
  function ProductionDesc(s: CropStat): seq<real>
  {
    [-s.produkce]
  }

  /** A field's crop name, "Neznámá" (unknown) when the crop is missing. */
  function CropNameOf(crops: seq<Crop>): Field -> string
  {
    (f: Field) => match FindByCell(crops, CropId, f.plodinaId)
      case Some(c) => c.nazev
      case None => "Neznámá"
  }

  function CropLines(names: seq<string>, fields: seq<Field>, crops: seq<Crop>): (r: seq<CropStat>)
    ensures |r| == |names|
    ensures forall i :: 0 <= i < |r| ==> r[i].plodina == names[i]
  {
    if |names| == 0 then []
    else
      var g := Group(fields, CropNameOf(crops), names[0]);
      var area := Sum(g, FieldArea);
      var prod := Sum(g, FieldNet);
      [CropStat(names[0], area, prod, if area != 0.0 then Some(prod / area) else None)]
        + CropLines(names[1..], fields, crops)
  }

  lemma {:induction false} CropLinesSum(names: seq<string>, fields: seq<Field>, crops: seq<Crop>)
    ensures Sum(CropLines(names, fields, crops), CropProduction)
         == SumGroups(names, fields, CropNameOf(crops), FieldNet)
  {
    if |names| > 0 {
      CropLinesSum(names[1..], fields, crops);
      SumOne(CropLines(names, fields, crops)[0], CropLines(names[1..], fields, crops), CropProduction);
    }
  }

  /** The per-crop breakdown of the selected year's fields, largest
      production first, one line per crop name. */
  function CropStats(yearFields: seq<Field>, crops: seq<Crop>): (r: seq<CropStat>)
    ensures forall i :: 0 <= i < |r| - 1 ==> r[i].produkce >= r[i + 1].produkce
    ensures forall i :: 0 <= i < |yearFields| ==>
      exists j :: 0 <= j < |r| && r[j].plodina == CropNameOf(crops)(yearFields[i])
  {
    var names := Keys(yearFields, CropNameOf(crops));
    var lines := CropLines(names, yearFields, crops);
    var r := SortBy(lines, ProductionDesc);
    ProductionDescending(r);
    CropLinesCover(names, yearFields, crops, r);
    r
  }

  lemma ProductionDescending(r: seq<CropStat>)
    requires SortedBy(r, ProductionDesc)
    ensures forall i :: 0 <= i < |r| - 1 ==> r[i].produkce >= r[i + 1].produkce
  {
    forall i | 0 <= i < |r| - 1
      ensures r[i].produkce >= r[i + 1].produkce
    {
      LexSingle(-r[i].produkce, -r[i + 1].produkce);
    }
  }

  lemma CropLinesCover(names: seq<string>, yearFields: seq<Field>, crops: seq<Crop>, r: seq<CropStat>)
    requires names == Keys(yearFields, CropNameOf(crops))
    requires multiset(r) == multiset(CropLines(names, yearFields, crops))
    ensures forall i :: 0 <= i < |yearFields| ==>
      exists j :: 0 <= j < |r| && r[j].plodina == CropNameOf(crops)(yearFields[i])
  {
    var lines := CropLines(names, yearFields, crops);
    PermutationMembers(lines, r);
    forall i | 0 <= i < |yearFields|
      ensures exists j :: 0 <= j < |r| && r[j].plodina == CropNameOf(crops)(yearFields[i])
    {
      var k :| 0 <= k < |names| && names[k] == CropNameOf(crops)(yearFields[i]);
      assert lines[k] in r;
    }
  }

  /** The breakdown neither loses nor invents production. */
  lemma CropStatsMass(yearFields: seq<Field>, crops: seq<Crop>)
    ensures Sum(CropStats(yearFields, crops), CropProduction) == Sum(yearFields, FieldNet)
  {
    var names := Keys(yearFields, CropNameOf(crops));
    var lines := CropLines(names, yearFields, crops);
    SumPermutation(SortBy(lines, ProductionDesc), lines, CropProduction);
    CropLinesSum(names, yearFields, crops);
    GroupsPreserveSum(names, yearFields, CropNameOf(crops), FieldNet);
  }
}

=== FILE: text.dfy ===
/** String helpers with Python semantics: `strip`, `split`, `lower`,
    `in` on strings, `startswith` and `int()` on decimal text. */
module Text {
  import opened Wrappers

  /** The whitespace of Python's `str.isspace()`, which `str.strip()`
      removes: the ASCII controls tab to carriage return and the four
      separators after them, the space, and the Unicode spaces and line
      separators, the no-break space U+00A0 among them. */
  predicate IsSpace(c: char)
  {
    ('\t' <= c <= '\r') || ('\U{1C}' <= c <= ' ') || c == '\U{85}' || c == '\U{A0}' || c == '\U{1680}'
    || ('\U{2000}' <= c <= '\U{200A}') || c == '\U{2028}' || c == '\U{2029}' || c == '\U{202F}'
    || c == '\U{205F}' || c == '\U{3000}'
  }

  /** Index of the first non-whitespace character at or after `lo`. */
  function FirstNonSpace(s: string, lo: nat): (i: nat)
    requires lo <= |s|
    ensures lo <= i <= |s|
    ensures forall k :: lo <= k < i ==> IsSpace(s[k])
    ensures i < |s| ==> !IsSpace(s[i])
    decreases |s| - lo
  {
    if lo < |s| && IsSpace(s[lo]) then FirstNonSpace(s, lo + 1) else lo
  }

  /** End of `s[lo..hi]` once trailing whitespace is dropped. */
  function EndNonSpace(s: string, lo: nat, hi: nat): (j: nat)
    requires lo <= hi <= |s|
    ensures lo <= j <= hi
    ensures forall k :: j <= k < hi ==> IsSpace(s[k])
    ensures j > lo ==> !IsSpace(s[j - 1])
  {
    if hi > lo && IsSpace(s[hi - 1]) then EndNonSpace(s, lo, hi - 1) else hi
  }

  /** `s[i..j]` is what remains of `s` after removing whitespace at both
      ends: everything cut off is whitespace and the kept slice neither
      starts nor ends with it. */
  predicate Trimmed(s: string, i: int, j: int)
  {
    0 <= i <= j <= |s|
    && (forall k :: 0 <= k < i ==> IsSpace(s[k]))
    && (forall k :: j <= k < |s| ==> IsSpace(s[k]))
    && (i < j ==> !IsSpace(s[i]) && !IsSpace(s[j - 1]))
  }

  /** Python `str.strip()`. */
  function Strip(s: string): (r: string)
    ensures exists i, j :: Trimmed(s, i, j) && r == s[i..j]
  {
    var i := FirstNonSpace(s, 0);
    var j := EndNonSpace(s, i, |s|);
    assert Trimmed(s, i, j);
    s[i..j]
  }

  /** Position of the first `c` in `s`, if any. */
  function IndexOf(s: string, c: char): (r: Option<nat>)
    ensures r.None? <==> c !in s
    ensures r.Some? ==> r.value < |s| && s[r.value] == c && c !in s[..r.value]
  {
    if |s| == 0 then None
    else if s[0] == c then Some(0)
    else match IndexOf(s[1..], c)
      case None => None
      case Some(k) => assert s[1..][..k] == s[1..k + 1]; Some(k + 1)
  }

  /** Python `s.split(sep)` for a one-character separator: always at least
      one part, and no part contains the separator. */
  function Split(s: string, sep: char): (parts: seq<string>)
    ensures |parts| >= 1
    ensures forall i :: 0 <= i < |parts| ==> sep !in parts[i]
    decreases |s|
  {
    match IndexOf(s, sep)
    case None => [s]
    case Some(k) => [s[..k]] + Split(s[k + 1..], sep)
  }

  /** The inverse of `Split`: parts glued back with the separator. */
  function Join(parts: seq<string>, sep: char): string
  {
    if |parts| == 0 then ""
    else if |parts| == 1 then parts[0]
    else parts[0] + [sep] + Join(parts[1..], sep)
  }

  /** Splitting loses nothing: joining the parts restores the text. */
  lemma {:induction false} SplitJoin(s: string, sep: char)
    ensures Join(Split(s, sep), sep) == s
    decreases |s|
  {
    match IndexOf(s, sep)
    case None =>
    case Some(k) =>
      var rest := Split(s[k + 1..], sep);
      SplitJoin(s[k + 1..], sep);
      assert Split(s, sep) == [s[..k]] + rest;
      assert ([s[..k]] + rest)[1..] == rest;
      assert Join([s[..k]] + rest, sep) == s[..k] + [sep] + Join(rest, sep);
      assert s == s[..k] + [sep] + s[k + 1..];
  }

  /** Joining with a separator that occurs in no part is undone by `Split`. */
  lemma {:induction false} JoinSplit(parts: seq<string>, sep: char)
    requires |parts| >= 1
    requires forall i :: 0 <= i < |parts| ==> sep !in parts[i]
    ensures Split(Join(parts, sep), sep) == parts
  {
    if |parts| > 1 {
      var rest := Join(parts[1..], sep);
      var s := parts[0] + [sep] + rest;
      assert s[..|parts[0]|] == parts[0];
      assert s[|parts[0]|] == sep;
      assert IndexOf(s, sep) == Some(|parts[0]|) by {
        IndexOfFirst(s, sep, |parts[0]|);
      }
      assert s[|parts[0]| + 1..] == rest;
      JoinSplit(parts[1..], sep);
    }
  }

  lemma {:induction false} IndexOfFirst(s: string, c: char, k: nat)
    requires k < |s| && s[k] == c && c !in s[..k]
    ensures IndexOf(s, c) == Some(k)
  {
    if k > 0 {
      assert s[0] in s[..k];
      assert s[1..][..k - 1] == s[1..k];
      IndexOfFirst(s[1..], c, k - 1);
    }
  }

  /** Lower-case letter for an ASCII or Czech capital; other characters
      are unchanged. */
  function LowerChar(c: char): (r: char)
    ensures r == c || IsUpper(c)
    ensures !IsUpper(r)
  {
    if 'A' <= c <= 'Z' then (c as int + 32) as char
    else if c in {'Á', 'É', 'Í', 'Ó', 'Ú', 'Ý'} then (c as int + 32) as char
    else if c in {'Č', 'Ď', 'Ě', 'Ň', 'Ř', 'Š', 'Ť', 'Ů', 'Ž'}
    then (c as int + 1) as char
    else c
  }

  predicate IsUpper(c: char)
  {
    ('A' <= c <= 'Z')
    || c in {'Á', 'É', 'Í', 'Ó', 'Ú', 'Ý'}
    || c in {'Č', 'Ď', 'Ě', 'Ň', 'Ř', 'Š', 'Ť', 'Ů', 'Ž'}
  }

  /** Python `str.lower()` restricted to ASCII and Czech letters. */
  function Lower(s: string): (r: string)
    ensures |r| == |s|
    ensures forall i :: 0 <= i < |s| ==> r[i] == LowerChar(s[i])
  {
    seq(|s|, i requires 0 <= i < |s| => LowerChar(s[i]))
  }

  lemma LowerIdempotent(s: string)
    ensures Lower(Lower(s)) == Lower(s)
  {
    forall i | 0 <= i < |s|
      ensures LowerChar(LowerChar(s[i])) == LowerChar(s[i])
    {
      assert !IsUpper(LowerChar(s[i]));
    }
  }

  predicate StartsWith(s: string, p: string)
  {
    |p| <= |s| && s[..|p|] == p
  }

  /** `p` occurs in `s` starting at position `i`. */
  predicate OccursAt(s: string, p: string, i: int)
  {
    0 <= i <= |s| - |p| && s[i..i + |p|] == p
  }

  /** Python `p in s` on strings. */
  function Contains(s: string, p: string): (r: bool)
    ensures r <==> exists i :: OccursAt(s, p, i)
  {
    if StartsWith(s, p) then
      assert OccursAt(s, p, 0);
      true
    else if |s| == 0 then
      assert forall i :: OccursAt(s, p, i) ==> i == 0;
      false
    else
      var r := Contains(s[1..], p);
      assert forall i :: OccursAt(s[1..], p, i) <==> OccursAt(s, p, i + 1) by {
        forall i
          ensures OccursAt(s[1..], p, i) <==> OccursAt(s, p, i + 1)
        {
          if 0 <= i <= |s| - 1 - |p| {
            assert s[1..][i..i + |p|] == s[i + 1..i + 1 + |p|];
          }
        }
      }
      assert !OccursAt(s, p, 0);
      assert (exists i :: OccursAt(s, p, i)) ==> exists i :: OccursAt(s[1..], p, i) by {
        if exists i :: OccursAt(s, p, i) {
          var i :| OccursAt(s, p, i);
          assert OccursAt(s[1..], p, i - 1);
        }
      }
      r
  }

  predicate IsDigit(c: char)
  {
    '0' <= c <= '9'
  }

  predicate AllDigits(s: string)
  {
    forall i :: 0 <= i < |s| ==> IsDigit(s[i])
  }

  /** Value of a run of decimal digits, most significant first. */
  function DigitsValue(s: string): (n: nat)
    requires AllDigits(s)
  {
    if |s| == 0 then 0 else DigitsValue(s[..|s| - 1]) * 10 + (s[|s| - 1] as int - '0' as int)
  }

  /** Decimal text of a natural number, without leading zeros. */
  function ShowNat(n: nat): (s: string)
    ensures |s| >= 1 && AllDigits(s)
    ensures DigitsValue(s) == n
    ensures |s| > 1 ==> s[0] != '0'
  {
    if n < 10 then [('0' as int + n) as char]
    else
      var t := ShowNat(n / 10);
      var s := t + [('0' as int + n % 10) as char];
      assert s[..|s| - 1] == t;
      s
  }

  /** Decimal text of an integer, with a leading '-' when negative. */
  function ShowInt(n: int): (s: string)
  {
    if n < 0 then "-" + ShowNat(-n) else ShowNat(n)
  }

  /** Python `int(s)` on already-stripped text: an optional sign followed by
      one or more ASCII digits; anything else raises (None). */
  function ParseInt(s: string): (r: Option<int>)
    ensures r.Some? <==> ((|s| >= 1 && AllDigits(s))
                          || (|s| >= 2 && (s[0] == '-' || s[0] == '+') && AllDigits(s[1..])))
  {
    if |s| >= 1 && AllDigits(s) then Some(DigitsValue(s))
    else if |s| >= 2 && s[0] == '-' && AllDigits(s[1..]) then Some(0 - DigitsValue(s[1..]))
    else if |s| >= 2 && s[0] == '+' && AllDigits(s[1..]) then Some(DigitsValue(s[1..]))
    else None
  }

  /** Printing an integer and parsing it back gives the same integer. */
  lemma ParseShowInt(n: int)
    ensures ParseInt(ShowInt(n)) == Some(n)
  {
    if n < 0 {
      var t := ShowNat(-n);
      assert ("-" + t)[1..] == t;
      assert !IsDigit(("-" + t)[0]);
    }
  }

  /** Python `sep.join(parts)` for a separator of any length. */
  function JoinWith(parts: seq<string>, sep: string): (r: string)
    ensures |parts| == 0 ==> r == ""
    ensures |parts| == 1 ==> r == parts[0]
  {
    if |parts| == 0 then ""
    else if |parts| == 1 then parts[0]
    else parts[0] + sep + JoinWith(parts[1..], sep)
  }

  /** Joining with a one-character separator is the same either way. */
  lemma {:induction false} JoinWithChar(parts: seq<string>, sep: char)
    ensures JoinWith(parts, [sep]) == Join(parts, sep)
  {
    if |parts| > 1 {
      JoinWithChar(parts[1..], sep);
    }
  }

  function Pow10(n: nat): (r: nat)
    ensures r >= 1
  {
    if n == 0 then 1 else 10 * Pow10(n - 1)
  }

  /** Unsigned plain decimal notation: digits, or digits around one '.',
      with at least one digit in all. */
  predicate UnsignedDecimal(s: string)
  {
    (|s| >= 1 && AllDigits(s))
    || (|s| >= 2 && exists k :: 0 <= k < |s| && s[k] == '.' && AllDigits(s[..k]) && AllDigits(s[k + 1..]))
  }

  function ParseUnsigned(s: string): (r: Option<real>)
    ensures r.Some? <==> UnsignedDecimal(s)
    ensures |s| >= 1 && AllDigits(s) ==> r == Some(DigitsValue(s) as real)
    ensures r.Some? ==> r.value >= 0.0
  {
    match IndexOf(s, '.')
    case None =>
      if |s| >= 1 && AllDigits(s) then Some(DigitsValue(s) as real) else None
    case Some(k) =>
      assert !AllDigits(s) by { assert !IsDigit(s[k]); }
      var w := s[..k];
      var f := s[k + 1..];
      DotAt(s, k);
      if AllDigits(w) && AllDigits(f) && |s| >= 2 then
        Some(DigitsValue(w) as real + DigitsValue(f) as real / Pow10(|f|) as real)
      else
        None
  }

  /** Text with a '.' at `k` and none before is a decimal exactly when
      the digits around that '.' are all digits. */
  lemma DotAt(s: string, k: nat)
    requires k < |s| && s[k] == '.' && '.' !in s[..k]
    ensures UnsignedDecimal(s) <==> |s| >= 2 && AllDigits(s[..k]) && AllDigits(s[k + 1..])
  {
    assert !AllDigits(s) by { assert !IsDigit(s[k]); }
    if UnsignedDecimal(s) {
      var j :| 0 <= j < |s| && s[j] == '.' && AllDigits(s[..j]) && AllDigits(s[j + 1..]);
      assert forall i :: 0 <= i < k ==> s[..k][i] == s[i];
      assert forall i :: 0 <= i < j ==> s[..j][i] == s[i];
      assert j == k;
    }
  }

  /** Python `float(s)` on already-stripped text in plain decimal notation:
      an optional sign, then an unsigned decimal; anything else raises
      (None). Exponents, "inf", "nan" and digit separators are not
      modelled. */
  function ParseDecimal(s: string): (r: Option<real>)
    ensures r.Some? <==> (UnsignedDecimal(s) || (|s| >= 1 && (s[0] == '-' || s[0] == '+') && UnsignedDecimal(s[1..])))
  {
    if |s| >= 1 && s[0] == '-' then
      assert !UnsignedDecimal(s) by { assert !IsDigit(s[0]); }
      match ParseUnsigned(s[1..])
      case None => None
      case Some(x) => Some(-x)
    else if |s| >= 1 && s[0] == '+' then
      assert !UnsignedDecimal(s) by { assert !IsDigit(s[0]); }
      ParseUnsigned(s[1..])
    else ParseUnsigned(s)
  }

  /** Wherever `int(s)` succeeds, `float(s)` gives the same number. */
  lemma ParseIntAsDecimal(s: string)
    requires ParseInt(s).Some?
    ensures ParseDecimal(s) == Some(ParseInt(s).value as real)
  {
    if |s| >= 1 && AllDigits(s) {
      assert !(s[0] == '-' || s[0] == '+') by { assert IsDigit(s[0]); }
    }
  }

  function Zeros(n: nat): (s: string)
    ensures |s| == n && AllDigits(s)
    ensures forall i :: 0 <= i < n ==> s[i] == '0'
  {
    if n == 0 then "" else "0" + Zeros(n - 1)
  }

  /** `n` in decimal, zero-padded on the left to `width` digits (`%02d`). */
  function ZeroPad(n: nat, width: nat): (s: string)
    ensures AllDigits(s) && DigitsValue(s) == n
    ensures |ShowNat(n)| <= width ==> |s| == width
  {
    var t := ShowNat(n);
    var z := if |t| < width then Zeros(width - |t|) else "";
    LeadingZeros(z, t);
    z + t
  }

  /** Leading zeros do not change a number's value. */
  lemma {:induction false} LeadingZeros(z: string, t: string)
    requires AllDigits(z) && AllDigits(t)
    requires forall i :: 0 <= i < |z| ==> z[i] == '0'
    ensures AllDigits(z + t) && DigitsValue(z + t) == DigitsValue(t)
    decreases |t|
  {
    if |t| == 0 {
      assert z + t == z;
      AllZeros(z);
    } else {
      var zt := z + t;
      assert zt[..|zt| - 1] == z + t[..|t| - 1];
      LeadingZeros(z, t[..|t| - 1]);
    }
  }

  lemma {:induction false} AllZeros(z: string)
    requires AllDigits(z)
    requires forall i :: 0 <= i < |z| ==> z[i] == '0'
    ensures DigitsValue(z) == 0
  {
    if |z| > 0 {
      AllZeros(z[..|z| - 1]);
    }
  }

  /** A number below 10^w has at most w digits. */
  lemma {:induction false} ShowNatWidth(n: nat, w: nat)
    requires w >= 1 && n < Pow10(w)
    ensures |ShowNat(n)| <= w
  {
    if n >= 10 {
      ShowNatWidth(n / 10, w - 1);
    }
  }
}

=== FILE: trend.dfy ===
/** The agent's yield forecast: an ordinary least-squares line through
    the yearly average yields of one crop, extended a few years ahead,
    with its R² and a direction label. */
module Trend {
  import opened Wrappers
  import opened Seqs
  import opened Records
  import opened Numeric

  datatype Point = Point(x: real, y: real)

  lemma SquareExpand(dy: real, dx: real, s: real)
    ensures Mul(dy - Mul(s, dx), dy - Mul(s, dx)) == Mul(dy, dy) - 2.0 * Mul(s, Mul(dx, dy)) + Mul(Mul(s, s), Mul(dx, dx))
  {
  }

  lemma Centered(x: real, y: real, s: real, mx: real, my: real)
    ensures y - (Mul(s, x) + (my - Mul(s, mx))) == (y - my) - Mul(s, x - mx)
  {
  }

  lemma TimesCentered(x: real, dy: real, s: real, dx: real)
    ensures Mul(x, dy - Mul(s, dx)) == Mul(x, dy) - Mul(s, Mul(x, dx))
  {
  }

  lemma SlopeSquared(s: real, sxx: real)
    ensures Mul(s, Mul(s, sxx)) == Mul(Mul(s, s), sxx)
  {
  }

  function SumX(ps: seq<Point>): real
  {
    if |ps| == 0 then 0.0 else ps[0].x + SumX(ps[1..])
  }

  function SumY(ps: seq<Point>): real
  {
    if |ps| == 0 then 0.0 else ps[0].y + SumY(ps[1..])
  }

  function MeanX(ps: seq<Point>): real
    requires |ps| > 0
  {
    SumX(ps) / |ps| as real
  }

  function MeanY(ps: seq<Point>): real
    requires |ps| > 0
  {
    SumY(ps) / |ps| as real
  }

  /** Σ(x − mx)². */
  function Sxx(ps: seq<Point>, mx: real): real
  {
    if |ps| == 0 then 0.0 else Mul(ps[0].x - mx, ps[0].x - mx) + Sxx(ps[1..], mx)
  }

  /** Σ(x − mx)(y − my). */
  function Sxy(ps: seq<Point>, mx: real, my: real): real
  {
    if |ps| == 0 then 0.0 else Mul(ps[0].x - mx, ps[0].y - my) + Sxy(ps[1..], mx, my)
  }

  /** Σ(y − my)². */
  function Syy(ps: seq<Point>, my: real): real
  {
    if |ps| == 0 then 0.0 else Mul(ps[0].y - my, ps[0].y - my) + Syy(ps[1..], my)
  }

  /** y − (slope·x + intercept), the page's residual. */
  function Residual(p: Point, slope: real, intercept: real): real
  {
    p.y - (Mul(slope, p.x) + intercept)
  }

  /** Σ residual. */
  function SumRes(ps: seq<Point>, slope: real, intercept: real): real
  {
    if |ps| == 0 then 0.0 else Residual(ps[0], slope, intercept) + SumRes(ps[1..], slope, intercept)
  }

  /** Σ x · residual. */
  function SumXRes(ps: seq<Point>, slope: real, intercept: real): real
  {
    if |ps| == 0 then 0.0 else Mul(ps[0].x, Residual(ps[0], slope, intercept)) + SumXRes(ps[1..], slope, intercept)
  }

  /** Σ residual², the residual sum of squares. */
  function SSRes(ps: seq<Point>, slope: real, intercept: real): real
  {
    if |ps| == 0 then 0.0
    else Mul(Residual(ps[0], slope, intercept), Residual(ps[0], slope, intercept)) + SSRes(ps[1..], slope, intercept)
  }

  predicate XsIncreasing(ps: seq<Point>)
  {
    forall i :: 0 <= i < |ps| - 1 ==> ps[i].x < ps[i + 1].x
  }

  lemma {:induction false} SxxNonNegative(ps: seq<Point>, mx: real)
    ensures Sxx(ps, mx) >= 0.0
  {
    if |ps| > 0 {
      SxxNonNegative(ps[1..], mx);
      SquareNonNegative(ps[0].x - mx);
    }
  }

  lemma {:induction false} SSResNonNegative(ps: seq<Point>, slope: real, intercept: real)
    ensures SSRes(ps, slope, intercept) >= 0.0
  {
    if |ps| > 0 {
      SSResNonNegative(ps[1..], slope, intercept);
      SquareNonNegative(Residual(ps[0], slope, intercept));
    }
  }

  /** Two different years make the x spread positive, so the slope's
      division is defined whenever there are two years. */
  lemma SxxPositive(ps: seq<Point>, mx: real)
    requires |ps| >= 2 && XsIncreasing(ps)
    ensures Sxx(ps, mx) > 0.0
  {
    SxxNonNegative(ps[2..], mx);
    assert ps[1..][1..] == ps[2..];
    assert ps[1..][0] == ps[1];
    SquareNonNegative(ps[0].x - mx);
    SquareNonNegative(ps[1].x - mx);
    if ps[0].x - mx != 0.0 {
      SquarePositive(ps[0].x - mx);
    } else {
      SquarePositive(ps[1].x - mx);
    }
  }

  /** Σ(y − c). */
  function SumDevY(ps: seq<Point>, c: real): real
  {
    if |ps| == 0 then 0.0 else (ps[0].y - c) + SumDevY(ps[1..], c)
  }

  /** Σ(x − c). */
  function SumDevX(ps: seq<Point>, c: real): real
  {
    if |ps| == 0 then 0.0 else (ps[0].x - c) + SumDevX(ps[1..], c)
  }

  /** Σ x(y − my). */
  function SumXDevY(ps: seq<Point>, my: real): real
  {
    if |ps| == 0 then 0.0 else Mul(ps[0].x, ps[0].y - my) + SumXDevY(ps[1..], my)
  }

  /** Σ x(x − mx). */
  function SumXDevX(ps: seq<Point>, mx: real): real
  {
    if |ps| == 0 then 0.0 else Mul(ps[0].x, ps[0].x - mx) + SumXDevX(ps[1..], mx)
  }

  lemma {:induction false} SumDevYLinear(ps: seq<Point>, c: real)
    ensures SumDevY(ps, c) == SumY(ps) - Mul(|ps| as real, c)
  {
    if |ps| > 0 {
      SumDevYLinear(ps[1..], c);
      MulAddOne(|ps[1..]| as real, c);
    } else {
      MulZero(c, 0.0);
      assert Mul(0.0, c) == 0.0;
    }
  }

  lemma {:induction false} SumDevXLinear(ps: seq<Point>, c: real)
    ensures SumDevX(ps, c) == SumX(ps) - Mul(|ps| as real, c)
  {
    if |ps| > 0 {
      SumDevXLinear(ps[1..], c);
      MulAddOne(|ps[1..]| as real, c);
    } else {
      assert Mul(0.0, c) == 0.0;
    }
  }

  /** Deviations from the mean sum to zero. */
  lemma DeviationsVanish(ps: seq<Point>)
    requires |ps| > 0
    ensures SumDevY(ps, MeanY(ps)) == 0.0
    ensures SumDevX(ps, MeanX(ps)) == 0.0
  {
    SumDevYLinear(ps, MeanY(ps));
    SumDevXLinear(ps, MeanX(ps));
    DivCancel(SumY(ps), |ps| as real);
    DivCancel(SumX(ps), |ps| as real);
  }

  lemma {:induction false} SxyExpand(ps: seq<Point>, mx: real, my: real)
    ensures Sxy(ps, mx, my) == SumXDevY(ps, my) - Mul(mx, SumDevY(ps, my))
  {
    if |ps| > 0 {
      SxyExpand(ps[1..], mx, my);
      MulSubRight(ps[0].x, mx, ps[0].y - my);
      MulAddLeft(mx, ps[0].y - my, SumDevY(ps[1..], my));
    } else {
      MulZero(mx, 0.0);
    }
  }

  lemma {:induction false} SxxExpand(ps: seq<Point>, mx: real)
    ensures Sxx(ps, mx) == SumXDevX(ps, mx) - Mul(mx, SumDevX(ps, mx))
  {
    if |ps| > 0 {
      SxxExpand(ps[1..], mx);
      MulSubRight(ps[0].x, mx, ps[0].x - mx);
      MulAddLeft(mx, ps[0].x - mx, SumDevX(ps[1..], mx));
    } else {
      MulZero(mx, 0.0);
    }
  }

  /** For the line through (mx, my), Σ residual = Σ(y − my) − slope·Σ(x − mx). */
  lemma {:induction false} SumResSplit(ps: seq<Point>, slope: real, mx: real, my: real)
    ensures SumRes(ps, slope, my - Mul(slope, mx)) == SumDevY(ps, my) - Mul(slope, SumDevX(ps, mx))
  {
    if |ps| > 0 {
      SumResSplit(ps[1..], slope, mx, my);
      Centered(ps[0].x, ps[0].y, slope, mx, my);
      MulAddLeft(slope, ps[0].x - mx, SumDevX(ps[1..], mx));
    } else {
      MulZero(slope, 0.0);
    }
  }

  /** For the line through (mx, my), Σ x·residual = Σ x(y − my) − slope·Σ x(x − mx). */
  lemma {:induction false} SumXResSplit(ps: seq<Point>, slope: real, mx: real, my: real)
    ensures SumXRes(ps, slope, my - Mul(slope, mx)) == SumXDevY(ps, my) - Mul(slope, SumXDevX(ps, mx))
  {
    if |ps| > 0 {
      SumXResSplit(ps[1..], slope, mx, my);
      var p := ps[0];
      Centered(p.x, p.y, slope, mx, my);
      TimesCentered(p.x, p.y - my, slope, p.x - mx);
      MulAddLeft(slope, Mul(p.x, p.x - mx), SumXDevX(ps[1..], mx));
    } else {
      MulZero(slope, 0.0);
    }
  }

  /** Σ residual² = Syy − 2·slope·Sxy + slope²·Sxx, for the line through
      the mean point. */
  lemma {:induction false} SSResExpand(ps: seq<Point>, slope: real, mx: real, my: real)
    ensures SSRes(ps, slope, my - Mul(slope, mx))
         == Syy(ps, my) - 2.0 * Mul(slope, Sxy(ps, mx, my)) + Mul(Mul(slope, slope), Sxx(ps, mx))
  {
    if |ps| > 0 {
      SSResExpand(ps[1..], slope, mx, my);
      var p := ps[0];
      Centered(p.x, p.y, slope, mx, my);
      SquareExpand(p.y - my, p.x - mx, slope);
      MulAddLeft(slope, Mul(p.x - mx, p.y - my), Sxy(ps[1..], mx, my));
      MulAddLeft(Mul(slope, slope), Mul(p.x - mx, p.x - mx), Sxx(ps[1..], mx));
    } else {
      MulZero(slope, 0.0);
      MulZero(Mul(slope, slope), 0.0);
    }
  }

  /** The fitted line, computed as the page computes it. */
  datatype Line = Line(slope: real, intercept: real)

  function Fit(ps: seq<Point>): (l: Line)
    requires |ps| >= 2 && XsIncreasing(ps)
    ensures SumRes(ps, l.slope, l.intercept) == 0.0
    ensures SumXRes(ps, l.slope, l.intercept) == 0.0
    ensures Mul(l.slope, Sxx(ps, MeanX(ps))) == Sxy(ps, MeanX(ps), MeanY(ps))
  {
    SxxPositive(ps, MeanX(ps));
    var slope := Sxy(ps, MeanX(ps), MeanY(ps)) / Sxx(ps, MeanX(ps));
    NormalEquations(ps, slope);
    Line(slope, MeanY(ps) - Mul(slope, MeanX(ps)))
  }

  /** The least-squares normal equations: the residuals of the fitted
      line sum to zero and are uncorrelated with x. */
  lemma NormalEquations(ps: seq<Point>, slope: real)
    requires |ps| > 0 && Sxx(ps, MeanX(ps)) > 0.0
    requires slope == Sxy(ps, MeanX(ps), MeanY(ps)) / Sxx(ps, MeanX(ps))
    ensures SumRes(ps, slope, MeanY(ps) - Mul(slope, MeanX(ps))) == 0.0
    ensures SumXRes(ps, slope, MeanY(ps) - Mul(slope, MeanX(ps))) == 0.0
    ensures Mul(slope, Sxx(ps, MeanX(ps))) == Sxy(ps, MeanX(ps), MeanY(ps))
  {
    var mx := MeanX(ps);
    var my := MeanY(ps);
    DeviationsVanish(ps);
    SumResSplit(ps, slope, mx, my);
    MulZero(slope, SumDevX(ps, mx));
    SxyExpand(ps, mx, my);
    MulZero(mx, SumDevY(ps, my));
    SxxExpand(ps, mx);
    MulZero(mx, SumDevX(ps, mx));
    SumXResSplit(ps, slope, mx, my);
    DivCancel(Sxy(ps, mx, my), Sxx(ps, mx));
  }

  /** The fitted line's residual sum of squares is Syy − slope²·Sxx, so
      it never exceeds Syy: R² stays within [0, 1]. */
  lemma ResidualBound(ps: seq<Point>)
    requires |ps| >= 2 && XsIncreasing(ps)
    ensures SSRes(ps, Fit(ps).slope, Fit(ps).intercept) <= Syy(ps, MeanY(ps))
  {
    var mx := MeanX(ps);
    var my := MeanY(ps);
    var s := Fit(ps).slope;
    SxxPositive(ps, mx);
    SSResExpand(ps, s, mx, my);
    SlopeSquared(s, Sxx(ps, mx));
    SquareNonNegative(s);
    MulNonNegative(Mul(s, s), Sxx(ps, mx));
  }

  /** R²: 1 − SSres/SStot, and 0 when the yields do not vary. */
  function RSquared(ps: seq<Point>, l: Line): (r: real)
    requires |ps| > 0
    ensures Syy(ps, MeanY(ps)) <= 0.0 ==> r == 0.0
    ensures Syy(ps, MeanY(ps)) > 0.0 ==> Mul(1.0 - r, Syy(ps, MeanY(ps))) == SSRes(ps, l.slope, l.intercept)
  {
    var ssTot := Syy(ps, MeanY(ps));
    if ssTot > 0.0 then
      DivCancel(SSRes(ps, l.slope, l.intercept), ssTot);
      1.0 - SSRes(ps, l.slope, l.intercept) / ssTot
    else 0.0
  }

  lemma RSquaredInUnitRange(ps: seq<Point>)
    requires |ps| >= 2 && XsIncreasing(ps)
    ensures 0.0 <= RSquared(ps, Fit(ps)) <= 1.0
  {
    var l := Fit(ps);
    var ssTot := Syy(ps, MeanY(ps));
    SSResNonNegative(ps, l.slope, l.intercept);
    ResidualBound(ps);
    if ssTot > 0.0 {
      var r := RSquared(ps, l);
      if r < 0.0 {
        MulPositive(-r, ssTot);
      }
      if r > 1.0 {
        MulPositive(r - 1.0, ssTot);
      }
    }
  }

  /** The "Směr trendu" (trend direction) metric. */
  function TrendLabel(slope: real): (s: string)
    ensures s == "Rostoucí" <==> slope > 0.0
    ensures s == "Klesající" <==> slope < 0.0
    ensures s == "Stabilní" <==> slope == 0.0
  {
    if slope > 0.0 then "Rostoucí" else if slope < 0.0 then "Klesající" else "Stabilní"
  }

  /** The direction follows the sign of the x–y co-variation. */
  lemma TrendFollowsCovariation(ps: seq<Point>)
    requires |ps| >= 2 && XsIncreasing(ps)
    ensures TrendLabel(Fit(ps).slope) == "Rostoucí" <==> Sxy(ps, MeanX(ps), MeanY(ps)) > 0.0
    ensures TrendLabel(Fit(ps).slope) == "Klesající" <==> Sxy(ps, MeanX(ps), MeanY(ps)) < 0.0
  {
    SxxPositive(ps, MeanX(ps));
    SignOfFactor(Fit(ps).slope, Sxx(ps, MeanX(ps)), Sxy(ps, MeanX(ps), MeanY(ps)));
  }

  /** The forecast rows: the years after the last one, each with the
      value of the line. */
  function Predictions(last: int, k: nat, l: Line): (r: seq<(int, real)>)
    ensures |r| == k
    ensures forall i :: 0 <= i < k ==> r[i].0 == last + 1 + i
    ensures forall i :: 0 <= i < k ==> r[i].1 == Mul(l.slope, (last + 1 + i) as real) + l.intercept
  {
    seq(k, i requires 0 <= i < k => (last + 1 + i, Mul(l.slope, (last + 1 + i) as real) + l.intercept))
  }

  /** Successive predictions differ by exactly the slope. */
  lemma PredictionsStep(last: int, k: nat, l: Line, i: int)
    requires 0 <= i < k - 1
    ensures Predictions(last, k, l)[i + 1].1 - Predictions(last, k, l)[i].1 == l.slope
  {
    var a := (last + 1 + i) as real;
    assert (last + 1 + (i + 1)) as real == a + 1.0;
    MulAddLeft(l.slope, a, 1.0);
    assert Mul(l.slope, 1.0) == l.slope;
  }

  /** The page's residuals, one per point. */
  function Residuals(ps: seq<Point>, l: Line): (r: seq<real>)
    ensures |r| == |ps|
    ensures forall i :: 0 <= i < |ps| ==> r[i] == Residual(ps[i], l.slope, l.intercept)
  {
    MapSeq(ps, (p: Point) => Residual(p, l.slope, l.intercept))
  }

  /** The squared deviation from `c`. */
  function SqDev(c: real): real -> real
  {
    (x: real) => Mul(x - c, x - c)
  }

  /** `np.std(xs)` is `s`: the population standard deviation, so `s` is
      not negative and s² · n is the sum of the squared deviations from
      the mean. */
  predicate IsPopStd(xs: seq<real>, s: real)
  {
    |xs| > 0 && s >= 0.0 && Mul(Mul(s, s), |xs| as real) == Sum(xs, SqDev(Sum(xs, Self) / |xs| as real))
  }

  lemma {:induction false} ResidualSums(ps: seq<Point>, l: Line)
    ensures Sum(Residuals(ps, l), Self) == SumRes(ps, l.slope, l.intercept)
    ensures Sum(Residuals(ps, l), SqDev(0.0)) == SSRes(ps, l.slope, l.intercept)
  {
    if |ps| > 0 {
      assert Residuals(ps, l)[1..] == Residuals(ps[1..], l);
      ResidualSums(ps[1..], l);
    }
  }

  /** The σ of the interval band. The fitted line's residuals average 0,
      so σ² · n is the residual sum of squares; by ResidualBound it never
      exceeds Σ(y − ȳ)², so the band is at most 1.96 standard deviations
      of the yearly yields wide on either side. */
  lemma ResidualStd(ps: seq<Point>, sigma: real)
    requires |ps| >= 2 && XsIncreasing(ps)
    requires IsPopStd(Residuals(ps, Fit(ps)), sigma)
    ensures Mul(Mul(sigma, sigma), |ps| as real) == SSRes(ps, Fit(ps).slope, Fit(ps).intercept)
    ensures Mul(Mul(sigma, sigma), |ps| as real) <= Syy(ps, MeanY(ps))
  {
    var l := Fit(ps);
    var xs := Residuals(ps, l);
    ResidualSums(ps, l);
    var m := Sum(xs, Self) / |xs| as real;
    assert m == 0.0;
    assert SqDev(m) == SqDev(0.0);
    ResidualBound(ps);
  }

  /** One forecast row: the year, the forecast and its "95%" bounds. */
  datatype BandRow = BandRow(rok: int, value: real, lo: real, hi: real)

  /** The chart's "95% interval" and the table's "Min (95%)" and
      "Max (95%)" columns: each forecast ∓ 1.96·σ, where σ is
      `np.std(residuals)`. */
  function Band(predictions: seq<(int, real)>, sigma: real): (r: seq<BandRow>)
    ensures |r| == |predictions|
    ensures forall i :: 0 <= i < |r| ==> r[i].rok == predictions[i].0 && r[i].value == predictions[i].1
    ensures forall i :: 0 <= i < |r| ==> r[i].value - r[i].lo == 1.96 * sigma && r[i].hi - r[i].value == 1.96 * sigma
    ensures sigma >= 0.0 ==> forall i :: 0 <= i < |r| ==> r[i].lo <= r[i].value <= r[i].hi
  {
    seq(|predictions|, i requires 0 <= i < |predictions| =>
      BandRow(predictions[i].0, predictions[i].1, predictions[i].1 - 1.96 * sigma, predictions[i].1 + 1.96 * sigma))
  }

  /** The forecast table: the band with forecast and bounds rounded to
      two places. */
  function ForecastTable(band: seq<BandRow>): (r: seq<BandRow>)
    ensures |r| == |band|
    ensures forall i :: 0 <= i < |r| ==> r[i].rok == band[i].rok
    ensures forall i :: 0 <= i < |r| ==>
      -0.005 <= r[i].value - band[i].value <= 0.005
      && -0.005 <= r[i].lo - band[i].lo <= 0.005
      && -0.005 <= r[i].hi - band[i].hi <= 0.005
    ensures forall i :: 0 <= i < |r| ==>
      (r[i].value * 100.0).Floor as real == r[i].value * 100.0
      && (r[i].lo * 100.0).Floor as real == r[i].lo * 100.0
      && (r[i].hi * 100.0).Floor as real == r[i].hi * 100.0
  {
    seq(|band|, i requires 0 <= i < |band| =>
      BandRow(band[i].rok, Round2(band[i].value), Round2(band[i].lo), Round2(band[i].hi)))
  }

  /** One year's totals for the chosen crop. */
  datatype YearTotal = YearTotal(rok: int, vymera: real, cistaVaha: real)

  function CropIs(cropId: int): Field -> bool
  {
    (f: Field) => f.plodinaId == Some(cropId)
  }

  /** The totals of the fields harvested in year `y`. */
  function TotalOf(fields: seq<Field>, y: int): YearTotal
  {
    var g := Group(fields, FieldYear, y);
    YearTotal(y, Sum(g, FieldArea), Sum(g, FieldNet))
  }

  function YearTotals(ys: seq<int>, fields: seq<Field>): (r: seq<YearTotal>)
    ensures |r| == |ys|
    ensures forall i :: 0 <= i < |r| ==> r[i] == TotalOf(fields, ys[i])
  {
    if |ys| == 0 then [] else [TotalOf(fields, ys[0])] + YearTotals(ys[1..], fields)
  }

  predicate HasYear(r: seq<YearTotal>, y: int)
  {
    exists i :: 0 <= i < |r| && r[i].rok == y
  }

  /** The yearly table of `groupby('rok_sklizne')`: one row per year,
      years ascending, areas and weights summed over that year's fields. */
  function Yearly(fields: seq<Field>): (r: seq<YearTotal>)
    ensures forall i :: 0 <= i < |r| - 1 ==> r[i].rok < r[i + 1].rok
    ensures forall i :: 0 <= i < |r| ==> r[i] == TotalOf(fields, r[i].rok)
    ensures forall i :: 0 <= i < |r| ==> r[i].rok in Years(fields)
    ensures forall i :: 0 <= i < |fields| ==> HasYear(r, fields[i].rokSklizne)
  {
    var ys := SortedDistinct(Years(fields));
    var r := YearTotals(ys, fields);
    YearlyCover(fields, ys, r);
    r
  }

  lemma YearlyCover(fields: seq<Field>, ys: seq<int>, r: seq<YearTotal>)
    requires forall i :: 0 <= i < |Years(fields)| ==> Years(fields)[i] in ys
    requires |r| == |ys| && forall i :: 0 <= i < |r| ==> r[i] == TotalOf(fields, ys[i])
    ensures forall i :: 0 <= i < |fields| ==> HasYear(r, fields[i].rokSklizne)
  {
    forall i | 0 <= i < |fields|
      ensures HasYear(r, fields[i].rokSklizne)
    {
      assert Years(fields)[i] in ys;
      var j :| 0 <= j < |ys| && ys[j] == fields[i].rokSklizne;
      assert r[j].rok == ys[j];
    }
  }

  /** At least one field gives at least one year. */
  lemma YearlyNonEmpty(fields: seq<Field>)
    requires |fields| > 0
    ensures |Yearly(fields)| > 0
  {
    assert HasYear(Yearly(fields), fields[0].rokSklizne);
  }

  function ToPoints(yearly: seq<YearTotal>): (ps: seq<Point>)
    requires forall i :: 0 <= i < |yearly| ==> yearly[i].vymera != 0.0
    ensures |ps| == |yearly|
    ensures forall i :: 0 <= i < |ps| ==> ps[i] == Point(yearly[i].rok as real, yearly[i].cistaVaha / yearly[i].vymera)
  {
    seq(|yearly|, i requires 0 <= i < |yearly| => Point(yearly[i].rok as real, yearly[i].cistaVaha / yearly[i].vymera))
  }

  lemma PointsIncreasing(yearly: seq<YearTotal>)
    requires forall i :: 0 <= i < |yearly| ==> yearly[i].vymera != 0.0
    requires forall i :: 0 <= i < |yearly| - 1 ==> yearly[i].rok < yearly[i + 1].rok
    ensures XsIncreasing(ToPoints(yearly))
  {
  }

  /** The crop's fields are empty exactly when no field carries the crop. */
  lemma NoCropFields(fields: seq<Field>, cropId: int)
    ensures |Filter(fields, CropIs(cropId))| == 0 <==> forall i :: 0 <= i < |fields| ==> fields[i].plodinaId != Some(cropId)
  {
    var crop := Filter(fields, CropIs(cropId));
    if |crop| > 0 {
      assert crop[0] in fields && CropIs(cropId)(crop[0]);
    }
  }

  /** The yearly table of one crop's fields. */
  function CropYearly(fields: seq<Field>, cropId: int): seq<YearTotal>
  {
    Yearly(Filter(fields, CropIs(cropId)))
  }

  predicate HasBareYear(yearly: seq<YearTotal>)
  {
    exists i :: 0 <= i < |yearly| && yearly[i].vymera == 0.0
  }

  datatype Forecast =
    | NoCropData
    | TooFewYears
    | UndefinedYield
    | Forecast(line: Line, predictions: seq<(int, real)>, band: seq<BandRow>, rSquared: real, direction: string)

  /** The forecast tab for one crop and `k` years ahead; `std` is
      `np.std`. */
  function ForecastCrop(fields: seq<Field>, cropId: int, k: nat, std: seq<real> -> real): (r: Forecast)
    ensures r == NoCropData <==> forall i :: 0 <= i < |fields| ==> fields[i].plodinaId != Some(cropId)
    ensures r != NoCropData ==> |CropYearly(fields, cropId)| > 0 && r == ForecastFrom(CropYearly(fields, cropId), k, std)
  {
    var crop := Filter(fields, CropIs(cropId));
    NoCropFields(fields, cropId);
    if |crop| == 0 then NoCropData
    else
      YearlyNonEmpty(crop);
      var yearly := Yearly(crop);
      assert yearly == CropYearly(fields, cropId);
      ForecastFrom(yearly, k, std)
  }

  /** The forecast from a non-empty yearly table. One year is too few for
      a line; a year whose total area is 0 makes the yearly yield
      undefined (a pandas infinity or NaN), and the fit with it. */
  function ForecastFrom(yearly: seq<YearTotal>, k: nat, std: seq<real> -> real): (r: Forecast)
    requires |yearly| > 0
    requires forall i :: 0 <= i < |yearly| - 1 ==> yearly[i].rok < yearly[i + 1].rok
    ensures r != NoCropData
    ensures r == TooFewYears <==> |yearly| == 1
    ensures r == UndefinedYield <==> |yearly| >= 2 && HasBareYear(yearly)
    ensures r.Forecast? ==> |r.predictions| == k && 0.0 <= r.rSquared <= 1.0
    ensures r.Forecast? ==> r.direction == TrendLabel(r.line.slope)
    ensures r.Forecast? ==> |r.band| == k && forall i :: 0 <= i < k ==> r.band[i].value == r.predictions[i].1
  {
    if |yearly| < 2 then TooFewYears
    else if HasBareYear(yearly) then UndefinedYield
    else FitYearly(yearly, k, std)
  }

  /** The fitted line, its forecast with the interval band, and its
      quality, from a yearly table with at least two years and no
      zero-area year. */
  function FitYearly(yearly: seq<YearTotal>, k: nat, std: seq<real> -> real): (r: Forecast)
    requires |yearly| >= 2 && !HasBareYear(yearly)
    requires forall i :: 0 <= i < |yearly| - 1 ==> yearly[i].rok < yearly[i + 1].rok
    ensures r.Forecast? && |r.predictions| == k && 0.0 <= r.rSquared <= 1.0
    ensures r.direction == TrendLabel(r.line.slope)
    ensures forall i :: 0 <= i < k ==> r.predictions[i].0 > yearly[|yearly| - 1].rok
    ensures r.line == Fit(ToPoints(yearly))
    ensures r.band == Band(r.predictions, std(Residuals(ToPoints(yearly), r.line)))
    ensures IsPopStd(Residuals(ToPoints(yearly), r.line), std(Residuals(ToPoints(yearly), r.line))) ==>
      forall i :: 0 <= i < k ==> r.band[i].lo <= r.band[i].value <= r.band[i].hi
  {
    var ps := ToPoints(yearly);
    PointsIncreasing(yearly);
    var l := Fit(ps);
    RSquaredInUnitRange(ps);
    var predictions := Predictions(yearly[|yearly| - 1].rok, k, l);
    Forecast(l, predictions, Band(predictions, std(Residuals(ps, l))), RSquared(ps, l), TrendLabel(l.slope))
  }
}

=== FILE: weather.dfy ===
/** The weather-station client: where the API token comes from, how a
    daily payload is picked apart, and how the rain, temperature and
    humidity readings are found under their alternative names. The HTTP
    request is a parameter `fetch` from a date range ("today" or
    "yesterday") to the decoded payload or the error it raised. */
module Weather {
  import opened Wrappers
  import opened Text

  /** A decoded JSON value; `JNull` is also Python's None, which is what
      `dict.get` gives for a missing key. */
  datatype Json =
    | JNull
    | JBool(b: bool)
    | JNum(x: real)
    | JStr(s: string)
    | JList(items: seq<Json>)
    | JObj(fields: map<string, Json>)

  /** A result or the message of the exception that replaced it. */
  datatype Outcome<T> = Failed(message: string) | Ok(value: T)

  /** `get_api_token`: a non-empty environment variable wins, then the
      stripped content of the config file when it exists, else None. */
  function GetApiToken(env: Option<string>, configFile: Option<string>): (r: Option<string>)
    ensures env.Some? && env.value != "" ==> r == env
    ensures (env.None? || env.value == "") && configFile.Some? ==> r == Some(Strip(configFile.value))
    ensures r.None? <==> (env.None? || env.value == "") && configFile.None?
  {
    if env.Some? && env.value != "" then env
    else if configFile.Some? then Some(Strip(configFile.value))
    else None
  }

  /** `api_get`: no token, or an empty one, is an error before any request. */
  function ApiGet(token: Option<string>, request: Outcome<Json>): (r: Outcome<Json>)
    ensures token.None? || token.value == "" ==> r == Failed("AGDATA_API_TOKEN není nastaven")
    ensures token.Some? && token.value != "" ==> r == request
  {
    if token.None? || token.value == "" then Failed("AGDATA_API_TOKEN není nastaven") else request
  }

  /** Python truthiness of a JSON value. */
  predicate Truthy(j: Json)
  {
    match j
    case JNull => false
    case JBool(b) => b
    case JNum(x) => x != 0.0
    case JStr(s) => s != ""
    case JList(items) => |items| > 0
    case JObj(fields) => |fields| > 0
  }

  /** `d.get(k)` on a JSON object; a missing key, or a value that is not
      an object, gives None. */
  function Get(j: Json, k: string): (r: Json)
    ensures r != JNull ==> j.JObj? && k in j.fields && r == j.fields[k]
  {
    if j.JObj? && k in j.fields then j.fields[k] else JNull
  }

  /** `fetch_today_daily`: today's payload, or yesterday's when today's has
      no data. */
  function FetchTodayDaily(fetch: string -> Outcome<Json>): (r: Outcome<Json>)
    ensures fetch("today").Failed? ==> r == fetch("today")
    ensures fetch("today").Ok? && Truthy(Get(fetch("today").value, "data")) ==> r == fetch("today")
    ensures fetch("today").Ok? && !Truthy(Get(fetch("today").value, "data")) ==> r == fetch("yesterday")
  {
    match fetch("today")
    case Failed(m) => Failed(m)
    case Ok(p) => if Truthy(Get(p, "data")) then Ok(p) else fetch("yesterday")
  }

  /** The first record of the payload's `data` list, else None. */
  function FirstRecord(payload: Json): (r: Json)
    ensures r != JNull ==> (Get(payload, "data").JList? && |Get(payload, "data").items| > 0
      && r == Get(payload, "data").items[0])
  {
    var d := Get(payload, "data");
    if d.JList? && |d.items| > 0 then d.items[0] else JNull
  }

  /** `pick_first_day_record`: the nested `data` object of the first
      record, else the first record itself when it is an object, else an
      empty object. */
  function PickFirstDayRecord(payload: Json): (r: map<string, Json>)
    ensures var f := FirstRecord(payload);
      (f.JObj? && Get(f, "data").JObj? ==> r == Get(f, "data").fields)
      && (f.JObj? && !Get(f, "data").JObj? ==> r == f.fields)
      && (!f.JObj? ==> r == map[])
  {
    var f := FirstRecord(payload);
    if f.JObj? then
      var nested := Get(f, "data");
      if nested.JObj? then nested.fields else f.fields
    else map[]
  }

  /** At most the first ten characters: `s[:10]`. */
  function Take10(s: string): (r: string)
    ensures |r| == if |s| < 10 then |s| else 10
    ensures r == s[..|r|]
  {
    if |s| < 10 then s else s[..10]
  }

  /** The date of the first record, cut to "YYYY-MM-DD"; None when there is
      no record or it has no date text. */
  function ApiDate(payload: Json): (r: Option<string>)
    ensures r.Some? <==> Get(FirstRecord(payload), "date").JStr? && Get(FirstRecord(payload), "date").s != ""
    ensures r.Some? ==> (r.value != "" && |r.value| <= 10 && |r.value| <= |Get(FirstRecord(payload), "date").s|
      && r.value == Get(FirstRecord(payload), "date").s[..|r.value|])
  {
    var date := Get(FirstRecord(payload), "date");
    if date.JStr? && date.s != "" then Some(Take10(date.s)) else None
  }

  /** Python `a or b or ...`: the first truthy value, else the last one. */
  function OrChain(metrics: map<string, Json>, keys: seq<string>): (r: Json)
    requires |keys| > 0
    ensures exists i :: 0 <= i < |keys| && r == Get(JObj(metrics), keys[i])
    ensures Truthy(r) || r == Get(JObj(metrics), keys[|keys| - 1])
    ensures forall i :: 0 <= i < |keys| && Truthy(Get(JObj(metrics), keys[i])) ==> Truthy(r)
  {
    var v := Get(JObj(metrics), keys[0]);
    if |keys| == 1 || Truthy(v) then v
    else
      var rest := OrChain(metrics, keys[1..]);
      assert forall i :: 1 <= i < |keys| ==> keys[i] == keys[1..][i - 1];
      rest
  }

  /** The reading under `primary` when that key holds a value, even a
      falsy one; otherwise the first truthy alternative, else the last. */
  function Resolve(metrics: map<string, Json>, primary: string, alternatives: seq<string>): (r: Json)
    requires |alternatives| > 0
    ensures Get(JObj(metrics), primary) != JNull ==> r == Get(JObj(metrics), primary)
    ensures Get(JObj(metrics), primary) == JNull ==> r == OrChain(metrics, alternatives)
  {
    var p := Get(JObj(metrics), primary);
    if p != JNull then p else OrChain(metrics, alternatives)
  }

  /** Python `float(v)` for the values a reading can hold: a number, a
      boolean, or text in decimal notation around optional whitespace;
      anything else raises. */
  function ToFloat(v: Json): (r: Outcome<real>)
    ensures v.JNum? ==> r == Ok(v.x)
    ensures v.JBool? ==> r == Ok(if v.b then 1.0 else 0.0)
    ensures v.JStr? ==> (r.Ok? <==> ParseDecimal(Strip(v.s)).Some?)
    ensures v.JStr? && r.Ok? ==> r.value == ParseDecimal(Strip(v.s)).value
    ensures !v.JNum? && !v.JBool? && !v.JStr? ==> r.Failed?
  {
    match v
    case JNum(x) => Ok(x)
    case JBool(b) => Ok(if b then 1.0 else 0.0)
    case JStr(s) =>
      (match ParseDecimal(Strip(s))
       case Some(x) => Ok(x)
       case None => Failed("could not convert string to float"))
    case _ => Failed("could not convert to float")
  }

  /** `float(v) if v is not None else None`. */
  function OptFloat(v: Json): (r: Outcome<Option<real>>)
    ensures v == JNull ==> r == Ok(None)
    ensures v != JNull && ToFloat(v).Ok? ==> r == Ok(Some(ToFloat(v).value))
    ensures v != JNull && ToFloat(v).Failed? ==> r.Failed?
  {
    if v == JNull then Ok(None)
    else match ToFloat(v)
      case Failed(m) => Failed(m)
      case Ok(x) => Ok(Some(x))
  }

  const RainAliases: seq<string> := ["precipitation", "precip", "rain"]
  const TempAliases: seq<string> := ["temperature", "temp"]
  const HumAliases: seq<string> := ["humidity", "hum"]

  /** The weather dictionary returned to the app. */
  datatype Report = Report(date: Option<string>, rainMm: Option<real>, tempC: Option<real>, humidityPct: Option<real>, raw: map<string, Json>)

  /** The readings of one payload, with the given date. */
  function ReportOf(payload: Json, date: Option<string>): (r: Outcome<Report>)
    ensures r.Ok? ==> r.value.date == date && r.value.raw == PickFirstDayRecord(payload)
    ensures r.Ok? ==> OptFloat(Resolve(PickFirstDayRecord(payload), "rainVolume", RainAliases)) == Ok(r.value.rainMm)
    ensures r.Ok? ==> OptFloat(Resolve(PickFirstDayRecord(payload), "temp1", TempAliases)) == Ok(r.value.tempC)
    ensures r.Ok? ==> OptFloat(Resolve(PickFirstDayRecord(payload), "hum1", HumAliases)) == Ok(r.value.humidityPct)
    ensures r.Failed? ==> (OptFloat(Resolve(PickFirstDayRecord(payload), "rainVolume", RainAliases)).Failed?
      || OptFloat(Resolve(PickFirstDayRecord(payload), "temp1", TempAliases)).Failed?
      || OptFloat(Resolve(PickFirstDayRecord(payload), "hum1", HumAliases)).Failed?)
  {
    var m := PickFirstDayRecord(payload);
    var rain := OptFloat(Resolve(m, "rainVolume", RainAliases));
    var temp := OptFloat(Resolve(m, "temp1", TempAliases));
    var hum := OptFloat(Resolve(m, "hum1", HumAliases));
    if rain.Failed? then Failed(rain.message)
    else if temp.Failed? then Failed(temp.message)
    else if hum.Failed? then Failed(hum.message)
    else Ok(Report(date, rain.value, temp.value, hum.value, m))
  }

  /** `get_today_weather`: the payload of today (with or without the
      fallback to yesterday); the date is the record's date, else today. */
  function GetTodayWeather(fetch: string -> Outcome<Json>, fallbackYesterday: bool, today: string): (r: Outcome<Report>)
    requires today != ""
    ensures r.Ok? ==> r.value.date.Some?
    ensures !fallbackYesterday && fetch("today").Failed? ==> r == Failed(fetch("today").message)
    ensures r.Ok? && !fallbackYesterday ==>
      fetch("today").Ok? && r.value.date == Some(ApiDate(fetch("today").value).GetOr(today))
  {
    var payload := if fallbackYesterday then FetchTodayDaily(fetch) else fetch("today");
    match payload
    case Failed(m) => Failed(m)
    case Ok(p) => ReportOf(p, Some(ApiDate(p).GetOr(today)))
  }

  /** `get_yesterday_weather`: yesterday's payload; the date is None when
      the record carries none. */
  function GetYesterdayWeather(fetch: string -> Outcome<Json>): (r: Outcome<Report>)
    ensures fetch("yesterday").Failed? ==> r == Failed(fetch("yesterday").message)
    ensures r.Ok? ==> fetch("yesterday").Ok? && r.value.date == ApiDate(fetch("yesterday").value)
  {
    match fetch("yesterday")
    case Failed(m) => Failed(m)
    case Ok(p) => ReportOf(p, ApiDate(p))
  }

  const TodayRainAliases: seq<string> := ["rainVolume", "precipitation", "precip", "rain"]

  /** `get_today_rain`: every alias joined with `or`, so a zero
      `rainVolume` falls through to the next alias; any failure gives None. */
  function GetTodayRain(fetch: string -> Outcome<Json>): (r: Option<real>)
    ensures FetchTodayDaily(fetch).Failed? ==> r.None?
    ensures r.Some? ==> (FetchTodayDaily(fetch).Ok?
      && ToFloat(OrChain(PickFirstDayRecord(FetchTodayDaily(fetch).value), TodayRainAliases)) == Ok(r.value))
  {
    match FetchTodayDaily(fetch)
    case Failed(_) => None
    case Ok(p) =>
      var v := OrChain(PickFirstDayRecord(p), TodayRainAliases);
      if v == JNull then None
      else match ToFloat(v)
        case Failed(_) => None
        case Ok(x) => Some(x)
  }

  /** A reading of 0 under `rainVolume` is kept by the weather report but
      skipped by `get_today_rain` when another alias carries rain. */
  lemma ZeroRainVolumeDiffers(x: real)
    requires x != 0.0
    ensures var m := map["rainVolume" := JNum(0.0), "precipitation" := JNum(x)];
      Resolve(m, "rainVolume", RainAliases) == JNum(0.0)
      && OrChain(m, TodayRainAliases) == JNum(x)
  {
    var m := map["rainVolume" := JNum(0.0), "precipitation" := JNum(x)];
    assert Get(JObj(m), "rainVolume") == JNum(0.0);
    assert TodayRainAliases[1..] == ["precipitation", "precip", "rain"];
    assert Get(JObj(m), "precipitation") == JNum(x);
  }
}

=== FILE: wrappers.dfy ===
/** Optional values: the model's stand-in for pandas NaN / Python None. */
module Wrappers {

  datatype Option<+T> = None | Some(value: T) {

    /** The wrapped value, or `default` when there is none. */
    function GetOr(default: T): (r: T)
      ensures Some? ==> r == value
      ensures None? ==> r == default
    {
      match this
      case Some(v) => v
      case None => default
    }
  }
}

=== FILE: yearpivot.dfy ===
/** The label-by-year pivot of field totals: one row per label of the
    fields (a business or other name), one column per harvest year, each
    cell the area, the net weight and the guarded yield of that label's
    fields of that year, and zeros where there are none. Fields without a
    label are dropped, as pandas drops missing group keys. */
module YearPivot {
  import opened Wrappers
  import opened Seqs
  import opened Records
  import opened Aggregations
  import Odpisy
  import Statistiky

  /** One cell of the label-by-year table. */
  datatype YearCell = YearCell(vymera: real, produkce: real, vynos: real)

  function InCell(nameOf: Field -> Option<string>, name: string, y: int): Field -> bool
  {
    (f: Field) => f.rokSklizne == y && nameOf(f) == Some(name)
  }

  /** The cell of a name and a year: the area and net weight of that
      year's fields labelled with the name, and their guarded yield. A
      pair without fields comes out all zeros, the pivot's fill value. */
  function CellOf(fields: seq<Field>, nameOf: Field -> Option<string>, name: string, y: int): (c: YearCell)
    ensures c.vymera == Sum(Filter(fields, InCell(nameOf, name, y)), FieldArea)
    ensures c.produkce == Sum(Filter(fields, InCell(nameOf, name, y)), FieldNet)
    ensures c.vynos == CalculateVynos(c.produkce, c.vymera)
  {
    var g := Filter(fields, InCell(nameOf, name, y));
    var v := Sum(g, FieldArea);
    var w := Sum(g, FieldNet);
    YearCell(v, w, CalculateVynos(w, v))
  }

  /** A name and year without fields get the pivot's fill value. */
  lemma EmptyCellIsFill(fields: seq<Field>, nameOf: Field -> Option<string>, name: string, y: int)
    requires forall i :: 0 <= i < |fields| ==> !(fields[i].rokSklizne == y && nameOf(fields[i]) == Some(name))
    ensures CellOf(fields, nameOf, name, y) == YearCell(0.0, 0.0, 0.0)
  {
    FilterNone(fields, InCell(nameOf, name, y));
  }

  /** The business name a field is shown under: its business's name, or
      none when the business is unknown, as the pivot drops missing keys. */
  function BusinessLabel(businesses: seq<Business>): Field -> Option<string>
  {
    (f: Field) =>
      match FindById(businesses, BusinessId, f.podnikId)
      case None => None
      case Some(b) => Some(b.nazev)
  }

  /** The table's rows are the labels of the labelled fields, its columns
      their harvest years. */
  datatype YearTable = YearTable(names: seq<string>, years: seq<int>, cells: seq<seq<YearCell>>)

  function Labelled(nameOf: Field -> Option<string>): Field -> bool
  {
    (f: Field) => nameOf(f).Some?
  }

  function KnownFields(fields: seq<Field>, nameOf: Field -> Option<string>): seq<Field>
  {
    Filter(fields, Labelled(nameOf))
  }

  function KnownName(nameOf: Field -> Option<string>): Field -> string
  {
    (f: Field) => if nameOf(f).Some? then nameOf(f).value else ""
  }

  function NamesOf(fs: seq<Field>, nameOf: Field -> Option<string>): (r: seq<string>)
    ensures |r| == |fs|
    ensures forall i :: 0 <= i < |fs| ==> r[i] == KnownName(nameOf)(fs[i])
  {
    seq(|fs|, i requires 0 <= i < |fs| => KnownName(nameOf)(fs[i]))
  }

  function Grid(names: seq<string>, years: seq<int>, fields: seq<Field>, nameOf: Field -> Option<string>): (cells: seq<seq<YearCell>>)
    ensures |cells| == |names|
    ensures forall i :: 0 <= i < |names| ==> (|cells[i]| == |years|
      && forall j :: 0 <= j < |years| ==> cells[i][j] == CellOf(fields, nameOf, names[i], years[j]))
  {
    seq(|names|, i requires 0 <= i < |names| =>
      seq(|years|, j requires 0 <= j < |years| => CellOf(fields, nameOf, names[i], years[j])))
  }

  /** The table's rows: the distinct labels of the labelled fields, in
      string order. */
  function TableNames(fields: seq<Field>, nameOf: Field -> Option<string>): (names: seq<string>)
    ensures forall i, j :: 0 <= i <= j < |names| ==> StrLe(names[i], names[j])
    ensures NoDup(names)
  {
    SortedStrings(NamesOf(KnownFields(fields, nameOf), nameOf))
  }

  /** The table's columns: the distinct years of those fields, ascending. */
  function TableYears(fields: seq<Field>, nameOf: Field -> Option<string>): (years: seq<int>)
    ensures StrictlyIncreasing(years)
  {
    SortedDistinct(Years(KnownFields(fields, nameOf)))
  }

  /** The label-by-year table: one cell per name and year. */
  function PivotOf(fields: seq<Field>, nameOf: Field -> Option<string>): (t: YearTable)
    ensures t.names == TableNames(fields, nameOf) && t.years == TableYears(fields, nameOf)
    ensures |t.cells| == |t.names|
    ensures forall i :: 0 <= i < |t.names| ==> (|t.cells[i]| == |t.years|
      && forall j :: 0 <= j < |t.years| ==> t.cells[i][j] == CellOf(fields, nameOf, t.names[i], t.years[j]))
  {
    var names := TableNames(fields, nameOf);
    var years := TableYears(fields, nameOf);
    YearTable(names, years, Grid(names, years, fields, nameOf))
  }

  /** A labelled field is one of the known fields. */
  lemma KnownField(fields: seq<Field>, nameOf: Field -> Option<string>, i: int)
    requires 0 <= i < |fields| && nameOf(fields[i]).Some?
    ensures exists k :: 0 <= k < |KnownFields(fields, nameOf)| && KnownFields(fields, nameOf)[k] == fields[i]
  {
    var known := KnownFields(fields, nameOf);
    assert fields[i] in known;
  }

  /** Every labelled field has its label among the table's rows and its
      year among the columns. */
  lemma PivotCovers(fields: seq<Field>, nameOf: Field -> Option<string>)
    ensures forall i :: 0 <= i < |fields| && nameOf(fields[i]).Some? ==>
      nameOf(fields[i]).value in TableNames(fields, nameOf)
      && fields[i].rokSklizne in TableYears(fields, nameOf)
  {
    var known := KnownFields(fields, nameOf);
    var ns := NamesOf(known, nameOf);
    var ys := Years(known);
    forall i | 0 <= i < |fields| && nameOf(fields[i]).Some?
      ensures nameOf(fields[i]).value in TableNames(fields, nameOf)
        && fields[i].rokSklizne in TableYears(fields, nameOf)
    {
      KnownField(fields, nameOf, i);
      var k :| 0 <= k < |known| && known[k] == fields[i];
      assert ns[k] == nameOf(fields[i]).value;
      assert ys[k] == fields[i].rokSklizne;
    }
  }

  /** A known field is a labelled field. */
  lemma KnownFieldBack(fields: seq<Field>, nameOf: Field -> Option<string>, k: int)
    requires 0 <= k < |KnownFields(fields, nameOf)|
    ensures exists i :: (0 <= i < |fields| && fields[i] == KnownFields(fields, nameOf)[k]
      && nameOf(fields[i]).Some?)
  {
    var known := KnownFields(fields, nameOf);
    assert known[k] in fields;
  }

  /** Every row of the table is the label of some field: unlabelled
      fields add no row. */
  lemma PivotNames(fields: seq<Field>, nameOf: Field -> Option<string>)
    ensures forall n :: n in TableNames(fields, nameOf) ==>
      exists i :: 0 <= i < |fields| && nameOf(fields[i]) == Some(n)
  {
    var known := KnownFields(fields, nameOf);
    var ns := NamesOf(known, nameOf);
    forall n | n in TableNames(fields, nameOf)
      ensures exists i :: 0 <= i < |fields| && nameOf(fields[i]) == Some(n)
    {
      assert n in SortedStrings(ns);
      var k :| 0 <= k < |ns| && ns[k] == n;
      KnownFieldBack(fields, nameOf, k);
      var i :| 0 <= i < |fields| && fields[i] == known[k] && nameOf(fields[i]).Some?;
      assert nameOf(fields[i]) == Some(n);
    }
  }

  /** Every column of the table is the year of some labelled field. */
  lemma PivotYears(fields: seq<Field>, nameOf: Field -> Option<string>)
    ensures forall y :: y in TableYears(fields, nameOf) ==>
      exists i :: 0 <= i < |fields| && nameOf(fields[i]).Some? && fields[i].rokSklizne == y
  {
    var known := KnownFields(fields, nameOf);
    var ys := Years(known);
    forall y | y in TableYears(fields, nameOf)
      ensures exists i :: 0 <= i < |fields| && nameOf(fields[i]).Some? && fields[i].rokSklizne == y
    {
      assert y in SortedDistinct(ys);
      var k :| 0 <= k < |ys| && ys[k] == y;
      KnownFieldBack(fields, nameOf, k);
      var i :| 0 <= i < |fields| && fields[i] == known[k] && nameOf(fields[i]).Some?;
    }
  }

  /** Fields that all carry the same label give a table of one row. */
  lemma OneLabelOneRow(fields: seq<Field>, nameOf: Field -> Option<string>, n: string)
    requires |fields| > 0
    requires forall i :: 0 <= i < |fields| ==> nameOf(fields[i]) == Some(n)
    ensures TableNames(fields, nameOf) == [n]
  {
    var names := TableNames(fields, nameOf);
    assert n in names by {
      PivotCovers(fields, nameOf);
      assert nameOf(fields[0]) == Some(n);
    }
    PivotNames(fields, nameOf);
    forall k | 0 <= k < |names|
      ensures names[k] == n
    {
      assert names[k] in names;
      var i :| 0 <= i < |fields| && nameOf(fields[i]) == Some(names[k]);
    }
    NoDupConstant(names, n);
  }
}
